=== FILE: README.md ===
# MSIX manifest engine and build versioning, modelled in Dafny

This project models the manifest engine of the DevToys publishing tooling
(`src/WindowsTooling`) and the version stamping of its build
(`src/build`). The manifest engine is derived from MSIX Hero. It works on
APPX/MSIX packages, bundles and their `AppxManifest.xml`, and covers:

- **Version masks.** `VersionStringOperations` resolves masks such as
  `1.2.*.+` or `auto` against a current version.
- **Namespace registry.** `AppxManifestEditExecutor.EnsureNamespace`
  declares namespace prefixes on the manifest root and lists them in
  `IgnorableNamespaces`. The three edit commands below build on it.
- **Edit commands.**
  - `AddCapabilityExecutor` classifies a capability and inserts it.
  - `SetPackageIdentityExecutor` writes the `Identity` attributes.
  - `SetBuildMetaDataExecutor` upserts `build:Metadata/Item` elements.
  - `MsixHeroBrandingInjector` stamps the tool versions through two metadata runs.
- **Readers.**
  - `AppxIdentityReader` handles path and stream dispatch, the package and bundle extractors, and the probes that sniff a stream.
  - `AppxManifestSummaryReader` reads the manifest summary.
  - `PackageTypeConverter` gives an application's kind and its display text.
- **Archive reader.** `ZipArchiveFileReaderAdapter` answers existence
  checks, directory and file enumeration, and qualified-resource lookup.
  `RegexBuilder.FromWildcard` gives the patterns it matches by.
- **Packaging helpers.**
  - `PackageFileListBuilder` assembles the mapping file.
  - `MakeAppxWrapper` builds the `pack` arguments, turns the tool's error output into an exception, and counts progress.
- **Manifest creator decisions** (`AppxManifestCreator`):
  - option settling and sanitising;
  - entry-point filtering, ordering and application ids;
  - identity version clamping, property texts, legacy namespace declarations and `GetOrCreateNode`.
- **Build versioning.** `VersionHelper.GetVersionString` and the four
  content rewrites of `UpdateVersionTask`.

The model is functional. An XML document is an immutable element tree:
qualified names, ordered attributes, ordered children and a text value.
An archive is the sequence of its entries. A command maps a document to an
`Outcome`, which holds:

- the document afterwards;
- the change events raised, in order;
- the exception, if any.

The document of a failed command keeps the mutations made before the
throw, as the in-place .NET code does. The model fixes a few conventions:

- Ordinal-ignore-case comparison is an ASCII case fold.
- The platform is Windows: `\` is the directory separator.
- Dependencies whose code is not part of this model become parameters:
  - the package validators;
  - the case-insensitive `Enum.TryParse` of the architecture enumeration;
  - the argument encoder of the command line;
  - the tool, OS and executable version lookups.

Modules: `Wrappers` (results and exception kinds), `Text` (.NET string
primitives), `Xml`, `Paths`, `VersionMask`, `EditExecutor`, `Capabilities`,
`PackageIdentity`, `BuildMetadata`, `Branding`, `IdentityReader`,
`SummaryReader`, `PackageType`, `Wildcard`, `ZipReader`, `FileList`,
`MakeAppx`, `EntryPoints`, `ManifestCreator` and `BuildVersion`.

Where the code and its evident intent differ, the member named after the
program's operation does what the code does. The corrected reading, where
one is worth stating, is a separate member beside it, and lemmas relate
the two:

- The mask `5.x.*.` keeps the current revision, because an empty unit keeps the current value.
- A command that fails part-way leaves its earlier attribute writes applied.
- A stream holding XML with a root other than `Package` or `Bundle` is not rejected at once. The "neither" exception is swallowed and the ZIP probe still runs.
- `SetPackageIdentity` resolves the version mask as written. A mask of more than four units, or a current `Version` that is not a version, ends the command with a `FormatException`. The corrected resolvers are `VersionMask.ResolveMaskedVersion` and `VersionMask.ResolveMaskedText`.
- `ZipReader.EnumerateFiles` matches the misplaced slice of an entry's name against the pattern `FromWildcard` writes. `ZipReader.EnumerateFilesFixed` matches the last segment against the intended pattern.
- `ZipReader.GetResource` limits the lookup to the directory prefix with `\` separators. `ZipReader.GetResourceFixed` uses `/`.
- `MakeAppx.FromOutput` and `MakeAppx.FromProcessFailure` cut the detail at the match's length. `MakeAppx.FromOutputFixed` and `MakeAppx.FromProcessFailureFixed` cut it at the match's end.

## Model

| member | source | states |
|---|---|---|
| VersionMask.VersionRoundTrip | src/WindowsTooling/AppxManifest/VersionStringOperations.cs:139-142 | a printed `System.Version` parses back to the same version, so the final re-parse accepts every version the resolver builds |
| VersionMask.ParseFourUnits | src/WindowsTooling/AppxManifest/VersionStringOperations.cs:60-65 | four dot-free units form a version exactly when each unit is a non-negative 32-bit number, and the version carries those values |
| VersionMask.ApplyMask | src/WindowsTooling/AppxManifest/VersionStringOperations.cs:83-142 | a mask that is not itself a version succeeds exactly when every unit is accepted, and then gives the unit-by-unit masked version; a mask of more than four units is rejected with the too-many-units message |
| VersionMask.ResolveWith | src/WindowsTooling/AppxManifest/VersionStringOperations.cs:53-145 | any result parses as a version; a mask that is a version gives that version completed to four units whatever the current one; any other mask is applied to the current units, 1.0.0.0 when there is none |
| VersionMask.ResolveMaskedVersion | src/WindowsTooling/AppxManifest/VersionStringOperations.cs:53-145 | with the message corrected: every rejection is an argument error; no mask returns the current version or "1.0.0.0"; a version mask is completed to four units; `auto` with no current version is "1.0.0.0"; any other mask succeeds exactly when every unit is accepted |
| VersionMask.ResolveMaskedVersionAsWritten | src/WindowsTooling/AppxManifest/VersionStringOperations.cs:83-87 | as written it succeeds on exactly the same masks as the corrected resolver, with the same result |
| VersionMask.ResolveMaskedText | src/WindowsTooling/AppxManifest/VersionStringOperations.cs:38-51 | the string overload: empty current text means no current version, text that is a version is resolved against it, and any other text is an argument error |
| VersionMask.ResolveMaskedTextAsWritten | src/WindowsTooling/AppxManifest/VersionStringOperations.cs:38-51 | as written, current text that is not a version fails with a format error, because the message template names an argument that is not passed |
| VersionMask.ResourceIdTemplateFails | src/WindowsTooling/AppxManifest/VersionStringOperations.cs:50 | `string.Format` of a template naming item `{1}` with a single argument always throws |
| VersionMask.NotValidFormats | src/WindowsTooling/AppxManifest/VersionStringOperations.cs:141 | the "not a valid version string" message always formats |
| VersionMask.ResolveArgumentErrors | src/WindowsTooling/AppxManifest/VersionStringOperations.cs:83-142 | with a well-formed template every rejection of the resolver is an argument error |
| VersionMask.TemplateOnlyInRejection | src/WindowsTooling/AppxManifest/VersionStringOperations.cs:86 | the too-many-units template only shapes the rejection: success and result do not depend on it |
| VersionMask.TooManyUnitsRejected | src/WindowsTooling/AppxManifest/VersionStringOperations.cs:83-87 | a mask of more than four units is rejected: by `string.Format` itself as written, with an argument error once corrected |
| VersionMask.AutoIsNotVersion | src/WindowsTooling/AppxManifest/VersionStringOperations.cs:69-77 | `auto` is one unit and never a version, so it reaches the auto branch |
| VersionMask.AutoIncrementsRevision | src/WindowsTooling/AppxManifest/VersionStringOperations.cs:69-77 | `auto` against a current version keeps major and minor, reads an undefined build as 0 and increments the revision; it fails only when the revision is already the largest 32-bit number |
| VersionMask.ShortVersionCompleted | src/WindowsTooling/AppxManifest/VersionStringOperations.cs:60-65 | the mask "1.2" gives "1.2.0.0" whatever the current version |
| VersionMask.TrailingDotKeepsRevision | src/WindowsTooling/AppxManifest/VersionStringOperations.cs:114-122 | the mask "5.x.*." fixes the major unit and keeps the current minor, build and revision, the empty last unit acting like `x` |
| VersionMask.NegativeLiteralRejected | src/WindowsTooling/AppxManifest/VersionStringOperations.cs:123-142 | a literal "-1" passes the unit check but the final version check rejects it |
| EditExecutor.ListIgnorable | src/WindowsTooling/AppxManifest/AppxManifestEditExecutor.cs:66-79 | `IgnorableNamespaces` is created holding the prefix when absent, gets " prefix" appended when the prefix is not one of its tokens, and is otherwise unchanged; no other attribute changes and afterwards the prefix is listed |
| EditExecutor.EnsureUri | src/WindowsTooling/AppxManifest/AppxManifestEditExecutor.cs:47-82 | no root is an invalid-operation failure; the root's default namespace gives "" with the document unchanged; any other URI goes through the declaration |
| EditExecutor.DeclareOnMeaning | src/WindowsTooling/AppxManifest/AppxManifestEditExecutor.cs:59-81 | the prefix already bound to the URI is reused, else the preferred one is declared; the declaration fails exactly when no prefix is bound and the preferred name is not valid, the URI is empty or an `xmlns` attribute of that name exists; afterwards the prefix is bound to the URI and listed as ignorable, and nothing else on the root changes |
| EditExecutor.EnsureUriIdempotent | src/WindowsTooling/AppxManifest/AppxManifestEditExecutor.cs:59-79 | ensuring the same namespace a second time returns the same prefix and changes nothing, whatever prefix is preferred |
| EditExecutor.EnsureUriStable | src/WindowsTooling/AppxManifest/AppxManifestEditExecutor.cs:59-79 | the outcome depends on the root's attributes only: any document whose root carries the ensured attributes is left unchanged |
| EditExecutor.EnsureUriKeepsTree | src/WindowsTooling/AppxManifest/AppxManifestEditExecutor.cs:47-82 | ensuring a namespace touches only the root's attributes |
| EditExecutor.EnsureFamily | src/WindowsTooling/AppxManifest/AppxManifestEditExecutor.cs:90-168 | no root fails; the root family gives "" and the default namespace with no change; any other family ensures its fixed URI, with "/version" appended for a non-zero version, under the family's unversioned prefix |
| EditExecutor.EnsureFamilyKeepsTree | src/WindowsTooling/AppxManifest/AppxManifestEditExecutor.cs:144-157 | ensuring a family touches only the root's attributes |
| EditExecutor.EnsureDefault | src/WindowsTooling/AppxManifest/AppxManifestEditExecutor.cs:174-182 | fails exactly when there is no root; otherwise "" and the default namespace, as the root family gives |
| EditExecutor.VersionedPrefixClash | src/WindowsTooling/AppxManifest/AppxManifestEditExecutor.cs:59-64 | a versioned family whose unversioned prefix is already declared for another URI cannot be declared: the duplicate `xmlns` attribute is refused |
| Capabilities.Classify | src/WindowsTooling/AppxManifest/AddCapabilityExecutor.cs:48-240 | a name is rejected exactly when it is unknown and shorter than 15 characters; restricted exactly for the restricted names; `rescap` names go to the restricted namespace; unknown long names become `CustomCapability` in UAP 4; device names are `DeviceCapability` in UAP |
| Capabilities.LocateCapabilities | src/WindowsTooling/AppxManifest/AddCapabilityExecutor.cs:36-42 | the first `Capabilities` element in document order is used; when there is none, one in the root's default namespace is appended to the root |
| Capabilities.Insert | src/WindowsTooling/AppxManifest/AddCapabilityExecutor.cs:243-262 | an already-declared capability changes nothing and raises no event; otherwise the element is placed and exactly one event carries the name, the restricted flag and whether it is custom |
| Capabilities.AddCapability | src/WindowsTooling/AppxManifest/AddCapabilityExecutor.cs:29-34 | a document without root fails with nothing changed |
| Capabilities.AddCapabilityMeaning | src/WindowsTooling/AppxManifest/AddCapabilityExecutor.cs:29-262 | the command fails exactly when the name cannot be classified or its namespace cannot be declared, keeping the created `Capabilities` element and raising nothing; at most one event, naming the capability, its restricted flag and whether it is custom |
| Capabilities.AddCapabilityPlacement | src/WindowsTooling/AppxManifest/AddCapabilityExecutor.cs:246-260 | an inserted capability was not declared before; it becomes the first child of `Capabilities` when restricted and the last one otherwise, and the root's other children are untouched |
| Capabilities.AddCapabilityIdempotent | src/WindowsTooling/AppxManifest/AddCapabilityExecutor.cs:246-251 | adding the same capability again changes nothing and raises no event |
| Capabilities.RunFullTrustIsRestricted | src/WindowsTooling/AppxManifest/AddCapabilityExecutor.cs:145-150 | `runFullTrust` is a restricted `Capability` in the `rescap` namespace |
| PackageIdentity.FieldValue | src/WindowsTooling/AppxManifest/SetPackageIdentityExecutor.cs:27-147 | Publisher, Name and ResourceId are written as given exactly when their validator accepts them, else rejected with the validator's message; Version is the mask resolved against the current `Version` attribute and accepted only when the validator accepts the result, and fails with an argument or format error |
| PackageIdentity.ResolveFor | src/WindowsTooling/AppxManifest/SetPackageIdentityExecutor.cs:75-105 | the mask is resolved as written against the current `Version` attribute, or against none; any result parses as a version; a mask of more than four units, or a current value that is not a version, fails with a format error; without a current value it succeeds on exactly the masks the corrected resolver accepts, with the same result |
| PackageIdentity.SetIdentity | src/WindowsTooling/AppxManifest/SetPackageIdentityExecutor.cs:14-25 | a document without root fails unchanged; otherwise the document keeps a root |
| PackageIdentity.SetIdentitySuccess | src/WindowsTooling/AppxManifest/SetPackageIdentityExecutor.cs:16-147 | a successful command writes into the first `Identity` child in the default namespace, appended when missing: each given field is set to its value, attributes no field names are kept, nothing else in the document changes, and the events are those of the fields in order |
| PackageIdentity.RunAllFields | src/WindowsTooling/AppxManifest/SetPackageIdentityExecutor.cs:27-147 | a run over all five fields that does not fail writes each given field, keeps the other attributes and raises the fields' events in order |
| PackageIdentity.RunRaisesEvents | src/WindowsTooling/AppxManifest/SetPackageIdentityExecutor.cs:27-105 | a successful run raises, in order, the events each field raises on its own: one value when the attribute is created, old and new when it is overwritten, none when `Version` is created |
| PackageIdentity.RunAfterFailure | src/WindowsTooling/AppxManifest/SetPackageIdentityExecutor.cs:27-147 | after a failure the remaining fields do nothing |
| PackageIdentity.RunFailurePrefix | src/WindowsTooling/AppxManifest/SetPackageIdentityExecutor.cs:27-147 | a failing run leaves exactly what the fields before the failing one did |
| PackageIdentity.SetIdentityFailureKeepsEarlier | src/WindowsTooling/AppxManifest/SetPackageIdentityExecutor.cs:27-147 | a command that fails part-way leaves the document and events of the same command cut down to the fields before the failing one, which succeeds |
| PackageIdentity.RunKeepsOthers | src/WindowsTooling/AppxManifest/SetPackageIdentityExecutor.cs:27-147 | absent fields and attributes no field names are left untouched, as are the element's name and children |
| PackageIdentity.ArchitectureNeverRejected | src/WindowsTooling/AppxManifest/SetPackageIdentityExecutor.cs:107-123 | setting only the processor architecture never fails on a document with a root |
| PackageIdentity.EventsWithoutVersion | src/WindowsTooling/AppxManifest/SetPackageIdentityExecutor.cs:75-105 | without the `Version` field the events do not depend on the `Version` attribute |
| BuildMetadata.FindItem | src/WindowsTooling/AppxManifest/SetBuildMetaDataExecutor.cs:31 | the `Item` found is the first whose `Name` equals the key ignoring case |
| BuildMetadata.FindItemIgnoresCase | src/WindowsTooling/AppxManifest/SetBuildMetaDataExecutor.cs:31 | keys that differ only in case find the same `Item` |
| BuildMetadata.Upsert | src/WindowsTooling/AppxManifest/SetBuildMetaDataExecutor.cs:29-59 | one entry never removes or renames an `Item`: the `Metadata` element keeps its name, attributes and text, and every existing child keeps its name and `Name` attribute |
| BuildMetadata.UpsertSkips | src/WindowsTooling/AppxManifest/SetBuildMetaDataExecutor.cs:42-46 | a skipped entry changes nothing and raises no event |
| BuildMetadata.UpsertWrites | src/WindowsTooling/AppxManifest/SetBuildMetaDataExecutor.cs:32-58 | an entry that is not skipped leaves the key's `Item` with the entry's version and raises one event for that key and value |
| BuildMetadata.UpsertEvent | src/WindowsTooling/AppxManifest/SetBuildMetaDataExecutor.cs:32-55 | a new `Item` is appended exactly when none names the key; the event carries the previous version exactly when the `Item` had one |
| BuildMetadata.UpsertLeaves | src/WindowsTooling/AppxManifest/SetBuildMetaDataExecutor.cs:29-59 | an entry touches no child but the `Item` naming its key |
| BuildMetadata.UpsertAllDeclares | src/WindowsTooling/AppxManifest/SetBuildMetaDataExecutor.cs:29-59 | after the loop every key of the command names an `Item` with a version |
| BuildMetadata.UpsertAllEvents | src/WindowsTooling/AppxManifest/SetBuildMetaDataExecutor.cs:29-59 | when versions are overwritten every entry raises exactly one event, for its key and value, in order |
| BuildMetadata.UpsertAllOverwrites | src/WindowsTooling/AppxManifest/SetBuildMetaDataExecutor.cs:29-59 | when versions are overwritten and the keys differ, each key's `Item` ends with that key's value |
| BuildMetadata.UpsertAllFillsMissing | src/WindowsTooling/AppxManifest/SetBuildMetaDataExecutor.cs:42-58 | when only creating, an `Item` that had a version keeps it, and every other key ends with its own value |
| BuildMetadata.UpsertAllOnlyCreates | src/WindowsTooling/AppxManifest/SetBuildMetaDataExecutor.cs:38-55 | when only creating, no event reports a change of an existing version |
| BuildMetadata.SetMetaData | src/WindowsTooling/AppxManifest/SetBuildMetaDataExecutor.cs:13-62 | a document without root fails unchanged; otherwise the command fails exactly when the `build` namespace cannot be declared, and then changes nothing and raises nothing |
| BuildMetadata.SetMetaDataUpdates | src/WindowsTooling/AppxManifest/SetBuildMetaDataExecutor.cs:20-59 | after declaring the `build` namespace, the root's first `build:Metadata` child (appended when missing) becomes what the loop makes of it; the root's other children, name and text are kept |
| BuildMetadata.SetMetaDataOverwrites | src/WindowsTooling/AppxManifest/SetBuildMetaDataExecutor.cs:29-59 | when overwriting with distinct keys, every key names an `Item` of the document's `Metadata` carrying its value, and each entry raises one event |
| BuildMetadata.SetMetaDataKeepsExisting | src/WindowsTooling/AppxManifest/SetBuildMetaDataExecutor.cs:42-58 | when only creating, an `Item` with a version is left as it was, every key has an `Item` with a version, and only creations are reported |
| Branding.PlanPlacement | src/WindowsTooling/AppxManifest/MsixHeroBrandingInjector.cs:45-72 | five entries in all: `MsixHero` always overwritten (missing version as ""); `SignTool.exe` and `MakeAppx.exe` overwritten unless existing values are preferred; `MakePri.exe` and `OperatingSystem` overwritten only when incoming values are preferred; each in exactly one of the two lists |
| Branding.PlanDistinct | src/WindowsTooling/AppxManifest/MsixHeroBrandingInjector.cs:36-72 | neither list holds a key twice, even ignoring case, and no key is in both |
| Branding.Inject | src/WindowsTooling/AppxManifest/MsixHeroBrandingInjector.cs:34-95 | a document without root fails unchanged |
| Branding.InjectMeaning | src/WindowsTooling/AppxManifest/MsixHeroBrandingInjector.cs:74-94 | the injector fails exactly when the `build` namespace cannot be declared, then changing nothing; otherwise every entry to overwrite ends in `Metadata` with its version, and every entry to write only when missing is there with a version |
| Branding.SecondRunSucceeds | src/WindowsTooling/AppxManifest/MsixHeroBrandingInjector.cs:86-94 | once the first run has declared the namespace, the second run cannot fail |
| Branding.TwoRuns | src/WindowsTooling/AppxManifest/MsixHeroBrandingInjector.cs:76-94 | the overwriting run followed by the only-if-missing run leaves the overwritten versions in place and fills the missing keys |
| IdentityReader.FromPackageManifest | src/WindowsTooling/AppxManifest/AppxIdentityReader.cs:202-240 | a document without a windows10 or 2010 `Package` root is rejected as missing its root |
| IdentityReader.PackageManifestMeaning | src/WindowsTooling/AppxManifest/AppxIdentityReader.cs:210-240 | read exactly when the root is a windows10 or 2010 `Package` with an `Identity` child in either namespace, the windows10 one first; name, publisher and version are the attributes; the architecture is set only when its attribute parses |
| IdentityReader.BundleManifestMeaning | src/WindowsTooling/AppxManifest/AppxIdentityReader.cs:248-270 | read exactly when the root is a `Bundle` with an `Identity` child, both in the bundle namespace; the fields are that child's attributes |
| IdentityReader.BundleArchitectures | src/WindowsTooling/AppxManifest/AppxIdentityReader.cs:262-295 | architectures are unset exactly when there is no `Packages` element; otherwise they are the parsed `Architecture` values of its `Package` children, absent and unparseable ones skipped |
| IdentityReader.ReadEntryMeaning | src/WindowsTooling/AppxManifest/AppxIdentityReader.cs:170-194 | a manifest present in the archive is read from the entry `GetFile` opens; a missing one is the not-found failure |
| IdentityReader.XmlPathDispatch | src/WindowsTooling/AppxManifest/AppxIdentityReader.cs:28-44 | a `.xml` path goes by file name ignoring case: `AppxManifest.xml` to the package extractor, `AppxBundleManifest.xml` to the bundle extractor, any other name is unsupported |
| IdentityReader.PackagePathDispatch | src/WindowsTooling/AppxManifest/AppxIdentityReader.cs:170-181 | a package path is read through the manifest it holds; a missing manifest becomes an argument failure naming the path |
| IdentityReader.BundlePathDispatch | src/WindowsTooling/AppxManifest/AppxIdentityReader.cs:183-194 | a bundle path is read through `AppxMetadata/AppxBundleManifest.xml`; a missing one becomes an argument failure naming the path |
| IdentityReader.CorruptArchivePath | src/WindowsTooling/AppxManifest/FileReader/ZipArchiveFileReaderAdapter.cs:286-293 | a package or bundle path whose content is no archive fails as a damaged package |
| IdentityReader.OtherPathRejected | src/WindowsTooling/AppxManifest/AppxIdentityReader.cs:52-53 | any other extension is unsupported, whatever the content |
| IdentityReader.ProbesSwallowFailures | src/WindowsTooling/AppxManifest/AppxIdentityReader.cs:113-167 | a stream that is not a file stream fails only with the generic error, and succeeds exactly when one probe reads it, the XML probe first |
| IdentityReader.XmlProbeMeaning | src/WindowsTooling/AppxManifest/AppxIdentityReader.cs:113-140 | the XML probe yields an identity exactly when the root is named `Package` and the package extractor reads it, or is named `Bundle` and the bundle extractor reads it |
| IdentityReader.ZipProbeOrder | src/WindowsTooling/AppxManifest/AppxIdentityReader.cs:142-160 | the ZIP probe reads the package manifest when the archive holds one, and the bundle manifest only otherwise |
| IdentityReader.LowerCasedSwitchNeverMatches | src/WindowsTooling/AppxManifest/AppxIdentityReader.cs:102-110 | no lower-cased name equals a mixed-case manifest name, so the file-name switch never matches |
| IdentityReader.NamedManifestFallsThrough | src/WindowsTooling/AppxManifest/AppxIdentityReader.cs:102-167 | a file stream named `AppxManifest.xml` holding a `Package` root in an unknown namespace ends in the generic failure as written, while matching the name would report the extractor's error |
| IdentityReader.PackageStreamMisread | src/WindowsTooling/AppxManifest/AppxIdentityReader.cs:86-99 | a package file stream is given to the bundle extractor as written, so a valid package manifest fails; the package extractor reads it |
| SummaryReader.PropertiesLastWins | src/WindowsTooling/AppxManifest/AppxManifestSummaryReader.cs:93-113 | each property is the text of the last `Properties` child carrying its local name, in any namespace; the framework flag is whether that last text parses as `true` |
| SummaryReader.AccentColorMeaning | src/WindowsTooling/AppxManifest/AppxManifestSummaryReader.cs:116-132 | "Transparent" when there is no `Applications` element or no visual element of any application has a background; otherwise the colour is the background of one of those visual elements |
| SummaryReader.FrameworkPackageType | src/WindowsTooling/AppxManifest/AppxManifestSummaryReader.cs:137-150 | a framework package's type is the framework flag alone |
| SummaryReader.ApplicationPackageType | src/WindowsTooling/AppxManifest/AppxManifestSummaryReader.cs:137-150 | any other package's type holds each application's flag and nothing more |
| SummaryReader.ReadIdentity | src/WindowsTooling/AppxManifest/AppxManifestSummaryReader.cs:74-85 | the summary is read exactly when the identity is, with the extractor's failure otherwise |
| SummaryReader.SummariseIdentity | src/WindowsTooling/AppxManifest/AppxManifestSummaryReader.cs:74-78 | the identity fields are copied whatever the mode |
| SummaryReader.SummariseModes | src/WindowsTooling/AppxManifest/AppxManifestSummaryReader.cs:86-135 | without the properties bit no property, framework flag or accent is read; without the applications bit no package type |
| SummaryReader.SummariseProperties | src/WindowsTooling/AppxManifest/AppxManifestSummaryReader.cs:86-133 | in properties mode the properties, framework flag and accent colour are those of the package element |
| SummaryReader.SummariseApplications | src/WindowsTooling/AppxManifest/AppxManifestSummaryReader.cs:135-152 | in applications mode the type is the applications' type, starting from the framework flag |
| SummaryReader.MinimalReadsAll | src/WindowsTooling/AppxManifest/AppxManifestSummaryReader.cs:158-164 | the default mode holds both bits |
| PackageType.TypeFrom | src/WindowsTooling/PackageTypeConverter.cs:112-169 | one application's type holds at most one flag, and holds a flag exactly when the application's kind is that flag |
| PackageType.AppFlagHosted | src/WindowsTooling/PackageTypeConverter.cs:114-122 | a progressive web app exactly when the host is `PWA`; a framework exactly when flagged as one and not a web app |
| PackageType.AppFlagWin32 | src/WindowsTooling/PackageTypeConverter.cs:124-165 | PSF and AI-stub kinds need the full-trust entry point and an `.exe` naming the launcher after a backslash, PSF first; plain Win32 is a full-trust `.exe` of neither kind, or an `.exe` with no entry point |
| PackageType.AppFlagOther | src/WindowsTooling/PackageTypeConverter.cs:154-168 | universal needs an entry point other than full trust and no start page; web needs no entry point, no `.exe` and a start page |
| PackageType.CategoryIsTopFlag | src/WindowsTooling/PackageTypeConverter.cs:30-99 | the category displayed is that of the highest-precedence flag held, and the fallback exactly when none is held |
| PackageType.LabelsDiffer | src/WindowsTooling/PackageTypeConverter.cs:30-99 | in every display mode different categories have different texts |
| PackageType.TypeString | src/WindowsTooling/PackageTypeConverter.cs:30-99 | the text is the fallback's exactly when no flag is held, and otherwise the label of a held flag of highest precedence |
| PackageType.TypeStringIgnoresLower | src/WindowsTooling/PackageTypeConverter.cs:30-99 | flags below the displayed one do not change the text |
| Wildcard.Anchors | src/WindowsTooling/Helpers/RegexBuilder.cs:20-55 | the pattern starts with `^` exactly when the wildcard is empty or does not start with `*`, and ends with `$` exactly when it is empty or does not end with `*` |
| Wildcard.LeadingStarIsLiteral | src/WindowsTooling/Helpers/RegexBuilder.cs:27-31 | a leading `*` followed by plain text is escaped as a literal star |
| Wildcard.ChunkCopiedRaw | src/WindowsTooling/Helpers/RegexBuilder.cs:35 | text before a wildcard character past the start is copied unescaped |
| Wildcard.InnerStarExample | src/WindowsTooling/Helpers/RegexBuilder.cs:36-44 | `a*b` gives `^a.*b$` |
| Wildcard.RawDotExample | src/WindowsTooling/Helpers/RegexBuilder.cs:35 | in `a.b*` the dot is copied unescaped and so matches any character |
| Wildcard.RenderParses | src/WindowsTooling/Helpers/RegexBuilder.cs:30-44 | every pattern of the fragment reads back from its text |
| Wildcard.FromWildcardFixed | src/WindowsTooling/Helpers/RegexBuilder.cs:8-58 | with every character translated, the text reads back as exactly the intended pattern |
| Wildcard.WrittenMisreadsLeadingStar | src/WindowsTooling/Helpers/RegexBuilder.cs:27 | as written `*.txt` reads as a literal star followed by `.txt`, not as any run |
| Wildcard.WrittenAgreesOnPlain | src/WindowsTooling/Helpers/RegexBuilder.cs:20-55 | on plain wildcards the written pattern is the intended one |
| Wildcard.WrittenAgreesOnLiteral | src/WindowsTooling/Helpers/RegexBuilder.cs:20-55 | a non-empty wildcard without wildcard characters is fully escaped, so its written pattern is the intended one |
| Wildcard.WrittenMatchesAgree | src/WindowsTooling/Helpers/RegexBuilder.cs:8-58 | for `*`, plain wildcards and wildcards without wildcard characters, a name matches the written pattern exactly when it matches the intended one |
| Wildcard.StarMatchesAll | src/WindowsTooling/Helpers/RegexBuilder.cs:10-13 | `*` matches every name |
| Wildcard.LiteralMatches | src/WindowsTooling/Helpers/RegexBuilder.cs:20-57 | a wildcard without wildcard characters matches exactly the names equal to it ignoring case, optionally followed by one newline |
| ZipReader.FileExistsMeaning | src/WindowsTooling/AppxManifest/FileReader/ZipArchiveFileReaderAdapter.cs:226-243 | an empty path does not exist; otherwise a file exists exactly when some entry has its name, `\` turned into `/`, ignoring case |
| ZipReader.GetFileMeaning | src/WindowsTooling/AppxManifest/FileReader/ZipArchiveFileReaderAdapter.cs:159-179 | an empty path is an argument failure; otherwise an entry is opened exactly when the file exists, the exactly named one first, else the first ignoring case; a missing one is not found |
| ZipReader.EnumerateDirectoriesMeaning | src/WindowsTooling/AppxManifest/FileReader/ZipArchiveFileReaderAdapter.cs:60-96 | each directory is an entry's name up to the first `/` after the root prefix, with `\` separators, taken from the first entry giving it; every such directory is listed once, ignoring case |
| ZipReader.DirectoriesFresh | src/WindowsTooling/AppxManifest/FileReader/ZipArchiveFileReaderAdapter.cs:72-91 | no directory is listed twice, even ignoring case |
| ZipReader.FilesMembers | src/WindowsTooling/AppxManifest/FileReader/ZipArchiveFileReaderAdapter.cs:114-151 | as written (misplaced name slice, written pattern) and corrected alike, a file is listed exactly when its entry is selected, with the entry's path and size |
| ZipReader.TopFilesMeaning | src/WindowsTooling/AppxManifest/FileReader/ZipArchiveFileReaderAdapter.cs:141-157 | as written, `EnumerateFiles(root)` lists exactly the files directly under the root |
| ZipReader.AllFilesMeaning | src/WindowsTooling/AppxManifest/FileReader/ZipArchiveFileReaderAdapter.cs:134-140 | corrected (`EnumerateFilesFixed`), every entry below the root is listed, at any depth, exactly when its last segment matches the intended pattern |
| ZipReader.ListingsAgree | src/WindowsTooling/AppxManifest/FileReader/ZipArchiveFileReaderAdapter.cs:99-151 | for no wildcard, `*`, and wildcards whose written pattern reads as meant, the listing as written equals the corrected one when there is no root or only the top directory is listed |
| ZipReader.NestedEntryMissed | src/WindowsTooling/AppxManifest/FileReader/ZipArchiveFileReaderAdapter.cs:123-140 | under the root `Assets`, `logo.png` in all directories misses `Assets/img/logo.png` as written and lists it corrected |
| ZipReader.BaseNameIsLastSegment | src/WindowsTooling/AppxManifest/FileReader/ZipArchiveFileReaderAdapter.cs:123-132 | the intended match name is the entry's last segment |
| ZipReader.BaseNameAsWrittenAgrees | src/WindowsTooling/AppxManifest/FileReader/ZipArchiveFileReaderAdapter.cs:123-132 | the name as written is right without a root prefix and for entries directly under the root |
| ZipReader.BaseNameAsWrittenMisplaced | src/WindowsTooling/AppxManifest/FileReader/ZipArchiveFileReaderAdapter.cs:124-127 | under `Assets/`, `Assets/img/logo.png` is matched as `ts/img/logo.png` instead of `logo.png` |
| ZipReader.DirectoryExistsMeaning | src/WindowsTooling/AppxManifest/FileReader/ZipArchiveFileReaderAdapter.cs:245-256 | a directory exists exactly when some entry lies below it |
| ZipReader.QualifierRemoved | src/WindowsTooling/AppxManifest/FileReader/ZipArchiveFileReaderAdapter.cs:211-215 | stripping removes a qualified file name's qualifier and nothing else: `Logo.scale-200.png` becomes `Logo.png` |
| ZipReader.NoDashUnchanged | src/WindowsTooling/AppxManifest/FileReader/ZipArchiveFileReaderAdapter.cs:211-215 | a name without a dash is left as it is |
| ZipReader.GetResourceMeaning | src/WindowsTooling/AppxManifest/FileReader/ZipArchiveFileReaderAdapter.cs:181-224 | as written: an empty path finds nothing; an existing file is the entry `GetFile` opens; otherwise the first entry starting with the directory prefix as written (`\` separators, then `/`) whose stripped name after it equals the requested file name ignoring case, or nothing |
| ZipReader.TopLevelResourceAgrees | src/WindowsTooling/AppxManifest/FileReader/ZipArchiveFileReaderAdapter.cs:195 | for a path whose directory holds no separator, the lookup as written is the corrected one |
| ZipReader.GetResourceInDirectory | src/WindowsTooling/AppxManifest/FileReader/ZipArchiveFileReaderAdapter.cs:198-209 | corrected, a variant found lies in the requested directory |
| ZipReader.VariantFound | src/WindowsTooling/AppxManifest/FileReader/ZipArchiveFileReaderAdapter.cs:195-220 | corrected, with the directory in entry separators, the qualified variant of a missing file is found |
| ZipReader.NestedVariantMissed | src/WindowsTooling/AppxManifest/FileReader/ZipArchiveFileReaderAdapter.cs:195 | as written, a variant in a nested directory is never found, because the prefix keeps `\` separators |
| ZipReader.QualifiedRequestMissed | src/WindowsTooling/AppxManifest/FileReader/ZipArchiveFileReaderAdapter.cs:217 | a qualified request is compared unstripped with stripped names, so another variant of the same file is not found, as written or corrected |
| ZipReader.ScaledLogoLookups | src/WindowsTooling/AppxManifest/FileReader/ZipArchiveFileReaderAdapter.cs:181-224 | as written, `Assets/Logo.png` finds `Assets/Logo.scale-200.png`, and `Assets/Logo.scale-100.png` finds nothing |
| ZipReader.NestedLogo | src/WindowsTooling/AppxManifest/FileReader/ZipArchiveFileReaderAdapter.cs:195-220 | `Assets/Icons/Logo.png` misses `Assets/Icons/Logo.scale-200.png` as written and finds it with the prefix in entry separators |
| FileList.PutMeaning | src/WindowsTooling/Sdk/PackageFileListBuilder.cs:7-13 | after setting a key, it maps to the new value and every other key to its old one, keys staying unique ignoring case |
| FileList.AddFileMeaning | src/WindowsTooling/Sdk/PackageFileListBuilder.cs:10-38 | targets stay unique; a later file for the same target, ignoring case, replaces the source, stored with `\` separators; other targets keep theirs |
| FileList.DirectoryDefaults | src/WindowsTooling/Sdk/PackageFileListBuilder.cs:20-33 | the short directory overloads are the full one with wildcard `*` and no recursion by default |
| FileList.ManifestRoundTrip | src/WindowsTooling/Sdk/PackageFileListBuilder.cs:35-49 | a manifest added explicitly is the one found, whatever the directories hold |
| FileList.DirectoryEntriesMeaning | src/WindowsTooling/Sdk/PackageFileListBuilder.cs:72-94 | an entry comes from a directory exactly when a file found there has that target and no explicit file does |
| FileList.KeptSound | src/WindowsTooling/Sdk/PackageFileListBuilder.cs:96-118 | what is written comes from the entries, is never a reserved target, and lists no target twice |
| FileList.KeptComplete | src/WindowsTooling/Sdk/PackageFileListBuilder.cs:101-116 | every entry that is not reserved and is the first with its target ignoring case is written |
| FileList.ListingTextMeaning | src/WindowsTooling/Sdk/PackageFileListBuilder.cs:63-121 | the listing fails exactly when two directory files share a target no explicit file has; otherwise it is `[Files]`, then the directory lines, then the explicit ones |
| FileList.ExplicitFilesWritten | src/WindowsTooling/Sdk/PackageFileListBuilder.cs:87-116 | each explicit file that is not reserved is written with its own source |
| MakeAppx.SwitchesOfMeaning | src/WindowsTooling/Sdk/MakeAppxWrapper.cs:46-70 | each switch is present exactly when its option asks for it |
| MakeAppx.SwitchesOrdered | src/WindowsTooling/Sdk/MakeAppxWrapper.cs:46-70 | switches come in the fixed order `/v`, `/o`, `/nc`, `/nv`, `/pb` |
| MakeAppx.PackArgumentsAreTokens | src/WindowsTooling/Sdk/MakeAppxWrapper.cs:30-70 | the argument string is `pack`, the source switch, `/p` target and the switches, joined by single spaces |
| MakeAppx.MatchIsWholeRun | src/WindowsTooling/Sdk/MakeAppxWrapper.cs:106-124 | the code found is a whole run of letters and digits followed by the separator |
| MakeAppx.ErrorInfoMeaning | src/WindowsTooling/Sdk/MakeAppxWrapper.cs:104-110 | an "Error info" line of the form `code: detail` reports that code and the trimmed detail, with the original exit code, whether the detail is cut as written or at the match's end |
| MakeAppx.DecimalCodeReported | src/WindowsTooling/Sdk/MakeAppxWrapper.cs:137-140 | a positive decimal code is reported as its value |
| MakeAppx.HexCodeReported | src/WindowsTooling/Sdk/MakeAppxWrapper.cs:142-151 | a `0x` code is read as a 32-bit two's-complement value, the fallback when zero, and overflows beyond 32 bits |
| MakeAppx.HexErrorMeaning | src/WindowsTooling/Sdk/MakeAppxWrapper.cs:119-151 | a `0x` line of the form `code - detail` keeps the original exit code and reports the code's value; a non-empty manifest validation error replaces the detail, which is otherwise the trimmed text after the separator, however it is cut |
| MakeAppx.UnmatchedHexLineReportsZero | src/WindowsTooling/Sdk/MakeAppxWrapper.cs:154-173 | a `0x` line without a `code - ` match yields an error with exit code 0, whatever the process returned |
| MakeAppx.NothingRecognised | src/WindowsTooling/Sdk/MakeAppxWrapper.cs:99-177 | no error exactly when no line starts, ignoring case, with either recognised prefix |
| MakeAppx.FirstErrorInfoLineWins | src/WindowsTooling/Sdk/MakeAppxWrapper.cs:101-114 | the first "Error info" line decides, whatever else the output holds: as written with the detail cut at the match's length, corrected at its end |
| MakeAppx.FirstHexLineWins | src/WindowsTooling/Sdk/MakeAppxWrapper.cs:116-133 | without an "Error info" line the first `0x` line decides, with the first case-sensitive manifest validation line as detail: as written with the detail cut at the match's length, corrected at its end |
| MakeAppx.ProcessFailureOrder | src/WindowsTooling/Sdk/MakeAppxWrapper.cs:85-95 | standard error wins when it holds a recognised line; the original failure is rethrown exactly when neither stream does |
| MakeAppx.ProcessFailureFixedRecognises | src/WindowsTooling/Sdk/MakeAppxWrapper.cs:85-177 | the handler as written and the corrected one rethrow on the same outputs and fail on the same outputs; they differ only in the detail text |
| MakeAppx.DetailCutAsWritten | src/WindowsTooling/Sdk/MakeAppxWrapper.cs:109-133 | as written the detail after `code: ` or `code - ` is cut at the match's length from the start of the text, keeping part of the code and separator when the code does not start it |
| MakeAppx.DetailCutExample | src/WindowsTooling/Sdk/MakeAppxWrapper.cs:104-110 | "Error info: error in 0x1: broken" reports "1: broken" as written and "broken" as intended |
| MakeAppx.Percent | src/WindowsTooling/Sdk/MakeAppxWrapper.cs:220-227 | the percentage is 100 times processed over count rounded down, or 0 while the count is unknown or zero |
| MakeAppx.RunMeaning | src/WindowsTooling/Sdk/MakeAppxWrapper.cs:199-264 | one report per progress line, the processed count grows by the number of progress lines, and the file count is set once, from the first `Packing` line |
| MakeAppx.RunWithoutReporter | src/WindowsTooling/Sdk/MakeAppxWrapper.cs:201-204 | without a reporter nothing changes and nothing is reported |
| MakeAppx.ProgressPastHundred | src/WindowsTooling/Sdk/MakeAppxWrapper.cs:222 | once more files are processed than counted, the reported percentage passes 100 |
| EntryPoints.FileStemMeaning | src/WindowsTooling/AppxManifest/AppxManifestCreator.cs:198 | the stem is the whole file name without a dot, else what precedes its last dot |
| EntryPoints.InstallableMembers | src/WindowsTooling/AppxManifest/AppxManifestCreator.cs:196-204 | a candidate survives exactly when its stem is not `update`, `updater` or starts with `unins`, ignoring case |
| EntryPoints.EntryPointCandidates | src/WindowsTooling/AppxManifest/AppxManifestCreator.cs:188-212 | no executable is an invalid-operation failure; otherwise a non-empty selection of the executables |
| EntryPoints.UpdatersDropped | src/WindowsTooling/AppxManifest/AppxManifestCreator.cs:196-209 | updaters are dropped when something else is left, in the original order |
| EntryPoints.OnlyUpdatersKept | src/WindowsTooling/AppxManifest/AppxManifestCreator.cs:211 | when every candidate is an updater, all are kept |
| EntryPoints.EntryPointsOrdered | src/WindowsTooling/AppxManifest/AppxManifestCreator.cs:264 | the executables are ordered by depth, then by name ignoring case |
| EntryPoints.OrderedUnchanged | src/WindowsTooling/AppxManifest/AppxManifestCreator.cs:264 | files already in order come back as they are, so ordering is idempotent |
| EntryPoints.UnderscoreAfterLetters | src/WindowsTooling/AppxManifest/AppxManifestCreator.cs:264 | the ignore-case comparison upper-cases, so `a_` sorts after `ab` |
| EntryPoints.IdCandidate | src/WindowsTooling/AppxManifest/AppxManifestCreator.cs:362 | the id candidate holds only characters in `A`..`z` and digits, holds every such character of the executable's stem, and is the stem itself exactly when the stem has no other character |
| EntryPoints.NextIdSmallestSuffix | src/WindowsTooling/AppxManifest/AppxManifestCreator.cs:363-373 | a taken candidate gets the smallest free suffix `_k` with `k >= 1` |
| EntryPoints.AssignIdsFresh | src/WindowsTooling/AppxManifest/AppxManifestCreator.cs:356-376 | no id handed out was already taken |
| EntryPoints.AssignIdsDistinct | src/WindowsTooling/AppxManifest/AppxManifestCreator.cs:356-376 | the ids are pairwise distinct |
| EntryPoints.AssignIdsDerived | src/WindowsTooling/AppxManifest/AppxManifestCreator.cs:362-372 | each id is its candidate, possibly with a suffix |
| EntryPoints.DistinctCandidatesKept | src/WindowsTooling/AppxManifest/AppxManifestCreator.cs:363 | distinct candidates keep their own values |
| EntryPoints.ApplicationIdsMeaning | src/WindowsTooling/AppxManifest/AppxManifestCreator.cs:356-376 | every application gets its own id, derived from its executable's name |
| EntryPoints.SameCandidateSuffixed | src/WindowsTooling/AppxManifest/AppxManifestCreator.cs:363-372 | `app.exe` and `sub\app.exe` get the ids `app` and `app_1` |
| ManifestCreator.Sanitize | src/WindowsTooling/AppxManifest/AppxManifestCreator.cs:148-157 | the input without characters outside letters, digits and dots, or the default when nothing is left |
| ManifestCreator.SanitizedCharacters | src/WindowsTooling/AppxManifest/AppxManifestCreator.cs:150 | a sanitised value holds kept characters only, and every kept character of the input |
| ManifestCreator.SanitizeIdempotent | src/WindowsTooling/AppxManifest/AppxManifestCreator.cs:148-157 | sanitising twice is sanitising once |
| ManifestCreator.TakeVersionInfoNames | src/WindowsTooling/AppxManifest/AppxManifestCreator.cs:82-95 | an empty package name is filled with the sanitised product name, an empty publisher with "CN=" and the sanitised company |
| ManifestCreator.ReadKeepsSetFields | src/WindowsTooling/AppxManifest/AppxManifestCreator.cs:67-112 | a field set before the loop, or by an earlier executable, is never overwritten |
| ManifestCreator.EarlyExitIsShortcut | src/WindowsTooling/AppxManifest/AppxManifestCreator.cs:103-110 | once every field is set, later executables would change nothing |
| ManifestCreator.SettleKeepsGivenFields | src/WindowsTooling/AppxManifest/AppxManifestCreator.cs:67-137 | fields the caller gave survive; the others come from the first executable supplying them, else from the fallbacks |
| ManifestCreator.SettleWithoutEntryPoints | src/WindowsTooling/AppxManifest/AppxManifestCreator.cs:67-137 | without given entry points nothing is read, and empty fields get "MyPackage", "CN=Publisher", "Publisher" and version 1.0.0 |
| ManifestCreator.IdentityVersion | src/WindowsTooling/AppxManifest/AppxManifestCreator.cs:299-324 | the identity version has four units, an absent version reading as 0.0.0.0 and undefined build and revision as 0 |
| ManifestCreator.DefaultIdentityVersion | src/WindowsTooling/AppxManifest/AppxManifestCreator.cs:299-324 | without a version anywhere the package is 1.0.0.0 |
| ManifestCreator.IdentityCommand | src/WindowsTooling/AppxManifest/AppxManifestCreator.cs:292-326 | the identity command takes name and publisher from the options and the given architecture, leaves the resource id unset, and carries exactly the clamped four-unit text `IdentityVersion` makes of the options' version |
| ManifestCreator.NotEmptyValue | src/WindowsTooling/AppxManifest/AppxManifestCreator.cs:426-429 | the result is empty exactly when every value is null or empty |
| ManifestCreator.NotEmptyValueOfLength | src/WindowsTooling/AppxManifest/AppxManifestCreator.cs:416-424 | the result is empty exactly when no value is non-empty and at least the minimum length; otherwise it is the first such value, in list order |
| ManifestCreator.FirstLongEnoughWins | src/WindowsTooling/AppxManifest/AppxManifestCreator.cs:423 | a value meeting the minimum wins over everything after it |
| ManifestCreator.PropertiesOfSettled | src/WindowsTooling/AppxManifest/AppxManifestCreator.cs:347-351 | with settled options the display names are the options' own, and the description falls back to the package name |
| ManifestCreator.VisualTexts | src/WindowsTooling/AppxManifest/AppxManifestCreator.cs:397-398 | both texts are at least three characters long; a short display name falls back to the product name, then the internal name, then the executable's stem, then "Package display name"; a short description to the file description, then the product name, then the stem, then "Package description" |
| ManifestCreator.DeclareMeaning | src/WindowsTooling/AppxManifest/AppxManifestCreator.cs:329-342 | a declaration step keeps the element's name, children, attributes and bound namespaces, and binds its URI |
| ManifestCreator.LegacyPrefixesBindAll | src/WindowsTooling/AppxManifest/AppxManifestCreator.cs:329-342 | with the intended URIs all three namespaces end bound; the root keeps its name, children, text and existing attributes, and only `xmlns` declarations are appended |
| ManifestCreator.LegacyPrefixesIdempotent | src/WindowsTooling/AppxManifest/AppxManifestCreator.cs:329-342 | a root already binding all three namespaces is left as it is |
| ManifestCreator.Uap4LeftUndeclared | src/WindowsTooling/AppxManifest/AppxManifestCreator.cs:334-342 | as written a bare root gets `uap` and a `uap4` bound to the UAP 6 URI, no `uap6`, and the UAP 4 namespace stays undeclared |
| ManifestCreator.GetOrCreateNode | src/WindowsTooling/AppxManifest/AppxManifestCreator.cs:431-441 | the first descendant with the name in document order, else a new empty element appended as the last child |
| ManifestCreator.DocumentNode | src/WindowsTooling/AppxManifest/AppxManifestCreator.cs:431-441 | on the document (line 344), the lookup searches the root and its descendants, so a root with the name is the node found; when there is none, adding a second root element fails with an invalid-operation error |
| ManifestCreator.GetOrCreateIdempotent | src/WindowsTooling/AppxManifest/AppxManifestCreator.cs:431-441 | asking twice finds the node the first call found or made |
| ManifestCreator.SetNodeValueReadBack | src/WindowsTooling/AppxManifest/AppxManifestCreator.cs:349-352 | a value written is the one the next lookup reads back |
| BuildVersion.GetVersionString | src/build/Helper/VersionHelper.cs:15-30 | every form starts with "M.m.b"; excluding the revision gives exactly that, and otherwise something longer follows (the full four-part, short and preview texts are pinned by the round-trip lemmas and `PreviewInsertsTag`) |
| BuildVersion.PreviewInsertsTag | src/build/Helper/VersionHelper.cs:24-29 | the preview text is the four-part text with "-pre" inserted before its last dot, the dot that separates "M.m.b" from the revision-or-preview number |
| BuildVersion.PreviewFlagUnused | src/build/Helper/VersionHelper.cs:15-30 | the `IsPreview` property never influences the text |
| BuildVersion.FourPartRoundTrip | src/build/Helper/VersionHelper.cs:29 | for non-negative 32-bit numbers, the four-part text parses back to those numbers |
| BuildVersion.ShortRoundTrip | src/build/Helper/VersionHelper.cs:21 | likewise the short text parses back to the three units |
| BuildVersion.PreviewIsNotVersion | src/build/Helper/VersionHelper.cs:26 | the preview text is not a `System.Version` |
| BuildVersion.PreviewUnits | src/build/Helper/VersionHelper.cs:26 | the preview text is the four units "M", "m", "b-pre" and "R" joined by dots, each free of dots, and its third unit is not a number |
| BuildVersion.ReplaceChanges | src/build/Tasks/UpdateVersionTask.cs:104-111 | a replacement changes the text exactly when the pattern occurs and differs from its replacement |
| BuildVersion.NuspecSucceeds | src/build/Tasks/UpdateVersionTask.cs:100-119 | a nuspec rewrite succeeds exactly when the placeholder occurs and the version is not the placeholder's own |
| BuildVersion.ProjectSucceeds | src/build/Tasks/UpdateVersionTask.cs:132-154 | a project declaring a project URL is rewritten exactly when the placeholder occurs and the version is not the placeholder's own; otherwise it is an error |
| BuildVersion.AssemblyWithoutPlaceholders | src/build/Tasks/UpdateVersionTask.cs:167-195 | an assembly file with none of the three placeholders is an error |
| BuildVersion.AssemblyInformationalOnly | src/build/Tasks/UpdateVersionTask.cs:180-195 | a file with only the informational placeholder gets exactly that one replaced, and succeeds unless the version is the placeholder's own |
| BuildVersion.RewriteLinesPaired | src/build/Tasks/UpdateVersionTask.cs:61-72 | with keys paired with values, each version goes into the line after its key and nothing else changes; it fails exactly when the last line is a key |
| BuildVersion.PlistRewrite | src/build/Tasks/UpdateVersionTask.cs:54-86 | a plist that mentions the bundle version fails with an out-of-range index exactly when its last line is a key; otherwise the values after the version keys get the short and full versions |

## Left out

- I/O is left out: reading and writing files, ZIP decoding, `entry.Open()`, `EnsureInitialized` and `Dispose`. Whether an archive opens is an input.
- XML parsing and serialisation (`XDocument.LoadAsync`, `ToString`) are left out. Documents are given as trees, and mixed content is not modelled.
- The XPath engine and the general regular-expression engine are left out. Only the fixed patterns the code uses are modelled.
- Process execution is left out: `ExeWrapper`, `RunMakeAppx`'s run and SDK path probing. The process's output lines and exit code are inputs.
- `FileVersionInfo`, tool versions, the OS version and the entry assembly's version are inputs, so `MsixHeroBrandingInjector.GetVersion` is not modelled.
- Logo creation, temporary files, bundled resources and `AnalyzeDirectory` are left out, as file-system work.
- `WrappedProgress` and `RangeProgress` are left out, because they compute in floating point.
- Build orchestration outside `UpdateVersionTask`'s content rewrites is left out.
- Logging, `async` and cancellation are left out, because the modelled behaviour is sequential.
- Code that is not part of this model is taken as parameters:
  - the `AppxValidatorFactory` validators;
  - the `AppxPackageArchitecture` enumeration and its `Enum.TryParse`;
  - `CommandLineHelper.EncodeParameterArgument`.
- The `FileConstants` values are not part of this model. They are fixed as `AppxManifest.xml`, `AppxBundleManifest.xml`, `AppxMetadata/AppxBundleManifest.xml` and `.appx`/`.msix`/`.appxbundle`/`.msixbundle`.
- `MsixPackageType` is a set of flags, which assumes each flag is a distinct bit.
- `ExceptionGuard.Guard` is taken to swallow every exception. An executable whose version information cannot be read is `None`.
- `ToLowerInvariant`, `ToUpperInvariant` and `\d` are restricted to ASCII.
- Strings are sequences of Unicode scalar values, while .NET counts UTF-16 code units. Lengths and offsets therefore agree with the program only for text without surrogate pairs. This affects the 15-character custom-capability rule, the three-character minimum of `GetNotEmptyValueFromList` and the `Substring(error.Length)` cut.
- Culture-sensitive `StartsWith(string)`, used for the manifest validation line, is modelled as ordinal, so ignorable characters such as a soft hyphen are not skipped.
- `Path.GetDirectoryName` collapses repeated separators (`Assets//Logo.png` gives `Assets`); the resource lookup keeps them.
- `GetPrefixOfNamespace` also answers the predefined `xml` prefix for the XML namespace; only the manifest namespace URIs are looked up, so this is not modelled.
- The composition of `AdjustManifest` over the bundled template is not stated as one function. Its steps are modelled one by one: the capability, the identity command, the legacy declarations, the property nodes, the application ids and the branding run.
- `CreateApplicationNodeFromExe` is modelled only through its display texts (`VisualTexts`). Its "App1" fallback id is always overwritten by the id loop. Its missing-file exception is file-system work.
- The options' logo flag, architecture and description only pass through the model.
- EntryPoints.OrderEntryPoints: the result is proved ordered and idempotent, but the stability of `OrderBy` between equal keys is not stated.
- BuildVersion.FourPartRoundTrip: states the round trip only for non-negative numbers, the range `System.Version` accepts.
- BuildVersion.RewriteLinesPaired: characterises the plist loop only for lists whose keys are each followed by their value line. Lists with two key lines in a row are left to the function.
- BuildVersion.PlistRewrite: inherits the same restriction to paired lists.
- BuildVersion.AssemblyInformationalOnly: characterises the assembly rewrite for a file holding only the informational placeholder; `BuildVersion.AssemblyWithoutPlaceholders` covers a file with none.
- SummaryReader.AccentColorMeaning: states that the accent colour is the background of some visual element, not that it is the first in application and namespace order, which the function computes.
- PackageIdentity.FieldValue: the validators are parameters, so the contract cannot say which publishers, names, versions or resource ids they accept.
- Wildcard.WrittenMatches: a written pattern outside the modelled regular-expression fragment is taken to match no name. Such a pattern arises when raw text before the last wildcard character holds a regular-expression operator other than `.`, such as `(`, `[` or `+`. .NET would compile it with its full syntax, or throw while compiling it.
- Paths.FileName: `:` anywhere ends a file name, as in .NET Framework. .NET Core on Windows treats `:` as a boundary only inside the drive root, so for a name such as `ab:c.exe` it keeps the whole name.

## Findings

| source | as written | input that shows it | evidently intended | confidence | as-written member | corrected member |
|---|---|---|---|---|---|---|
| src/WindowsTooling/AppxManifest/VersionStringOperations.cs:86 | the too-many-units message names `{1}` but passes one argument, so `string.Format` throws `FormatException` | mask `1.2.3.4.5` | an `ArgumentException` naming the mask | not executed | VersionMask.TooManyUnitsRejected | VersionMask.ResolveArgumentErrors |
| src/WindowsTooling/AppxManifest/VersionStringOperations.cs:50 | the same template for an unparseable current version throws `FormatException` | current version `abc` | an `ArgumentException` naming the text | not executed | VersionMask.ResolveMaskedTextAsWritten | VersionMask.ResolveMaskedText |
| src/WindowsTooling/Helpers/RegexBuilder.cs:27 | the search for wildcard characters starts at `index + 1`, so a leading `*` is escaped as a literal star | wildcard `*.txt` | `.*\.txt$`, any name ending in `.txt` | not executed | Wildcard.WrittenMisreadsLeadingStar | Wildcard.FromWildcardFixed |
| src/WindowsTooling/AppxManifest/FileReader/ZipArchiveFileReaderAdapter.cs:127 | the last slash is found in the root-stripped suffix but used as an index into the full name | root `Assets`, wildcard `logo.png`, all directories, entry `Assets/img/logo.png` | match name `logo.png`, so the entry is listed | not executed | ZipReader.NestedEntryMissed | ZipReader.AllFilesMeaning |
| src/WindowsTooling/AppxManifest/FileReader/ZipArchiveFileReaderAdapter.cs:195 | `Path.GetDirectoryName` returns `\` separators, which no entry name starts with | `Assets/Icons/Logo.png` with entry `Assets/Icons/Logo.scale-200.png` | the variant is found | not executed | ZipReader.NestedVariantMissed | ZipReader.VariantFound |
| src/WindowsTooling/AppxManifest/AppxIdentityReader.cs:93 | a package file stream's manifest is given to the bundle extractor | a file stream `app.msix` holding a valid `AppxManifest.xml` | read with the package extractor | not executed | IdentityReader.PackageStreamMisread | IdentityReader.PackagePathDispatch |
| src/WindowsTooling/AppxManifest/AppxIdentityReader.cs:102-110 | the lower-cased file name is compared with mixed-case constants, so the switch never matches | a file stream named `AppxManifest.xml` with a `Package` root in an unknown namespace | the package extractor's error is reported | not executed | IdentityReader.LowerCasedSwitchNeverMatches | IdentityReader.NamedManifestFallsThrough |
| src/WindowsTooling/Sdk/MakeAppxWrapper.cs:109-133 | the detail is cut at the match's length from the start of the text, not from the match's end, on "Error info" lines (line 109) and `0x` lines (line 133) alike | `MakeAppx : error: Error info: error in 0x1: broken` | detail `broken` | not executed | MakeAppx.DetailCutAsWritten | MakeAppx.DetailCutExample |
| src/WindowsTooling/AppxManifest/AppxManifestCreator.cs:336 | `xmlns:uap4` is bound to the UAP 6 URI | a template root without namespace declarations | `uap4` bound to the UAP 4 URI | not executed | ManifestCreator.Uap4LeftUndeclared | ManifestCreator.LegacyPrefixesBindAll |

=== FILE: branding.dfy ===
/** `MsixHeroBrandingInjector`: stamps the manifest's build metadata with
    the versions of the tools that produced the package. */
module Branding {
  import opened Wrappers
  import opened Text
  import opened Xml
  import opened EditExecutor
  import opened BuildMetadata

  /** Which existing versions the injector may overwrite. */
  datatype OverrideOption = Default | PreferExisting | PreferIncoming

  /** The versions the injector reads from its environment: the SDK
      tools' product versions ("" when the file is missing), the operating
      system's version and the running application's version, the last
      two possibly unknown. */
  datatype ToolVersions = ToolVersions(
    signTool: string, makePri: string, makeAppx: string,
    operatingSystem: Option<string>, msixHero: Option<string>)

  const MsixHeroKey: string := "MsixHero"
  const MakePriKey: string := "MakePri.exe"
  const SignToolKey: string := "SignTool.exe"
  const MakeAppxKey: string := "MakeAppx.exe"
  const OperatingSystemKey: string := "OperatingSystem"

  /** The two dictionaries the injector fills, in insertion order: the
      entries to overwrite and the entries to write only when missing. */
  datatype Plan = Plan(toWrite: seq<(string, string)>, onlyIfMissing: seq<(string, string)>)

  function PlanFor(o: OverrideOption, t: ToolVersions): (p: Plan)
    ensures |p.toWrite| > 0 && p.toWrite[0] == (MsixHeroKey, t.msixHero.GetOr(""))
  {
    var hero := (MsixHeroKey, t.msixHero.GetOr(""));
    var makePri := (MakePriKey, t.makePri);
    var signTool := (SignToolKey, t.signTool);
    var makeAppx := (MakeAppxKey, t.makeAppx);
    var os := (OperatingSystemKey, t.operatingSystem.GetOr(""));
    match o
    case Default => Plan([hero, signTool, makeAppx], [makePri, os])
    case PreferExisting => Plan([hero], [makePri, signTool, makeAppx, os])
    case PreferIncoming => Plan([hero, makePri, signTool, makeAppx, os], [])
  }

  /** The five keys differ even ignoring case. */
  lemma KeysDiffer()
    ensures !EqualsIgnoreCase(MsixHeroKey, MakePriKey) && !EqualsIgnoreCase(MsixHeroKey, SignToolKey)
    ensures !EqualsIgnoreCase(MsixHeroKey, MakeAppxKey) && !EqualsIgnoreCase(MsixHeroKey, OperatingSystemKey)
    ensures !EqualsIgnoreCase(MakePriKey, SignToolKey) && !EqualsIgnoreCase(MakePriKey, MakeAppxKey)
    ensures !EqualsIgnoreCase(MakePriKey, OperatingSystemKey) && !EqualsIgnoreCase(SignToolKey, MakeAppxKey)
    ensures !EqualsIgnoreCase(SignToolKey, OperatingSystemKey) && !EqualsIgnoreCase(MakeAppxKey, OperatingSystemKey)
  {
    assert Fold(SignToolKey)[0] == 's' && Fold(MakeAppxKey)[0] == 'm';
  }

  /** Entry lists drawn from the five keys with no key twice. */
  lemma PlanDistinctFor(w: seq<(string, string)>, m: seq<(string, string)>, o: OverrideOption, t: ToolVersions)
    requires PlanFor(o, t) == Plan(w, m)
    ensures DistinctKeys(w) && DistinctKeys(m) && DisjointKeys(w, m)
  {
    KeysDiffer();
  }

  /** No dictionary lists a key twice, even ignoring case, and no key is
      in both. */
  lemma PlanDistinct(o: OverrideOption, t: ToolVersions)
    ensures var p := PlanFor(o, t);
      DistinctKeys(p.toWrite) && DistinctKeys(p.onlyIfMissing) && DisjointKeys(p.toWrite, p.onlyIfMissing)
  {
    var p := PlanFor(o, t);
    match o
    case Default => PlanDistinctFor(p.toWrite, p.onlyIfMissing, Default, t);
    case PreferExisting => PlanDistinctFor(p.toWrite, p.onlyIfMissing, PreferExisting, t);
    case PreferIncoming => PlanDistinctFor(p.toWrite, p.onlyIfMissing, PreferIncoming, t);
  }

  /** Every tool's entry lands in exactly one dictionary: `MsixHero` is
      always overwritten, `SignTool.exe` and `MakeAppx.exe` unless existing
      values are preferred, `MakePri.exe` and `OperatingSystem` only when
      incoming values are preferred. */
  lemma PlanPlacement(o: OverrideOption, t: ToolVersions)
    ensures var p := PlanFor(o, t);
      && |p.toWrite| + |p.onlyIfMissing| == 5
      && (MsixHeroKey, t.msixHero.GetOr("")) in p.toWrite
      && ((SignToolKey, t.signTool) in p.toWrite <==> o != PreferExisting)
      && ((SignToolKey, t.signTool) in p.onlyIfMissing <==> o == PreferExisting)
      && ((MakeAppxKey, t.makeAppx) in p.toWrite <==> o != PreferExisting)
      && ((MakeAppxKey, t.makeAppx) in p.onlyIfMissing <==> o == PreferExisting)
      && ((MakePriKey, t.makePri) in p.toWrite <==> o == PreferIncoming)
      && ((MakePriKey, t.makePri) in p.onlyIfMissing <==> o != PreferIncoming)
      && ((OperatingSystemKey, t.operatingSystem.GetOr("")) in p.toWrite <==> o == PreferIncoming)
      && ((OperatingSystemKey, t.operatingSystem.GetOr("")) in p.onlyIfMissing <==> o != PreferIncoming)
  {
    KeysDiffer();
  }

  /** `Inject`: the entries to overwrite are written first, then the
      entries to write only when missing; a failure of the first run stops
      the second. */
  function Inject(d: Document, o: OverrideOption, t: ToolVersions): (r: Outcome<ValueChange>)
    ensures d.root.None? ==> r == Outcome(d, [], Some(InvalidOperation(NoRootMessage)))
  {
    var p := PlanFor(o, t);
    var first := SetMetaData(d, SetBuildMetaData(p.toWrite, false));
    if first.error.Some? || |p.onlyIfMissing| == 0 then first
    else
      var second := SetMetaData(first.doc, SetBuildMetaData(p.onlyIfMissing, true));
      Outcome(second.doc, first.events + second.events, second.error)
  }

  /** Once the `build` namespace is declared by a successful run, a
      second run on the resulting document cannot fail. */
  lemma SecondRunSucceeds(d: Document, c1: SetBuildMetaData, c2: SetBuildMetaData)
    requires d.root.Some? && ValidDeclarations(d.root.value)
    requires SetMetaData(d, c1).error.None?
    ensures SetMetaData(SetMetaData(d, c1).doc, c2).error.None?
  {
    var first := SetMetaData(d, c1);
    SetMetaDataUpdates(d, c1);
    EnsureUriStable(d, VersionedUri(Build, 0), FamilyPrefix(Build), first.doc, FamilyPrefix(Build));
  }

  /** The metadata the injector leaves when it succeeds. */
  predicate Injected(before: seq<Element>, after: seq<Element>, p: Plan) {
    && (forall i :: 0 <= i < |p.toWrite| ==> HasVersion(after, ItemName, p.toWrite[i].0, p.toWrite[i].1))
    && forall i :: 0 <= i < |p.onlyIfMissing| ==>
         Filled(before, after, ItemName, p.onlyIfMissing[i].0, p.onlyIfMissing[i].1)
  }

  /** The two runs on `Metadata`: the overwriting run, then the run that
      keeps existing versions. */
  lemma TwoRuns(meta: Element, p: Plan)
    requires DistinctKeys(p.toWrite) && DistinctKeys(p.onlyIfMissing) && DisjointKeys(p.toWrite, p.onlyIfMissing)
    ensures var u1 := UpsertAll(meta, ItemName, p.toWrite, false);
      Injected(meta.children, UpsertAll(u1.meta, ItemName, p.onlyIfMissing, true).meta.children, p)
  {
    OverwrittenSurvive(meta, p);
    MissingFilled(meta, p);
  }

  /** The entries to overwrite keep their versions through the second run. */
  lemma OverwrittenSurvive(meta: Element, p: Plan)
    requires DistinctKeys(p.toWrite) && DisjointKeys(p.toWrite, p.onlyIfMissing)
    ensures var u1 := UpsertAll(meta, ItemName, p.toWrite, false);
      var after := UpsertAll(u1.meta, ItemName, p.onlyIfMissing, true).meta.children;
      forall i :: 0 <= i < |p.toWrite| ==> HasVersion(after, ItemName, p.toWrite[i].0, p.toWrite[i].1)
  {
    var w, m := p.toWrite, p.onlyIfMissing;
    var u1 := UpsertAll(meta, ItemName, w, false);
    var u2 := UpsertAll(u1.meta, ItemName, m, true);
    UpsertAllOverwrites(meta, ItemName, w);
    forall i | 0 <= i < |w| ensures HasVersion(u2.meta.children, ItemName, w[i].0, w[i].1) {
      forall j | 0 <= j < |m| ensures !SameKey(m[j], w[i].0) {
        assert !SameKey(w[i], m[j].0);
      }
      UpsertAllUntouched(u1.meta, ItemName, m, true, w[i].0);
      HasVersionTransfer(u1.meta.children, u2.meta.children, ItemName, w[i].0, w[i].1);
    }
  }

  /** The entries to write only when missing are filled, judged against
      the `Metadata` before both runs. */
  lemma MissingFilled(meta: Element, p: Plan)
    requires DistinctKeys(p.onlyIfMissing) && DisjointKeys(p.toWrite, p.onlyIfMissing)
    ensures var u1 := UpsertAll(meta, ItemName, p.toWrite, false);
      var after := UpsertAll(u1.meta, ItemName, p.onlyIfMissing, true).meta.children;
      forall j :: 0 <= j < |p.onlyIfMissing| ==>
        Filled(meta.children, after, ItemName, p.onlyIfMissing[j].0, p.onlyIfMissing[j].1)
  {
    var w, m := p.toWrite, p.onlyIfMissing;
    var u1 := UpsertAll(meta, ItemName, w, false);
    var u2 := UpsertAll(u1.meta, ItemName, m, true);
    UpsertAllFillsMissing(u1.meta, ItemName, m);
    forall j | 0 <= j < |m| ensures Filled(meta.children, u2.meta.children, ItemName, m[j].0, m[j].1) {
      assert forall i :: 0 <= i < |w| ==> !SameKey(w[i], m[j].0);
      UpsertAllUntouched(meta, ItemName, w, false, m[j].0);
      FilledTransfer(meta.children, u1.meta.children, u2.meta.children, ItemName, m[j].0, m[j].1);
    }
  }

  /** The injector fails exactly when the `build` namespace cannot be
      declared, and then changes nothing; otherwise every entry to
      overwrite is in the document's `Metadata` with its version, and
      every entry to write only when missing either left the versioned
      `Item` there was or carries its own version. */
  lemma InjectMeaning(d: Document, o: OverrideOption, t: ToolVersions)
    requires d.root.Some? && ValidDeclarations(d.root.value)
    ensures var r := Inject(d, o, t);
      && (r.error.Some? <==> EnsureFamily(d, Build, 0).Failure?)
      && (r.error.Some? ==> r.doc == d && r.events == [])
      && (r.error.None? ==>
            Metadata(r.doc).Some? && Injected(MetadataOrNew(d).children, Metadata(r.doc).value.children, PlanFor(o, t)))
  {
    var p := PlanFor(o, t);
    var c1 := SetBuildMetaData(p.toWrite, false);
    var c2 := SetBuildMetaData(p.onlyIfMissing, true);
    var first := SetMetaData(d, c1);
    if first.error.None? {
      PlanDistinct(o, t);
      SetMetaDataUpdates(d, c1);
      var u1 := UpsertAll(MetadataOrNew(d), ItemName, p.toWrite, false);
      TwoRuns(MetadataOrNew(d), p);
      if |p.onlyIfMissing| == 0 {
        assert UpsertAll(u1.meta, ItemName, p.onlyIfMissing, true).meta == u1.meta;
      } else {
        SecondRunSucceeds(d, c1, c2);
        SetMetaDataUpdates(first.doc, c2);
      }
    }
  }
}

=== FILE: build_metadata.dfy ===
/** `SetBuildMetaDataExecutor`: records tool versions as `Item` elements
    of the manifest's `build:Metadata` element. */
module BuildMetadata {
  import opened Wrappers
  import opened Text
  import opened Xml
  import opened EditExecutor

  /** The `SetBuildMetaData` command: the dictionary of names and versions,
      in its enumeration order, and whether existing versions are kept. */
  datatype SetBuildMetaData = SetBuildMetaData(values: seq<(string, string)>, onlyCreateNew: bool)

  /** The message of the exception for a document without a root. */
  const NoRootMessage: string := "The path must be a registry path."

  const MetadataLocal: string := "Metadata"
  const ItemLocal: string := "Item"
  const ItemNameAttr: QName := Plain("Name")
  const ItemVersionAttr: QName := Plain("Version")

  /** An `Item` whose `Name` is `key`, ignoring case. */
  predicate Names(e: Element, item: QName, key: string) {
    e.name == item && Attribute(e, ItemNameAttr).Some? && EqualsIgnoreCase(Attribute(e, ItemNameAttr).value, key)
  }

  /** The first `Item` child naming `key`. */
  function FindItem(cs: seq<Element>, item: QName, key: string): (r: Option<nat>)
    ensures r.Some? ==> r.value < |cs| && Names(cs[r.value], item, key)
    ensures r.Some? ==> forall j :: 0 <= j < r.value ==> !Names(cs[j], item, key)
    ensures r.None? ==> forall j :: 0 <= j < |cs| ==> !Names(cs[j], item, key)
  {
    if |cs| == 0 then None
    else if Names(cs[0], item, key) then Some(0)
    else match FindItem(cs[1..], item, key)
      case None => None
      case Some(k) => Some(k + 1)
  }

  /** Keys that differ only in case find the same `Item`. */
  lemma FindItemIgnoresCase(cs: seq<Element>, item: QName, k1: string, k2: string)
    requires EqualsIgnoreCase(k1, k2)
    ensures FindItem(cs, item, k1) == FindItem(cs, item, k2)
  {
    forall j | 0 <= j < |cs| ensures Names(cs[j], item, k1) == Names(cs[j], item, k2) {
    }
    FindItemSameNames(cs, cs, item, k1, k2);
  }

  /** Lists that agree, position by position, on which elements name two
      keys give the same first match. */
  lemma {:induction false} FindItemSameNames(cs: seq<Element>, ds: seq<Element>, item: QName, k1: string, k2: string)
    requires |cs| == |ds|
    requires forall j :: 0 <= j < |cs| ==> Names(cs[j], item, k1) == Names(ds[j], item, k2)
    ensures FindItem(cs, item, k1) == FindItem(ds, item, k2)
    decreases |cs|
  {
    if |cs| > 0 && !Names(cs[0], item, k1) {
      FindItemSameNames(cs[1..], ds[1..], item, k1, k2);
    }
  }

  /** A match in a list stays the first match when elements that name
      the same keys replace the others and more elements follow. */
  lemma {:induction false} FindItemExtended(cs: seq<Element>, ds: seq<Element>, item: QName, key: string)
    requires |cs| <= |ds| && FindItem(cs, item, key).Some?
    requires forall j :: 0 <= j < |cs| ==> Names(cs[j], item, key) == Names(ds[j], item, key)
    ensures FindItem(ds, item, key) == FindItem(cs, item, key)
    decreases |cs|
  {
    if !Names(cs[0], item, key) {
      FindItemExtended(cs[1..], ds[1..], item, key);
    }
  }

  /** The `Item` created for a key: its `Name`, then its `Version`. */
  function NewItem(item: QName, key: string, value: string): (e: Element)
    ensures Names(e, item, key) && Attribute(e, ItemVersionAttr) == Some(value)
  {
    SetAttributeValue(SetAttributeValue(NewElement(item), ItemNameAttr, key), ItemVersionAttr, value)
  }

  /** `Metadata` after one or more entries, and the events raised. */
  datatype Upserted = Upserted(meta: Element, events: seq<ValueChange>)

  /** Whether an entry is skipped: its `Item` has a version that must
      not be overwritten. */
  predicate Skipped(meta: Element, item: QName, key: string, onlyCreateNew: bool) {
    match FindItem(meta.children, item, key)
    case None => false
    case Some(i) => onlyCreateNew && Attribute(meta.children[i], ItemVersionAttr).Some?
  }

  /** One entry of the loop: the `Item` naming `key` gets `value` as its
      version; a new `Item` is appended when none names it. */
  function Upsert(meta: Element, item: QName, key: string, value: string, onlyCreateNew: bool): (r: Upserted)
    ensures r.meta.name == meta.name && r.meta.attrs == meta.attrs && r.meta.text == meta.text
    ensures |meta.children| <= |r.meta.children|
    ensures forall j :: 0 <= j < |meta.children| ==>
      (r.meta.children[j].name == meta.children[j].name
       && Attribute(r.meta.children[j], ItemNameAttr) == Attribute(meta.children[j], ItemNameAttr))
  {
    match FindItem(meta.children, item, key)
    case None => Upserted(AppendChild(meta, NewItem(item, key, value)), [Created(key, value)])
    case Some(i) =>
      var node := meta.children[i];
      match Attribute(node, ItemVersionAttr)
      case Some(previous) =>
        if onlyCreateNew then Upserted(meta, [])
        else Upserted(meta.(children := meta.children[i := SetAttributeValue(node, ItemVersionAttr, value)]), [Changed(key, previous, value)])
      case None =>
        Upserted(meta.(children := meta.children[i := SetAttributeValue(node, ItemVersionAttr, value)]), [Created(key, value)])
  }

  /** The first `Item` naming `key` has a version. */
  predicate Versioned(cs: seq<Element>, item: QName, key: string) {
    FindItem(cs, item, key).Some? && Attribute(cs[FindItem(cs, item, key).value], ItemVersionAttr).Some?
  }

  /** The first `Item` naming `key` has version `value`. */
  predicate HasVersion(cs: seq<Element>, item: QName, key: string, value: string) {
    FindItem(cs, item, key).Some? && Attribute(cs[FindItem(cs, item, key).value], ItemVersionAttr) == Some(value)
  }

  /** A skipped entry changes nothing and raises no event. */
  lemma UpsertSkips(meta: Element, item: QName, key: string, value: string, onlyCreateNew: bool)
    requires Skipped(meta, item, key, onlyCreateNew)
    ensures Upsert(meta, item, key, value, onlyCreateNew) == Upserted(meta, [])
  {
  }

  /** An entry that is not skipped leaves the `Item` naming its key with
      the entry's version, and raises one event for that key and value. */
  lemma UpsertWrites(meta: Element, item: QName, key: string, value: string, onlyCreateNew: bool)
    requires !Skipped(meta, item, key, onlyCreateNew)
    ensures var r := Upsert(meta, item, key, value, onlyCreateNew);
      && HasVersion(r.meta.children, item, key, value)
      && |r.events| == 1 && r.events[0].key == key && r.events[0].value == value
  {
    var r := Upsert(meta, item, key, value, onlyCreateNew);
    if FindItem(meta.children, item, key).None? {
      FindItemAppend(meta.children, NewItem(item, key, value), item, key);
    } else {
      FindItemExtended(meta.children, r.meta.children, item, key);
    }
  }

  /** Whatever the entry, afterwards an `Item` with a version names its key. */
  lemma UpsertVersioned(meta: Element, item: QName, key: string, value: string, onlyCreateNew: bool)
    ensures Versioned(Upsert(meta, item, key, value, onlyCreateNew).meta.children, item, key)
  {
    if !Skipped(meta, item, key, onlyCreateNew) {
      UpsertWrites(meta, item, key, value, onlyCreateNew);
    }
  }

  /** An entry touches no existing child but the `Item` naming its key,
      and that one only when the entry is not skipped. */
  lemma UpsertLeaves(meta: Element, item: QName, key: string, value: string, onlyCreateNew: bool, idx: nat)
    requires idx < |meta.children|
    requires FindItem(meta.children, item, key) != Some(idx) || Skipped(meta, item, key, onlyCreateNew)
    ensures Upsert(meta, item, key, value, onlyCreateNew).meta.children[idx] == meta.children[idx]
  {
  }

  /** The shape of one entry's change: a new `Item` is appended exactly
      when none named the key, otherwise the child count is kept; the
      event is a change carrying the previous version exactly when the
      `Item` had one. */
  lemma UpsertEvent(meta: Element, item: QName, key: string, value: string, onlyCreateNew: bool)
    requires !Skipped(meta, item, key, onlyCreateNew)
    ensures var r := Upsert(meta, item, key, value, onlyCreateNew);
      && (FindItem(meta.children, item, key).None? ==>
            r.meta.children == meta.children + [NewItem(item, key, value)] && r.events == [Created(key, value)])
      && (FindItem(meta.children, item, key).Some? ==>
            |r.meta.children| == |meta.children|
            && r.events == [match Attribute(meta.children[FindItem(meta.children, item, key).value], ItemVersionAttr)
                            case None => Created(key, value)
                            case Some(previous) => Changed(key, previous, value)])
  {
  }

  lemma {:induction false} FindItemAppend(cs: seq<Element>, x: Element, item: QName, key: string)
    requires FindItem(cs, item, key).None? && Names(x, item, key)
    ensures FindItem(cs + [x], item, key) == Some(|cs|)
    decreases |cs|
  {
    if |cs| > 0 {
      assert (cs + [x])[1..] == cs[1..] + [x];
      FindItemAppend(cs[1..], x, item, key);
    }
  }

  /** The loop over the command's entries, in order. */
  function UpsertAll(meta: Element, item: QName, values: seq<(string, string)>, onlyCreateNew: bool): (r: Upserted)
    ensures r.meta.name == meta.name && r.meta.attrs == meta.attrs && r.meta.text == meta.text
    ensures |meta.children| <= |r.meta.children|
    ensures forall j :: 0 <= j < |meta.children| ==>
      (r.meta.children[j].name == meta.children[j].name
       && Attribute(r.meta.children[j], ItemNameAttr) == Attribute(meta.children[j], ItemNameAttr))
    decreases |values|
  {
    if |values| == 0 then Upserted(meta, [])
    else
      var u := Upsert(meta, item, values[0].0, values[0].1, onlyCreateNew);
      var rest := UpsertAll(u.meta, item, values[1..], onlyCreateNew);
      Upserted(rest.meta, u.events + rest.events)
  }

  /** Whether an entry's key names `key`, ignoring case. */
  predicate SameKey(entry: (string, string), key: string) {
    EqualsIgnoreCase(entry.0, key)
  }

  /** An `Item` is left as it was by entries whose keys all differ from
      its name, and by every entry when it has a version and existing
      versions are kept; it stays the first `Item` naming its key. */
  lemma {:induction false} UpsertAllKeeps(meta: Element, item: QName, values: seq<(string, string)>, onlyCreateNew: bool, key: string, idx: nat)
    requires FindItem(meta.children, item, key) == Some(idx)
    requires (onlyCreateNew && Attribute(meta.children[idx], ItemVersionAttr).Some?)
      || forall i :: 0 <= i < |values| ==> !SameKey(values[i], key)
    ensures var r := UpsertAll(meta, item, values, onlyCreateNew);
      FindItem(r.meta.children, item, key) == Some(idx) && r.meta.children[idx] == meta.children[idx]
    decreases |values|
  {
    if |values| > 0 {
      var (k, v) := values[0];
      var u := Upsert(meta, item, k, v, onlyCreateNew);
      assert FindItem(meta.children, item, k) != Some(idx) || Skipped(meta, item, k, onlyCreateNew) by {
        if !(onlyCreateNew && Attribute(meta.children[idx], ItemVersionAttr).Some?) {
          assert !SameKey(values[0], key);
        }
      }
      UpsertLeaves(meta, item, k, v, onlyCreateNew, idx);
      FindItemExtended(meta.children, u.meta.children, item, key);
      UpsertAllKeeps(u.meta, item, values[1..], onlyCreateNew, key, idx);
    }
  }

  /** A child with a version still has one after any entry. */
  lemma UpsertKeepsVersion(meta: Element, item: QName, key: string, value: string, onlyCreateNew: bool, idx: nat)
    requires idx < |meta.children| && Attribute(meta.children[idx], ItemVersionAttr).Some?
    ensures Attribute(Upsert(meta, item, key, value, onlyCreateNew).meta.children[idx], ItemVersionAttr).Some?
  {
  }

  /** An `Item` with a version keeps one, and stays the first `Item`
      naming its key. */
  lemma {:induction false} UpsertAllKeepsVersioned(meta: Element, item: QName, values: seq<(string, string)>, onlyCreateNew: bool, key: string, idx: nat)
    requires FindItem(meta.children, item, key) == Some(idx)
    requires Attribute(meta.children[idx], ItemVersionAttr).Some?
    ensures var r := UpsertAll(meta, item, values, onlyCreateNew);
      FindItem(r.meta.children, item, key) == Some(idx) && Attribute(r.meta.children[idx], ItemVersionAttr).Some?
    decreases |values|
  {
    if |values| > 0 {
      var (k, v) := values[0];
      var u := Upsert(meta, item, k, v, onlyCreateNew);
      UpsertKeepsVersion(meta, item, k, v, onlyCreateNew, idx);
      FindItemExtended(meta.children, u.meta.children, item, key);
      UpsertAllKeepsVersioned(u.meta, item, values[1..], onlyCreateNew, key, idx);
    }
  }

  lemma {:induction false} FindItemAppendOther(cs: seq<Element>, x: Element, item: QName, key: string)
    requires FindItem(cs, item, key).None? && !Names(x, item, key)
    ensures FindItem(cs + [x], item, key).None?
    decreases |cs|
  {
    if |cs| > 0 {
      assert (cs + [x])[1..] == cs[1..] + [x];
      FindItemAppendOther(cs[1..], x, item, key);
    } else {
      assert cs + [x] == [x];
    }
  }

  /** An entry for another key leaves a key without `Item` without one. */
  lemma UpsertKeepsAbsent(meta: Element, item: QName, k: string, v: string, onlyCreateNew: bool, key: string)
    requires FindItem(meta.children, item, key).None? && !EqualsIgnoreCase(k, key)
    ensures FindItem(Upsert(meta, item, k, v, onlyCreateNew).meta.children, item, key).None?
  {
    var u := Upsert(meta, item, k, v, onlyCreateNew);
    if FindItem(meta.children, item, k).None? {
      FindItemAppendOther(meta.children, NewItem(item, k, v), item, key);
    } else {
      FindItemSameNames(meta.children, u.meta.children, item, key, key);
    }
  }

  /** Entries whose keys all differ from `key` leave the first `Item`
      naming it where and as it was, and add none when there was none. */
  lemma {:induction false} UpsertAllUntouched(meta: Element, item: QName, values: seq<(string, string)>, onlyCreateNew: bool, key: string)
    requires forall i :: 0 <= i < |values| ==> !SameKey(values[i], key)
    ensures SameItem(meta.children, UpsertAll(meta, item, values, onlyCreateNew).meta.children, item, key)
    decreases |values|
  {
    match FindItem(meta.children, item, key)
    case Some(idx) =>
      UpsertAllKeeps(meta, item, values, onlyCreateNew, key, idx);
    case None =>
      if |values| > 0 {
        var (k, v) := values[0];
        assert !SameKey(values[0], key);
        UpsertKeepsAbsent(meta, item, k, v, onlyCreateNew, key);
        var rest := values[1..];
        forall i | 0 <= i < |rest| ensures !SameKey(rest[i], key) {
          assert rest[i] == values[i + 1];
        }
        UpsertAllUntouched(Upsert(meta, item, k, v, onlyCreateNew).meta, item, rest, onlyCreateNew, key);
      }
  }

  /** Two entry lists with no key in common, ignoring case. */
  predicate DisjointKeys(a: seq<(string, string)>, b: seq<(string, string)>) {
    forall i, j :: 0 <= i < |a| && 0 <= j < |b| ==> !SameKey(a[i], b[j].0)
  }

  /** What an entry kept-if-existing leaves in the end: the `Item` there
      was when it had a version, else an `Item` with the entry's version. */
  predicate Filled(before: seq<Element>, after: seq<Element>, item: QName, key: string, value: string) {
    if Versioned(before, item, key)
    then FindItem(after, item, key) == FindItem(before, item, key)
      && after[FindItem(before, item, key).value] == before[FindItem(before, item, key).value]
    else HasVersion(after, item, key, value)
  }

  /** Whether `key`'s first `Item` is the same, at the same place, in two
      child lists. */
  predicate SameItem(before: seq<Element>, after: seq<Element>, item: QName, key: string) {
    FindItem(after, item, key) == FindItem(before, item, key)
    && (FindItem(before, item, key).Some? ==>
          after[FindItem(before, item, key).value] == before[FindItem(before, item, key).value])
  }

  /** Being filled carries over to a list where the key's `Item` is the
      same. */
  lemma FilledTransfer(a: seq<Element>, b: seq<Element>, c: seq<Element>, item: QName, key: string, value: string)
    requires SameItem(a, b, item, key) && Filled(b, c, item, key, value)
    ensures Filled(a, c, item, key, value)
  {
  }

  /** The first entry of a run that keeps existing versions is filled
      when no later entry shares its key. */
  lemma FillsFirst(meta: Element, item: QName, k: string, v: string, rest: seq<(string, string)>)
    requires forall i :: 0 <= i < |rest| ==> !SameKey(rest[i], k)
    ensures Filled(meta.children, UpsertAll(Upsert(meta, item, k, v, true).meta, item, rest, true).meta.children, item, k, v)
  {
    var u := Upsert(meta, item, k, v, true);
    UpsertAllUntouched(u.meta, item, rest, true, k);
    var c := UpsertAll(u.meta, item, rest, true).meta.children;
    if Versioned(meta.children, item, k) {
      FilledWhenKept(meta, item, k, v, c);
    } else {
      FilledWhenWritten(meta, item, k, v, c);
    }
  }

  /** An entry written because its key had no `Item` with a version leaves
      its key filled in any list where its `Item` stays the same. */
  lemma FilledWhenWritten(meta: Element, item: QName, k: string, v: string, c: seq<Element>)
    requires !Versioned(meta.children, item, k)
    requires SameItem(Upsert(meta, item, k, v, true).meta.children, c, item, k)
    ensures Filled(meta.children, c, item, k, v)
  {
    UpsertWrites(meta, item, k, v, true);
    HasVersionTransfer(Upsert(meta, item, k, v, true).meta.children, c, item, k, v);
  }

  /** An entry skipped because its `Item` has a version leaves that `Item`
      filled in any list where it stays the same. */
  lemma FilledWhenKept(meta: Element, item: QName, k: string, v: string, c: seq<Element>)
    requires Versioned(meta.children, item, k)
    requires SameItem(Upsert(meta, item, k, v, true).meta.children, c, item, k)
    ensures Filled(meta.children, c, item, k, v)
  {
    assert Skipped(meta, item, k, true);
    UpsertSkips(meta, item, k, v, true);
  }

  /** A version read through the key's `Item` carries over to a list
      where that `Item` is the same. */
  lemma HasVersionTransfer(a: seq<Element>, b: seq<Element>, item: QName, key: string, value: string)
    requires SameItem(a, b, item, key) && HasVersion(a, item, key, value)
    ensures HasVersion(b, item, key, value)
  {
  }

  /** An entry for another key does not change whether a key is filled. */
  lemma FillsPast(meta: Element, item: QName, k: string, v: string, key: string, value: string, after: seq<Element>)
    requires !EqualsIgnoreCase(k, key)
    requires Filled(Upsert(meta, item, k, v, true).meta.children, after, item, key, value)
    ensures Filled(meta.children, after, item, key, value)
  {
    UpsertAllUntouched(meta, item, [(k, v)], true, key);
    assert UpsertAll(meta, item, [(k, v)], true).meta == Upsert(meta, item, k, v, true).meta;
  }

  /** When existing versions are kept and the keys differ, a key whose
      `Item` had a version keeps that `Item`, and every other key ends
      with its own version. */
  lemma {:induction false} UpsertAllFillsMissing(meta: Element, item: QName, values: seq<(string, string)>)
    requires DistinctKeys(values)
    ensures var r := UpsertAll(meta, item, values, true);
      forall i :: 0 <= i < |values| ==> Filled(meta.children, r.meta.children, item, values[i].0, values[i].1)
    decreases |values|
  {
    if |values| > 0 {
      var (k, v) := values[0];
      var u := Upsert(meta, item, k, v, true);
      var rest := values[1..];
      var r := UpsertAll(meta, item, values, true);
      assert r.meta == UpsertAll(u.meta, item, rest, true).meta;
      forall i | 0 <= i < |rest| ensures !SameKey(rest[i], k) {
        assert rest[i] == values[i + 1];
        assert !SameKey(values[0], values[i + 1].0);
      }
      FillsFirst(meta, item, k, v, rest);
      assert DistinctKeys(rest) by {
        forall i, j | 0 <= i < j < |rest| ensures !SameKey(rest[i], rest[j].0) {
          assert rest[i] == values[i + 1] && rest[j] == values[j + 1];
        }
      }
      UpsertAllFillsMissing(u.meta, item, rest);
      forall i | 1 <= i < |values| ensures Filled(meta.children, r.meta.children, item, values[i].0, values[i].1) {
        assert values[i] == rest[i - 1];
        assert !SameKey(values[0], values[i].0);
        FillsPast(meta, item, k, v, values[i].0, values[i].1, r.meta.children);
      }
    }
  }

  /** After the loop every key of the command has an `Item` with a
      version. */
  lemma {:induction false} UpsertAllDeclares(meta: Element, item: QName, values: seq<(string, string)>, onlyCreateNew: bool)
    ensures var r := UpsertAll(meta, item, values, onlyCreateNew);
      forall i :: 0 <= i < |values| ==> Versioned(r.meta.children, item, values[i].0)
    decreases |values|
  {
    if |values| > 0 {
      var (k, v) := values[0];
      var u := Upsert(meta, item, k, v, onlyCreateNew);
      var rest := values[1..];
      UpsertVersioned(meta, item, k, v, onlyCreateNew);
      var idx := FindItem(u.meta.children, item, k).value;
      UpsertAllKeepsVersioned(u.meta, item, rest, onlyCreateNew, k, idx);
      UpsertAllDeclares(u.meta, item, rest, onlyCreateNew);
      var r := UpsertAll(meta, item, values, onlyCreateNew);
      assert r.meta == UpsertAll(u.meta, item, rest, onlyCreateNew).meta;
      forall i | 1 <= i < |values| ensures Versioned(r.meta.children, item, values[i].0) {
        assert values[i] == rest[i - 1];
      }
    }
  }

  /** Keys that differ pairwise, ignoring case. */
  predicate DistinctKeys(values: seq<(string, string)>) {
    forall i, j :: 0 <= i < j < |values| ==> !SameKey(values[i], values[j].0)
  }

  /** When versions are overwritten every entry raises exactly one
      event, for its key and value, in order. */
  lemma {:induction false} UpsertAllEvents(meta: Element, item: QName, values: seq<(string, string)>)
    ensures var r := UpsertAll(meta, item, values, false);
      && |r.events| == |values|
      && forall i :: 0 <= i < |values| ==> r.events[i].key == values[i].0 && r.events[i].value == values[i].1
    decreases |values|
  {
    if |values| > 0 {
      var (k, v) := values[0];
      var u := Upsert(meta, item, k, v, false);
      UpsertWrites(meta, item, k, v, false);
      var rest := UpsertAll(u.meta, item, values[1..], false);
      UpsertAllEvents(u.meta, item, values[1..]);
      assert UpsertAll(meta, item, values, false).events == u.events + rest.events;
      EventsFollow(u.events, rest.events, values);
    }
  }

  /** The events of a first entry followed by those of the others, each
      for its own entry. */
  lemma EventsFollow(first: seq<ValueChange>, rest: seq<ValueChange>, values: seq<(string, string)>)
    requires |values| > 0 && |first| == 1
    requires first[0].key == values[0].0 && first[0].value == values[0].1
    requires |rest| == |values| - 1
    requires forall i :: 0 <= i < |rest| ==> rest[i].key == values[1..][i].0 && rest[i].value == values[1..][i].1
    ensures |first + rest| == |values|
    ensures forall i :: 0 <= i < |values| ==> (first + rest)[i].key == values[i].0 && (first + rest)[i].value == values[i].1
  {
    forall i | 1 <= i < |values| ensures (first + rest)[i].key == values[i].0 && (first + rest)[i].value == values[i].1 {
      assert values[i] == values[1..][i - 1];
      assert (first + rest)[i] == rest[i - 1];
    }
  }

  /** When versions are overwritten and the keys differ, every key's
      `Item` ends with that key's version. */
  lemma {:induction false} UpsertAllOverwrites(meta: Element, item: QName, values: seq<(string, string)>)
    requires DistinctKeys(values)
    ensures var r := UpsertAll(meta, item, values, false);
      forall i :: 0 <= i < |values| ==> HasVersion(r.meta.children, item, values[i].0, values[i].1)
    decreases |values|
  {
    if |values| > 0 {
      var (k, v) := values[0];
      var u := Upsert(meta, item, k, v, false);
      var rest := values[1..];
      UpsertWrites(meta, item, k, v, false);
      var idx := FindItem(u.meta.children, item, k).value;
      forall i | 0 <= i < |rest| ensures !SameKey(rest[i], k) {
        assert rest[i] == values[i + 1];
        assert !SameKey(values[0], values[i + 1].0);
      }
      UpsertAllKeeps(u.meta, item, rest, false, k, idx);
      assert DistinctKeys(rest) by {
        forall i, j | 0 <= i < j < |rest| ensures !SameKey(rest[i], rest[j].0) {
          assert rest[i] == values[i + 1] && rest[j] == values[j + 1];
        }
      }
      UpsertAllOverwrites(u.meta, item, rest);
      var r := UpsertAll(meta, item, values, false);
      assert r.meta == UpsertAll(u.meta, item, rest, false).meta;
      forall i | 1 <= i < |values| ensures HasVersion(r.meta.children, item, values[i].0, values[i].1) {
        assert values[i] == rest[i - 1];
      }
    }
  }

  /** When existing versions are kept, no event reports a change. */
  lemma {:induction false} UpsertAllOnlyCreates(meta: Element, item: QName, values: seq<(string, string)>)
    ensures var r := UpsertAll(meta, item, values, true);
      |r.events| <= |values| && forall e :: e in r.events ==> e.Created?
    decreases |values|
  {
    if |values| > 0 {
      var (k, v) := values[0];
      if !Skipped(meta, item, k, true) {
        UpsertEvent(meta, item, k, v, true);
      }
      UpsertAllOnlyCreates(Upsert(meta, item, k, v, true).meta, item, values[1..]);
    }
  }

  /** `SetBuildMetaDataExecutor.Execute`: the `build` namespace is
      declared, the root's first `build:Metadata` child is used (appended
      when missing), and each entry is written to it. */
  function SetMetaData(d: Document, c: SetBuildMetaData): (r: Outcome<ValueChange>)
    ensures d.root.None? ==> r == Outcome(d, [], Some(InvalidOperation(NoRootMessage)))
    ensures d.root.Some? ==> r.doc.root.Some?
    ensures d.root.Some? ==> (r.error.Some? <==> EnsureFamily(d, Build, 0).Failure?)
    ensures r.error.Some? ==> r.doc == d && r.events == []
  {
    if d.root.None? then Outcome(d, [], Some(InvalidOperation(NoRootMessage)))
    else match EnsureFamily(d, Build, 0)
      case Failure(e) => Outcome(d, [], Some(e))
      case Success(ns) =>
        var located := EnsureChild(ns.doc.root.value, QName(ns.uri, MetadataLocal));
        var u := UpsertAll(located.0.children[located.1], QName(ns.uri, ItemLocal), c.values, c.onlyCreateNew);
        Outcome(Document(Some(located.0.(children := located.0.children[located.1 := u.meta]))), u.events, None)
  }

  const MetadataName: QName := QName(BuildUri, MetadataLocal)
  const ItemName: QName := QName(BuildUri, ItemLocal)

  /** The root's first `build:Metadata` child, if any. */
  function Metadata(d: Document): (r: Option<Element>)
    ensures r.Some? ==> d.root.Some? && r.value.name == MetadataName
  {
    if d.root.None? then None
    else match ChildIndex(d.root.value.children, MetadataName)
      case None => None
      case Some(i) => Some(d.root.value.children[i])
  }

  /** The `Metadata` element a command starts from: the existing one, or
      an empty one. */
  function MetadataOrNew(d: Document): (r: Element)
    ensures r.name == MetadataName
  {
    Metadata(d).GetOr(NewElement(MetadataName))
  }

  /** A successful command leaves the document's `Metadata` as the loop
      over the entries makes it from the `Metadata` there was (or an empty
      one); the root's other children, its name and text are kept, and its
      attributes are those the `build` namespace declaration gives it. */
  lemma SetMetaDataUpdates(d: Document, c: SetBuildMetaData)
    requires SetMetaData(d, c).error.None?
    ensures var r := SetMetaData(d, c);
      && d.root.Some?
      && var u := UpsertAll(MetadataOrNew(d), ItemName, c.values, c.onlyCreateNew);
      && Metadata(r.doc) == Some(u.meta)
      && r.events == u.events
      && r.doc.root.value.name == d.root.value.name && r.doc.root.value.text == d.root.value.text
      && r.doc.root.value.attrs == EnsureFamily(d, Build, 0).value.doc.root.value.attrs
      && (Metadata(d).Some? ==> |r.doc.root.value.children| == |d.root.value.children|)
      && (Metadata(d).None? ==> |r.doc.root.value.children| == |d.root.value.children| + 1)
      && forall j :: 0 <= j < |d.root.value.children| && d.root.value.children[j].name != MetadataName ==>
           r.doc.root.value.children[j] == d.root.value.children[j]
  {
    var ns := EnsureFamily(d, Build, 0).value;
    MetadataLocated(d);
    var located := EnsureChild(ns.doc.root.value, MetadataName);
    var u := UpsertAll(located.0.children[located.1], ItemName, c.values, c.onlyCreateNew);
    var children := located.0.children[located.1 := u.meta];
    ChildIndexUpdate(located.0.children, located.1, u.meta, MetadataName);
    assert SetMetaData(d, c).doc.root.value == located.0.(children := children);
  }

  /** Where a command finds the `Metadata` it works on: the existing one in
      place, or a new one appended after the root's children. */
  lemma MetadataLocated(d: Document)
    requires EnsureFamily(d, Build, 0).Success?
    ensures var ns := EnsureFamily(d, Build, 0).value;
      var located := EnsureChild(ns.doc.root.value, MetadataName);
      && d.root.Some? && ns.uri == BuildUri && ns.doc.root.Some?
      && located.0.children[located.1] == MetadataOrNew(d)
      && located.0.name == d.root.value.name && located.0.text == d.root.value.text
      && located.0.attrs == ns.doc.root.value.attrs
      && (Metadata(d).Some? ==> |located.0.children| == |d.root.value.children|)
      && (Metadata(d).None? ==> |located.0.children| == |d.root.value.children| + 1)
      && forall j :: 0 <= j < |d.root.value.children| ==> located.0.children[j] == d.root.value.children[j]
  {
    EnsureFamilyKeepsTree(d, Build, 0);
  }

  /** When versions are overwritten and the keys differ, every key names
      an `Item` of the document's `Metadata` carrying its version, and each
      entry raises one event. */
  lemma SetMetaDataOverwrites(d: Document, c: SetBuildMetaData)
    requires SetMetaData(d, c).error.None? && !c.onlyCreateNew && DistinctKeys(c.values)
    ensures var r := SetMetaData(d, c);
      && Metadata(r.doc).Some?
      && (forall i :: 0 <= i < |c.values| ==> HasVersion(Metadata(r.doc).value.children, ItemName, c.values[i].0, c.values[i].1))
      && |r.events| == |c.values|
  {
    SetMetaDataUpdates(d, c);
    UpsertAllOverwrites(MetadataOrNew(d), ItemName, c.values);
    UpsertAllEvents(MetadataOrNew(d), ItemName, c.values);
  }

  /** When existing versions are kept, an `Item` that had a version is
      left as it was, every key names an `Item` with a version, and only
      creations are reported. */
  lemma SetMetaDataKeepsExisting(d: Document, c: SetBuildMetaData, key: string)
    requires SetMetaData(d, c).error.None? && c.onlyCreateNew
    requires Metadata(d).Some? && Versioned(Metadata(d).value.children, ItemName, key)
    ensures var r := SetMetaData(d, c);
      var before := Metadata(d).value.children;
      && Metadata(r.doc).Some?
      && var after := Metadata(r.doc).value.children;
      && FindItem(after, ItemName, key) == FindItem(before, ItemName, key)
      && after[FindItem(after, ItemName, key).value] == before[FindItem(before, ItemName, key).value]
      && (forall i :: 0 <= i < |c.values| ==> Versioned(after, ItemName, c.values[i].0))
      && forall e :: e in r.events ==> e.Created?
  {
    SetMetaDataUpdates(d, c);
    var m := MetadataOrNew(d);
    UpsertAllKeeps(m, ItemName, c.values, true, key, FindItem(m.children, ItemName, key).value);
    UpsertAllDeclares(m, ItemName, c.values, true);
    UpsertAllOnlyCreates(m, ItemName, c.values);
  }
}

=== FILE: build_version.dfy ===
/** The build's version stamping: `VersionHelper.GetVersionString` and the
    text rewrites `UpdateVersionTask` applies to project, plist, nuspec and
    assembly-version files. Reading and writing the files is left to the
    caller; each rewrite maps the old content to the new one. */
module BuildVersion {
  import opened Wrappers
  import opened Text
  import opened VersionMask

  /** The numbers `UpdateVersionTask` stores in `VersionHelper`. `IsPreview`
      is stored too, but nothing reads it. */
  datatype BuildNumbers = BuildNumbers(major: int, minor: int, build: int, revisionOrPreview: int, isPreview: bool)

  /** "M.m.b", the part every version string starts with. */
  function Short(v: BuildNumbers): string {
    IntToString(v.major) + "." + IntToString(v.minor) + "." + IntToString(v.build)
  }

  /** `GetVersionString(allowPreviewSyntax, excludeRevisionOrPreviewNumber)`. */
  function GetVersionString(v: BuildNumbers, allowPreviewSyntax: bool, excludeRevisionOrPreviewNumber: bool): (r: string)
    ensures StartsWith(r, Short(v))
    ensures excludeRevisionOrPreviewNumber ==> r == Short(v)
    ensures !excludeRevisionOrPreviewNumber ==> |r| > |Short(v)|
  {
    if excludeRevisionOrPreviewNumber then Short(v)
    else if allowPreviewSyntax then Short(v) + "-pre." + IntToString(v.revisionOrPreview)
    else Short(v) + "." + IntToString(v.revisionOrPreview)
  }

  /** The preview flag never influences the text. */
  lemma PreviewFlagUnused(v: BuildNumbers, allowPreviewSyntax: bool, exclude: bool, b: bool)
    ensures GetVersionString(v.(isPreview := b), allowPreviewSyntax, exclude) == GetVersionString(v, allowPreviewSyntax, exclude)
  {
    assert Short(v.(isPreview := b)) == Short(v);
  }

  predicate InVersionRange(v: BuildNumbers) {
    0 <= v.major <= Int32Max && 0 <= v.minor <= Int32Max
    && 0 <= v.build <= Int32Max && 0 <= v.revisionOrPreview <= Int32Max
  }

  lemma JoinTwo(a: string, b: string)
    ensures Join([a, b], ".") == a + "." + b
  {
    assert [a, b][1..] == [b];
  }

  lemma JoinThree(a: string, b: string, c: string)
    ensures Join([a, b, c], ".") == a + "." + b + "." + c
  {
    assert [a, b, c][1..] == [b, c];
    JoinTwo(b, c);
    assert a + "." + (b + "." + c) == a + "." + b + "." + c;
  }

  lemma JoinFour(a: string, b: string, c: string, d: string)
    ensures Join([a, b, c, d], ".") == a + "." + b + "." + c + "." + d
  {
    assert [a, b, c, d][1..] == [b, c, d];
    JoinThree(b, c, d);
    assert a + "." + (b + "." + c + "." + d) == a + "." + b + "." + c + "." + d;
  }

  /** With non-negative 32-bit numbers, the four-part string is the
      `System.Version` of the numbers and parses back to them. */
  lemma FourPartRoundTrip(v: BuildNumbers)
    requires InVersionRange(v)
    ensures var w: Version := VersionFields(v.major, v.minor, v.build, v.revisionOrPreview);
      GetVersionString(v, false, false) == VersionToString(w)
      && ParseVersion(GetVersionString(v, false, false)) == Some(w)
  {
    var w: Version := VersionFields(v.major, v.minor, v.build, v.revisionOrPreview);
    JoinFour(NatToString(v.major), NatToString(v.minor), NatToString(v.build), NatToString(v.revisionOrPreview));
    assert UnitTexts(w) == [NatToString(v.major), NatToString(v.minor), NatToString(v.build), NatToString(v.revisionOrPreview)];
    VersionRoundTrip(w);
  }

  /** Likewise the short string is the three-unit version. */
  lemma ShortRoundTrip(v: BuildNumbers, allowPreviewSyntax: bool)
    requires InVersionRange(v)
    ensures var w: Version := VersionFields(v.major, v.minor, v.build, -1);
      GetVersionString(v, allowPreviewSyntax, true) == VersionToString(w)
      && ParseVersion(GetVersionString(v, allowPreviewSyntax, true)) == Some(w)
  {
    var w: Version := VersionFields(v.major, v.minor, v.build, -1);
    JoinThree(NatToString(v.major), NatToString(v.minor), NatToString(v.build));
    assert UnitTexts(w) == [NatToString(v.major), NatToString(v.minor), NatToString(v.build)];
    VersionRoundTrip(w);
  }

  /** The preview syntax is not a `System.Version`: its third unit carries
      the "-pre" tag. */
  lemma PreviewIsNotVersion(v: BuildNumbers)
    requires InVersionRange(v)
    ensures ParseVersion(GetVersionString(v, true, false)).None?
  {
    var units := PreviewUnits(v);
    ParseFourUnits(units);
  }

  /** The preview string as four dot-free units, the third one tagged. */
  lemma PreviewUnits(v: BuildNumbers) returns (units: seq<string>)
    requires InVersionRange(v)
    ensures units == [NatToString(v.major), NatToString(v.minor), NatToString(v.build) + "-pre", NatToString(v.revisionOrPreview)]
    ensures |units| == 4 && Join(units, ".") == GetVersionString(v, true, false)
    ensures forall i :: 0 <= i < 4 ==> '.' !in units[i]
    ensures ParseComponent(units[2]).None?
  {
    NatToStringNoDot(v.major);
    NatToStringNoDot(v.minor);
    NatToStringNoDot(v.revisionOrPreview);
    TaggedUnitRejected(v.build);
    units := [NatToString(v.major), NatToString(v.minor), NatToString(v.build) + "-pre", NatToString(v.revisionOrPreview)];
    JoinFour(units[0], units[1], units[2], units[3]);
  }

  /** The preview text is the four-part text with "-pre" inserted before
      its last dot: everything up to that dot is "M.m.b", and what follows
      it is the revision-or-preview number. */
  lemma PreviewInsertsTag(v: BuildNumbers)
    ensures var four := GetVersionString(v, false, false);
      var k := |Short(v)|;
      k < |four| && four[k] == '.' && four[..k] == Short(v)
      && (forall j :: k < j < |four| ==> four[j] != '.')
      && GetVersionString(v, true, false) == four[..k] + "-pre" + four[k..]
  {
    var four := GetVersionString(v, false, false);
    var k := |Short(v)|;
    var tail := IntToString(v.revisionOrPreview);
    assert four == Short(v) + ("." + tail);
    assert four[k..] == "." + tail;
    IntToStringNoDot(v.revisionOrPreview);
    forall j | k < j < |four|
      ensures four[j] != '.'
    {
      assert four[j] == tail[j - k - 1];
    }
  }

  /** "b-pre" has no dot and is not a number. */
  lemma TaggedUnitRejected(n: nat)
    ensures '.' !in NatToString(n) + "-pre"
    ensures ParseComponent(NatToString(n) + "-pre").None?
  {
    var d := NatToString(n);
    var b := d + "-pre";
    NatToStringNoDot(n);
    assert b[|b| - 1] == 'e';
    assert b[0] == d[0] && IsDigit(d[0]);
    assert TrimNumberWhite(b) == b;
    assert !AllDigits(b);
  }

  // ---------------------------------------------------------------------
  // File rewrites

  /** What a rewrite does to one file: nothing, because the file is not one
      it handles, or new content. */
  datatype Rewrite = Skipped | Rewritten(content: string)

  const FailedPrefix: string := "Failed to update version number in "

  /** Every rewrite fails, after writing, when it left the content as it
      was. */
  function Checked(path: string, before: string, after: string): (r: Result<Rewrite>)
    ensures r.Success? <==> after != before
    ensures r.Success? ==> r.value == Rewritten(after)
    ensures r.Failure? ==> r.error == IOError(FailedPrefix + path)
  {
    if before != after then Success(Rewritten(after)) else Failure(IOError(FailedPrefix + path))
  }

  /** `s.Replace(pattern, replacement)` changes the text exactly when the
      pattern occurs and differs from its replacement. */
  lemma ReplaceChanges(s: string, pat: string, rep: string)
    requires |pat| > 0
    ensures ReplaceAll(s, pat, rep) != s <==> Contains(s, pat) && rep != pat
  {
    if !Contains(s, pat) {
      ReplaceAllAbsent(s, pat, rep);
    } else if rep == pat {
      ReplaceAllSelf(s, pat);
    } else {
      ReplaceAllPresent(s, pat, rep);
    }
  }

  /** Text placed between the same two fixed pieces is told apart by the
      pieces' contents. */
  lemma WrappedInjective(pre: string, x: string, y: string, post: string)
    ensures pre + x + post == pre + y + post <==> x == y
  {
    if pre + x + post == pre + y + post {
      assert |x| == |y|;
      assert x == (pre + x + post)[|pre|..|pre| + |x|];
      assert y == (pre + y + post)[|pre|..|pre| + |y|];
    }
  }

  const PlaceholderVersion: string := "0.0.0-pre.0"

  /** Replacing the placeholder version between two fixed pieces changes
      the text exactly when the placeholder occurs and the new version
      differs from the placeholder's. */
  lemma PlaceholderChanges(content: string, pre: string, post: string, version: string)
    ensures var pat := pre + PlaceholderVersion + post;
      ReplaceAll(content, pat, pre + version + post) != content
      <==> Contains(content, pat) && version != PlaceholderVersion
  {
    var pat := pre + PlaceholderVersion + post;
    ReplaceChanges(content, pat, pre + version + post);
    WrappedInjective(pre, version, PlaceholderVersion, post);
  }

  const NuspecPlaceholder: string := "<version>" + PlaceholderVersion + "</version>"

  function NuspecVersion(v: BuildNumbers): string {
    "<version>" + GetVersionString(v, true, false) + "</version>"
  }

  /** A nuspec gets every version placeholder replaced by the preview-syntax
      version. */
  function UpdateNuspec(path: string, content: string, v: BuildNumbers): (r: Result<Rewrite>)
    ensures r.Success? ==> r.value == Rewritten(ReplaceAll(content, NuspecPlaceholder, NuspecVersion(v)))
  {
    Checked(path, content, ReplaceAll(content, NuspecPlaceholder, NuspecVersion(v)))
  }

  /** A nuspec rewrite succeeds exactly when the placeholder occurs and the
      version is not the placeholder's own "0.0.0-pre.0". */
  lemma NuspecSucceeds(path: string, content: string, v: BuildNumbers)
    ensures UpdateNuspec(path, content, v).Success?
      <==> Contains(content, NuspecPlaceholder) && GetVersionString(v, true, false) != PlaceholderVersion
  {
    PlaceholderChanges(content, "<version>", "</version>", GetVersionString(v, true, false));
  }

  const ProjectMarker: string := "<PackageProjectUrl>"
  const ProjectPlaceholder: string := "<Version>" + PlaceholderVersion + "</Version>"

  function ProjectVersion(v: BuildNumbers): string {
    "<Version>" + GetVersionString(v, true, false) + "</Version>"
  }

  /** A project file is rewritten only when it declares a package project
      URL; then its version placeholder gets the preview-syntax version. */
  function UpdateProject(path: string, content: string, v: BuildNumbers): (r: Result<Rewrite>)
    ensures !Contains(content, ProjectMarker) ==> r == Success(Skipped)
    ensures Contains(content, ProjectMarker) && r.Success? ==>
      r.value == Rewritten(ReplaceAll(content, ProjectPlaceholder, ProjectVersion(v)))
  {
    if !Contains(content, ProjectMarker) then Success(Skipped)
    else Checked(path, content, ReplaceAll(content, ProjectPlaceholder, ProjectVersion(v)))
  }

  /** A packable project without the placeholder is an error. */
  lemma ProjectSucceeds(path: string, content: string, v: BuildNumbers)
    requires Contains(content, ProjectMarker)
    ensures UpdateProject(path, content, v).Success?
      <==> Contains(content, ProjectPlaceholder) && GetVersionString(v, true, false) != PlaceholderVersion
  {
    PlaceholderChanges(content, "<Version>", "</Version>", GetVersionString(v, true, false));
  }

  const AssemblyVersionPlaceholder: string := "[assembly: AssemblyVersion(\"0.0.0.0\")]"
  const FileVersionPlaceholder: string := "[assembly: AssemblyFileVersion(\"0.0.0.0\")]"
  const InformationalPlaceholder: string := "[assembly: AssemblyInformationalVersion(\"" + PlaceholderVersion + "\")]"

  /** The three replacements of the shared assembly-version file, in order:
      the four-part version for the assembly and file versions, the preview
      syntax for the informational version. */
  function AssemblyRewrite(content: string, v: BuildNumbers): string {
    var full := GetVersionString(v, false, false);
    var preview := GetVersionString(v, true, false);
    var a := ReplaceAll(content, AssemblyVersionPlaceholder, "[assembly: AssemblyVersion(\"" + full + "\")]");
    var b := ReplaceAll(a, FileVersionPlaceholder, "[assembly: AssemblyFileVersion(\"" + full + "\")]");
    ReplaceAll(b, InformationalPlaceholder, "[assembly: AssemblyInformationalVersion(\"" + preview + "\")]")
  }

  function UpdateAssemblyVersion(path: string, content: string, v: BuildNumbers): (r: Result<Rewrite>)
    ensures r.Success? <==> AssemblyRewrite(content, v) != content
    ensures r.Success? ==> r.value == Rewritten(AssemblyRewrite(content, v))
  {
    Checked(path, content, AssemblyRewrite(content, v))
  }

  /** A file holding none of the three placeholders is an error. */
  lemma AssemblyWithoutPlaceholders(path: string, content: string, v: BuildNumbers)
    requires !Contains(content, AssemblyVersionPlaceholder) && !Contains(content, FileVersionPlaceholder)
    requires !Contains(content, InformationalPlaceholder)
    ensures UpdateAssemblyVersion(path, content, v) == Failure(IOError(FailedPrefix + path))
  {
    var full := GetVersionString(v, false, false);
    var preview := GetVersionString(v, true, false);
    ReplaceAllAbsent(content, AssemblyVersionPlaceholder, "[assembly: AssemblyVersion(\"" + full + "\")]");
    ReplaceAllAbsent(content, FileVersionPlaceholder, "[assembly: AssemblyFileVersion(\"" + full + "\")]");
    ReplaceAllAbsent(content, InformationalPlaceholder, "[assembly: AssemblyInformationalVersion(\"" + preview + "\")]");
  }

  /** A file holding only the informational placeholder gets exactly that
      one replaced, and the rewrite succeeds unless the version is the
      placeholder's own. */
  lemma AssemblyInformationalOnly(path: string, content: string, v: BuildNumbers)
    requires !Contains(content, AssemblyVersionPlaceholder) && !Contains(content, FileVersionPlaceholder)
    requires Contains(content, InformationalPlaceholder)
    ensures var rep := "[assembly: AssemblyInformationalVersion(\"" + GetVersionString(v, true, false) + "\")]";
      AssemblyRewrite(content, v) == ReplaceAll(content, InformationalPlaceholder, rep)
      && (UpdateAssemblyVersion(path, content, v).Success? <==> GetVersionString(v, true, false) != PlaceholderVersion)
  {
    var full := GetVersionString(v, false, false);
    var preview := GetVersionString(v, true, false);
    var rep := "[assembly: AssemblyInformationalVersion(\"" + preview + "\")]";
    ReplaceAllAbsent(content, AssemblyVersionPlaceholder, "[assembly: AssemblyVersion(\"" + full + "\")]");
    ReplaceAllAbsent(content, FileVersionPlaceholder, "[assembly: AssemblyFileVersion(\"" + full + "\")]");
    PlaceholderChanges(content, "[assembly: AssemblyInformationalVersion(\"", "\")]", preview);
  }

  // ---------------------------------------------------------------------
  // Property lists

  const BundleVersionMarker: string := "CFBundleVersion"
  const ShortVersionKey: string := "<key>CFBundleShortVersionString</key>"
  const BundleVersionKey: string := "<key>CFBundleVersion</key>"

  function StringLine(version: string): string {
    "\t<string>" + version + "</string>"
  }

  predicate IsKeyLine(line: string) {
    Contains(line, ShortVersionKey) || Contains(line, BundleVersionKey)
  }

  /** The loop over the lines from `i` on; each key line overwrites the
      line after it, and a key on the last line reads past the array. */
  function RewriteLines(lines: seq<string>, i: nat, short: string, full: string): (r: Result<seq<string>>)
    ensures r.Success? ==> |r.value| == |lines|
    ensures r.Success? ==> forall j :: 0 <= j <= i && j < |lines| ==> r.value[j] == lines[j]
    ensures r.Failure? ==> r.error == IndexOutOfRange
    decreases |lines| - i
  {
    if i >= |lines| then Success(lines)
    else if Contains(lines[i], ShortVersionKey) then
      if i + 1 >= |lines| then Failure(IndexOutOfRange)
      else RewriteLines(lines[i + 1 := StringLine(short)], i + 1, short, full)
    else if Contains(lines[i], BundleVersionKey) then
      if i + 1 >= |lines| then Failure(IndexOutOfRange)
      else RewriteLines(lines[i + 1 := StringLine(full)], i + 1, short, full)
    else RewriteLines(lines, i + 1, short, full)
  }

  /** The line a well-formed list holds at `j` afterwards: the value after
      a key is the matching version, every other line stays. */
  function ExpectedLine(lines: seq<string>, j: nat, short: string, full: string): string
    requires j < |lines|
  {
    if j > 0 && Contains(lines[j - 1], ShortVersionKey) then StringLine(short)
    else if j > 0 && Contains(lines[j - 1], BundleVersionKey) then StringLine(full)
    else lines[j]
  }

  /** Keys come in pairs with their values: no line following a key line
      is itself a key line. */
  predicate KeysPaired(lines: seq<string>) {
    forall j :: 0 < j < |lines| && IsKeyLine(lines[j - 1]) ==> !IsKeyLine(lines[j])
  }

  lemma StringLineIsNoKey(version: string)
    requires '<' !in version
    ensures !IsKeyLine(StringLine(version))
  {
    var s := StringLine(version);
    NoKeyTag(version);
    KeyAbsent(s, ShortVersionKey);
    KeyAbsent(s, BundleVersionKey);
  }

  predicate OccursAt(s: string, sub: string, i: nat) {
    i + |sub| <= |s| && s[i..i + |sub|] == sub
  }

  /** "<key>" occurs nowhere in a value line: its only '<' are the tags'. */
  lemma NoKeyTag(version: string)
    requires '<' !in version
    ensures forall i: nat :: !OccursAt(StringLine(version), "<key>", i)
  {
    var s := StringLine(version);
    var n := |version|;
    forall i: nat ensures !OccursAt(s, "<key>", i) {
      if i + 5 <= |s| {
        assert s[i..i + 5][0] == s[i] && s[i..i + 5][1] == s[i + 1];
        var head, tail := "\t<string>", "</string>";
        assert s == head + version + tail;
        if i == 1 {
          assert s[i + 1] == 's';
        } else if i < 9 {
          assert s[i] == head[i];
        } else if i < 9 + n {
          assert s[i] == version[i - 9];
        } else if i == 9 + n {
          assert s[i + 1] == '/';
        } else {
          assert s[i] == tail[i - 9 - n];
        }
      }
    }
  }

  /** A key, which starts with "<key>", cannot occur where "<key>" does not. */
  lemma KeyAbsent(s: string, k: string)
    requires |k| >= 5 && k[..5] == "<key>"
    requires forall i: nat :: !OccursAt(s, "<key>", i)
    ensures !Contains(s, k)
  {
    forall i: nat ensures !OccursAt(s, k, i) {
      if i + |k| <= |s| {
        assert s[i..i + |k|][..5] == s[i..i + 5];
        assert !OccursAt(s, "<key>", i);
      }
    }
    AbsentEverywhere(s, k);
  }

  lemma {:induction false} AbsentEverywhere(s: string, sub: string)
    requires forall i: nat :: !OccursAt(s, sub, i)
    ensures !Contains(s, sub)
    decreases |s|
  {
    assert !OccursAt(s, sub, 0);
    if |sub| <= |s| {
      assert s[..|sub|] == s[0..|sub|];
    }
    if |s| > 0 {
      var t := s[1..];
      forall i: nat ensures !OccursAt(t, sub, i) {
        assert !OccursAt(s, sub, i + 1);
        if i + |sub| <= |t| {
          assert t[i..i + |sub|] == s[i + 1..i + 1 + |sub|];
        }
      }
      AbsentEverywhere(t, sub);
    }
  }

  /** The loop's state at `i`: lines before and at `i` hold their final
      text, the later ones are untouched. */
  predicate RewrittenUpTo(lines: seq<string>, i: nat, orig: seq<string>, short: string, full: string) {
    |lines| == |orig|
    && forall j :: 0 <= j < |lines| ==> lines[j] == (if j <= i then ExpectedLine(orig, j, short, full) else orig[j])
  }

  /** In a list whose keys come paired with their values, the loop writes
      each version into the line after its key and changes nothing else;
      it fails exactly when the last line is a key. */
  lemma {:induction false} RewriteLinesPaired(lines: seq<string>, i: nat, orig: seq<string>, short: string, full: string)
    requires '<' !in short && '<' !in full
    requires KeysPaired(orig) && RewrittenUpTo(lines, i, orig, short, full)
    ensures var r := RewriteLines(lines, i, short, full);
      (r.Success? <==> !(i < |orig| && IsKeyLine(orig[|orig| - 1])))
      && (r.Success? ==> forall j :: 0 <= j < |orig| ==> r.value[j] == ExpectedLine(orig, j, short, full))
    decreases |lines| - i
  {
    if i < |lines| {
      CurrentLine(lines, i, orig, short, full);
      if IsKeyLine(lines[i]) {
        if i + 1 < |lines| {
          var value := if Contains(lines[i], ShortVersionKey) then short else full;
          var next := lines[i + 1 := StringLine(value)];
          NextRewritten(lines, i, orig, short, full, next);
          RewriteLinesPaired(next, i + 1, orig, short, full);
        }
      } else {
        assert RewrittenUpTo(lines, i + 1, orig, short, full);
        RewriteLinesPaired(lines, i + 1, orig, short, full);
      }
    }
  }

  /** The line the loop looks at is a key exactly when the original one
      was, and then it is the original. */
  lemma CurrentLine(lines: seq<string>, i: nat, orig: seq<string>, short: string, full: string)
    requires '<' !in short && '<' !in full
    requires KeysPaired(orig) && RewrittenUpTo(lines, i, orig, short, full) && i < |lines|
    ensures IsKeyLine(lines[i]) <==> IsKeyLine(orig[i])
    ensures IsKeyLine(lines[i]) ==> lines[i] == orig[i]
  {
    if i > 0 && IsKeyLine(orig[i - 1]) {
      var value := if Contains(orig[i - 1], ShortVersionKey) then short else full;
      assert lines[i] == StringLine(value);
      StringLineIsNoKey(value);
    }
  }

  lemma NextRewritten(lines: seq<string>, i: nat, orig: seq<string>, short: string, full: string, next: seq<string>)
    requires RewrittenUpTo(lines, i, orig, short, full) && i + 1 < |lines|
    requires IsKeyLine(lines[i]) && lines[i] == orig[i]
    requires next == lines[i + 1 := StringLine(if Contains(lines[i], ShortVersionKey) then short else full)]
    ensures RewrittenUpTo(next, i + 1, orig, short, full)
  {
    assert next[i + 1] == ExpectedLine(orig, i + 1, short, full);
  }

  /** A property list is processed only when it mentions the bundle
      version; its lines are split and joined on '\n'. */
  function UpdatePlist(path: string, content: string, v: BuildNumbers): (r: Result<Rewrite>)
    ensures !Contains(content, BundleVersionMarker) ==> r == Success(Skipped)
  {
    if !Contains(content, BundleVersionMarker) then Success(Skipped)
    else
      var full := GetVersionString(v, false, false);
      var short := GetVersionString(v, false, true);
      var lines := Split(content, '\n');
      match RewriteLines(lines, 0, short, full)
      case Failure(e) => Failure(e)
      case Success(rewritten) => Checked(path, content, Join(rewritten, "\n"))
  }

  /** The lines of a well-formed list after the rewrite. */
  function PlistResult(lines: seq<string>, short: string, full: string): (r: seq<string>)
    ensures |r| == |lines|
  {
    seq(|lines|, j requires 0 <= j < |lines| => ExpectedLine(lines, j, short, full))
  }

  lemma IntTextNoAngle(n: int)
    ensures '<' !in IntToString(n)
  {
    var d := NatToString(if n >= 0 then n else -n);
    assert forall i :: 0 <= i < |d| ==> d[i] != '<' by {
      forall i | 0 <= i < |d| ensures d[i] != '<' {
        assert IsDigit(d[i]);
      }
    }
  }

  lemma VersionNoAngle(v: BuildNumbers, allowPreviewSyntax: bool, exclude: bool)
    ensures '<' !in GetVersionString(v, allowPreviewSyntax, exclude)
  {
    IntTextNoAngle(v.major);
    IntTextNoAngle(v.minor);
    IntTextNoAngle(v.build);
    IntTextNoAngle(v.revisionOrPreview);
  }

  /** For a property list whose keys are paired with their values, the
      rewrite fails with an out-of-range index exactly when the last line
      is a key; otherwise each value after a version key gets the version,
      the short one after the short-version key, and nothing else
      changes. */
  lemma PlistRewrite(path: string, content: string, v: BuildNumbers)
    requires Contains(content, BundleVersionMarker)
    requires KeysPaired(Split(content, '\n'))
    ensures var lines := Split(content, '\n');
      (UpdatePlist(path, content, v) == Failure(IndexOutOfRange) <==> IsKeyLine(lines[|lines| - 1]))
      && (!IsKeyLine(lines[|lines| - 1]) ==>
            UpdatePlist(path, content, v)
            == Checked(path, content, Join(PlistResult(lines, GetVersionString(v, false, true), GetVersionString(v, false, false)), "\n")))
  {
    var lines := Split(content, '\n');
    var full := GetVersionString(v, false, false);
    var short := GetVersionString(v, false, true);
    VersionNoAngle(v, false, false);
    VersionNoAngle(v, false, true);
    assert RewrittenUpTo(lines, 0, lines, short, full);
    RewriteLinesPaired(lines, 0, lines, short, full);
    var r := RewriteLines(lines, 0, short, full);
    if r.Success? {
      assert r.value == PlistResult(lines, short, full);
    }
  }
}

=== FILE: capabilities.dfy ===
/** `AddCapabilityExecutor`: adds a capability to the manifest's
    `Capabilities` element, declaring the namespace its name belongs to. */
module Capabilities {
  import opened Wrappers
  import opened Text
  import opened Xml
  import opened EditExecutor

  // ---------------------------------------------------------------------
  // The classification table

  /** The name table of the `switch`: which names belong to which
      namespace family and element. The command's logic is stated over any
      table; `Builtin` is the one the executor ships with. */
  datatype Table = Table(
    rescap: set<string>, uapRestricted: set<string>, uapGeneral: set<string>,
    mobile: set<string>, uap11: set<string>, uap6: set<string>, uap7: set<string>,
    iot: set<string>, device: set<string>)

  /** Every name the table knows; any other name is a custom capability. */
  function Known(t: Table): set<string> {
    t.rescap + t.uapRestricted + t.uapGeneral + t.mobile + t.uap11 + t.uap6 + t.uap7 + t.iot + t.device
  }

  /** Restricted in either namespace. */
  function Restricted(t: Table): set<string> {
    t.rescap + t.uapRestricted
  }

  /** Restricted capabilities declared in the `rescap` namespace. */
  const BuiltinRescapNames: set<string> := {
    "cellularDeviceIdentity", "deviceUnlock", "networkingVpnProvider", "inputSuppression",
    "accessoryManager", "appLicensing", "cellularMessaging", "userDataAccountsProvider",
    "storeLicenseManagement", "userPrincipalName", "packageManagement", "packagedServices",
    "uiAutomation", "confirmAppClose", "cortanaPermissions", "teamEditionView",
    "customInstallActions", "localSystemServices", "teamEditionDeviceCredential",
    "packagePolicySystem", "modifiableApp", "backgroundSpatialPerception",
    "phoneLineTransportManagement", "developmentModeNetwork", "unvirtualizedResources",
    "backgroundVoIP", "gameMonitor", "packageWriteRedirectionCompatibilityShim",
    "cameraProcessingExtension", "runFullTrust", "allowElevation", "smbios", "appDiagnostics",
    "devicePortalProvider", "networkDataUsageManagement", "gameBarServices",
    "broadFileSystemAccess", "backgroundMediaRecording", "oneProcessVoIP",
    "deviceManagementWapSecurityPolicies", "previewInkWorkspace", "teamEditionExperience",
    "enterpriseCloudSSO", "appCaptureServices", "startScreenManagement", "email",
    "expandedResources", "protectedApp", "oemPublicDirectory", "allAppMods",
    "previewPenWorkspace", "inputForegroundObservation", "userSystemId",
    "audioDeviceConfiguration", "appBroadcastServices", "targetedContent", "interopServices",
    "locationSystem", "secondaryAuthenticationFactor", "gameList", "previewStore",
    "xboxAccessoryManagement", "oemDeployment", "extendedBackgroundTaskTime",
    "deviceManagementDmAccount", "deviceManagementFoundation", "cortanaSpeechAccessory",
    "deviceManagementEmailAccount", "extendedExecutionCritical",
    "extendedExecutionBackgroundAudio", "firstSignInSettings", "extendedExecutionUnconstrained",
    "appointmentsSystem", "emailSystem", "networkDataPlanProvisioning", "phoneCallHistory",
    "networkConnectionManagerProvisioning", "chatSystem", "remotePassportAuthentication",
    "previewUiComposition", "userDataSystem", "slapiQueryLicenseValue", "packageQuery",
    "walletSystem", "secureAssessment", "smsSend", "inputObservation", "locationHistory",
    "phoneCallHistorySystem", "dualSimTiles", "cellularDeviceControl", "inputInjectionBrokered",
    "contactsSystem", "enterpriseDeviceLockdown", "enterpriseDataPolicy"
  }

  /** Restricted capabilities declared in the UAP namespace. */
  const BuiltinUapRestrictedNames: set<string> := {"documentsLibrary", "sharedUserCertificates", "enterpriseAuthentication"}

  /** General capabilities in the UAP namespace. */
  const BuiltinUapGeneralNames: set<string> := {
    "videosLibrary", "appointments", "contacts", "removableStorage", "phoneCall",
    "userAccountInformation", "voipCall", "objects3D", "blockedChatMessages", "chat",
    "picturesLibrary", "musicLibrary"
  }

  const BuiltinMobileNames: set<string> := {"recordedCallsFolder"}
  const BuiltinUap11Names: set<string> := {"graphicsCaptureWithoutBorder", "graphicsCaptureProgrammatic"}
  const BuiltinUap6Names: set<string> := {"graphicsCapture"}
  const BuiltinUap7Names: set<string> := {"globalMediaControl"}
  const BuiltinIotNames: set<string> := {"lowLevelDevices", "systemManagement"}

  /** Device capabilities, declared as `DeviceCapability` in UAP. */
  const BuiltinDeviceNames: set<string> := {
    "bluetooth", "location", "microphone", "gazeInput", "radios", "optical", "lowLevel",
    "wiFiControl", "proximity", "usb", "serialcommunication", "activity",
    "humaninterfacedevice", "pointOfService", "webcam"
  }

  const Builtin: Table := Table(
    BuiltinRescapNames, BuiltinUapRestrictedNames, BuiltinUapGeneralNames, BuiltinMobileNames,
    BuiltinUap11Names, BuiltinUap6Names, BuiltinUap7Names, BuiltinIotNames, BuiltinDeviceNames)

  /** A custom capability's name must have at least this many characters. */
  const CustomMinLength: nat := 15

  /** Where and how a capability is declared: the element's local name,
      the namespace family and version, and whether it is restricted. */
  datatype Kind = Kind(node: Node, family: Family, version: nat, restricted: bool)

  /** The three element names a capability is declared with. */
  datatype Node = CapabilityNode | DeviceNode | CustomNode

  function NodeLocal(n: Node): string {
    match n
    case CapabilityNode => "Capability"
    case DeviceNode => "DeviceCapability"
    case CustomNode => "CustomCapability"
  }

  /** The fixed opening of the message for a too-short custom name. */
  const ShortNameLead: string := "The name of a custom capability must be longer than 15 characters. Capability '"

  function ShortNameMessage(name: string): string {
    ShortNameLead + name + "' has only " + NatToString(|name|) + " characters."
  }

  /** The `switch` on the capability name (an exact, case-sensitive match
      against the table's sets, tried in order). */
  function Classify(t: Table, name: string): (r: Result<Kind>)
    ensures r.Failure? <==> name !in Known(t) && |name| < CustomMinLength
    ensures r.Failure? ==> r.error == InvalidOperation(ShortNameMessage(name))
    ensures r.Success? ==> r.value.family != Root
    ensures r.Success? ==> (r.value.restricted <==> name in Restricted(t))
    ensures r.Success? ==> (r.value.node.CustomNode? <==> name !in Known(t))
    ensures r.Success? && name !in Known(t) ==> r.value == Kind(CustomNode, Uap, 4, false)
    ensures r.Success? ==> (r.value.family == RestrictedCapabilities <==> name in t.rescap)
    ensures name in t.rescap ==> r == Success(Kind(CapabilityNode, RestrictedCapabilities, 0, true))
    ensures r.Success? && r.value.node.DeviceNode? ==> name in t.device && r.value.family == Uap
  {
    if name in t.rescap then Success(Kind(CapabilityNode, RestrictedCapabilities, 0, true))
    else if name in t.uapRestricted then Success(Kind(CapabilityNode, Uap, 0, true))
    else if name in t.uapGeneral then Success(Kind(CapabilityNode, Uap, 0, false))
    else if name in t.mobile then Success(Kind(CapabilityNode, Mobile, 0, false))
    else if name in t.uap11 then Success(Kind(CapabilityNode, Uap, 11, false))
    else if name in t.uap6 then Success(Kind(CapabilityNode, Uap, 6, false))
    else if name in t.uap7 then Success(Kind(CapabilityNode, Uap, 7, false))
    else if name in t.iot then Success(Kind(CapabilityNode, Iot, 0, false))
    else if name in t.device then Success(Kind(DeviceNode, Uap, 0, false))
    else if |name| < CustomMinLength then Failure(InvalidOperation(ShortNameMessage(name)))
    else Success(Kind(CustomNode, Uap, 4, false))
  }

  // ---------------------------------------------------------------------
  // Locating the Capabilities element

  /** The XPath query for any element whose local name is `Capabilities`. */
  predicate IsCapabilities(n: QName) { n.local == "Capabilities" }

  /** The root holding a `Capabilities` element and the path to it: the
      first one in document order, or a new one in the root's default
      namespace appended to the root. */
  function LocateCapabilities(root: Element): (r: (Element, Path))
    ensures r.0.name == root.name && r.0.attrs == root.attrs
    ensures FindFirst(r.0, IsCapabilities) == Some(r.1)
    ensures FindFirst(root, IsCapabilities).Some? ==> r == (root, FindFirst(root, IsCapabilities).value)
    ensures FindFirst(root, IsCapabilities).None? ==>
      r.0 == AppendChild(root, NewElement(QName(DefaultNamespace(root), "Capabilities")))
      && r.1 == [ |root.children| ]
  {
    match FindFirst(root, IsCapabilities)
    case Some(p) => (root, p)
    case None =>
      var caps := NewElement(QName(DefaultNamespace(root), "Capabilities"));
      var root1 := AppendChild(root, caps);
      FindFirstInAppend(root.children, IsCapabilities, 0, caps);
      (root1, [ |root.children| ])
  }

  // ---------------------------------------------------------------------
  // The command

  /** `CapabilityChange`: the event raised for an inserted capability. */
  datatype CapabilityChange = CapabilityChange(name: string, isRestricted: bool, isCustom: bool)

  const NameAttr: QName := Plain("Name")

  /** A direct child declaring the same capability: same namespace, same
      local name and the same `Name` attribute. */
  predicate Declares(c: Element, qn: QName, name: string) {
    c.name == qn && Attribute(c, NameAttr) == Some(name)
  }

  predicate HasDeclaration(caps: Element, qn: QName, name: string) {
    exists i :: 0 <= i < |caps.children| && Declares(caps.children[i], qn, name)
  }

  /** The element declaring capability `name` as a `node` in namespace `uri`. */
  function CapabilityElement(uri: string, node: Node, name: string): (x: Element)
    ensures Declares(x, QName(uri, NodeLocal(node)), name)
  {
    Element(QName(uri, NodeLocal(node)), [Attr(NameAttr, name)], [], "")
  }

  /** The children of a `Capabilities` element after inserting `x`:
      restricted capabilities go first, the others last. */
  function Placed(children: seq<Element>, x: Element, restricted: bool): seq<Element> {
    if restricted then [x] + children else children + [x]
  }

  /** Inserts the capability element into the `Capabilities` element at
      `path`, unless one of its direct children already declares the same
      capability. */
  function Insert(root: Element, path: Path, name: string, k: Kind, uri: string): (r: Outcome<CapabilityChange>)
    requires ValidPath(root, path)
    ensures r.error.None? && r.doc.root.Some?
    ensures r.doc.root.value.attrs == root.attrs
    ensures HasDeclaration(At(root, path), QName(uri, NodeLocal(k.node)), name) ==>
      r == Outcome(Document(Some(root)), [], None)
    ensures !HasDeclaration(At(root, path), QName(uri, NodeLocal(k.node)), name) ==>
      var caps := At(root, path);
      var x := CapabilityElement(uri, k.node, name);
      r.events == [CapabilityChange(name, k.restricted, k.node.CustomNode?)]
      && r.doc.root.value == Update(root, path, caps.(children := Placed(caps.children, x, k.restricted)))
  {
    var caps := At(root, path);
    var qn := QName(uri, NodeLocal(k.node));
    if HasDeclaration(caps, qn, name) then Outcome(Document(Some(root)), [], None)
    else
      var x := CapabilityElement(uri, k.node, name);
      var caps' := caps.(children := Placed(caps.children, x, k.restricted));
      Outcome(Document(Some(Update(root, path, caps'))),
              [CapabilityChange(name, k.restricted, k.node.CustomNode?)], None)
  }

  /** `AddCapabilityExecutor.Execute`. */
  function AddCapability(t: Table, d: Document, name: string): (r: Outcome<CapabilityChange>)
    ensures d.root.None? ==> r == Outcome(d, [], Some(InvalidOperation(RootMissing)))
    ensures d.root.Some? ==> r.doc.root.Some?
  {
    match d.root
    case None => Outcome(d, [], Some(InvalidOperation(RootMissing)))
    case Some(root) =>
      var located := LocateCapabilities(root);
      var d1 := Document(Some(located.0));
      match Classify(t, name)
      case Failure(e) => Outcome(d1, [], Some(e))
      case Success(k) =>
        match EnsureFamily(d1, k.family, k.version)
        case Failure(e) => Outcome(d1, [], Some(e))
        case Success(ns) =>
          EnsureFamilyKeepsTree(d1, k.family, k.version);
          SameChildrenSamePaths(located.0, ns.doc.root.value, located.1);
          Insert(ns.doc.root.value, located.1, name, k, ns.uri)
  }

  /** What adding a capability does to a document with a root: it fails
      exactly when the name is neither known nor long enough for a custom
      capability, or its namespace cannot be declared, and then raises no
      event but keeps a `Capabilities` element it had to create. Otherwise
      it raises at most one event, describing the capability by the table. */
  lemma AddCapabilityMeaning(t: Table, d: Document, name: string)
    requires d.root.Some?
    ensures var r := AddCapability(t, d, name);
      var d1 := Document(Some(LocateCapabilities(d.root.value).0));
      var k := Classify(t, name);
      (r.error.Some? <==> k.Failure? || EnsureFamily(d1, k.value.family, k.value.version).Failure?)
      && (r.error.Some? ==> r.events == [] && r.doc == d1)
      && |r.events| <= 1
      && (|r.events| == 1 ==> r.events[0] == CapabilityChange(name, name in Restricted(t), name !in Known(t)))
  {
    var located := LocateCapabilities(d.root.value);
    var d1 := Document(Some(located.0));
    var r := AddCapability(t, d, name);
    if Classify(t, name).Success? {
      var k := Classify(t, name).value;
      var ns := EnsureFamily(d1, k.family, k.version);
      if ns.Success? {
        EnsureFamilyKeepsTree(d1, k.family, k.version);
        SameChildrenSamePaths(located.0, ns.value.doc.root.value, located.1);
        assert r == Insert(ns.value.doc.root.value, located.1, name, k, ns.value.uri);
      }
    }
  }

  /** Where an inserted capability goes: into the first `Capabilities`
      element (the one created when there was none), which did not yet
      declare it; restricted capabilities become its first child, the
      others its last, its other children keep their order, and no other
      child of the root changes. */
  lemma AddCapabilityPlacement(t: Table, d: Document, name: string)
    requires d.root.Some? && |AddCapability(t, d, name).events| == 1
    ensures Classify(t, name).Success?
    ensures var located := LocateCapabilities(d.root.value);
      var path := located.1;
      var caps := At(located.0, path);
      var k := Classify(t, name).value;
      var x := CapabilityElement(VersionedUri(k.family, k.version), k.node, name);
      var root' := AddCapability(t, d, name).doc.root.value;
      !HasDeclaration(caps, x.name, name)
      && ValidPath(root', path)
      && At(root', path).name == caps.name
      && At(root', path).children == Placed(caps.children, x, k.restricted)
      && (|path| > 0 ==>
            root'.name == located.0.name && |root'.children| == |located.0.children|
            && forall j :: 0 <= j < |located.0.children| && j != path[0] ==> root'.children[j] == located.0.children[j])
  {
    AddCapabilityMeaning(t, d, name);
    var located := LocateCapabilities(d.root.value);
    var d1 := Document(Some(located.0));
    var k := Classify(t, name).value;
    var ns := EnsureFamily(d1, k.family, k.version).value;
    EnsureFamilyKeepsTree(d1, k.family, k.version);
    SameChildrenSamePaths(located.0, ns.doc.root.value, located.1);
    assert AddCapability(t, d, name) == Insert(ns.doc.root.value, located.1, name, k, ns.uri);
  }

  /** Adding the same capability twice: the second call finds the
      capability already declared in the same place and its namespace
      already declared, so it changes nothing and raises no event. */
  lemma AddCapabilityIdempotent(t: Table, d: Document, name: string)
    requires d.root.Some? && ValidDeclarations(d.root.value)
    requires AddCapability(t, d, name).error.None?
    ensures var r := AddCapability(t, d, name);
      AddCapability(t, r.doc, name) == Outcome(r.doc, [], None)
  {
    AddCapabilityMeaning(t, d, name);
    var r := AddCapability(t, d, name);
    var root := d.root.value;
    var located := LocateCapabilities(root);
    var path := located.1;
    var d1 := Document(Some(located.0));
    var k := Classify(t, name).value;
    var uri := VersionedUri(k.family, k.version);
    var ns := EnsureFamily(d1, k.family, k.version).value;
    var nsroot := ns.doc.root.value;
    EnsureFamilyKeepsTree(d1, k.family, k.version);
    SameChildrenSamePaths(located.0, nsroot, path);
    assert r == Insert(nsroot, path, name, k, ns.uri);
    var root2 := r.doc.root.value;
    var qn := QName(uri, NodeLocal(k.node));

    // The second call finds the same Capabilities element.
    assert nsroot == located.0.(attrs := nsroot.attrs);
    FindFirstIgnoresAttrs(located.0, IsCapabilities, nsroot.attrs);
    var caps := At(nsroot, path);
    if HasDeclaration(caps, qn, name) {
      assert root2 == nsroot;
    } else {
      var x := CapabilityElement(uri, k.node, name);
      var caps' := caps.(children := Placed(caps.children, x, k.restricted));
      FindFirstStable(nsroot, IsCapabilities, path, caps');
      assert At(root2, path) == caps';
      var i := if k.restricted then 0 else |caps.children|;
      assert caps'.children[i] == x;
      assert HasDeclaration(At(root2, path), qn, name);
    }
    assert LocateCapabilities(root2) == (root2, path);

    // Its namespace is already declared on the root.
    assert ValidDeclarations(located.0);
    EnsureUriStable(d1, uri, FamilyPrefix(k.family), r.doc, FamilyPrefix(k.family));
    assert EnsureFamily(r.doc, k.family, k.version) == Success(FamilyNs(r.doc, ns.prefix, uri));
  }

  /** The shipped table at work: `runFullTrust` is a restricted
      capability declared in the `rescap` namespace. */
  lemma RunFullTrustIsRestricted()
    ensures Classify(Builtin, "runFullTrust") == Success(Kind(CapabilityNode, RestrictedCapabilities, 0, true))
  {
  }
}

=== FILE: edit_executor.dfy ===
/** The namespace registry every manifest edit command shares
    (`AppxManifestEditExecutor`): declaring a namespace on the document
    root, listing its prefix in `IgnorableNamespaces`, and the table of
    namespace families with their fixed URIs. */
module EditExecutor {
  import opened Wrappers
  import opened Text
  import opened Xml

  const RootMissing: string := "Document root cannot be empty."

  /** The root attribute listing the prefixes a reader may ignore. */
  const IgnorableName: QName := Plain("IgnorableNamespaces")

  /** The outcome of an edit command. The source edits the document in
      place, so a command that throws half-way leaves the edits made before
      the throw: `doc` is the document as the caller sees it afterwards,
      `events` the events raised, `error` the exception, if any. */
  datatype Outcome<E> = Outcome(doc: Document, events: seq<E>, error: Option<Error>)

  /** `CommandValueChanged`: an attribute created with a value, or changed
      from an old value to a new one. */
  datatype ValueChange = Created(key: string, value: string) | Changed(key: string, previous: string, value: string)

  // ---------------------------------------------------------------------
  // Prefix names

  predicate IsAsciiLetter(c: char) { 'a' <= c <= 'z' || 'A' <= c <= 'Z' }

  /** `XmlConvert.VerifyNCName` as it applies to prefixes: a letter or `_`
      first, then letters, digits, `.`, `-` or `_`; characters beyond ASCII
      are accepted as letters. */
  predicate IsNCName(s: string) {
    |s| > 0
    && (IsAsciiLetter(s[0]) || s[0] == '_' || s[0] > '\U{007F}')
    && forall i :: 0 <= i < |s| ==>
         IsAsciiLetter(s[i]) || IsDigit(s[i]) || s[i] in {'.', '-', '_'} || s[i] > '\U{007F}'
  }

  lemma NCNameHasNoSpace(s: string)
    requires IsNCName(s)
    ensures ' ' !in s
  {
    forall i | 0 <= i < |s| ensures s[i] != ' ' {
      assert IsAsciiLetter(s[i]) || IsDigit(s[i]) || s[i] in {'.', '-', '_'} || s[i] > '\U{007F}';
    }
  }

  /** Every prefix the element declares is a name, as in any document
      LINQ to XML has parsed or built. */
  predicate ValidDeclarations(e: Element) {
    forall i :: 0 <= i < |e.attrs| && e.attrs[i].name.ns == XmlnsUri ==> IsNCName(e.attrs[i].name.local)
  }

  // ---------------------------------------------------------------------
  // IgnorableNamespaces

  /** The prefixes listed in an `IgnorableNamespaces` value. */
  function IgnorableTokens(v: string): seq<string> {
    Split(v, ' ')
  }

  /** Lists `prefix` in the root's `IgnorableNamespaces`: creates the
      attribute when absent, appends ` prefix` when the prefix is not yet
      one of its space-separated tokens, and otherwise changes nothing. */
  function ListIgnorable(e: Element, prefix: string): (r: Element)
    ensures r.name == e.name && r.children == e.children && r.text == e.text
    ensures forall m :: m != IgnorableName ==> Attribute(r, m) == Attribute(e, m)
    ensures UniqueAttrs(e) ==> UniqueAttrs(r)
    ensures Attribute(e, IgnorableName).None? ==> Attribute(r, IgnorableName) == Some(prefix)
    ensures Attribute(e, IgnorableName).Some? && prefix in IgnorableTokens(Attribute(e, IgnorableName).value) ==> r == e
    ensures Attribute(e, IgnorableName).Some? && prefix !in IgnorableTokens(Attribute(e, IgnorableName).value) ==>
      Attribute(r, IgnorableName) == Some(Attribute(e, IgnorableName).value + " " + prefix)
    ensures ' ' !in prefix ==> Attribute(r, IgnorableName).Some? && prefix in IgnorableTokens(Attribute(r, IgnorableName).value)
  {
    match Attribute(e, IgnorableName)
    case None => SetAttributeValue(e, IgnorableName, prefix)
    case Some(v) =>
      if prefix in IgnorableTokens(v) then e
      else
        AppendedTokenListed(v, prefix);
        SetAttributeValue(e, IgnorableName, v + " " + prefix)
  }

  lemma AppendedTokenListed(v: string, prefix: string)
    ensures ' ' !in prefix ==> prefix in IgnorableTokens(v + " " + prefix)
  {
    if ' ' !in prefix {
      SplitAppendPiece(v, ' ', prefix);
    }
  }

  lemma ListIgnorableKeepsPrefixes(e: Element, prefix: string, uri: string)
    ensures PrefixOfNamespace(ListIgnorable(e, prefix), uri) == PrefixOfNamespace(e, uri)
  {
    match Attribute(e, IgnorableName)
    case None => SetAttributeKeepsPrefixes(e, IgnorableName, prefix, uri);
    case Some(v) =>
      if prefix !in IgnorableTokens(v) {
        SetAttributeKeepsPrefixes(e, IgnorableName, v + " " + prefix, uri);
      }
  }

  // ---------------------------------------------------------------------
  // EnsureNamespace(uri, preferredPrefix)

  /** The messages of the argument errors .NET raises for an empty prefix
      and for a prefix bound to the empty namespace. */
  const EmptyNameMessage: string := "The empty string '' is not a valid name."
  const EmptyNamespaceMessage: string := "Cannot use a prefix with an empty namespace."

  /** A document with its prefix for the namespace just ensured. */
  datatype Ensured = Ensured(doc: Document, prefix: string)

  /** The root after declaring `xmlns:preferred="uri"` (when no prefix is
      bound to `uri` yet) and listing the prefix as ignorable. The prefix
      name is checked first (`XmlConvert.VerifyNCName`), then the value (a
      prefixed declaration cannot bind the empty namespace), then
      duplicates (`XElement.Add`). */
  function DeclareOn(root: Element, uri: string, preferred: string): (r: Result<Ensured>)
    ensures r.Success? ==> r.value.doc.root.Some?
  {
    match PrefixOfNamespace(root, uri)
    case Some(p) => Success(Ensured(Document(Some(ListIgnorable(root, p))), p))
    case None =>
      if preferred == "" then Failure(ArgumentError(EmptyNameMessage))
      else if !IsNCName(preferred) then Failure(XmlError)
      else if uri == "" then Failure(ArgumentError(EmptyNamespaceMessage))
      else match AddAttribute(root, XmlnsName(preferred), uri)
        case Failure(e) => Failure(e)
        case Success(declared) => Success(Ensured(Document(Some(ListIgnorable(declared, preferred))), preferred))
  }

  /** `EnsureNamespace(XNamespace ns, string preferredPrefix)` and its
      string overload. */
  function EnsureUri(d: Document, uri: string, preferred: string): (r: Result<Ensured>)
    ensures d.root.None? ==> r == Failure(InvalidOperation(RootMissing))
    ensures d.root.Some? && DefaultNamespace(d.root.value) == uri ==> r == Success(Ensured(d, ""))
    ensures d.root.Some? && DefaultNamespace(d.root.value) != uri ==> r == DeclareOn(d.root.value, uri, preferred)
  {
    if d.root.None? then Failure(InvalidOperation(RootMissing))
    else if DefaultNamespace(d.root.value) == uri then Success(Ensured(d, ""))
    else DeclareOn(d.root.value, uri, preferred)
  }

  /** What declaring a namespace that is not the default one does: the
      prefix is the one already bound to the URI, else the preferred one;
      afterwards the prefix is bound to the URI and listed as ignorable,
      and no attribute other than the declaration and
      `IgnorableNamespaces` changes. It fails exactly when a new
      declaration is needed and the preferred prefix is not a name, the URI
      is empty, or the root already has an `xmlns:preferred` attribute. */
  lemma DeclareOnMeaning(root: Element, uri: string, preferred: string)
    ensures var r := DeclareOn(root, uri, preferred);
      var existing := PrefixOfNamespace(root, uri);
      (r.Failure? <==> existing.None? && (!IsNCName(preferred) || uri == "" || HasAttribute(root, XmlnsName(preferred))))
      && (r.Failure? && IsNCName(preferred) && uri != "" ==> r.error.InvalidOperation?)
      && (r.Success? ==> r.value.prefix == existing.GetOr(preferred))
      && (r.Success? ==> PrefixOfNamespace(r.value.doc.root.value, uri) == Some(r.value.prefix))
      && (r.Success? ==> forall m :: m != IgnorableName && m != XmlnsName(r.value.prefix) ==>
            Attribute(r.value.doc.root.value, m) == Attribute(root, m))
      && (r.Success? ==> r.value.doc.root.value.name == root.name && r.value.doc.root.value.children == root.children)
      && (r.Success? && ValidDeclarations(root) ==>
            Attribute(r.value.doc.root.value, IgnorableName).Some?
            && r.value.prefix in IgnorableTokens(Attribute(r.value.doc.root.value, IgnorableName).value))
  {
    var r := DeclareOn(root, uri, preferred);
    match PrefixOfNamespace(root, uri)
    case Some(p) =>
      ListIgnorableKeepsPrefixes(root, p, uri);
      if ValidDeclarations(root) {
        var i :| 0 <= i < |root.attrs| && root.attrs[i].name == XmlnsName(p) && root.attrs[i].value == uri;
        NCNameHasNoSpace(p);
      }
    case None =>
      if preferred != "" && IsNCName(preferred) && uri != "" && !HasAttribute(root, XmlnsName(preferred)) {
        var declared := SetAttributeValue(root, XmlnsName(preferred), uri);
        PrefixInAppendNew(root.attrs, preferred, uri);
        ListIgnorableKeepsPrefixes(declared, preferred, uri);
        NCNameHasNoSpace(preferred);
      }
  }

  /** Ensuring the same namespace again returns the same prefix and changes
      nothing, whatever prefix is preferred the second time. */
  lemma EnsureUriIdempotent(d: Document, uri: string, preferred: string, again: string)
    requires d.root.Some? && ValidDeclarations(d.root.value)
    requires EnsureUri(d, uri, preferred).Success?
    ensures var first := EnsureUri(d, uri, preferred).value;
      EnsureUri(first.doc, uri, again) == Success(first)
  {
    var first := EnsureUri(d, uri, preferred).value;
    EnsureUriStable(d, uri, preferred, first.doc, again);
  }

  /** Once a namespace is ensured, ensuring it on any document whose root
      carries the same attributes changes nothing: the result depends on
      the root's attributes alone. */
  lemma EnsureUriStable(d: Document, uri: string, preferred: string, d2: Document, again: string)
    requires d.root.Some? && ValidDeclarations(d.root.value)
    requires EnsureUri(d, uri, preferred).Success?
    requires d2.root.Some? && d2.root.value.attrs == EnsureUri(d, uri, preferred).value.doc.root.value.attrs
    ensures EnsureUri(d2, uri, again) == Success(Ensured(d2, EnsureUri(d, uri, preferred).value.prefix))
  {
    var root := d.root.value;
    var first := EnsureUri(d, uri, preferred).value;
    var root1 := first.doc.root.value;
    var root2 := d2.root.value;
    if DefaultNamespace(root) != uri {
      DeclareOnMeaning(root, uri, preferred);
      assert DefaultNamespace(root1) == DefaultNamespace(root) by {
        assert Attribute(root1, DefaultXmlnsName) == Attribute(root, DefaultXmlnsName);
      }
      assert Attribute(root2, DefaultXmlnsName) == Attribute(root1, DefaultXmlnsName);
      assert PrefixOfNamespace(root2, uri) == Some(first.prefix);
      assert Attribute(root2, IgnorableName) == Attribute(root1, IgnorableName);
      assert ListIgnorable(root2, first.prefix) == root2;
    } else {
      assert Attribute(root2, DefaultXmlnsName) == Attribute(root, DefaultXmlnsName);
    }
  }

  /** A successful `EnsureUri` touches only the root's attributes. */
  lemma EnsureUriKeepsTree(d: Document, uri: string, preferred: string)
    requires EnsureUri(d, uri, preferred).Success?
    ensures var r := EnsureUri(d, uri, preferred).value.doc;
      d.root.Some? && r.root.Some? && r.root.value.name == d.root.value.name
      && r.root.value.children == d.root.value.children && r.root.value.text == d.root.value.text
  {
    if DefaultNamespace(d.root.value) != uri {
      DeclareOnMeaning(d.root.value, uri, preferred);
      var r := DeclareOn(d.root.value, uri, preferred).value.doc.root.value;
      assert r.text == d.root.value.text;
    }
  }

  // ---------------------------------------------------------------------
  // Namespace families

  /** `AppxManifestEditExecutor.Namespaces`. */
  datatype Family = Root | Appx | Uap | RestrictedCapabilities | Build | Foundation | Iot | Mobile

  const AppxUri: string := "http://schemas.microsoft.com/appx/2010/manifest"
  const UapUri: string := "http://schemas.microsoft.com/appx/manifest/uap/windows10"
  const RescapUri: string := "http://schemas.microsoft.com/appx/manifest/foundation/windows10/restrictedcapabilities"
  const BuildUri: string := "http://schemas.microsoft.com/developer/appx/2015/build"
  const FoundationUri: string := "http://schemas.microsoft.com/appx/manifest/foundation/windows10"
  const MobileUri: string := "http://schemas.microsoft.com/appx/manifest/mobile/windows10"
  const IotUri: string := "http://schemas.microsoft.com/appx/manifest/iot/windows10"

  /** The unversioned URI and the preferred prefix of a family. */
  function FamilyUri(f: Family): string
    requires f != Root
  {
    match f
    case Appx => AppxUri
    case Uap => UapUri
    case RestrictedCapabilities => RescapUri
    case Build => BuildUri
    case Foundation => FoundationUri
    case Mobile => MobileUri
    case Iot => IotUri
  }

  function FamilyPrefix(f: Family): string
    requires f != Root
  {
    match f
    case Appx => "appx"
    case Uap => "uap"
    case RestrictedCapabilities => "rescap"
    case Build => "build"
    case Foundation => "win"
    case Mobile => "mobile"
    case Iot => "iot"
  }

  /** The URI of a family at a version: version 0 is the bare URI, any
      other version is appended after a slash. */
  function VersionedUri(f: Family, version: int): (r: string)
    requires f != Root
    ensures version == 0 ==> r == FamilyUri(f)
    ensures version != 0 ==> r == FamilyUri(f) + "/" + IntToString(version)
  {
    if version == 0 then FamilyUri(f) else FamilyUri(f) + "/" + IntToString(version)
  }

  /** A namespace ensured by family: the document, the prefix and the
      namespace URI. */
  datatype FamilyNs = FamilyNs(doc: Document, prefix: string, uri: string)

  /** `EnsureNamespace(Namespaces ns, int version)`; the one-argument
      overload passes version 0. */
  function EnsureFamily(d: Document, f: Family, version: int): (r: Result<FamilyNs>)
    ensures d.root.None? ==> r == Failure(InvalidOperation(RootMissing))
    ensures d.root.Some? && f == Root ==> r == Success(FamilyNs(d, "", DefaultNamespace(d.root.value)))
    ensures f != Root ==> r.Success? ==> r.value.uri == VersionedUri(f, version)
    ensures f != Root ==>
      (r.Success? <==> EnsureUri(d, VersionedUri(f, version), FamilyPrefix(f)).Success?)
      && (r.Success? ==> EnsureUri(d, VersionedUri(f, version), FamilyPrefix(f))
                           == Success(Ensured(r.value.doc, r.value.prefix)))
      && (r.Failure? ==> r.error == EnsureUri(d, VersionedUri(f, version), FamilyPrefix(f)).error)
  {
    if d.root.None? then Failure(InvalidOperation(RootMissing))
    else if f == Root then Success(FamilyNs(d, "", DefaultNamespace(d.root.value)))
    else
      var uri := VersionedUri(f, version);
      match EnsureUri(d, uri, FamilyPrefix(f))
      case Failure(e) => Failure(e)
      case Success(en) => Success(FamilyNs(en.doc, en.prefix, uri))
  }

  /** A successful `EnsureFamily` touches only the root's attributes. */
  lemma EnsureFamilyKeepsTree(d: Document, f: Family, version: int)
    requires EnsureFamily(d, f, version).Success?
    ensures var r := EnsureFamily(d, f, version).value.doc;
      d.root.Some? && r.root.Some? && r.root.value.name == d.root.value.name
      && r.root.value.children == d.root.value.children && r.root.value.text == d.root.value.text
  {
    if f != Root {
      EnsureUriKeepsTree(d, VersionedUri(f, version), FamilyPrefix(f));
    }
  }

  /** The parameterless `EnsureNamespace()`: the root's default namespace,
      with no change to the document. */
  function EnsureDefault(d: Document): (r: Result<(string, string)>)
    ensures d.root.None? <==> r.Failure?
    ensures r.Failure? ==> r.error == InvalidOperation(RootMissing)
    ensures r.Success? ==> r.value == ("", DefaultNamespace(d.root.value))
    ensures r.Success? ==> EnsureFamily(d, Root, 0) == Success(FamilyNs(d, r.value.0, r.value.1))
  {
    if d.root.None? then Failure(InvalidOperation(RootMissing))
    else Success(("", DefaultNamespace(d.root.value)))
  }

  /** A versioned family keeps the unversioned prefix, so when that prefix
      is already declared for another URI and nothing declares the
      versioned URI yet, the new declaration collides with the old one and
      the call fails (for instance `xmlns:uap` present, UAP version 4
      requested). */
  lemma VersionedPrefixClash(d: Document, f: Family, version: int)
    requires d.root.Some? && f != Root && version != 0
    requires DefaultNamespace(d.root.value) != VersionedUri(f, version)
    requires PrefixOfNamespace(d.root.value, VersionedUri(f, version)).None?
    requires HasAttribute(d.root.value, XmlnsName(FamilyPrefix(f)))
    ensures EnsureFamily(d, f, version).Failure?
    ensures EnsureFamily(d, f, version).error.InvalidOperation?
  {
    var uri := VersionedUri(f, version);
    FamilyPrefixIsName(f);
    assert uri != "" by { assert |uri| >= |FamilyUri(f)| > 0; }
    DeclareOnMeaning(d.root.value, uri, FamilyPrefix(f));
  }

  lemma FamilyPrefixIsName(f: Family)
    requires f != Root
    ensures IsNCName(FamilyPrefix(f))
  {
    var p := FamilyPrefix(f);
    assert IsAsciiLetter(p[0]);
    assert forall i :: 0 <= i < |p| ==> IsAsciiLetter(p[i]);
  }
}

=== FILE: entry_points.dfy ===
/** How `AppxManifestCreator` chooses the executables a generated manifest
    declares, in which order, and the application `Id` each one gets. */
module EntryPoints {
  import opened Wrappers
  import opened Text
  import opened Paths

  // ---------------------------------------------------------------------
  // Candidates

  /** `Path.GetFileNameWithoutExtension`: the file name up to its last dot. */
  function FileStem(path: string): string {
    var name := FileName(path);
    match LastIndexOfChar(name, '.')
    case None => name
    case Some(i) => name[..i]
  }

  /** The stem is the whole file name when it has no dot, and otherwise
      what precedes its last dot. */
  lemma FileStemMeaning(path: string)
    ensures var name := FileName(path); var r := FileStem(path);
      |r| <= |name| && r == name[..|r|]
      && ('.' !in name ==> r == name)
      && ('.' in name ==> |r| < |name| && name[|r|] == '.' && '.' !in name[|r| + 1..])
  {
    var name := FileName(path);
    match LastIndexOfChar(name, '.')
    case None =>
    case Some(i) =>
      var tail := name[i + 1..];
      forall k | 0 <= k < |tail| ensures tail[k] != '.' {
        assert tail[k] == name[i + 1 + k];
      }
  }

  /** An updater or uninstaller, which is not offered as an entry point:
      the lower-cased stem is "update" or "updater", or starts with "unins". */
  predicate IsUpdater(path: string) {
    var fn := Fold(FileStem(path));
    fn == "update" || fn == "updater" || StartsWithIgnoreCase(fn, "unins")
  }

  /** The candidates that are not updaters, in their order. */
  function Installable(candidates: seq<string>): (r: seq<string>)
    ensures |r| <= |candidates|
  {
    if |candidates| == 0 then []
    else (if IsUpdater(candidates[0]) then [] else [candidates[0]]) + Installable(candidates[1..])
  }

  /** A candidate survives exactly when it is not an updater. */
  lemma {:induction false} InstallableMembers(candidates: seq<string>)
    ensures forall x :: x in Installable(candidates) <==> x in candidates && !IsUpdater(x)
  {
    if |candidates| > 0 {
      InstallableMembers(candidates[1..]);
      assert candidates == [candidates[0]] + candidates[1..];
    }
  }

  const NoExecutables: string := "This folder contains no executable files."

  /** `GetEntryPointCandidates`: the executables found, without updaters
      and uninstallers unless nothing else is left. */
  function EntryPointCandidates(candidates: seq<string>): (r: Result<seq<string>>)
    ensures r.Failure? <==> |candidates| == 0
    ensures r.Failure? ==> r.error == InvalidOperation(NoExecutables)
    ensures r.Success? ==> |r.value| > 0 && forall x :: x in r.value ==> x in candidates
  {
    if |candidates| == 0 then Failure(InvalidOperation(NoExecutables))
    else
      var filtered := Installable(candidates);
      InstallableMembers(candidates);
      if |filtered| > 0 then Success(filtered) else Success(candidates)
  }

  /** Updaters are dropped when anything else is left. */
  lemma UpdatersDropped(candidates: seq<string>, i: nat)
    requires i < |candidates| && !IsUpdater(candidates[i])
    ensures EntryPointCandidates(candidates) == Success(Installable(candidates))
  {
    InstallableMembers(candidates);
    assert candidates[i] in candidates;
    assert candidates[i] in Installable(candidates);
  }

  /** When every candidate is an updater, all of them are kept. */
  lemma OnlyUpdatersKept(candidates: seq<string>)
    requires |candidates| > 0
    requires forall i :: 0 <= i < |candidates| ==> IsUpdater(candidates[i])
    ensures EntryPointCandidates(candidates) == Success(candidates)
  {
    InstallableNone(candidates);
  }

  lemma {:induction false} InstallableNone(candidates: seq<string>)
    requires forall i :: 0 <= i < |candidates| ==> IsUpdater(candidates[i])
    ensures Installable(candidates) == []
  {
    if |candidates| > 0 {
      assert IsUpdater(candidates[0]);
      InstallableNone(candidates[1..]);
    }
  }

  /** Filtering distributes over concatenation, so it keeps the order. */
  lemma {:induction false} InstallableAppend(a: seq<string>, b: seq<string>)
    ensures Installable(a + b) == Installable(a) + Installable(b)
  {
    if |a| > 0 {
      var head: seq<string> := if IsUpdater(a[0]) then [] else [a[0]];
      assert (a + b)[0] == a[0] && (a + b)[1..] == a[1..] + b;
      assert Installable(a + b) == head + Installable(a[1..] + b);
      InstallableAppend(a[1..], b);
      assert Installable(a) == head + Installable(a[1..]);
      assert head + (Installable(a[1..]) + Installable(b)) == (head + Installable(a[1..])) + Installable(b);
    } else {
      assert a + b == b;
    }
  }

  /** Candidates without updaters come back unchanged. */
  lemma {:induction false} NoUpdatersUnchanged(candidates: seq<string>)
    requires |candidates| > 0
    requires forall i :: 0 <= i < |candidates| ==> !IsUpdater(candidates[i])
    ensures EntryPointCandidates(candidates) == Success(candidates)
  {
    InstallableAll(candidates);
  }

  lemma {:induction false} InstallableAll(candidates: seq<string>)
    requires forall i :: 0 <= i < |candidates| ==> !IsUpdater(candidates[i])
    ensures Installable(candidates) == candidates
  {
    if |candidates| > 0 {
      InstallableAll(candidates[1..]);
      assert candidates == [candidates[0]] + candidates[1..];
    }
  }

  // ---------------------------------------------------------------------
  // Order: `OrderBy('\\'-segment count).ThenBy(name, OrdinalIgnoreCase)`

  /** `char.ToUpperInvariant` on ASCII: `OrdinalIgnoreCase` compares
      upper-cased characters, so `_` sorts after the letters. */
  function UpperChar(c: char): char {
    if 'a' <= c <= 'z' then (c as int - 32) as char else c
  }

  /** `StringComparer.OrdinalIgnoreCase.Compare(a, b) < 0`. */
  predicate LessIgnoreCase(a: string, b: string)
    decreases |a|
  {
    |b| > 0 && (|a| == 0 || UpperChar(a[0]) < UpperChar(b[0])
                || (UpperChar(a[0]) == UpperChar(b[0]) && LessIgnoreCase(a[1..], b[1..])))
  }

  lemma {:induction false} LessIgnoreCaseTransitive(a: string, b: string, c: string)
    requires LessIgnoreCase(a, b) && LessIgnoreCase(b, c)
    ensures LessIgnoreCase(a, c)
    decreases |a|
  {
    if |a| > 0 && UpperChar(a[0]) == UpperChar(b[0]) && UpperChar(b[0]) == UpperChar(c[0]) {
      LessIgnoreCaseTransitive(a[1..], b[1..], c[1..]);
    }
  }

  lemma {:induction false} LessIgnoreCaseIrreflexive(a: string)
    ensures !LessIgnoreCase(a, a)
    decreases |a|
  {
    if |a| > 0 {
      LessIgnoreCaseIrreflexive(a[1..]);
    }
  }

  /** The number of `\`-separated segments of a relative path. */
  function Depth(path: string): nat {
    |Split(path, '\\')|
  }

  /** `a` sorts strictly before `b`. */
  predicate Before(a: string, b: string) {
    Depth(a) < Depth(b) || (Depth(a) == Depth(b) && LessIgnoreCase(a, b))
  }

  lemma BeforeTransitive(a: string, b: string, c: string)
    requires Before(a, b) && Before(b, c)
    ensures Before(a, c)
  {
    if Depth(a) == Depth(b) == Depth(c) {
      LessIgnoreCaseTransitive(a, b, c);
    }
  }

  /** No element sorts strictly before an earlier one. */
  predicate Ordered(s: seq<string>) {
    forall i, j :: 0 <= i < j < |s| ==> !Before(s[j], s[i])
  }

  /** Places `x` before the first element it sorts strictly before, after
      every element it ties with. */
  function Insert(x: string, s: seq<string>): (r: seq<string>)
    ensures multiset(r) == multiset(s) + multiset{x}
    ensures |r| == |s| + 1
  {
    if |s| == 0 then [x]
    else if Before(x, s[0]) then [x] + s
    else
      assert s == [s[0]] + s[1..];
      [s[0]] + Insert(x, s[1..])
  }

  /** The order `GetEntryPoints` returns the executables in: a stable sort
      by depth, then by name ignoring case. */
  function OrderEntryPoints(s: seq<string>): (r: seq<string>)
    ensures multiset(r) == multiset(s)
    ensures |r| == |s|
  {
    if |s| == 0 then []
    else
      assert s == s[..|s| - 1] + [s[|s| - 1]];
      Insert(s[|s| - 1], OrderEntryPoints(s[..|s| - 1]))
  }

  /** An element that no later element sorts before can head an ordered
      sequence. */
  lemma ConsOrdered(y: string, t: seq<string>)
    requires Ordered(t)
    requires forall j :: 0 <= j < |t| ==> !Before(t[j], y)
    ensures Ordered([y] + t)
  {
    var r := [y] + t;
    forall i, j | 0 <= i < j < |r| ensures !Before(r[j], r[i]) {
      assert r[j] == t[j - 1];
      if i > 0 {
        assert r[i] == t[i - 1];
      }
    }
  }

  lemma TailOrdered(s: seq<string>)
    requires Ordered(s) && |s| > 0
    ensures Ordered(s[1..])
    ensures forall j :: 0 <= j < |s[1..]| ==> !Before(s[1..][j], s[0])
  {
    var t := s[1..];
    forall i, j | 0 <= i < j < |t| ensures !Before(t[j], t[i]) {
      assert t[i] == s[i + 1] && t[j] == s[j + 1];
    }
    forall j | 0 <= j < |t| ensures !Before(t[j], s[0]) {
      assert t[j] == s[j + 1];
    }
  }

  lemma {:induction false} InsertOrdered(x: string, s: seq<string>)
    requires Ordered(s)
    ensures Ordered(Insert(x, s))
  {
    if |s| > 0 {
      if Before(x, s[0]) {
        forall j | 0 <= j < |s| ensures !Before(s[j], x) {
          if Before(s[j], x) {
            BeforeTransitive(s[j], x, s[0]);
            if j == 0 {
              LessIgnoreCaseIrreflexive(s[0]);
            }
          }
        }
        ConsOrdered(x, s);
      } else {
        var t := s[1..];
        TailOrdered(s);
        InsertOrdered(x, t);
        var rest := Insert(x, t);
        forall j | 0 <= j < |rest| ensures !Before(rest[j], s[0]) {
          assert rest[j] in multiset(rest);
          if rest[j] != x {
            assert rest[j] in multiset(t);
            assert rest[j] in t;
          }
        }
        ConsOrdered(s[0], rest);
      }
    }
  }

  /** The result is ordered, whatever order the files were found in. */
  lemma {:induction false} EntryPointsOrdered(s: seq<string>)
    ensures Ordered(OrderEntryPoints(s))
  {
    if |s| > 0 {
      EntryPointsOrdered(s[..|s| - 1]);
      InsertOrdered(s[|s| - 1], OrderEntryPoints(s[..|s| - 1]));
    }
  }

  lemma {:induction false} InsertLast(x: string, s: seq<string>)
    requires forall k :: 0 <= k < |s| ==> !Before(x, s[k])
    ensures Insert(x, s) == s + [x]
  {
    if |s| > 0 {
      InsertLast(x, s[1..]);
      assert s == [s[0]] + s[1..];
    }
  }

  /** Files already in order are returned as they came, so ordering twice
      is ordering once. */
  lemma {:induction false} OrderedUnchanged(s: seq<string>)
    requires Ordered(s)
    ensures OrderEntryPoints(s) == s
  {
    if |s| > 0 {
      var p, x := s[..|s| - 1], s[|s| - 1];
      assert s == p + [x];
      OrderedLast(p, x);
      OrderedUnchanged(p);
      InsertLast(x, p);
    }
  }

  /** Dropping the last of ordered files leaves them ordered, and the last
      one sorts before none of the others. */
  lemma OrderedLast(p: seq<string>, x: string)
    requires Ordered(p + [x])
    ensures Ordered(p)
    ensures forall k :: 0 <= k < |p| ==> !Before(x, p[k])
  {
    assert forall k :: 0 <= k < |p| ==> (p + [x])[k] == p[k];
    assert (p + [x])[|p|] == x;
  }

  lemma OrderIdempotent(s: seq<string>)
    ensures OrderEntryPoints(OrderEntryPoints(s)) == OrderEntryPoints(s)
  {
    EntryPointsOrdered(s);
    OrderedUnchanged(OrderEntryPoints(s));
  }

  /** The upper-casing comparison puts `a_` after `ab`, where a lower-casing
      one would put it first. */
  lemma UnderscoreAfterLetters()
    ensures LessIgnoreCase("ab.exe", "a_.exe") && !LessIgnoreCase("a_.exe", "ab.exe")
  {
    assert UpperChar('b') == 'B' && UpperChar('_') == '_';
    assert "ab.exe"[1..] == "b.exe" && "a_.exe"[1..] == "_.exe";
  }

  // ---------------------------------------------------------------------
  // Application ids

  /** Characters the id pattern `[^a-zA-z0-9_]+` keeps: the class range
      `A-z` also takes `[`, `\`, `]`, `^`, `_` and the backtick. */
  predicate IsIdChar(c: char) {
    ('A' <= c <= 'z') || ('0' <= c <= '9')
  }

  /** The id proposed for an executable: its stem without other characters. */
  function IdCandidate(path: string): (r: string)
    ensures forall i :: 0 <= i < |r| ==> IsIdChar(r[i])
    ensures forall c :: c in r <==> c in FileStem(path) && IsIdChar(c)
    ensures r == FileStem(path) <==> forall i :: 0 <= i < |FileStem(path)| ==> IsIdChar(FileStem(path)[i])
  {
    KeepCharsMembers(FileStem(path), IsIdChar);
    KeepCharsFixed(FileStem(path), IsIdChar);
    KeepChars(FileStem(path), IsIdChar)
  }

  /** `base + "_" + k`. */
  function Suffixed(base: string, k: nat): string {
    base + "_" + NatToString(k)
  }

  /** The number `k` when `s` is `Suffixed(base, k)`, and -1 otherwise. */
  function SuffixOf(base: string, s: string): (k: int)
    ensures k >= 0 ==> s == Suffixed(base, k)
  {
    var n := |base| + 1;
    if |s| > n && s[..n] == base + "_" && AllDigits(s[n..]) && NatToString(DigitsValue(s[n..])) == s[n..] then
      assert s == s[..n] + s[n..];
      DigitsValue(s[n..])
    else -1
  }

  lemma SuffixOfSuffixed(base: string, k: nat)
    ensures SuffixOf(base, Suffixed(base, k)) == k
  {
    var s := Suffixed(base, k);
    assert s[..|base| + 1] == base + "_";
    assert s[|base| + 1..] == NatToString(k);
    assert DigitsValue(NatToString(k)) == k;
  }

  /** The used names `base_j` with `j >= k`. */
  function Claimed(base: string, used: set<string>, k: nat): set<string> {
    set s | s in used && SuffixOf(base, s) >= k
  }

  lemma ClaimedShrinks(base: string, used: set<string>, k: nat)
    requires Suffixed(base, k) in used
    ensures |Claimed(base, used, k + 1)| < |Claimed(base, used, k)|
  {
    SuffixOfSuffixed(base, k);
    var a := Claimed(base, used, k + 1);
    var b := Claimed(base, used, k);
    var x := Suffixed(base, k);
    assert x in b && x !in a;
    forall s | s in b && s != x
      ensures s in a
    {
      assert SuffixOf(base, s) != k;
    }
    assert a == b - {x};
  }

  /** The smallest `j >= k` with `base_j` free. */
  function FirstFree(base: string, used: set<string>, k: nat): (r: nat)
    ensures r >= k && Suffixed(base, r) !in used
    ensures forall j :: k <= j < r ==> Suffixed(base, j) in used
    decreases |Claimed(base, used, k)|
  {
    if Suffixed(base, k) !in used then k
    else
      ClaimedShrinks(base, used, k);
      FirstFree(base, used, k + 1)
  }

  /** `id` is `candidate`, or `candidate_k` for some `k >= 1`. */
  ghost predicate DerivedFrom(id: string, candidate: string) {
    id == candidate || exists k: nat :: k >= 1 && id == Suffixed(candidate, k)
  }

  /** The id the loop settles on for `candidate` when `used` is taken. */
  function NextId(candidate: string, used: set<string>): (id: string)
    ensures id !in used
    ensures candidate !in used ==> id == candidate
  {
    if candidate !in used then candidate
    else Suffixed(candidate, FirstFree(candidate, used, 1))
  }

  /** A taken candidate gets the smallest free suffix `_k` with `k >= 1`. */
  lemma NextIdSmallestSuffix(candidate: string, used: set<string>)
    requires candidate in used
    ensures exists k: nat ::
      (k >= 1 && NextId(candidate, used) == Suffixed(candidate, k)
       && forall j :: 1 <= j < k ==> Suffixed(candidate, j) in used)
  {
    var k := FirstFree(candidate, used, 1);
    assert NextId(candidate, used) == Suffixed(candidate, k);
  }

  lemma NextIdDerived(candidate: string, used: set<string>)
    ensures DerivedFrom(NextId(candidate, used), candidate)
  {
    if candidate in used {
      NextIdSmallestSuffix(candidate, used);
    }
  }

  /** The ids handed out for `candidates`, in order; `used` holds the ids
      already handed out. */
  function AssignIds(candidates: seq<string>, used: set<string>): (ids: seq<string>)
    ensures |ids| == |candidates|
  {
    if |candidates| == 0 then []
    else
      var id := NextId(candidates[0], used);
      [id] + AssignIds(candidates[1..], used + {id})
  }

  /** No id handed out is one that was already taken. */
  lemma {:induction false} AssignIdsFresh(candidates: seq<string>, used: set<string>)
    ensures forall i :: 0 <= i < |candidates| ==> AssignIds(candidates, used)[i] !in used
  {
    if |candidates| > 0 {
      var id := NextId(candidates[0], used);
      var rest := AssignIds(candidates[1..], used + {id});
      AssignIdsFresh(candidates[1..], used + {id});
      assert forall i :: 0 <= i < |rest| ==> rest[i] !in used;
    }
  }

  /** The ids are pairwise distinct. */
  lemma {:induction false} AssignIdsDistinct(candidates: seq<string>, used: set<string>)
    ensures forall i, j :: 0 <= i < j < |candidates| ==>
      AssignIds(candidates, used)[i] != AssignIds(candidates, used)[j]
  {
    if |candidates| > 0 {
      var id := NextId(candidates[0], used);
      var rest := AssignIds(candidates[1..], used + {id});
      AssignIdsFresh(candidates[1..], used + {id});
      AssignIdsDistinct(candidates[1..], used + {id});
      var ids := [id] + rest;
      forall i, j | 0 <= i < j < |ids| ensures ids[i] != ids[j] {
        assert ids[j] == rest[j - 1];
        if i > 0 {
          assert ids[i] == rest[i - 1];
        }
      }
    }
  }

  /** Each id is its candidate, possibly with a suffix. */
  lemma {:induction false} AssignIdsDerived(candidates: seq<string>, used: set<string>)
    ensures forall i :: 0 <= i < |candidates| ==> DerivedFrom(AssignIds(candidates, used)[i], candidates[i])
  {
    if |candidates| > 0 {
      var id := NextId(candidates[0], used);
      var tail := candidates[1..];
      var rest := AssignIds(tail, used + {id});
      NextIdDerived(candidates[0], used);
      AssignIdsDerived(tail, used + {id});
      forall i | 0 <= i < |candidates| ensures DerivedFrom(AssignIds(candidates, used)[i], candidates[i]) {
        if i > 0 {
          assert tail[i - 1] == candidates[i];
          assert AssignIds(candidates, used)[i] == rest[i - 1];
        }
      }
    }
  }

  /** When the candidates are already distinct and none is taken, each
      keeps its own value. */
  lemma {:induction false} DistinctCandidatesKept(candidates: seq<string>, used: set<string>)
    requires forall i :: 0 <= i < |candidates| ==> candidates[i] !in used
    requires forall i, j :: 0 <= i < j < |candidates| ==> candidates[i] != candidates[j]
    ensures AssignIds(candidates, used) == candidates
  {
    if |candidates| > 0 {
      var c := candidates[0];
      var tail := candidates[1..];
      forall i | 0 <= i < |tail| ensures tail[i] !in used + {c} {
        assert tail[i] == candidates[i + 1];
      }
      forall i, j | 0 <= i < j < |tail| ensures tail[i] != tail[j] {
        assert tail[i] == candidates[i + 1] && tail[j] == candidates[j + 1];
      }
      DistinctCandidatesKept(tail, used + {c});
      assert candidates == [c] + tail;
    }
  }

  /** A candidate that comes twice gets the suffix `_1` the second time. */
  lemma RepeatedCandidate(c: string)
    ensures AssignIds([c, c], {}) == [c, Suffixed(c, 1)]
  {
    var none: set<string> := {};
    assert none + {c} == {c};
    assert [c, c][1..] == [c];
    assert |Suffixed(c, 1)| > |c|;
    assert FirstFree(c, {c}, 1) == 1;
    var second := Suffixed(c, 1);
    assert [c][1..] == [];
    assert AssignIds([c], {c}) == [second] + AssignIds([], {c, second});
  }

  /** The id candidates of the entry points, in order. */
  function IdCandidates(entryPoints: seq<string>): (r: seq<string>)
    ensures |r| == |entryPoints|
    ensures forall i :: 0 <= i < |r| ==> r[i] == IdCandidate(entryPoints[i])
  {
    seq(|entryPoints|, i requires 0 <= i < |entryPoints| => IdCandidate(entryPoints[i]))
  }

  /** The final `Id` of each application node: `AdjustManifest` starts
      from no used ids. */
  function ApplicationIds(entryPoints: seq<string>): (ids: seq<string>)
    ensures |ids| == |entryPoints|
  {
    AssignIds(IdCandidates(entryPoints), {})
  }

  /** Every application of the generated manifest gets its own id, derived
      from the executable's name. */
  lemma ApplicationIdsMeaning(entryPoints: seq<string>)
    ensures forall i, j :: 0 <= i < j < |entryPoints| ==>
      ApplicationIds(entryPoints)[i] != ApplicationIds(entryPoints)[j]
    ensures forall i :: 0 <= i < |entryPoints| ==>
      DerivedFrom(ApplicationIds(entryPoints)[i], IdCandidate(entryPoints[i]))
  {
    AssignIdsDistinct(IdCandidates(entryPoints), {});
    AssignIdsDerived(IdCandidates(entryPoints), {});
  }

  /** Two executables with the same id candidate, say `app.exe` and
      `sub\\app.exe`: the second one's id gets the suffix `_1`. */
  lemma SameCandidateSuffixed(a: string, b: string)
    requires IdCandidate(a) == IdCandidate(b)
    ensures ApplicationIds([a, b]) == [IdCandidate(a), Suffixed(IdCandidate(a), 1)]
  {
    var c := IdCandidate(a);
    var cs := IdCandidates([a, b]);
    assert cs == [c, c] by {
      assert [a, b][0] == a && [a, b][1] == b;
    }
    RepeatedCandidate(c);
    assert ApplicationIds([a, b]) == AssignIds(cs, {});
  }
}

=== FILE: file_list.dfy ===
/** `PackageFileListBuilder`: the mapping file given to `makeappx pack /f`,
    assembled from explicit files, the manifest and source directories. */
module FileList {
  import opened Wrappers
  import opened Text
  import opened Paths

  // ---------------------------------------------------------------------
  // A dictionary keyed ignoring case

  /** A `Dictionary<string, string>` with `StringComparer.OrdinalIgnoreCase`,
      as its entries in insertion order (key, value). */
  type Dict = seq<(string, string)>

  predicate UniqueKeys(d: Dict) {
    forall i, j :: 0 <= i < j < |d| ==> !EqualsIgnoreCase(d[i].0, d[j].0)
  }

  /** The position of the entry whose key is `k` ignoring case. */
  function KeyIndex(d: Dict, k: string): (r: Option<nat>)
    ensures r.Some? ==> r.value < |d| && EqualsIgnoreCase(d[r.value].0, k)
    ensures r.Some? ==> forall j :: 0 <= j < r.value ==> !EqualsIgnoreCase(d[j].0, k)
    ensures r.None? ==> forall j :: 0 <= j < |d| ==> !EqualsIgnoreCase(d[j].0, k)
  {
    if d == [] then None
    else if EqualsIgnoreCase(d[0].0, k) then Some(0)
    else match KeyIndex(d[1..], k)
      case None => None
      case Some(i) => Some(i + 1)
  }

  predicate ContainsKey(d: Dict, k: string) { KeyIndex(d, k).Some? }

  /** `TryGetValue`. */
  function Lookup(d: Dict, k: string): Option<string> {
    match KeyIndex(d, k)
    case None => None
    case Some(i) => Some(d[i].1)
  }

  /** The indexer's setter: an existing key (ignoring case) keeps its
      spelling and position and takes the new value; a new key is
      appended. */
  function Put(d: Dict, k: string, v: string): (r: Dict)
    ensures |r| == if ContainsKey(d, k) then |d| else |d| + 1
    ensures forall i :: 0 <= i < |d| ==> r[i].0 == d[i].0
  {
    match KeyIndex(d, k)
    case None => d + [(k, v)]
    case Some(i) => d[i := (d[i].0, v)]
  }

  /** The position of a key depends only on the keys. */
  lemma KeyIndexByKeys(d1: Dict, d2: Dict, k: string)
    requires |d1| == |d2| && forall i :: 0 <= i < |d1| ==> d1[i].0 == d2[i].0
    ensures KeyIndex(d1, k) == KeyIndex(d2, k)
  {
  }

  /** Keys equal ignoring case are found at the same position. */
  lemma KeyIndexIgnoresCase(d: Dict, k1: string, k2: string)
    requires EqualsIgnoreCase(k1, k2)
    ensures KeyIndex(d, k1) == KeyIndex(d, k2)
  {
  }

  /** Appending an entry finds it only for a key found nowhere before. */
  lemma {:induction false} KeyIndexAppend(d: Dict, e: (string, string), k: string)
    ensures KeyIndex(d + [e], k) ==
      if KeyIndex(d, k).Some? then KeyIndex(d, k) else if EqualsIgnoreCase(e.0, k) then Some(|d|) else None
  {
    if d != [] {
      assert (d + [e])[1..] == d[1..] + [e];
      KeyIndexAppend(d[1..], e, k);
    }
  }

  /** After a put the key maps to the new value, every other key to what
      it did before, and keys stay unique ignoring case. */
  lemma PutMeaning(d: Dict, k: string, v: string)
    ensures Lookup(Put(d, k, v), k) == Some(v)
    ensures forall k' :: !EqualsIgnoreCase(k', k) ==> Lookup(Put(d, k, v), k') == Lookup(d, k')
    ensures UniqueKeys(d) ==> UniqueKeys(Put(d, k, v))
  {
    var r := Put(d, k, v);
    match KeyIndex(d, k)
    case None =>
      forall k' ensures KeyIndex(r, k') == if KeyIndex(d, k').Some? then KeyIndex(d, k') else if EqualsIgnoreCase(k, k') then Some(|d|) else None {
        KeyIndexAppend(d, (k, v), k');
      }
    case Some(i) =>
      forall k' ensures KeyIndex(r, k') == KeyIndex(d, k') {
        KeyIndexByKeys(r, d, k');
      }
  }

  const DuplicateKey: string := "An item with the same key has already been added. Key: "

  /** `Add` for each entry in turn: a key already present, ignoring case,
      fails. */
  function AddAll(d: Dict, entries: Dict): Result<Dict>
    decreases |entries|
  {
    if entries == [] then Success(d)
    else if ContainsKey(d, entries[0].0) then Failure(ArgumentError(DuplicateKey + entries[0].0))
    else AddAll(d + [entries[0]], entries[1..])
  }

  /** Adding succeeds exactly when no key would be there twice, and then
      appends the entries in order. */
  lemma {:induction false} AddAllMeaning(d: Dict, entries: Dict)
    requires UniqueKeys(d)
    ensures AddAll(d, entries).Success? <==> UniqueKeys(d + entries)
    ensures AddAll(d, entries).Success? ==> AddAll(d, entries).value == d + entries
    ensures AddAll(d, entries).Failure? ==> AddAll(d, entries).error.ArgumentError?
    decreases |entries|
  {
    if entries != [] {
      var e := entries[0];
      assert d + entries == (d + [e]) + entries[1..];
      if ContainsKey(d, e.0) {
        var i := KeyIndex(d, e.0).value;
        assert (d + entries)[i] == d[i] && (d + entries)[|d|] == e;
      } else {
        assert UniqueKeys(d + [e]);
        AddAllMeaning(d + [e], entries[1..]);
        if UniqueKeys(d + entries) {
          assert forall i, j :: 0 <= i < j < |d| + 1 ==> (d + [e])[i] == (d + entries)[i] && (d + [e])[j] == (d + entries)[j];
        }
      }
    }
  }

  // ---------------------------------------------------------------------
  // The builder

  /** `SourceDirectory`. */
  datatype SourceDirectory = SourceDirectory(sourcePath: string, targetRelativePath: string, wildcard: string,
                                             recursive: bool)

  /** The builder: explicit files by target, and the directories to
      enumerate, in the order they were added. */
  datatype Builder = Builder(files: Dict, directories: seq<SourceDirectory>)

  const Empty: Builder := Builder([], [])

  const ManifestTarget: string := "AppxManifest.xml"
  const ManifestLookup: string := "appxmanifest.xml"

  /** The invariant every builder keeps: targets unique ignoring case. */
  predicate Valid(b: Builder) { UniqueKeys(b.files) }

  /** `AddFile`: the target maps to the source with `/` turned into `\`. */
  function AddFile(b: Builder, sourceFile: string, targetRelativeFilePath: string): (r: Builder)
    ensures r.directories == b.directories
  {
    b.(files := Put(b.files, targetRelativeFilePath, ReplaceChar(sourceFile, '/', '\\')))
  }

  /** `AddManifest`: the manifest target maps to the path as given. */
  function AddManifest(b: Builder, sourceManifestFilePath: string): (r: Builder)
    ensures r.directories == b.directories
  {
    b.(files := Put(b.files, ManifestTarget, sourceManifestFilePath))
  }

  /** `AddDirectory(source, wildcard, recursive, target)`. */
  function AddDirectory(b: Builder, sourceDirectory: string, wildcard: string, recursive: bool,
                        targetRelativeDirectory: string): (r: Builder)
    ensures r.files == b.files
    ensures r.directories == b.directories + [SourceDirectory(sourceDirectory, targetRelativeDirectory, wildcard, recursive)]
  {
    b.(directories := b.directories + [SourceDirectory(sourceDirectory, targetRelativeDirectory, wildcard, recursive)])
  }

  /** The shorter overloads: every file (`*`) unless a wildcard is given,
      top directory only unless recursion is asked for. */
  function AddDirectoryMatching(b: Builder, sourceDirectory: string, wildcard: string, targetRelativeDirectory: string): Builder {
    AddDirectory(b, sourceDirectory, wildcard, false, targetRelativeDirectory)
  }

  function AddDirectoryTree(b: Builder, sourceDirectory: string, recursive: bool, targetRelativeDirectory: string): Builder {
    AddDirectory(b, sourceDirectory, "*", recursive, targetRelativeDirectory)
  }

  function AddDirectoryFiles(b: Builder, sourceDirectory: string, targetRelativeDirectory: string): Builder {
    AddDirectory(b, sourceDirectory, "*", false, targetRelativeDirectory)
  }

  /** The builder operations keep targets unique; a later file for the same
      target, ignoring case, replaces the earlier source; other targets
      keep theirs. */
  lemma AddFileMeaning(b: Builder, sourceFile: string, target: string)
    ensures var r := AddFile(b, sourceFile, target);
      && (Valid(b) ==> Valid(r))
      && Lookup(r.files, target) == Some(ReplaceChar(sourceFile, '/', '\\'))
      && forall t :: !EqualsIgnoreCase(t, target) ==> Lookup(r.files, t) == Lookup(b.files, t)
  {
    PutMeaning(b.files, target, ReplaceChar(sourceFile, '/', '\\'));
  }

  /** The directory overloads differ only in their defaults. */
  lemma DirectoryDefaults(b: Builder, source: string, wildcard: string, recursive: bool, target: string)
    ensures AddDirectoryMatching(b, source, wildcard, target).directories[|b.directories|]
      == SourceDirectory(source, target, wildcard, false)
    ensures AddDirectoryTree(b, source, recursive, target).directories[|b.directories|]
      == SourceDirectory(source, target, "*", recursive)
    ensures AddDirectoryFiles(b, source, target) == AddDirectoryTree(b, source, false, target)
  {
  }

  /** `Directory.EnumerateFiles` for a source directory, with its wildcard
      and search depth: the full paths found, in the order found. */
  type Listing = SourceDirectory -> seq<string>

  /** The first manifest found in a directory mapped to the package root. */
  function ManifestInDirectories(dirs: seq<SourceDirectory>, manifests: string -> seq<string>): (r: Option<string>)
    ensures r.Some? ==> exists i :: 0 <= i < |dirs| && dirs[i].targetRelativePath == ""
                          && |manifests(dirs[i].sourcePath)| > 0 && r.value == manifests(dirs[i].sourcePath)[0]
  {
    if dirs == [] then None
    else if dirs[0].targetRelativePath == "" && |manifests(dirs[0].sourcePath)| > 0 then
      Some(manifests(dirs[0].sourcePath)[0])
    else
      var r := ManifestInDirectories(dirs[1..], manifests);
      assert forall i :: 1 <= i < |dirs| ==> dirs[1..][i - 1] == dirs[i];
      r
  }

  /** `GetManifestSourcePath`: the explicit manifest, ignoring case, else
      the first `appxmanifest.xml` at the top of a directory mapped to the
      package root; `manifests` lists those files in a directory. */
  function ManifestSourcePath(b: Builder, manifests: string -> seq<string>): Option<string> {
    match Lookup(b.files, ManifestLookup)
    case Some(p) => Some(p)
    case None => ManifestInDirectories(b.directories, manifests)
  }

  /** A manifest added explicitly is the one found, whatever the
      directories hold. */
  lemma ManifestRoundTrip(b: Builder, path: string, manifests: string -> seq<string>)
    ensures ManifestSourcePath(AddManifest(b, path), manifests) == Some(path)
  {
    PutMeaning(b.files, ManifestTarget, path);
    ManifestNamesMatch();
    KeyIndexIgnoresCase(AddManifest(b, path).files, ManifestTarget, ManifestLookup);
  }

  lemma ManifestNamesMatch()
    ensures EqualsIgnoreCase(ManifestTarget, ManifestLookup)
  {
  }

  // ---------------------------------------------------------------------
  // Targets of directory files

  predicate IsAsciiLetter(c: char) { ('a' <= c <= 'z') || ('A' <= c <= 'Z') }

  /** `Path.IsPathRooted`. */
  predicate IsRooted(p: string) {
    (|p| >= 1 && IsSeparator(p[0])) || (|p| >= 2 && IsAsciiLetter(p[0]) && p[1] == ':')
  }

  /** `Path.Combine(a, b)`. */
  function Combine(a: string, b: string): string {
    if a == "" then b
    else if b == "" then a
    else if IsRooted(b) then b
    else if IsSeparator(a[|a| - 1]) then a + b
    else a + "\\" + b
  }

  /** Combining a directory with a plain file name puts the name in that
      directory. */
  lemma CombineSplits(a: string, name: string)
    requires a != "" && !IsSeparator(a[|a| - 1])
    requires name != "" && forall j :: 0 <= j < |name| ==> !EndsName(name[j])
    ensures FileName(Combine(a, name)) == name && DirectoryPart(Combine(a, name)) == a
  {
    assert !IsRooted(name) by { assert !EndsName(name[0]); if |name| >= 2 { assert !EndsName(name[1]); } }
    DirectoryJoin(a, '\\', name);
  }

  /** The target of a found file: its path below the source directory
      without leading `\`, placed under the target directory if there is
      one; `None` for a file outside the source directory. */
  function TargetOf(d: SourceDirectory, found: string): Option<string> {
    if !StartsWithIgnoreCase(found, d.sourcePath) then None
    else
      var relative := TrimStartChar(found[|d.sourcePath|..], '\\');
      Some(if d.targetRelativePath == "" then relative else Combine(d.targetRelativePath, relative))
  }

  /** A file below a directory mapped to the package root keeps its
      relative path as its target. */
  lemma TargetOfJoined(d: SourceDirectory, relative: string)
    requires d.targetRelativePath == "" && (|relative| == 0 || relative[0] != '\\')
    ensures TargetOf(d, d.sourcePath + "\\" + relative) == Some(relative)
  {
    var found := d.sourcePath + "\\" + relative;
    assert found[..|d.sourcePath|] == d.sourcePath;
    assert found[|d.sourcePath|..] == "\\" + relative;
    assert ("\\" + relative)[1..] == relative;
  }

  /** The entries a directory contributes: each found file inside it with
      its target, unless an explicit file has that target. */
  function DirectoryEntries(d: SourceDirectory, found: seq<string>, files: Dict): Dict {
    if found == [] then []
    else
      var here :=
        match TargetOf(d, found[0])
        case None => []
        case Some(t) => if ContainsKey(files, t) then [] else [(t, found[0])];
      here + DirectoryEntries(d, found[1..], files)
  }

  /** The entries of all directories, directory by directory. */
  function Enumerated(dirs: seq<SourceDirectory>, listing: Listing, files: Dict): Dict {
    if dirs == [] then [] else DirectoryEntries(dirs[0], listing(dirs[0]), files) + Enumerated(dirs[1..], listing, files)
  }

  /** An entry comes from a directory exactly when a file found there has
      that target and no explicit file does. */
  lemma {:induction false} DirectoryEntriesMeaning(d: SourceDirectory, found: seq<string>, files: Dict, e: (string, string))
    ensures e in DirectoryEntries(d, found, files) <==>
      e.1 in found && TargetOf(d, e.1) == Some(e.0) && !ContainsKey(files, e.0)
  {
    if found != [] {
      DirectoryEntriesMeaning(d, found[1..], files, e);
      if e.1 in found && e.1 != found[0] {
        assert e.1 in found[1..];
      }
    }
  }

  lemma {:induction false} EnumeratedMeaning(dirs: seq<SourceDirectory>, listing: Listing, files: Dict, e: (string, string))
    ensures e in Enumerated(dirs, listing, files) <==>
      exists i :: 0 <= i < |dirs| && e.1 in listing(dirs[i]) && TargetOf(dirs[i], e.1) == Some(e.0)
        && !ContainsKey(files, e.0)
  {
    if dirs != [] {
      DirectoryEntriesMeaning(dirs[0], listing(dirs[0]), files, e);
      EnumeratedMeaning(dirs[1..], listing, files, e);
      if exists i :: 0 <= i < |dirs| && e.1 in listing(dirs[i]) && TargetOf(dirs[i], e.1) == Some(e.0) && !ContainsKey(files, e.0) {
        var i :| 0 <= i < |dirs| && e.1 in listing(dirs[i]) && TargetOf(dirs[i], e.1) == Some(e.0) && !ContainsKey(files, e.0);
        if i > 0 { assert dirs[1..][i - 1] == dirs[i]; }
      }
      if e in Enumerated(dirs[1..], listing, files) {
        var i :| 0 <= i < |dirs[1..]| && e.1 in listing(dirs[1..][i]) && TargetOf(dirs[1..][i], e.1) == Some(e.0);
        assert dirs[1..][i] == dirs[i + 1];
      }
    }
  }

  // ---------------------------------------------------------------------
  // The listing

  const NewLine: string := "\r\n"
  const Header: string := "[Files]"

  /** Targets `makeappx` produces itself, compared lower-cased. */
  predicate IsReserved(target: string) {
    Fold(target) == "appxblockmap.xml" || Fold(target) == "appxsignature.p7x"
  }

  predicate SeenIgnoringCase(seen: seq<string>, t: string) {
    exists i :: 0 <= i < |seen| && EqualsIgnoreCase(seen[i], t)
  }

  /** The entries written, in order: reserved targets and targets already
      written (ignoring case) are skipped. */
  function Kept(entries: Dict, seen: seq<string>): Dict
    decreases |entries|
  {
    if entries == [] then []
    else if IsReserved(entries[0].0) || SeenIgnoringCase(seen, entries[0].0) then Kept(entries[1..], seen)
    else [entries[0]] + Kept(entries[1..], seen + [entries[0].0])
  }

  function Targets(d: Dict): (r: seq<string>)
    ensures |r| == |d| && forall i :: 0 <= i < |d| ==> r[i] == d[i].0
  {
    seq(|d|, i requires 0 <= i < |d| => d[i].0)
  }

  lemma SeenExtends(seen: seq<string>, t: string, x: string)
    ensures SeenIgnoringCase(seen, x) ==> SeenIgnoringCase(seen + [t], x)
  {
    if SeenIgnoringCase(seen, x) {
      var i :| 0 <= i < |seen| && EqualsIgnoreCase(seen[i], x);
      assert (seen + [t])[i] == seen[i];
    }
  }

  /** What is written comes from the entries, is never reserved or already
      seen, and lists no target twice. */
  lemma {:induction false} KeptSound(entries: Dict, seen: seq<string>)
    ensures var k := Kept(entries, seen);
      && (forall e :: e in k ==> e in entries && !IsReserved(e.0) && !SeenIgnoringCase(seen, e.0))
      && UniqueKeys(k)
    decreases |entries|
  {
    if entries != [] {
      var e := entries[0];
      if IsReserved(e.0) || SeenIgnoringCase(seen, e.0) {
        KeptSound(entries[1..], seen);
      } else {
        KeptSound(entries[1..], seen + [e.0]);
        var rest := Kept(entries[1..], seen + [e.0]);
        forall x | x in rest ensures !SeenIgnoringCase(seen, x.0) && !EqualsIgnoreCase(e.0, x.0) {
          SeenExtends(seen, e.0, x.0);
          assert (seen + [e.0])[|seen|] == e.0;
        }
        forall j | 0 < j < |[e] + rest| ensures !EqualsIgnoreCase(([e] + rest)[0].0, ([e] + rest)[j].0) {
          assert ([e] + rest)[j] in rest;
        }
      }
    }
  }

  /** Every entry that is not reserved, not seen, and the first with its
      target ignoring case, is written. */
  lemma {:induction false} KeptComplete(entries: Dict, seen: seq<string>, i: nat)
    requires i < |entries| && !IsReserved(entries[i].0) && !SeenIgnoringCase(seen, entries[i].0)
    requires forall j :: 0 <= j < i ==> !EqualsIgnoreCase(entries[j].0, entries[i].0)
    ensures entries[i] in Kept(entries, seen)
    decreases |entries|
  {
    var e := entries[0];
    if i > 0 {
      var seen' := if IsReserved(e.0) || SeenIgnoringCase(seen, e.0) then seen else seen + [e.0];
      assert !SeenIgnoringCase(seen', entries[i].0);
      forall j | 0 <= j < i - 1 ensures !EqualsIgnoreCase(entries[1..][j].0, entries[1..][i - 1].0) {
        assert entries[1..][j] == entries[j + 1];
      }
      KeptComplete(entries[1..], seen', i - 1);
    }
  }

  /** Entries are written in order: those of a first batch before those of
      a second, which sees the first batch's targets. */
  lemma {:induction false} KeptAppend(a: Dict, b: Dict, seen: seq<string>)
    ensures Kept(a + b, seen) == Kept(a, seen) + Kept(b, seen + Targets(Kept(a, seen)))
    decreases |a|
  {
    if a == [] {
      assert a + b == b && Kept(a, seen) == [];
      assert seen + Targets([]) == seen;
    } else {
      var e := a[0];
      assert (a + b)[1..] == a[1..] + b;
      if IsReserved(e.0) || SeenIgnoringCase(seen, e.0) {
        KeptAppend(a[1..], b, seen);
      } else {
        KeptAppend(a[1..], b, seen + [e.0]);
        var rest := Kept(a[1..], seen + [e.0]);
        assert Targets([e] + rest) == [e.0] + Targets(rest);
        assert seen + [e.0] + Targets(rest) == seen + Targets([e] + rest);
      }
    }
  }

  function Line(e: (string, string)): string {
    "\"" + e.1 + "\"\t\"" + e.0 + "\"" + NewLine
  }

  function Lines(d: Dict): string {
    if d == [] then "" else Line(d[0]) + Lines(d[1..])
  }

  /** The lines of two batches are those of the first, then those of the
      second. */
  lemma {:induction false} LinesAppend(a: Dict, b: Dict)
    ensures Lines(a + b) == Lines(a) + Lines(b)
  {
    if a != [] {
      assert (a + b)[1..] == a[1..] + b;
      LinesAppend(a[1..], b);
    } else {
      assert a + b == b;
    }
  }

  /** `ToString`: a failure when two directories give one target; the
      header line, then the directory entries, then the explicit ones. */
  function ListingText(b: Builder, listing: Listing): Result<string> {
    match AddAll([], Enumerated(b.directories, listing, b.files))
    case Failure(e) => Failure(e)
    case Success(fromDirectories) => Success(Header + NewLine + Lines(Kept(fromDirectories + b.files, [])))
  }

  /** The listing fails exactly when two directory files (ignoring case)
      share a target no explicit file has; otherwise it is the header and
      the written entries of the directory files followed by those of the
      explicit files. */
  lemma ListingTextMeaning(b: Builder, listing: Listing)
    ensures var r, en := ListingText(b, listing), Enumerated(b.directories, listing, b.files);
      && (r.Success? <==> UniqueKeys(en))
      && (r.Failure? ==> r.error.ArgumentError?)
      && (r.Success? ==>
            var fromDirectories := Kept(en, []);
            r.value == Header + NewLine + Lines(fromDirectories)
                       + Lines(Kept(b.files, Targets(fromDirectories))))
  {
    var en := Enumerated(b.directories, listing, b.files);
    AddAllMeaning([], en);
    assert [] + en == en;
    if UniqueKeys(en) {
      KeptAppend(en, b.files, []);
      assert [] + Targets(Kept(en, [])) == Targets(Kept(en, []));
      LinesAppend(Kept(en, []), Kept(b.files, Targets(Kept(en, []))));
    }
  }

  /** No directory entry shares a target with an explicit file, so each
      explicit file that is not reserved is written with its own source. */
  lemma ExplicitFilesWritten(b: Builder, listing: Listing, i: nat)
    requires Valid(b) && i < |b.files| && !IsReserved(b.files[i].0)
    requires UniqueKeys(Enumerated(b.directories, listing, b.files))
    ensures b.files[i] in Kept(Enumerated(b.directories, listing, b.files) + b.files, [])
  {
    var en := Enumerated(b.directories, listing, b.files);
    var all := en + b.files;
    forall j | 0 <= j < |en| + i ensures !EqualsIgnoreCase(all[j].0, all[|en| + i].0) {
      if j < |en| {
        EnumeratedMeaning(b.directories, listing, b.files, en[j]);
        assert en[j] in en;
        assert KeyIndex(b.files, en[j].0).None?;
      } else {
        assert all[j] == b.files[j - |en|];
      }
    }
    KeptComplete(all, [], |en| + i);
  }
}

=== FILE: identity_reader.dfy ===
/** `AppxIdentityReader`: the identity (name, publisher, version and
    architectures) of a package or bundle, read from a manifest file, a
    package archive or a stream of either. */
module IdentityReader {
  import opened Wrappers
  import opened Text
  import opened Xml
  import opened Paths
  import opened ZipReader

  const Windows10Ns: string := "http://schemas.microsoft.com/appx/manifest/foundation/windows10"
  const AppxNs: string := "http://schemas.microsoft.com/appx/2010/manifest"
  const BundleNs: string := "http://schemas.microsoft.com/appx/2013/bundle"

  /** The `FileConstants` names and extensions. */
  const AppxManifestFile: string := "AppxManifest.xml"
  const AppxBundleManifestFile: string := "AppxBundleManifest.xml"
  const AppxBundleManifestFilePath: string := "AppxMetadata/AppxBundleManifest.xml"
  const AppxExtension: string := ".appx"
  const MsixExtension: string := ".msix"
  const AppxBundleExtension: string := ".appxbundle"
  const MsixBundleExtension: string := ".msixbundle"

  const NoPackageRoot: string := "Not a valid package manifest. Missing root element <Package />."
  const NoIdentity: string := "Not a valid bundle manifest. Missing child element <Identity />."
  const NoBundleRoot: string := "Not a valid bundle manifest. Missing root element <Bundle />."
  const NotRecognised: string := "The input stream is neither a valid manifest or package file."

  /** `AppxIdentity`, over the architecture enumeration `A`; the
      architectures are unset (`None`) or a set. */
  datatype Identity<A> = Identity(name: Option<string>, publisher: Option<string>, version: Option<string>,
                                  architectures: Option<set<A>>)

  /** `a ?? b`. */
  function OrElse<T>(a: Option<T>, b: Option<T>): Option<T> {
    if a.Some? then a else b
  }

  /** `document.Element(n)`: the root when it has that name. */
  function RootNamed(d: Document, n: QName): (r: Option<Element>)
    ensures r.Some? <==> d.root.Some? && d.root.value.name == n
    ensures r.Some? ==> r == d.root
  {
    if d.root.Some? && d.root.value.name == n then d.root else None
  }

  /** The name, publisher and version attributes of an `Identity`. */
  function IdentityOf<A(!new)>(id: Element, archs: Option<set<A>>): Identity<A> {
    Identity(Attribute(id, Plain("Name")), Attribute(id, Plain("Publisher")), Attribute(id, Plain("Version")), archs)
  }

  // ---------------------------------------------------------------------
  // Package manifests

  function PackageRoot(d: Document): Option<Element> {
    OrElse(RootNamed(d, QName(Windows10Ns, "Package")), RootNamed(d, QName(AppxNs, "Package")))
  }

  function PackageIdentity(root: Element): Option<Element> {
    OrElse(Child(root, QName(Windows10Ns, "Identity")), Child(root, QName(AppxNs, "Identity")))
  }

  /** The architectures of a package identity: its one architecture when
      `ProcessorArchitecture` is present and parses, unset otherwise. */
  function ProcessorArchitecture<A(!new)>(id: Element, parse: string -> Option<A>): Option<set<A>> {
    match Attribute(id, Plain("ProcessorArchitecture"))
    case None => None
    case Some(v) =>
      match parse(v)
      case None => None
      case Some(a) => Some({a})
  }

  /** `GetIdentityFromPackageManifest(XDocument)`; `parse` is the
      case-insensitive `Enum.TryParse` of the architecture enumeration. */
  function FromPackageManifest<A(!new)>(d: Document, parse: string -> Option<A>): (r: Result<Identity<A>>)
    ensures PackageRoot(d).None? ==> r == Failure(InvalidData(NoPackageRoot))
  {
    match PackageRoot(d)
    case None => Failure(InvalidData(NoPackageRoot))
    case Some(root) =>
      match PackageIdentity(root)
      case None => Failure(InvalidData(NoIdentity))
      case Some(id) => Success(IdentityOf(id, ProcessorArchitecture(id, parse)))
  }

  /** A package manifest is read exactly when its root is a `Package` in the
      windows10 or the 2010 namespace with an `Identity` child in either;
      the fields are that child's attributes, the first `Identity` in the
      windows10 namespace preferred; an architecture is set only when it
      parses. */
  lemma PackageManifestMeaning<A(!new)>(d: Document, parse: string -> Option<A>)
    ensures var r := FromPackageManifest(d, parse);
      && (r.Success? <==>
            d.root.Some? && d.root.value.name in {QName(Windows10Ns, "Package"), QName(AppxNs, "Package")}
            && exists c :: c in d.root.value.children && c.name in {QName(Windows10Ns, "Identity"), QName(AppxNs, "Identity")})
      && (r.Failure? ==> r.error in {InvalidData(NoPackageRoot), InvalidData(NoIdentity)})
      && (r.Success? ==>
            var id := PackageIdentity(d.root.value).value;
            && id in d.root.value.children
            && (Child(d.root.value, QName(Windows10Ns, "Identity")).Some? ==> id.name == QName(Windows10Ns, "Identity"))
            && r.value.name == Attribute(id, Plain("Name"))
            && r.value.publisher == Attribute(id, Plain("Publisher"))
            && r.value.version == Attribute(id, Plain("Version"))
            && forall a :: (r.value.architectures == Some({a}) <==>
                 exists v :: Attribute(id, Plain("ProcessorArchitecture")) == Some(v) && parse(v) == Some(a)))
  {
    var r := FromPackageManifest(d, parse);
    match PackageRoot(d)
    case None =>
    case Some(root) =>
      assert root == d.root.value;
      IdentityChildFound(root);
      if PackageIdentity(root).Some? {
        var id := PackageIdentity(root).value;
        assert r.value == IdentityOf(id, ProcessorArchitecture(id, parse));
        ArchitectureParsed(id, parse);
      }
  }

  /** A package root has an identity exactly when one of its children is
      an `Identity` in either namespace; the windows10 one comes first. */
  lemma IdentityChildFound(root: Element)
    ensures PackageIdentity(root).Some? <==>
      exists c :: c in root.children && c.name in {QName(Windows10Ns, "Identity"), QName(AppxNs, "Identity")}
    ensures PackageIdentity(root).Some? ==> PackageIdentity(root).value in root.children
    ensures Child(root, QName(Windows10Ns, "Identity")).Some? ==>
      PackageIdentity(root).value.name == QName(Windows10Ns, "Identity")
  {
    var w, x := QName(Windows10Ns, "Identity"), QName(AppxNs, "Identity");
    if exists c :: c in root.children && c.name in {w, x} {
      var c :| c in root.children && c.name in {w, x};
      var j :| 0 <= j < |root.children| && root.children[j] == c;
      assert Child(root, w).Some? || Child(root, x).Some?;
    }
  }

  /** The architecture of an identity is the one its attribute parses to. */
  lemma ArchitectureParsed<A(!new)>(id: Element, parse: string -> Option<A>)
    ensures forall a :: (ProcessorArchitecture(id, parse) == Some({a}) <==>
      exists v :: Attribute(id, Plain("ProcessorArchitecture")) == Some(v) && parse(v) == Some(a))
  {
    forall a ensures ProcessorArchitecture(id, parse) == Some({a}) <==>
      exists v :: Attribute(id, Plain("ProcessorArchitecture")) == Some(v) && parse(v) == Some(a)
    {
      match Attribute(id, Plain("ProcessorArchitecture"))
      case None =>
      case Some(v) =>
        if parse(v).Some? && ProcessorArchitecture(id, parse) == Some({a}) {
          assert parse(v).value in {a};
        }
    }
  }

  // ---------------------------------------------------------------------
  // Bundle manifests

  /** The parsed `Architecture` of a bundled package, if it has one that
      parses. */
  function PackageArchitecture<A(!new)>(p: Element, parse: string -> Option<A>): Option<A> {
    match Attribute(p, Plain("Architecture"))
    case None => None
    case Some(v) => parse(v)
  }

  /** The union of the bundled packages' architectures; absent or
      unparseable ones are skipped. */
  function Architectures<A(!new)>(pkgs: seq<Element>, parse: string -> Option<A>): (r: set<A>)
    ensures forall a :: a in r <==> exists i :: 0 <= i < |pkgs| && PackageArchitecture(pkgs[i], parse) == Some(a)
  {
    if pkgs == [] then {}
    else
      var rest := Architectures(pkgs[1..], parse);
      assert forall a :: a in rest <==> exists i :: 1 <= i < |pkgs| && PackageArchitecture(pkgs[i], parse) == Some(a) by {
        forall a | a in rest ensures exists i :: 1 <= i < |pkgs| && PackageArchitecture(pkgs[i], parse) == Some(a) {
          var i :| 0 <= i < |pkgs[1..]| && PackageArchitecture(pkgs[1..][i], parse) == Some(a);
          assert pkgs[i + 1] == pkgs[1..][i];
        }
        forall a | exists i :: 1 <= i < |pkgs| && PackageArchitecture(pkgs[i], parse) == Some(a) ensures a in rest {
          var i :| 1 <= i < |pkgs| && PackageArchitecture(pkgs[i], parse) == Some(a);
          assert pkgs[1..][i - 1] == pkgs[i];
        }
      }
      match PackageArchitecture(pkgs[0], parse)
      case None => rest
      case Some(a) => {a} + rest
  }

  /** `GetIdentityFromBundleManifest(XDocument)`. */
  function FromBundleManifest<A(!new)>(d: Document, parse: string -> Option<A>): (r: Result<Identity<A>>)
    ensures RootNamed(d, QName(BundleNs, "Bundle")).None? ==> r == Failure(InvalidData(NoBundleRoot))
  {
    match RootNamed(d, QName(BundleNs, "Bundle"))
    case None => Failure(InvalidData(NoBundleRoot))
    case Some(root) =>
      match Child(root, QName(BundleNs, "Identity"))
      case None => Failure(InvalidData(NoIdentity))
      case Some(id) =>
        var archs :=
          match Child(root, QName(BundleNs, "Packages"))
          case None => None
          case Some(p) => Some(Architectures(ChildrenNamed(p.children, QName(BundleNs, "Package")), parse));
        Success(IdentityOf(id, archs))
  }

  /** A bundle manifest is read exactly when its root is a `Bundle` with an
      `Identity` child, both in the bundle namespace; the fields are that
      child's attributes. */
  lemma BundleManifestMeaning<A(!new)>(d: Document, parse: string -> Option<A>)
    ensures var r := FromBundleManifest(d, parse);
      && (r.Success? <==>
            d.root.Some? && d.root.value.name == QName(BundleNs, "Bundle")
            && exists c :: c in d.root.value.children && c.name == QName(BundleNs, "Identity"))
      && (r.Failure? ==> r.error in {InvalidData(NoBundleRoot), InvalidData(NoIdentity)})
      && (r.Success? ==>
            var id := Child(d.root.value, QName(BundleNs, "Identity")).value;
            && id in d.root.value.children
            && r.value.name == Attribute(id, Plain("Name"))
            && r.value.publisher == Attribute(id, Plain("Publisher"))
            && r.value.version == Attribute(id, Plain("Version")))
  {
    if d.root.Some? {
      var root := d.root.value;
      var n := QName(BundleNs, "Identity");
      if exists c :: c in root.children && c.name == n {
        var c :| c in root.children && c.name == n;
        var j :| 0 <= j < |root.children| && root.children[j] == c;
      }
    }
  }

  /** The architectures of a bundle are unset exactly when it has no
      `Packages` element; otherwise they are the parsed `Architecture`
      values of the `Package` children of the first `Packages`, and nothing
      else. */
  lemma BundleArchitectures<A(!new)>(d: Document, parse: string -> Option<A>)
    requires FromBundleManifest(d, parse).Success?
    ensures var archs, root := FromBundleManifest(d, parse).value.architectures, d.root.value;
      && (archs.None? <==> Child(root, QName(BundleNs, "Packages")).None?)
      && (archs.Some? ==>
            var p := Child(root, QName(BundleNs, "Packages")).value;
            forall a :: a in archs.value <==> PackagedArchitecture(p, a, parse))
  {
    var root := d.root.value;
    match Child(root, QName(BundleNs, "Packages"))
    case None =>
    case Some(p) =>
      var pkgs := ChildrenNamed(p.children, QName(BundleNs, "Package"));
      forall a ensures (a in Architectures(pkgs, parse)) <==> PackagedArchitecture(p, a, parse) {
        ArchitecturesOfPackages(p, a, parse);
      }
  }

  /** Some `Package` child of `p` has architecture `a`. */
  ghost predicate PackagedArchitecture<A(!new)>(p: Element, a: A, parse: string -> Option<A>) {
    exists c :: c in p.children && c.name == QName(BundleNs, "Package") && PackageArchitecture(c, parse) == Some(a)
  }

  lemma ArchitecturesOfPackages<A(!new)>(p: Element, a: A, parse: string -> Option<A>)
    ensures a in Architectures(ChildrenNamed(p.children, QName(BundleNs, "Package")), parse)
      <==> PackagedArchitecture(p, a, parse)
  {
    var pkgs := ChildrenNamed(p.children, QName(BundleNs, "Package"));
    if a in Architectures(pkgs, parse) {
      ArchitectureFromPackage(pkgs, a, parse);
    }
    if PackagedArchitecture(p, a, parse) {
      var c :| c in p.children && c.name == QName(BundleNs, "Package") && PackageArchitecture(c, parse) == Some(a);
      PackageGivesArchitecture(pkgs, c, a, parse);
    }
  }

  lemma ArchitectureFromPackage<A(!new)>(pkgs: seq<Element>, a: A, parse: string -> Option<A>)
    requires a in Architectures(pkgs, parse)
    ensures exists c :: c in pkgs && PackageArchitecture(c, parse) == Some(a)
  {
    var i :| 0 <= i < |pkgs| && PackageArchitecture(pkgs[i], parse) == Some(a);
    assert pkgs[i] in pkgs;
  }

  lemma PackageGivesArchitecture<A(!new)>(pkgs: seq<Element>, c: Element, a: A, parse: string -> Option<A>)
    requires c in pkgs && PackageArchitecture(c, parse) == Some(a)
    ensures a in Architectures(pkgs, parse)
  {
    var i :| 0 <= i < |pkgs| && pkgs[i] == c;
  }

  // ---------------------------------------------------------------------
  // Inputs

  /** The two extractors. */
  datatype Extractor = PackageExtractor | BundleExtractor

  /** Loading a manifest and running an extractor on it. */
  function Extract<A(!new)>(k: Extractor, doc: Result<Document>, parse: string -> Option<A>): Result<Identity<A>> {
    match doc
    case Failure(e) => Failure(e)
    case Success(d) =>
      match k
      case PackageExtractor => FromPackageManifest(d, parse)
      case BundleExtractor => FromBundleManifest(d, parse)
  }

  /** An archive entry and what its content loads as. */
  datatype ZipItem = ZipItem(entry: Entry, doc: Result<Document>)

  /** What the reader can observe of its input: the name of a file stream
      (none for other streams), what the content loads as when read as XML,
      and its entries when it opens as a ZIP archive. */
  datatype Stream = Stream(fileName: Option<string>, asXml: Result<Document>, asZip: Option<seq<ZipItem>>)

  function ArchiveOf(z: seq<ZipItem>): (a: Archive)
    ensures |a| == |z| && forall i :: 0 <= i < |z| ==> a[i] == z[i].entry
  {
    seq(|z|, i requires 0 <= i < |z| => z[i].entry)
  }

  /** `GetFile` followed by loading the entry. */
  function ReadEntry(z: seq<ZipItem>, path: string): (r: Result<Document>)
    ensures GetFile(ArchiveOf(z), path).Failure? ==> r == Failure(GetFile(ArchiveOf(z), path).error)
    ensures GetFile(ArchiveOf(z), path).Success? ==>
      exists i :: 0 <= i < |z| && z[i].entry == GetFile(ArchiveOf(z), path).value && r == z[i].doc
  {
    if path == "" then Failure(ArgumentError("filePath"))
    else match FindEntry(ArchiveOf(z), path)
      case None => Failure(FileNotFound("File " + path + " not found in MSIX package."))
      case Some(i) => z[i].doc
  }

  /** The identity from the manifest of an archive; a missing manifest
      (`GetFile`'s `FileNotFoundException`) is reported with `notFound`. */
  function FromArchive<A(!new)>(z: Option<seq<ZipItem>>, manifest: string, k: Extractor, notFound: string,
                                parse: string -> Option<A>): Result<Identity<A>>
  {
    match z
    case None => Failure(CorruptArchive)
    case Some(items) =>
      if manifest != "" && !FileExists(ArchiveOf(items), manifest) then Failure(ArgumentError(notFound))
      else Extract(k, ReadEntry(items, manifest), parse)
  }

  /** An archive that opens is read through its manifest when it holds
      one, and is the not-found failure otherwise. */
  lemma FromArchiveOpened<A(!new)>(items: seq<ZipItem>, manifest: string, k: Extractor, notFound: string,
                                   parse: string -> Option<A>)
    requires manifest != ""
    ensures FromArchive(Some(items), manifest, k, notFound, parse) ==
      if FileExists(ArchiveOf(items), manifest) then Extract(k, ReadEntry(items, manifest), parse)
      else Failure(ArgumentError(notFound))
  {
  }

  /** A manifest present in an archive is read from an entry with its name
      ignoring case, the exactly named one when there is one; a missing one
      is the not-found failure `GetFile` raises. */
  lemma ReadEntryMeaning(items: seq<ZipItem>, manifest: string)
    requires manifest != ""
    ensures var r := ReadEntry(items, manifest);
      && (FileExists(ArchiveOf(items), manifest) ==>
            exists i :: 0 <= i < |items| && EqualsIgnoreCase(items[i].entry.fullName, ToArchivePath(manifest))
              && r == items[i].doc
              && ((exists j :: 0 <= j < |items| && items[j].entry.fullName == ToArchivePath(manifest)) ==>
                    items[i].entry.fullName == ToArchivePath(manifest)))
      && (!FileExists(ArchiveOf(items), manifest) ==>
            r == Failure(FileNotFound("File " + manifest + " not found in MSIX package.")))
  {
    var a := ArchiveOf(items);
    GetFileMeaning(a, manifest);
    if FileExists(a, manifest) {
      var e := GetFile(a, manifest).value;
      var i :| 0 <= i < |items| && items[i].entry == e && ReadEntry(items, manifest) == items[i].doc;
      if exists j :: 0 <= j < |items| && items[j].entry.fullName == ToArchivePath(manifest) {
        var j :| 0 <= j < |items| && items[j].entry.fullName == ToArchivePath(manifest);
        assert a[j].fullName == ToArchivePath(manifest);
      }
    }
  }

  function PackageNotFound(path: string): string {
    "File " + path + " is not an APPX/MSIX package, because it does not contain a manifest."
  }

  function BundleNotFound(path: string): string {
    "File " + path + " is not an APPX/MSIX bundle, because it does not contain a manifest."
  }

  predicate IsPackageExtension(ext: string) { ext == MsixExtension || ext == AppxExtension }

  predicate IsBundleExtension(ext: string) { ext == AppxBundleExtension || ext == MsixBundleExtension }

  /** What a lower-cased extension names. */
  datatype FileKind = ManifestFile | PackageFile | BundleFile | OtherFile

  function KindOf(ext: string): FileKind {
    if ext == ".xml" then ManifestFile
    else if IsPackageExtension(ext) then PackageFile
    else if IsBundleExtension(ext) then BundleFile
    else OtherFile
  }

  /** The package and bundle extensions are told apart from each other and
      from `.xml`. */
  lemma KindOfArchives(ext: string)
    ensures IsPackageExtension(ext) <==> KindOf(ext) == PackageFile
    ensures IsBundleExtension(ext) <==> KindOf(ext) == BundleFile
  {
    if IsPackageExtension(ext) { assert |ext| == 5; }
    if IsBundleExtension(ext) { assert |ext| == 11; }
  }

  /** `GetIdentity(string filePath)`: `file` is the content at the path. */
  function PathIdentity<A(!new)>(path: string, file: Stream, parse: string -> Option<A>): Result<Identity<A>> {
    match KindOf(Fold(Extension(path)))
    case ManifestFile =>
      if EqualsIgnoreCase(AppxManifestFile, FileName(path)) then Extract(PackageExtractor, file.asXml, parse)
      else if EqualsIgnoreCase(AppxBundleManifestFile, FileName(path)) then Extract(BundleExtractor, file.asXml, parse)
      else Failure(ArgumentError("File name " + FileName(path) + " is not supported."))
    case PackageFile => FromArchive(file.asZip, AppxManifestFile, PackageExtractor, PackageNotFound(path), parse)
    case BundleFile => FromArchive(file.asZip, AppxBundleManifestFilePath, BundleExtractor, BundleNotFound(path), parse)
    case OtherFile => Failure(ArgumentError("File extension " + Extension(path) + " is not supported."))
  }

  /** A `.xml` path (extension compared ignoring case) is dispatched on
      its file name ignoring case: `AppxManifest.xml` to the package
      extractor, `AppxBundleManifest.xml` to the bundle extractor, any
      other name being unsupported. */
  lemma XmlPathDispatch<A(!new)>(path: string, file: Stream, parse: string -> Option<A>)
    requires Fold(Extension(path)) == ".xml"
    ensures var r, name := PathIdentity(path, file, parse), FileName(path);
      && (EqualsIgnoreCase(name, AppxManifestFile) ==> r == Extract(PackageExtractor, file.asXml, parse))
      && (EqualsIgnoreCase(name, AppxBundleManifestFile) ==> r == Extract(BundleExtractor, file.asXml, parse))
      && (!EqualsIgnoreCase(name, AppxManifestFile) && !EqualsIgnoreCase(name, AppxBundleManifestFile) ==>
            r == Failure(ArgumentError("File name " + name + " is not supported.")))
  {
    assert |Fold(AppxManifestFile)| != |Fold(AppxBundleManifestFile)|;
  }

  /** A package or bundle path whose content is no archive is a corrupt
      archive. */
  lemma CorruptArchivePath<A(!new)>(path: string, file: Stream, parse: string -> Option<A>)
    requires IsPackageExtension(Fold(Extension(path))) || IsBundleExtension(Fold(Extension(path)))
    requires file.asZip.None?
    ensures PathIdentity(path, file, parse) == Failure(CorruptArchive)
  {
    KindOfArchives(Fold(Extension(path)));
  }

  /** A package is read through the manifest it holds; one that is
      missing is an argument failure naming the path. */
  lemma PackagePathDispatch<A(!new)>(path: string, items: seq<ZipItem>, file: Stream, parse: string -> Option<A>)
    requires IsPackageExtension(Fold(Extension(path))) && file.asZip == Some(items)
    ensures PathIdentity(path, file, parse) ==
      if FileExists(ArchiveOf(items), AppxManifestFile)
      then Extract(PackageExtractor, ReadEntry(items, AppxManifestFile), parse)
      else Failure(ArgumentError(PackageNotFound(path)))
  {
    KindOfArchives(Fold(Extension(path)));
    assert PathIdentity(path, file, parse) == FromArchive(file.asZip, AppxManifestFile, PackageExtractor, PackageNotFound(path), parse);
    FromArchiveOpened(items, AppxManifestFile, PackageExtractor, PackageNotFound(path), parse);
  }

  /** A bundle is read through the manifest under `AppxMetadata`; one that
      is missing is an argument failure naming the path. */
  lemma BundlePathDispatch<A(!new)>(path: string, items: seq<ZipItem>, file: Stream, parse: string -> Option<A>)
    requires IsBundleExtension(Fold(Extension(path))) && file.asZip == Some(items)
    ensures PathIdentity(path, file, parse) ==
      if FileExists(ArchiveOf(items), AppxBundleManifestFilePath)
      then Extract(BundleExtractor, ReadEntry(items, AppxBundleManifestFilePath), parse)
      else Failure(ArgumentError(BundleNotFound(path)))
  {
    KindOfArchives(Fold(Extension(path)));
    assert PathIdentity(path, file, parse) == FromArchive(file.asZip, AppxBundleManifestFilePath, BundleExtractor, BundleNotFound(path), parse);
    FromArchiveOpened(items, AppxBundleManifestFilePath, BundleExtractor, BundleNotFound(path), parse);
  }

  /** Any extension other than the manifest's and the archives' is
      unsupported, whatever the content. */
  lemma OtherPathRejected<A(!new)>(path: string, file: Stream, parse: string -> Option<A>)
    requires Fold(Extension(path)) != ".xml"
    requires !IsPackageExtension(Fold(Extension(path))) && !IsBundleExtension(Fold(Extension(path)))
    ensures PathIdentity(path, file, parse) == Failure(ArgumentError("File extension " + Extension(path) + " is not supported."))
  {
    KindOfArchives(Fold(Extension(path)));
  }

  // ---------------------------------------------------------------------
  // Streams

  /** `Some(identity)` for a success, `None` for any failure: what a probe
      whose exceptions are caught leaves. */
  function Swallow<A(!new)>(r: Result<Identity<A>>): Option<Identity<A>> {
    if r.Success? then Some(r.value) else None
  }

  /** The XML probe: a document whose root is named `Package` or `Bundle`,
      in any namespace, read by the matching extractor. */
  function XmlProbe<A(!new)>(s: Stream, parse: string -> Option<A>): Option<Identity<A>> {
    match s.asXml
    case Failure(_) => None
    case Success(d) =>
      if d.root.None? then None
      else if d.root.value.name.local == "Package" then Swallow(FromPackageManifest(d, parse))
      else if d.root.value.name.local == "Bundle" then Swallow(FromBundleManifest(d, parse))
      else None
  }

  /** The ZIP probe: the package manifest, else the bundle manifest. */
  function ZipProbe<A(!new)>(s: Stream, parse: string -> Option<A>): Option<Identity<A>> {
    match s.asZip
    case None => None
    case Some(z) =>
      if FileExists(ArchiveOf(z), AppxManifestFile) then
        Swallow(Extract(PackageExtractor, ReadEntry(z, AppxManifestFile), parse))
      else if FileExists(ArchiveOf(z), AppxBundleManifestFilePath) then
        Swallow(Extract(BundleExtractor, ReadEntry(z, AppxBundleManifestFilePath), parse))
      else None
  }

  /** How a file stream's name is matched against the manifest names. */
  datatype NameMatch = LowerCasedSwitch | IgnoringCase

  /** As written, the lower-cased name is compared exactly with the mixed
      case constant. */
  predicate NameIs(m: NameMatch, name: string, constant: string) {
    match m
    case LowerCasedSwitch => Fold(name) == constant
    case IgnoringCase => EqualsIgnoreCase(name, constant)
  }

  /** What a file stream's name decides, if anything: the archive branches
      (with `packageReader` reading a package's manifest) and the
      manifest-name branches. */
  function ByName<A(!new)>(s: Stream, name: string, packageReader: Extractor, m: NameMatch, parse: string -> Option<A>)
    : Option<Result<Identity<A>>>
  {
    var kind := KindOf(Fold(Extension(name)));
    if kind == BundleFile then
      Some(FromArchive(s.asZip, AppxBundleManifestFilePath, BundleExtractor,
                       "File  " + name + " is not an APPX/MSIX bundle, because it does not contain a manifest.", parse))
    else if kind == PackageFile then
      Some(FromArchive(s.asZip, AppxManifestFile, packageReader, PackageNotFound(name), parse))
    else if NameIs(m, FileName(name), AppxManifestFile) then Some(Extract(PackageExtractor, s.asXml, parse))
    else if NameIs(m, FileName(name), AppxBundleManifestFile) then Some(Extract(BundleExtractor, s.asXml, parse))
    else None
  }

  /** The stream dispatcher: a file stream's name first, then the XML
      probe, then the ZIP probe, then the generic failure. */
  function StreamIdentityWith<A(!new)>(s: Stream, packageReader: Extractor, m: NameMatch, parse: string -> Option<A>)
    : Result<Identity<A>>
  {
    var byName := if s.fileName.Some? then ByName(s, s.fileName.value, packageReader, m, parse) else None;
    if byName.Some? then byName.value
    else match XmlProbe(s, parse)
      case Some(i) => Success(i)
      case None =>
        match ZipProbe(s, parse)
        case Some(i) => Success(i)
        case None => Failure(ArgumentError(NotRecognised))
  }

  /** `GetIdentity(Stream)` as written: a package-named file stream's
      manifest goes to the bundle extractor, and the manifest-name switch
      compares a lower-cased name with mixed-case constants. */
  function StreamIdentityAsWritten<A(!new)>(s: Stream, parse: string -> Option<A>): Result<Identity<A>> {
    StreamIdentityWith(s, BundleExtractor, LowerCasedSwitch, parse)
  }

  /** `GetIdentity(Stream)` with the package extractor for packages and the
      names compared ignoring case. */
  function StreamIdentity<A(!new)>(s: Stream, parse: string -> Option<A>): Result<Identity<A>> {
    StreamIdentityWith(s, PackageExtractor, IgnoringCase, parse)
  }

  /** A stream that is not a file stream never fails with anything but the
      generic error: every failure inside the probes is swallowed. It
      succeeds exactly when one of the probes does, the XML probe first. */
  lemma ProbesSwallowFailures<A(!new)>(s: Stream, parse: string -> Option<A>)
    requires s.fileName.None?
    ensures var r := StreamIdentity(s, parse);
      && (r.Failure? <==> XmlProbe(s, parse).None? && ZipProbe(s, parse).None?)
      && (r.Failure? ==> r.error == ArgumentError(NotRecognised))
      && (XmlProbe(s, parse).Some? ==> r == Success(XmlProbe(s, parse).value))
      && (XmlProbe(s, parse).None? && ZipProbe(s, parse).Some? ==> r == Success(ZipProbe(s, parse).value))
  {
  }

  /** The XML probe yields an identity exactly when the document's root is
      named `Package` and the package extractor reads it, or is named
      `Bundle` and the bundle extractor reads it. */
  lemma XmlProbeMeaning<A(!new)>(s: Stream, parse: string -> Option<A>)
    ensures XmlProbe(s, parse).Some? <==>
      s.asXml.Success? && s.asXml.value.root.Some? &&
      ((s.asXml.value.root.value.name.local == "Package" && FromPackageManifest(s.asXml.value, parse).Success?)
       || (s.asXml.value.root.value.name.local == "Bundle" && FromBundleManifest(s.asXml.value, parse).Success?))
  {
  }

  /** The ZIP probe reads the package manifest when the archive has one,
      whatever else it holds, and the bundle manifest only otherwise. */
  lemma ZipProbeOrder<A(!new)>(s: Stream, parse: string -> Option<A>)
    requires s.asZip.Some?
    ensures var a := ArchiveOf(s.asZip.value);
      && (FileExists(a, AppxManifestFile) ==>
            ZipProbe(s, parse) == Swallow(Extract(PackageExtractor, ReadEntry(s.asZip.value, AppxManifestFile), parse)))
      && (!FileExists(a, AppxManifestFile) && !FileExists(a, AppxBundleManifestFilePath) ==> ZipProbe(s, parse).None?)
  {
  }

  /** No name, lower-cased, is one of the mixed-case manifest names, so
      the manifest-name switch is never taken as written. */
  lemma LowerCasedSwitchNeverMatches(name: string)
    ensures !NameIs(LowerCasedSwitch, name, AppxManifestFile)
    ensures !NameIs(LowerCasedSwitch, name, AppxBundleManifestFile)
  {
    if |Fold(name)| > 0 {
      assert Fold(name)[0] != 'A';
    }
  }

  /** The name `AppxManifest.xml` is its own file name, with the `.xml`
      extension. */
  lemma ManifestFileName()
    ensures FileName(AppxManifestFile) == AppxManifestFile
    ensures Fold(Extension(AppxManifestFile)) == ".xml"
  {
    PlainFileName(AppxManifestFile);
    ManifestExtension();
    XmlFolded();
  }

  lemma ManifestExtension()
    ensures Extension(AppxManifestFile) == ".xml"
  {
    var s := AppxManifestFile;
    assert s[12..] == ".xml";
    PlainExtension(s, 12);
  }

  /** A name without separators whose last dot is at `k`, not at its end,
      has the extension from `k`. */
  lemma PlainExtension(s: string, k: nat)
    requires '\\' !in s && '/' !in s && ':' !in s
    requires k + 1 < |s| && s[k] == '.' && forall j :: k < j < |s| ==> s[j] != '.'
    ensures Extension(s) == s[k..]
  {
    PlainFileName(s);
    LastDotIs(s, k);
    ExtensionFromDot(s, |s| - k);
  }

  lemma XmlFolded()
    ensures Fold(".xml") == ".xml"
  {
  }

  lemma LastDotIs(s: string, k: nat)
    requires k < |s| && s[k] == '.' && forall j :: k < j < |s| ==> s[j] != '.'
    ensures LastIndexOfChar(s, '.') == Some(k)
  {
  }

  /** By name, a file stream called `AppxManifest.xml` decides nothing as
      written and goes to the package extractor when matched ignoring
      case. */
  lemma ManifestNameDecides<A(!new)>(s: Stream, parse: string -> Option<A>)
    ensures ByName(s, AppxManifestFile, BundleExtractor, LowerCasedSwitch, parse).None?
    ensures ByName(s, AppxManifestFile, PackageExtractor, IgnoringCase, parse) == Some(Extract(PackageExtractor, s.asXml, parse))
  {
    ManifestFileName();
    LowerCasedSwitchNeverMatches(AppxManifestFile);
    assert NameIs(IgnoringCase, FileName(AppxManifestFile), AppxManifestFile);
    ManifestKindByName(s, AppxManifestFile, BundleExtractor, LowerCasedSwitch, parse);
    ManifestKindByName(s, AppxManifestFile, PackageExtractor, IgnoringCase, parse);
  }

  /** A name with the `.xml` extension is decided by the manifest-name
      comparisons alone. */
  lemma ManifestKindByName<A(!new)>(s: Stream, name: string, packageReader: Extractor, m: NameMatch,
                                    parse: string -> Option<A>)
    requires Fold(Extension(name)) == ".xml"
    ensures ByName(s, name, packageReader, m, parse) ==
      if NameIs(m, FileName(name), AppxManifestFile) then Some(Extract(PackageExtractor, s.asXml, parse))
      else if NameIs(m, FileName(name), AppxBundleManifestFile) then Some(Extract(BundleExtractor, s.asXml, parse))
      else None
  {
    XmlKind();
    var kind := KindOf(Fold(Extension(name)));
    assert kind != BundleFile && kind != PackageFile;
  }

  lemma XmlKind()
    ensures KindOf(".xml") == ManifestFile
  {
  }

  /** A file stream named `AppxManifest.xml` holding a `Package` root in an
      unknown namespace and no archive: as written the name is not
      recognised and the extractor's error is swallowed by the XML probe,
      leaving the generic failure; matched ignoring case, the extractor's
      own error is reported. */
  lemma NamedManifestFallsThrough<A(!new)>(d: Document, parse: string -> Option<A>)
    requires d.root.Some? && d.root.value.name.local == "Package"
    requires d.root.value.name.ns != Windows10Ns && d.root.value.name.ns != AppxNs
    ensures var s := Stream(Some(AppxManifestFile), Success(d), None);
      && StreamIdentityAsWritten(s, parse) == Failure(ArgumentError(NotRecognised))
      && StreamIdentity(s, parse) == Failure(InvalidData(NoPackageRoot))
  {
    var s := Stream(Some(AppxManifestFile), Success(d), None);
    ManifestNameDecides(s, parse);
    UnknownPackageRoot(d, parse);
    AsWrittenProbes(s, parse);
  }

  /** A `Package` root in an unknown namespace is no package root. */
  lemma UnknownPackageRoot<A(!new)>(d: Document, parse: string -> Option<A>)
    requires d.root.Some? && d.root.value.name.ns != Windows10Ns && d.root.value.name.ns != AppxNs
    ensures FromPackageManifest(d, parse) == Failure(InvalidData(NoPackageRoot))
  {
    assert PackageRoot(d).None?;
  }

  /** A file stream its name decides nothing about, holding a `Package`
      document the package extractor rejects and no archive, falls through
      both probes to the generic failure. */
  lemma AsWrittenProbes<A(!new)>(s: Stream, parse: string -> Option<A>)
    requires s.fileName.Some? && ByName(s, s.fileName.value, BundleExtractor, LowerCasedSwitch, parse).None?
    requires s.asXml.Success? && s.asXml.value.root.Some? && s.asXml.value.root.value.name.local == "Package"
    requires FromPackageManifest(s.asXml.value, parse).Failure? && s.asZip.None?
    ensures StreamIdentityAsWritten(s, parse) == Failure(ArgumentError(NotRecognised))
  {
    PackageProbeRejects(s, parse);
    FallsThrough(s, BundleExtractor, LowerCasedSwitch, parse);
  }

  /** The XML probe finds nothing in a `Package` document the package
      extractor rejects. */
  lemma PackageProbeRejects<A(!new)>(s: Stream, parse: string -> Option<A>)
    requires s.asXml.Success? && s.asXml.value.root.Some? && s.asXml.value.root.value.name.local == "Package"
    requires FromPackageManifest(s.asXml.value, parse).Failure?
    ensures XmlProbe(s, parse).None?
  {
  }

  /** A stream its name decides nothing about and neither probe reads is
      the generic failure. */
  lemma FallsThrough<A(!new)>(s: Stream, packageReader: Extractor, m: NameMatch, parse: string -> Option<A>)
    requires s.fileName.Some? ==> ByName(s, s.fileName.value, packageReader, m, parse).None?
    requires XmlProbe(s, parse).None? && s.asZip.None?
    ensures StreamIdentityWith(s, packageReader, m, parse) == Failure(ArgumentError(NotRecognised))
  {
    assert ZipProbe(s, parse).None?;
  }

  /** The manifest of a package archive read from a file stream is given to
      the bundle extractor as written, so a valid package manifest fails
      as an invalid bundle; with the package extractor it is read. */
  lemma PackageStreamMisread<A(!new)>(name: string, items: seq<ZipItem>, d: Document, parse: string -> Option<A>)
    requires IsPackageExtension(Fold(Extension(name)))
    requires ReadEntry(items, AppxManifestFile) == Success(d)
    requires d.root.Some? && d.root.value.name == QName(Windows10Ns, "Package")
    ensures var s := Stream(Some(name), Failure(XmlError), Some(items));
      && StreamIdentityAsWritten(s, parse) == Failure(InvalidData(NoBundleRoot))
      && StreamIdentity(s, parse) == FromPackageManifest(d, parse)
  {
    var s := Stream(Some(name), Failure(XmlError), Some(items));
    KindOfArchives(Fold(Extension(name)));
    ReadEntryMeaning(items, AppxManifestFile);
    assert FromArchive(s.asZip, AppxManifestFile, BundleExtractor, PackageNotFound(name), parse)
      == FromBundleManifest(d, parse);
    assert FromArchive(s.asZip, AppxManifestFile, PackageExtractor, PackageNotFound(name), parse)
      == FromPackageManifest(d, parse);
  }
}

=== FILE: makeappx.dfy ===
/** The pure parts of the MakeAppx wrapper: the `pack` command line, the
    classification of the tool's error output into an SDK error, and the
    progress counter fed by the tool's output lines.  Running the process
    is not modelled; its output lines and exit code are inputs. */
module MakeAppx {
  import opened Wrappers
  import opened Text
  import Paths

  // ---------------------------------------------------------------------
  // The `pack` command line

  datatype Source = FileSource(fullName: string) | DirectorySource(fullName: string)

  datatype PackOptions = PackOptions(
    source: Source,
    target: string,
    verbose: bool,
    overwrite: bool,
    compress: bool,
    validate: bool,
    publisherBridge: Option<string>)

  /** The optional switches, in the order the command line carries them. */
  datatype Switch = Verbose | Overwrite | NoCompression | NoValidation | PublisherBridge(bridge: string)

  function Rank(s: Switch): nat {
    match s
    case Verbose => 0
    case Overwrite => 1
    case NoCompression => 2
    case NoValidation => 3
    case PublisherBridge(_) => 4
  }

  /** Whether the options ask for a switch. */
  predicate Asked(o: PackOptions, s: Switch) {
    match s
    case Verbose => o.verbose
    case Overwrite => o.overwrite
    case NoCompression => !o.compress
    case NoValidation => !o.validate
    case PublisherBridge(b) => o.publisherBridge == Some(b)
  }

  /** The switch of rank `k`, if the options ask for it. */
  function SwitchOfRank(o: PackOptions, k: nat): (r: seq<Switch>)
    requires k < 5
    ensures forall s :: s in r <==> Asked(o, s) && Rank(s) == k
  {
    if k == 0 then (if o.verbose then [Verbose] else [])
    else if k == 1 then (if o.overwrite then [Overwrite] else [])
    else if k == 2 then (if !o.compress then [NoCompression] else [])
    else if k == 3 then (if !o.validate then [NoValidation] else [])
    else match o.publisherBridge case Some(b) => [PublisherBridge(b)] case None => []
  }

  /** The asked-for switches of rank below `k`, strictly ordered by rank. */
  function SwitchesBelow(o: PackOptions, k: nat): (r: seq<Switch>)
    requires k <= 5
    ensures forall s :: s in r <==> Asked(o, s) && Rank(s) < k
    ensures forall i, j :: 0 <= i < j < |r| ==> Rank(r[i]) < Rank(r[j])
  {
    if k == 0 then [] else SwitchesBelow(o, k - 1) + SwitchOfRank(o, k - 1)
  }

  /** The switches the options ask for, in the order they are appended. */
  function SwitchesOf(o: PackOptions): seq<Switch> {
    (if o.verbose then [Verbose] else [])
    + (if o.overwrite then [Overwrite] else [])
    + (if !o.compress then [NoCompression] else [])
    + (if !o.validate then [NoValidation] else [])
    + (match o.publisherBridge case Some(b) => [PublisherBridge(b)] case None => [])
  }

  /** Each switch is present exactly when its option asks for it. */
  lemma SwitchesOfMeaning(o: PackOptions)
    ensures SwitchesOf(o) == SwitchesBelow(o, 5)
    ensures Verbose in SwitchesOf(o) <==> o.verbose
    ensures Overwrite in SwitchesOf(o) <==> o.overwrite
    ensures NoCompression in SwitchesOf(o) <==> !o.compress
    ensures NoValidation in SwitchesOf(o) <==> !o.validate
    ensures forall b :: PublisherBridge(b) in SwitchesOf(o) <==> o.publisherBridge == Some(b)
  {
    SwitchesOfAreBelowFive(o);
    var r := SwitchesBelow(o, 5);
    assert Verbose in r <==> o.verbose;
    assert Overwrite in r <==> o.overwrite;
    assert NoCompression in r <==> !o.compress;
    assert NoValidation in r <==> !o.validate;
  }

  /** The switches are appended in strictly increasing rank. */
  lemma SwitchesOrdered(o: PackOptions)
    ensures forall i, j :: 0 <= i < j < |SwitchesOf(o)| ==> Rank(SwitchesOf(o)[i]) < Rank(SwitchesOf(o)[j])
  {
    SwitchesOfAreBelowFive(o);
  }

  /** The appended switches are those of every rank below five. */
  lemma SwitchesOfAreBelowFive(o: PackOptions)
    ensures SwitchesOf(o) == SwitchesBelow(o, 5)
  {
    var v := SwitchOfRank(o, 0);
    assert SwitchesBelow(o, 1) == [] + v == v;
    assert SwitchesBelow(o, 2) == v + SwitchOfRank(o, 1);
    assert SwitchesBelow(o, 3) == v + SwitchOfRank(o, 1) + SwitchOfRank(o, 2);
    assert SwitchesBelow(o, 4) == v + SwitchOfRank(o, 1) + SwitchOfRank(o, 2) + SwitchOfRank(o, 3);
  }

  function SwitchText(s: Switch, encode: string -> string): seq<string> {
    match s
    case Verbose => ["/v"]
    case Overwrite => ["/o"]
    case NoCompression => ["/nc"]
    case NoValidation => ["/nv"]
    case PublisherBridge(b) => ["/pb", encode(b)]
  }

  function SwitchTokens(sw: seq<Switch>, encode: string -> string): seq<string> {
    if |sw| == 0 then [] else SwitchTokens(sw[..|sw| - 1], encode) + SwitchText(sw[|sw| - 1], encode)
  }

  function SourceSwitch(s: Source): string {
    if s.FileSource? then "/f" else "/d"
  }

  /** The command line as a list of space-separated tokens; `encode` quotes
      one argument for the command line. */
  function ArgumentTokens(o: PackOptions, encode: string -> string): seq<string> {
    ["pack", SourceSwitch(o.source), encode(o.source.fullName), "/p", encode(o.target)]
    + SwitchTokens(SwitchesOf(o), encode)
  }

  /** The text a switch appends to the command line. */
  function Rendered(x: Switch, encode: string -> string): string {
    match x
    case Verbose => " /v"
    case Overwrite => " /o"
    case NoCompression => " /nc"
    case NoValidation => " /nv"
    case PublisherBridge(b) => " /pb " + encode(b)
  }

  /** The `pack` arguments, appended piece by piece to a buffer: the
      source and the target, then the text of each switch asked for. */
  function PackArguments(o: PackOptions, encode: string -> string): string {
    "pack"
    + (if o.source.FileSource? then " /f " else " /d ") + encode(o.source.fullName)
    + " /p " + encode(o.target)
    + RenderAll(SwitchesOf(o), encode)
  }

  /** The argument string is the argument tokens joined by single spaces. */
  lemma PackArgumentsAreTokens(o: PackOptions, encode: string -> string)
    ensures PackArguments(o, encode) == Join(ArgumentTokens(o, encode), " ")
  {
    var fixed := [SourceSwitch(o.source), encode(o.source.fullName), "/p", encode(o.target)];
    var tail := SwitchTokens(SwitchesOf(o), encode);
    var ts := ArgumentTokens(o, encode);
    assert ts == ["pack"] + (fixed + tail);
    JoinSpaced(ts, " ");
    assert ts[1..] == fixed + tail;
    SpacedAppend(fixed, tail, " ");
    var head := Spaced(fixed, " ");
    var rest := Spaced(tail, " ");
    assert Join(ts, " ") == "pack" + (head + rest);
    assert "pack" + (head + rest) == ("pack" + head) + rest;
    SwitchesSpaced(SwitchesOf(o), encode);
    FixedSpaced(o, encode);
  }

  /** The source and target tokens, spaced, are the text appended for them. */
  lemma FixedSpaced(o: PackOptions, encode: string -> string)
    ensures "pack" + Spaced([SourceSwitch(o.source), encode(o.source.fullName), "/p", encode(o.target)], " ")
      == "pack" + (if o.source.FileSource? then " /f " else " /d ") + encode(o.source.fullName) + " /p " + encode(o.target)
  {
    var e1 := encode(o.source.fullName);
    var e2 := encode(o.target);
    var f := SourceSwitch(o.source);
    var fixed := [f, e1, "/p", e2];
    assert fixed[1..] == [e1, "/p", e2];
    assert fixed[1..][1..] == ["/p", e2];
    assert fixed[1..][1..][1..] == [e2];
    assert Spaced([e2], " ") == " " + e2 + "";
    assert Spaced(["/p", e2], " ") == " /p " + e2;
    assert Spaced(fixed, " ") == " " + f + " " + e1 + " /p " + e2;
  }

  function RenderAll(sw: seq<Switch>, encode: string -> string): string {
    if |sw| == 0 then "" else RenderAll(sw[..|sw| - 1], encode) + Rendered(sw[|sw| - 1], encode)
  }

  /** Each switch's tokens, spaced, are the text it appends. */
  lemma {:induction false} SwitchesSpaced(sw: seq<Switch>, encode: string -> string)
    ensures Spaced(SwitchTokens(sw, encode), " ") == RenderAll(sw, encode)
    decreases |sw|
  {
    if |sw| > 0 {
      var init := sw[..|sw| - 1];
      var x := sw[|sw| - 1];
      assert sw[..|sw| - 1] == init;
      SwitchesSpaced(init, encode);
      SpacedAppend(SwitchTokens(init, encode), SwitchText(x, encode), " ");
      SwitchSpaced(x, encode);
      assert SwitchTokens(sw, encode) == SwitchTokens(init, encode) + SwitchText(x, encode);
      assert RenderAll(sw, encode) == RenderAll(init, encode) + Rendered(x, encode);
    }
  }

  lemma SwitchSpaced(x: Switch, encode: string -> string)
    ensures Spaced(SwitchText(x, encode), " ") == Rendered(x, encode)
  {
    match x
    case PublisherBridge(b) =>
      var e := encode(b);
      assert SwitchText(x, encode)[1..] == [e];
      assert Spaced([e], " ") == " " + e + "";
      assert " " + "/pb" + (" " + e + "") == " /pb " + e;
    case _ =>
  }

  // ---------------------------------------------------------------------
  // Error codes in the tool's output

  /** The characters of `[0-9a-zA-Z]`. */
  predicate IsCodeChar(c: char) {
    IsDigit(c) || ('a' <= c <= 'z') || ('A' <= c <= 'Z')
  }

  /** Where the run of code characters starting at `i` ends. */
  function CodeRunEnd(s: string, i: nat): (e: nat)
    requires i <= |s|
    ensures i <= e <= |s|
    ensures forall j :: i <= j < e ==> IsCodeChar(s[j])
    ensures e == |s| || !IsCodeChar(s[e])
    decreases |s| - i
  {
    if i < |s| && IsCodeChar(s[i]) then CodeRunEnd(s, i + 1) else i
  }

  /** `([0-9a-zA-Z]+)` followed by `sep` matches at `i`.  Backtracking can
      only shorten the run, and a shorter run is followed by another code
      character, never by a separator that starts with ':' or ' '. */
  predicate MatchesAt(s: string, sep: string, i: nat) {
    i < |s| && IsCodeChar(s[i]) && StartsWith(s[CodeRunEnd(s, i)..], sep)
  }

  /** A successful `Regex.Match`: where it starts, the captured code, and
      the length of the whole match (code and separator). */
  datatype CodeMatch = CodeMatch(index: nat, code: string, length: nat)

  /** The leftmost match at or after `from`. */
  function FindCode(s: string, sep: string, from: nat): (r: Option<CodeMatch>)
    requires from <= |s|
    ensures r.Some? ==> from <= r.value.index && MatchesAt(s, sep, r.value.index)
    ensures r.Some? ==> r.value.code == s[r.value.index..CodeRunEnd(s, r.value.index)]
    ensures r.Some? ==> r.value.length == |r.value.code| + |sep| && r.value.index + r.value.length <= |s|
    ensures r.Some? ==> forall j :: from <= j < r.value.index ==> !MatchesAt(s, sep, j)
    ensures r.None? ==> forall j :: from <= j < |s| ==> !MatchesAt(s, sep, j)
    decreases |s| - from
  {
    if from == |s| then None
    else if MatchesAt(s, sep, from) then
      var e := CodeRunEnd(s, from);
      Some(CodeMatch(from, s[from..e], e - from + |sep|))
    else FindCode(s, sep, from + 1)
  }

  /** The leftmost match captures a whole run of code characters: it is
      neither preceded nor followed by another code character, and the
      separator follows it. */
  lemma MatchIsWholeRun(s: string, sep: string)
    requires |sep| >= 1 && !IsCodeChar(sep[0])
    requires FindCode(s, sep, 0).Some?
    ensures var m := FindCode(s, sep, 0).value;
      |m.code| >= 1 && (forall j :: 0 <= j < |m.code| ==> IsCodeChar(m.code[j]))
      && s[m.index..m.index + |m.code|] == m.code
      && (m.index == 0 || !IsCodeChar(s[m.index - 1]))
      && !IsCodeChar(s[m.index + |m.code|])
      && s[m.index + |m.code|..m.index + m.length] == sep
  {
    var m := FindCode(s, sep, 0).value;
    if m.index > 0 {
      var j := m.index - 1;
      assert IsCodeChar(s[j]) ==> CodeRunEnd(s, j) == CodeRunEnd(s, m.index);
      assert !MatchesAt(s, sep, j);
    }
  }

  /** A run of code characters from `i` to `e`, not followed by another,
      ends at `e`. */
  lemma {:induction false} CodeRunEndAt(s: string, i: nat, e: nat)
    requires i <= e <= |s|
    requires forall j :: i <= j < e ==> IsCodeChar(s[j])
    requires e == |s| || !IsCodeChar(s[e])
    ensures CodeRunEnd(s, i) == e
    decreases e - i
  {
    if i < e {
      CodeRunEndAt(s, i + 1, e);
    }
  }

  /** Text that starts with a code and the separator matches there. */
  lemma CodeFirst(code: string, sep: string, rest: string)
    requires |code| >= 1 && forall j :: 0 <= j < |code| ==> IsCodeChar(code[j])
    requires |sep| >= 1 && !IsCodeChar(sep[0])
    ensures FindCode(code + sep + rest, sep, 0) == Some(CodeMatch(0, code, |code| + |sep|))
  {
    var s := code + sep + rest;
    CodeRunEndAt(s, 0, |code|);
    assert s[|code|..][..|sep|] == sep;
    assert s[0..|code|] == code;
  }

  const ErrorInfoPrefix := "MakeAppx : error: Error info: error "
  const HexErrorPrefix := "MakeAppx : error: 0x"
  const ErrorPrefix := "MakeAppx : error: "
  const ManifestErrorPrefix := "MakeAppx : error: Manifest validation error: "

  predicate LineStarts(line: string, prefix: string, ignoreCase: bool) {
    if ignoreCase then StartsWithIgnoreCase(line, prefix) else StartsWith(line, prefix)
  }

  /** `FirstOrDefault` over the lines starting with `prefix`, as an index. */
  function FirstLine(lines: seq<string>, prefix: string, ignoreCase: bool, from: nat): (r: Option<nat>)
    ensures r.Some? ==> from <= r.value < |lines| && LineStarts(lines[r.value], prefix, ignoreCase)
    ensures r.Some? ==> forall j :: from <= j < r.value ==> !LineStarts(lines[j], prefix, ignoreCase)
    ensures r.None? ==> forall j :: from <= j < |lines| ==> !LineStarts(lines[j], prefix, ignoreCase)
    decreases |lines| - from
  {
    if from >= |lines| then None
    else if LineStarts(lines[from], prefix, ignoreCase) then Some(from)
    else FirstLine(lines, prefix, ignoreCase, from + 1)
  }

  /** An `SdkException`: its message and the exit code it carries. */
  datatype SdkError = SdkError(message: string, exitCode: int)

  const MessageStart := "MakeAppx.exe returned exit code "

  function ExitCodeText(n: int): string {
    MessageStart + IntToString(n) + "."
  }

  function ErrorCodeText(n: int, code: string): string {
    MessageStart + IntToString(n) + " due to error " + code + "."
  }

  /** Where the text after a match is cut: at the match's length counted
      from the start of the line, or at the end of the match. */
  datatype Cut = MatchLength | MatchEnd

  function After(s: string, m: CodeMatch, cut: Cut): (r: string)
    requires m.index + m.length <= |s|
    ensures cut == MatchEnd ==> r == s[m.index + m.length..]
    ensures cut == MatchLength ==> r == s[m.length..]
  {
    match cut
    case MatchLength => s[m.length..]
    case MatchEnd => s[m.index + m.length..]
  }

  /** The error for an "Error info: error" line, given what follows that
      prefix.  The original exit code is kept. */
  function ErrorInfoError(rest: string, exitCode: int, cut: Cut): (r: SdkError)
    ensures r.exitCode == exitCode
    ensures FindCode(rest, ": ", 0).None? ==> r.message == ExitCodeText(exitCode) + " " + rest
  {
    match FindCode(rest, ": ", 0)
    case None => SdkError(ExitCodeText(exitCode) + " " + rest, exitCode)
    case Some(m) => SdkError(ErrorCodeText(exitCode, m.code) + " " + Trim(After(rest, m, cut)), exitCode)
  }

  /** An "Error info" line of the shape `code: detail` reports the code and
      the trimmed detail, whichever way the detail is cut. */
  lemma ErrorInfoMeaning(code: string, detail: string, exitCode: int, cut: Cut)
    requires |code| >= 1 && forall j :: 0 <= j < |code| ==> IsCodeChar(code[j])
    ensures ErrorInfoError(code + ": " + detail, exitCode, cut)
      == SdkError(ErrorCodeText(exitCode, code) + " " + Trim(detail), exitCode)
  {
    var s := code + ": " + detail;
    CodeFirst(code, ": ", detail);
    assert s[|code| + 2..] == detail;
  }

  /** The exit code reported for a matched code: its decimal value when it
      is a positive 32-bit number, else its base-16 value when it starts
      with "0x" and is not zero, else `fallback`.  A malformed or too long
      hexadecimal code raises the conversion's exception. */
  function ReportedCode(code: string, fallback: int): (r: Result<int>)
    ensures r.Failure? ==> StartsWith(code, "0x") && (r.error == FormatError || r.error == OverflowError)
  {
    var parsed := TryParseInt32(code);
    if parsed.Some? && parsed.value > 0 then Success(parsed.value)
    else if StartsWith(code, "0x") then
      match ParseHexInt32(code)
      case Failure(e) => Failure(e)
      case Success(h) => Success(if h != 0 then h else fallback)
    else Success(fallback)
  }

  /** A positive decimal code is reported as its value. */
  lemma DecimalCodeReported(code: string, fallback: int)
    requires |code| >= 1 && AllDigits(code) && 0 < DigitsValue(code) <= Int32Max
    ensures ReportedCode(code, fallback) == Success(DigitsValue(code))
  {
    DigitsHaveNoSign(code);
    assert TrimNumberWhite(code) == code;
  }

  /** A "0x" code that fits in 32 bits is reported as the two's-complement
      reading of its value, or as `fallback` when that value is zero; a
      longer one overflows. */
  lemma HexCodeReported(h: string, fallback: int)
    requires |h| >= 1 && forall j :: 0 <= j < |h| ==> IsHexDigit(h[j])
    ensures HexValue(h) == 0 ==> ReportedCode("0x" + h, fallback) == Success(fallback)
    ensures 0 < HexValue(h) < 0x1_0000_0000 ==> ReportedCode("0x" + h, fallback) == Success(Wrap32(HexValue(h)))
    ensures HexValue(h) >= 0x1_0000_0000 ==> ReportedCode("0x" + h, fallback) == Failure(OverflowError)
  {
    var code := "0x" + h;
    HexIsNotDecimal(h);
    HexParses(h);
    assert StartsWith(code, "0x") by { assert code[..2] == "0x"; }
  }

  /** "0x" followed by hex digits is not a decimal number. */
  lemma HexIsNotDecimal(h: string)
    requires |h| >= 1 && forall j :: 0 <= j < |h| ==> IsHexDigit(h[j])
    ensures TryParseInt32("0x" + h) == None
  {
    var code := "0x" + h;
    assert !IsNumberWhite(code[|code| - 1]) by { assert code[|code| - 1] == h[|h| - 1]; }
    assert TrimNumberWhite(code) == code;
    assert !IsDigit(code[1]);
  }

  /** `Convert.ToInt32("0x" + h, 16)` reads the 32-bit pattern of `h`'s value
      as two's complement, and overflows beyond 32 bits. */
  lemma HexParses(h: string)
    requires |h| >= 1 && forall j :: 0 <= j < |h| ==> IsHexDigit(h[j])
    ensures HexValue(h) < 0x1_0000_0000 ==> ParseHexInt32("0x" + h) == Success(Wrap32(HexValue(h)))
    ensures HexValue(h) >= 0x1_0000_0000 ==> ParseHexInt32("0x" + h) == Failure(OverflowError)
  {
    var code := "0x" + h;
    assert code[2..] == h;
  }

  /** The error for a "0x" line, given what follows "MakeAppx : error: ". */
  function HexError(rest: string, manifestError: Option<string>, exitCode: int, cut: Cut): (r: Result<SdkError>)
  {
    var replacement := if manifestError.Some? && manifestError.value != "" then manifestError else None;
    match FindCode(rest, " - ", 0)
    case Some(m) =>
      var detail := if replacement.Some? then replacement.value else Trim(After(rest, m, cut));
      (match ReportedCode(m.code, exitCode)
       case Failure(e) => Failure(e)
       case Success(n) => Success(SdkError(ErrorCodeText(n, m.code) + " " + detail, exitCode)))
    case None =>
      // The group of a failed match is empty; parsing it overwrites the
      // exit code with 0.
      var group := "";
      var detail := if replacement.Some? then replacement.value else rest;
      match ReportedCode(group, TryParseInt32(group).GetOr(0))
      case Failure(e) => Failure(e)
      case Success(n) => Success(SdkError(ExitCodeText(n) + " " + detail, n))
  }

  /** A matched "0x" line keeps the original exit code and reports the
      code's value; a non-empty manifest validation error replaces the
      detail, which is otherwise the trimmed text after the separator,
      whichever way it is cut. */
  lemma HexErrorMeaning(code: string, detail: string, manifestError: Option<string>, exitCode: int, cut: Cut)
    requires |code| >= 1 && forall j :: 0 <= j < |code| ==> IsCodeChar(code[j])
    ensures var r := HexError(code + " - " + detail, manifestError, exitCode, cut);
      var shown := if manifestError.Some? && manifestError.value != "" then manifestError.value else Trim(detail);
      match ReportedCode(code, exitCode)
      case Failure(e) => r == Failure(e)
      case Success(n) => r == Success(SdkError(ErrorCodeText(n, code) + " " + shown, exitCode))
  {
    var s := code + " - " + detail;
    CodeFirst(code, " - ", detail);
    assert s[|code| + 3..] == detail;
  }

  /** A "0x" line without a `code - ` match yields an error carrying exit
      code 0, whatever the process returned. */
  lemma UnmatchedHexLineReportsZero(rest: string, manifestError: Option<string>, exitCode: int, cut: Cut)
    requires FindCode(rest, " - ", 0).None?
    ensures var shown := if manifestError.Some? && manifestError.value != "" then manifestError.value else rest;
      HexError(rest, manifestError, exitCode, cut) == Success(SdkError(ExitCodeText(0) + " " + shown, 0))
  {
    assert TrimNumberWhite("") == "";
    assert TryParseInt32("") == None;
    assert !StartsWith("", "0x");
  }

  /** What follows the prefix of the first manifest validation line,
      matched with case. The match is ordinal: the culture-sensitive
      `StartsWith(string)` the program calls would also skip ignorable
      characters such as a soft hyphen, which this model does not. */
  function ManifestErrorOf(lines: seq<string>): Option<string> {
    match FirstLine(lines, ManifestErrorPrefix, false, 0)
    case None => None
    case Some(j) => Some(lines[j][|ManifestErrorPrefix|..])
  }

  function SomeError(r: Result<SdkError>): Result<Option<SdkError>> {
    match r
    case Failure(e) => Failure(e)
    case Success(x) => Success(Some(x))
  }

  /** `GetExceptionFromMakeAppxOutput`: `Success(None)` when no line is
      recognised, `Failure` when converting a hexadecimal code throws. */
  function FromOutputWith(lines: seq<string>, exitCode: int, cut: Cut): (r: Result<Option<SdkError>>)
  {
    match FirstLine(lines, ErrorInfoPrefix, true, 0)
    case Some(i) => Success(Some(ErrorInfoError(lines[i][|ErrorInfoPrefix|..], exitCode, cut)))
    case None =>
      match FirstLine(lines, HexErrorPrefix, true, 0)
      case None => Success(None)
      case Some(i) => SomeError(HexError(lines[i][|ErrorPrefix|..], ManifestErrorOf(lines), exitCode, cut))
  }

  /** The classification as written: the detail after a code is cut at
      the match's length, not at its end. */
  function FromOutput(lines: seq<string>, exitCode: int): Result<Option<SdkError>> {
    FromOutputWith(lines, exitCode, MatchLength)
  }

  /** The classification cutting the detail after the match. */
  function FromOutputFixed(lines: seq<string>, exitCode: int): Result<Option<SdkError>> {
    FromOutputWith(lines, exitCode, MatchEnd)
  }

  predicate Recognised(line: string) {
    StartsWithIgnoreCase(line, ErrorInfoPrefix) || StartsWithIgnoreCase(line, HexErrorPrefix)
  }

  /** The output yields no error exactly when no line starts, ignoring
      case, with either recognised prefix. */
  lemma NothingRecognised(lines: seq<string>, exitCode: int)
    ensures FromOutput(lines, exitCode) == Success(None)
      <==> forall j :: 0 <= j < |lines| ==> !Recognised(lines[j])
  {
  }

  /** The first "Error info" line decides the error, whatever follows or
      precedes it, and the error keeps the original exit code. */
  lemma FirstErrorInfoLineWins(lines: seq<string>, exitCode: int, i: nat)
    requires i < |lines| && StartsWithIgnoreCase(lines[i], ErrorInfoPrefix)
    requires forall j :: 0 <= j < i ==> !StartsWithIgnoreCase(lines[j], ErrorInfoPrefix)
    ensures FromOutput(lines, exitCode)
      == Success(Some(ErrorInfoError(lines[i][|ErrorInfoPrefix|..], exitCode, MatchLength)))
    ensures FromOutputFixed(lines, exitCode)
      == Success(Some(ErrorInfoError(lines[i][|ErrorInfoPrefix|..], exitCode, MatchEnd)))
    ensures FromOutput(lines, exitCode).value.value.exitCode == exitCode
  {
    assert FirstLine(lines, ErrorInfoPrefix, true, 0) == Some(i);
  }

  /** Without an "Error info" line, the first "0x" line decides the error,
      with the first manifest validation line (matched with case) as its
      detail. */
  lemma FirstHexLineWins(lines: seq<string>, exitCode: int, i: nat)
    requires forall j :: 0 <= j < |lines| ==> !StartsWithIgnoreCase(lines[j], ErrorInfoPrefix)
    requires i < |lines| && StartsWithIgnoreCase(lines[i], HexErrorPrefix)
    requires forall j :: 0 <= j < i ==> !StartsWithIgnoreCase(lines[j], HexErrorPrefix)
    ensures FromOutput(lines, exitCode)
      == SomeError(HexError(lines[i][|ErrorPrefix|..], ManifestErrorOf(lines), exitCode, MatchLength))
    ensures FromOutputFixed(lines, exitCode)
      == SomeError(HexError(lines[i][|ErrorPrefix|..], ManifestErrorOf(lines), exitCode, MatchEnd))
  {
    assert FirstLine(lines, ErrorInfoPrefix, true, 0) == None;
    assert FirstLine(lines, HexErrorPrefix, true, 0) == Some(i);
  }

  /** The handler of a failed run: standard error first, then standard
      output; `Success(None)` means the original failure is rethrown. */
  function FromProcessFailure(stderr: seq<string>, stdout: seq<string>, exitCode: int): (r: Result<Option<SdkError>>)
  {
    match FromOutput(stderr, exitCode)
    case Success(None) => FromOutput(stdout, exitCode)
    case other => other
  }

  /** The handler with the detail cut after the match. */
  function FromProcessFailureFixed(stderr: seq<string>, stdout: seq<string>, exitCode: int): (r: Result<Option<SdkError>>)
  {
    match FromOutputFixed(stderr, exitCode)
    case Success(None) => FromOutputFixed(stdout, exitCode)
    case other => other
  }

  /** The two handlers recognise the same lines: they differ only in the
      detail text after a code that does not start the text. */
  lemma ProcessFailureFixedRecognises(stderr: seq<string>, stdout: seq<string>, exitCode: int)
    ensures FromProcessFailureFixed(stderr, stdout, exitCode) == Success(None)
      <==> FromProcessFailure(stderr, stdout, exitCode) == Success(None)
    ensures FromProcessFailureFixed(stderr, stdout, exitCode).Success?
      <==> FromProcessFailure(stderr, stdout, exitCode).Success?
  {
    SameRecognition(stderr, exitCode);
    SameRecognition(stdout, exitCode);
  }

  lemma SameRecognition(lines: seq<string>, exitCode: int)
    ensures FromOutputFixed(lines, exitCode) == Success(None) <==> FromOutput(lines, exitCode) == Success(None)
    ensures FromOutputFixed(lines, exitCode).Success? <==> FromOutput(lines, exitCode).Success?
  {
    match FirstLine(lines, ErrorInfoPrefix, true, 0)
    case Some(i) =>
    case None =>
      match FirstLine(lines, HexErrorPrefix, true, 0)
      case None =>
      case Some(i) =>
        var rest := lines[i][|ErrorPrefix|..];
        HexSameOutcome(rest, ManifestErrorOf(lines), exitCode);
  }

  /** The cut changes the detail of a `0x` line, never whether it fails. */
  lemma HexSameOutcome(rest: string, manifestError: Option<string>, exitCode: int)
    ensures HexError(rest, manifestError, exitCode, MatchLength).Success?
      <==> HexError(rest, manifestError, exitCode, MatchEnd).Success?
  {
  }

  /** Standard error wins whenever it holds a recognised line, and the
      original failure is rethrown exactly when neither stream does. */
  lemma ProcessFailureOrder(stderr: seq<string>, stdout: seq<string>, exitCode: int)
    ensures (exists j :: 0 <= j < |stderr| && Recognised(stderr[j]))
      ==> FromProcessFailure(stderr, stdout, exitCode) == FromOutput(stderr, exitCode)
    ensures FromProcessFailure(stderr, stdout, exitCode) == Success(None)
      <==> ((forall j :: 0 <= j < |stderr| ==> !Recognised(stderr[j]))
            && (forall j :: 0 <= j < |stdout| ==> !Recognised(stdout[j])))
  {
    NothingRecognised(stderr, exitCode);
    NothingRecognised(stdout, exitCode);
  }

  /** As written, the detail after a code, on an "Error info" line (`: `)
      or a `0x` line (` - `), is cut at the match's length from the start of
      the text; when the code does not start the text, that keeps `index`
      characters of the code and separator, where the intended cut keeps
      exactly what follows them. */
  lemma DetailCutAsWritten(rest: string, sep: string)
    requires sep == ": " || sep == " - "
    requires FindCode(rest, sep, 0).Some? && FindCode(rest, sep, 0).value.index > 0
    ensures var m := FindCode(rest, sep, 0).value;
      rest == rest[..m.index] + m.code + sep + After(rest, m, MatchEnd)
      && |After(rest, m, MatchLength)| == |After(rest, m, MatchEnd)| + m.index
      && After(rest, m, MatchLength) != After(rest, m, MatchEnd)
  {
    var m := FindCode(rest, sep, 0).value;
    var e := CodeRunEnd(rest, m.index);
    assert rest[e..][..|sep|] == sep;
    assert rest[e..m.index + m.length] == sep;
    MatchSplits(rest, m, sep);
  }

  /** A match whose code and separator sit at its index splits the text
      around them; a match past the start cuts differently by length and by
      end. */
  lemma MatchSplits(rest: string, m: CodeMatch, sep: string)
    requires 0 < m.index && m.length == |m.code| + |sep| && m.index + m.length <= |rest|
    requires rest[m.index..m.index + |m.code|] == m.code
    requires rest[m.index + |m.code|..m.index + m.length] == sep
    ensures rest == rest[..m.index] + m.code + sep + After(rest, m, MatchEnd)
    ensures |After(rest, m, MatchLength)| == |After(rest, m, MatchEnd)| + m.index
    ensures After(rest, m, MatchLength) != After(rest, m, MatchEnd)
  {
    var k := m.index;
    var e := k + |m.code|;
    var f := k + m.length;
    assert rest == rest[..k] + rest[k..e] + rest[e..f] + rest[f..];
  }

  /** A concrete line showing it: "Error info: error in 0x1: broken" reports
      "1: broken" as written instead of "broken". */
  lemma DetailCutExample()
    ensures ErrorInfoError("in 0x1: broken", 1, MatchLength).message
      == ErrorCodeText(1, "0x1") + " " + "1: broken"
    ensures ErrorInfoError("in 0x1: broken", 1, MatchEnd).message
      == ErrorCodeText(1, "0x1") + " " + "broken"
  {
    var s := "in 0x1: broken";
    ExampleMatch();
    assert s[5..] == "1: broken";
    assert s[8..] == "broken";
    TrimUntouched("1: broken");
    TrimUntouched("broken");
  }

  /** In the example the code is found after "in ". */
  lemma ExampleMatch()
    ensures FindCode("in 0x1: broken", ": ", 0) == Some(CodeMatch(3, "0x1", 5))
  {
    var s := "in 0x1: broken";
    CodeRunEndAt(s, 0, 2);
    CodeRunEndAt(s, 1, 2);
    CodeRunEndAt(s, 3, 6);
    assert !MatchesAt(s, ": ", 0) by { assert s[2..][..2] != ": "; }
    assert !MatchesAt(s, ": ", 1) by { assert s[2..][..2] != ": "; }
    assert !MatchesAt(s, ": ", 2);
    assert MatchesAt(s, ": ", 3) by { assert s[6..][..2] == ": "; }
    assert s[3..6] == "0x1";
  }

  /** Text without white space at either end is its own trim. */
  lemma TrimUntouched(t: string)
    requires |t| > 0 && !IsWhiteSpace(t[0]) && !IsWhiteSpace(t[|t| - 1])
    ensures Trim(t) == t
  {
  }

  // ---------------------------------------------------------------------
  // Progress

  /** A progress report: a percentage and a message. */
  datatype ProgressData = ProgressData(progress: int, message: string)

  /** The wrapper's state: the expected file count once known, and how many
      files were processed so far. */
  datatype ProgressState = ProgressState(fileCounter: Option<int>, processed: nat)

  const Start := ProgressState(None, 0)

  const Ellipsis := "\U{2026}"

  /** The digits of `^Packing (\d+) files?`, matched ignoring case. */
  function PackingCount(data: string): (r: Option<string>)
    ensures r.Some? ==> |r.value| >= 1 && AllDigits(r.value)
  {
    if !StartsWithIgnoreCase(data, "Packing ") then None
    else
      var rest := data[8..];
      var n := DigitRun(rest);
      if n >= 1 && StartsWithIgnoreCase(rest[n..], " file") then Some(rest[..n]) else None
  }

  /** The quoted name of `^Processing "([^"]+)"`, matched ignoring case. */
  function ProcessingName(data: string): (r: Option<string>)
    ensures r.Some? ==> |r.value| >= 1
  {
    if !StartsWithIgnoreCase(data, "Processing \"") then None
    else
      match IndexOfChar(data, '"', 12)
      case None => None
      case Some(k) => if k > 12 then Some(data[12..k]) else None
  }

  /** The name of `^Extracting file ([^ ]+)`, matched ignoring case. */
  function ExtractingName(data: string): (r: Option<string>)
    ensures r.Some? ==> |r.value| >= 1
  {
    if !StartsWithIgnoreCase(data, "Extracting file ") || |data| == 16 || data[16] == ' ' then None
    else
      var e := IndexOfChar(data, ' ', 16).GetOr(|data|);
      Some(data[16..e])
  }

  predicate IsProgressLine(data: string) {
    ProcessingName(data).Some? || ExtractingName(data).Some?
  }

  /** The percentage of files processed, rounded down, or 0 while the
      count is unknown or zero.  Nothing caps it at 100. */
  function Percent(processed: nat, counter: Option<int>): (r: nat)
    ensures counter.Some? && counter.value > 0
      ==> r * counter.value <= 100 * processed < (r + 1) * counter.value
    ensures !(counter.Some? && counter.value > 0) ==> r == 0
  {
    if counter.Some? && counter.value > 0 then (100 * processed) / counter.value else 0
  }

  /** `int.Parse` of a digit string. */
  function ParseCount(digits: string): (r: Result<int>)
    requires AllDigits(digits)
    ensures r.Success? ==> r.value == DigitsValue(digits) && IsInt32(r.value)
    ensures r.Failure? ==> r.error == OverflowError && DigitsValue(digits) > Int32Max
  {
    if DigitsValue(digits) <= Int32Max then Success(DigitsValue(digits)) else Failure(OverflowError)
  }

  /** One line of tool output: updates the state and perhaps reports. */
  function OnProgress(st: ProgressState, data: string, hasReporter: bool)
    : (r: Result<(ProgressState, Option<ProgressData>)>)
    ensures data == "" || !hasReporter ==> r == Success((st, None))
    ensures r.Success? && st.fileCounter.Some? ==> r.value.0.fileCounter == st.fileCounter
    ensures r.Success? ==>
      r.value.0.processed == st.processed + (if hasReporter && IsProgressLine(data) then 1 else 0)
    ensures r.Success? ==> (r.value.1.Some? <==> hasReporter && IsProgressLine(data))
    ensures r.Success? && r.value.1.Some?
      ==> r.value.1.value.progress == Percent(r.value.0.processed, r.value.0.fileCounter)
  {
    if data == "" || !hasReporter then Success((st, None))
    else
      var counted: Result<Option<int>> :=
        if st.fileCounter.Some? then Success(st.fileCounter)
        else
          match PackingCount(data)
          case None => Success(None)
          case Some(d) =>
            match ParseCount(d)
            case Failure(e) => Failure(e)
            case Success(n) => Success(Some(n));
      match counted
      case Failure(e) => Failure(e)
      case Success(counter) =>
        var named: Option<(string, string)> :=
          match ProcessingName(data)
          case Some(n) => Some(("Compressing ", n))
          case None =>
            match ExtractingName(data)
            case Some(n) => Some(("Extracting file ", n))
            case None => None;
        match named
        case None => Success((ProgressState(counter, st.processed), None))
        case Some((verb, name)) =>
          var done := ProgressState(counter, st.processed + 1);
          if name == "" then Success((done, None))
          else Success((done, Some(ProgressData(Percent(done.processed, counter), verb + Paths.FileName(name) + Ellipsis))))
  }

  /** Feeds the lines in order, collecting the reports; an exception from
      a callback ends the run. */
  function Run(st: ProgressState, lines: seq<string>, hasReporter: bool)
    : Result<(ProgressState, seq<ProgressData>)>
    decreases |lines|
  {
    if |lines| == 0 then Success((st, []))
    else
      match OnProgress(st, lines[0], hasReporter)
      case Failure(e) => Failure(e)
      case Success((next, report)) =>
        match Run(next, lines[1..], hasReporter)
        case Failure(e) => Failure(e)
        case Success((last, reports)) =>
          Success((last, (if report.Some? then [report.value] else []) + reports))
  }

  /** The number of progress lines. */
  function Progressed(lines: seq<string>): nat {
    if |lines| == 0 then 0 else (if IsProgressLine(lines[0]) then 1 else 0) + Progressed(lines[1..])
  }

  /** The count of the first "Packing" line, if there is one. */
  function FirstCount(lines: seq<string>): Option<int> {
    if |lines| == 0 then None
    else
      match PackingCount(lines[0])
      case Some(d) => Some(DigitsValue(d))
      case None => FirstCount(lines[1..])
  }

  /** Over a run with a reporter: one report per progress line, the
      processed count grows by the number of progress lines, and the file
      count, once set, never changes; if unset, it comes from the first
      "Packing" line. */
  lemma {:induction false} RunMeaning(st: ProgressState, lines: seq<string>)
    requires Run(st, lines, true).Success?
    ensures var (last, reports) := Run(st, lines, true).value;
      last.processed == st.processed + Progressed(lines)
      && |reports| == Progressed(lines)
      && (st.fileCounter.Some? ==> last.fileCounter == st.fileCounter)
      && (st.fileCounter.None? ==> last.fileCounter == FirstCount(lines))
    decreases |lines|
  {
    if |lines| > 0 {
      var next := OnProgress(st, lines[0], true).value.0;
      RunMeaning(next, lines[1..]);
      if st.fileCounter.None? {
        if PackingCount(lines[0]).Some? {
          assert next.fileCounter == FirstCount(lines);
        } else {
          assert next.fileCounter == None;
        }
      }
    }
  }

  /** Without a reporter nothing happens. */
  lemma {:induction false} RunWithoutReporter(st: ProgressState, lines: seq<string>)
    ensures Run(st, lines, false) == Success((st, []))
    decreases |lines|
  {
    if |lines| > 0 {
      assert OnProgress(st, lines[0], false) == Success((st, None));
      RunWithoutReporter(st, lines[1..]);
      var none: seq<ProgressData> := [];
      assert none + none == none;
      assert Run(st, lines, false) == Success((st, none + none));
    }
  }

  /** Once more files are processed than counted, the reports reach 100
      and, for counts up to 100, go past it. */
  lemma ProgressPastHundred(st: ProgressState, data: string, c: int)
    requires st.fileCounter == Some(c) && c > 0 && st.processed >= c
    requires IsProgressLine(data)
    ensures OnProgress(st, data, true).Success?
    ensures OnProgress(st, data, true).value.1.value.progress >= 100
    ensures c <= 100 ==> OnProgress(st, data, true).value.1.value.progress > 100
  {
    var r := OnProgress(st, data, true);
    var p := r.value.0.processed;
    assert p == st.processed + 1;
    var q := r.value.1.value.progress;
    assert (q + 1) * c > 100 * c + 100;
    assert (q + 1 - 100) * c == (q + 1) * c - 100 * c;
    FactorPositive(q + 1 - 100, c);
    if c <= 100 {
      assert (q + 1 - 101) * c == (q + 1) * c - 101 * c;
      FactorPositive(q + 1 - 101, c);
    }
  }

  /** A product with a positive factor is positive only if the other
      factor is. */
  lemma FactorPositive(a: int, c: int)
    requires c > 0 && a * c > 0
    ensures a > 0
  {
  }
}

=== FILE: manifest_creator.dfy ===
/** The decisions `AppxManifestCreator` takes while turning a folder of
    executables into a manifest: the package options it settles on, the
    identity version, the property texts, and the namespace declarations
    and nodes it adds to the bundled template. */
module ManifestCreator {
  import opened Wrappers
  import opened Text
  import opened Xml
  import opened VersionMask
  import opened PackageIdentity

  // ---------------------------------------------------------------------
  // Sanitising

  /** Characters `Sanitize` keeps: the complement of `[^a-zA-Z0-9\.]`. */
  predicate IsSanitary(c: char) {
    ('a' <= c <= 'z') || ('A' <= c <= 'Z') || ('0' <= c <= '9') || c == '.'
  }

  lemma SanitaryTrimmed(s: string)
    requires forall i :: 0 <= i < |s| ==> IsSanitary(s[i])
    ensures Trim(s) == s
  {
    if |s| > 0 {
      assert IsSanitary(s[0]) && IsSanitary(s[|s| - 1]);
    }
  }

  /** `Sanitize(input, defaultIfNull)`: the input without the characters
      outside the kept set, or the default when nothing is left. The
      trailing `Trim` never changes anything, since no kept character is
      white space. */
  function Sanitize(input: Option<string>, defaultIfNull: Option<string>): (r: Option<string>)
    ensures KeepChars(input.GetOr(""), IsSanitary) == "" ==> r == defaultIfNull
    ensures KeepChars(input.GetOr(""), IsSanitary) != "" ==> r == Some(KeepChars(input.GetOr(""), IsSanitary))
  {
    var kept := KeepChars(input.GetOr(""), IsSanitary);
    SanitaryTrimmed(kept);
    var result := Trim(kept);
    if |result| == 0 then defaultIfNull else Some(result)
  }

  /** A sanitised value is made of kept characters only, and holds every
      kept character of the input. */
  lemma SanitizedCharacters(input: Option<string>, defaultIfNull: Option<string>)
    requires KeepChars(input.GetOr(""), IsSanitary) != ""
    ensures var r := Sanitize(input, defaultIfNull).value;
      |r| > 0 && (forall c :: c in r <==> c in input.GetOr("") && IsSanitary(c))
  {
    KeepCharsMembers(input.GetOr(""), IsSanitary);
  }

  /** Text made of kept characters only is its own sanitised form, so
      sanitising twice is sanitising once. */
  lemma SanitizeFixedPoint(s: string, defaultIfNull: Option<string>)
    requires |s| > 0 && forall i :: 0 <= i < |s| ==> IsSanitary(s[i])
    ensures Sanitize(Some(s), defaultIfNull) == Some(s)
  {
    KeepCharsFixed(s, IsSanitary);
  }

  lemma SanitizeIdempotent(input: Option<string>, d: Option<string>, e: Option<string>)
    requires KeepChars(input.GetOr(""), IsSanitary) != ""
    ensures Sanitize(Sanitize(input, d), e) == Sanitize(input, d)
  {
    var kept := KeepChars(input.GetOr(""), IsSanitary);
    SanitizeFixedPoint(kept, e);
  }

  /** Whether `Sanitize(input)` (default null) gives a non-empty value. */
  predicate SanitizesToText(input: Option<string>) {
    KeepChars(input.GetOr(""), IsSanitary) != ""
  }

  // ---------------------------------------------------------------------
  // Options

  /** `AppxManifestCreatorOptions`, without the logo switch and the
      architecture, which only pass through. */
  datatype Options = Options(
    entryPoints: Option<seq<string>>,
    packageName: Option<string>,
    packageDisplayName: Option<string>,
    packageDescription: Option<string>,
    publisherName: Option<string>,
    publisherDisplayName: Option<string>,
    version: Option<Version>)

  predicate IsNullOrEmpty(s: Option<string>) {
    s.None? || |s.value| == 0
  }

  /** `AppxManifestCreatorOptions.Default`, used when no options are given. */
  const DefaultOptions: Options :=
    Options(None, Some("MyPackage"), Some("My package"), None, Some("CN=Publisher"), Some("Publisher"), None)

  /** The `FileVersionInfo` fields an executable contributes. */
  datatype VersionInfo = VersionInfo(
    productVersion: Option<string>, fileVersion: Option<string>, productName: Option<string>,
    companyName: Option<string>, fileDescription: Option<string>, internalName: Option<string>)

  function TrimmedValue(s: Option<string>): Option<string> {
    match s
    case Some(v) => Some(Trim(v))
    case None => None
  }

  /** The text `Version.TryParse` sees: `ProductVersion ?? FileVersion ?? "#"`. */
  function VersionText(info: VersionInfo): string {
    match info.productVersion
    case Some(v) => v
    case None => info.fileVersion.GetOr("#")
  }

  /** One pass of the loop over the given entry points: every field that is
      still empty is filled from the executable's version information. */
  function TakeVersionInfo(o: Options, info: VersionInfo): (r: Options)
    ensures r.entryPoints == o.entryPoints && r.packageDescription == o.packageDescription
    ensures o.version.Some? ==> r.version == o.version
    ensures !IsNullOrEmpty(o.packageName) ==> r.packageName == o.packageName
    ensures !IsNullOrEmpty(o.packageDisplayName) ==> r.packageDisplayName == o.packageDisplayName
    ensures !IsNullOrEmpty(o.publisherName) ==> r.publisherName == o.publisherName
    ensures !IsNullOrEmpty(o.publisherDisplayName) ==> r.publisherDisplayName == o.publisherDisplayName
  {
    var version := if o.version.Some? then o.version else ParseVersion(VersionText(info));
    var packageName :=
      if IsNullOrEmpty(o.packageName) && SanitizesToText(info.productName)
      then TrimmedValue(Sanitize(info.productName, Some("ProductName"))) else o.packageName;
    var packageDisplayName :=
      if IsNullOrEmpty(o.packageDisplayName) && !IsNullOrEmpty(info.productName)
      then TrimmedValue(info.productName) else o.packageDisplayName;
    var publisherName :=
      if IsNullOrEmpty(o.publisherName) && SanitizesToText(info.companyName)
      then Some("CN=" + Sanitize(info.companyName, Some("CompanyName")).value) else o.publisherName;
    var publisherDisplayName :=
      if IsNullOrEmpty(o.publisherDisplayName) && SanitizesToText(info.companyName)
      then TrimmedValue(info.companyName) else o.publisherDisplayName;
    o.(version := version, packageName := packageName, packageDisplayName := packageDisplayName,
       publisherName := publisherName, publisherDisplayName := publisherDisplayName)
  }

  /** What an empty package name is filled with: the sanitised product
      name; likewise the publisher is "CN=" and the sanitised company. */
  lemma TakeVersionInfoNames(o: Options, info: VersionInfo)
    ensures IsNullOrEmpty(o.packageName) && SanitizesToText(info.productName) ==>
      TakeVersionInfo(o, info).packageName == Some(KeepChars(info.productName.value, IsSanitary))
    ensures IsNullOrEmpty(o.publisherName) && SanitizesToText(info.companyName) ==>
      TakeVersionInfo(o, info).publisherName == Some("CN=" + KeepChars(info.companyName.value, IsSanitary))
    ensures o.version.None? ==> TakeVersionInfo(o, info).version == ParseVersion(VersionText(info))
  {
    if IsNullOrEmpty(o.packageName) && SanitizesToText(info.productName) {
      var kept := KeepChars(info.productName.value, IsSanitary);
      SanitaryTrimmed(kept);
    }
  }

  /** All the fields the loop fills are set. */
  predicate Settled(o: Options) {
    o.version.Some? && !IsNullOrEmpty(o.publisherName) && !IsNullOrEmpty(o.publisherDisplayName)
    && !IsNullOrEmpty(o.packageName) && !IsNullOrEmpty(o.packageDisplayName)
  }

  /** One executable of the loop; `lookup` reads its version information,
      and `None` stands for a lookup that threw and was swallowed. */
  function Step(o: Options, entryPoint: string, lookup: string -> Option<VersionInfo>): Options {
    match lookup(entryPoint)
    case Some(info) => TakeVersionInfo(o, info)
    case None => o
  }

  /** The loop over the given entry points, which stops once every field
      is set. */
  function ReadEntryPoints(o: Options, entryPoints: seq<string>, lookup: string -> Option<VersionInfo>): Options
    decreases |entryPoints|
  {
    if |entryPoints| == 0 then o
    else
      var next := Step(o, entryPoints[0], lookup);
      if Settled(next) then next else ReadEntryPoints(next, entryPoints[1..], lookup)
  }

  /** The same loop without the early exit. */
  function ReadAll(o: Options, entryPoints: seq<string>, lookup: string -> Option<VersionInfo>): Options
    decreases |entryPoints|
  {
    if |entryPoints| == 0 then o
    else ReadAll(Step(o, entryPoints[0], lookup), entryPoints[1..], lookup)
  }

  lemma SettledStays(o: Options, entryPoint: string, lookup: string -> Option<VersionInfo>)
    requires Settled(o)
    ensures Step(o, entryPoint, lookup) == o
  {
  }

  lemma {:induction false} ReadAllSettled(o: Options, entryPoints: seq<string>, lookup: string -> Option<VersionInfo>)
    requires Settled(o)
    ensures ReadAll(o, entryPoints, lookup) == o
    decreases |entryPoints|
  {
    if |entryPoints| > 0 {
      SettledStays(o, entryPoints[0], lookup);
      ReadAllSettled(o, entryPoints[1..], lookup);
    }
  }

  /** The early exit is only a shortcut: once every field is set, later
      executables would change nothing. */
  lemma {:induction false} EarlyExitIsShortcut(o: Options, entryPoints: seq<string>, lookup: string -> Option<VersionInfo>)
    ensures ReadEntryPoints(o, entryPoints, lookup) == ReadAll(o, entryPoints, lookup)
    decreases |entryPoints|
  {
    if |entryPoints| > 0 {
      var next := Step(o, entryPoints[0], lookup);
      if Settled(next) {
        ReadAllSettled(next, entryPoints[1..], lookup);
      } else {
        EarlyExitIsShortcut(next, entryPoints[1..], lookup);
      }
    }
  }

  /** The first executable that supplies a field decides it: a field set
      before the loop, or by an earlier executable, is never overwritten. */
  lemma {:induction false} ReadKeepsSetFields(o: Options, entryPoints: seq<string>, lookup: string -> Option<VersionInfo>)
    ensures var r := ReadAll(o, entryPoints, lookup);
      r.entryPoints == o.entryPoints && r.packageDescription == o.packageDescription
      && (o.version.Some? ==> r.version == o.version)
      && (!IsNullOrEmpty(o.packageName) ==> r.packageName == o.packageName)
      && (!IsNullOrEmpty(o.packageDisplayName) ==> r.packageDisplayName == o.packageDisplayName)
      && (!IsNullOrEmpty(o.publisherName) ==> r.publisherName == o.publisherName)
      && (!IsNullOrEmpty(o.publisherDisplayName) ==> r.publisherDisplayName == o.publisherDisplayName)
    decreases |entryPoints|
  {
    if |entryPoints| > 0 {
      ReadKeepsSetFields(Step(o, entryPoints[0], lookup), entryPoints[1..], lookup);
    }
  }

  const DefaultName: string := "MyPackage"
  const DefaultPublisher: string := "CN=Publisher"
  const DefaultPublisherDisplayName: string := "Publisher"

  /** `new Version(1, 0, 0)`: the revision is undefined. */
  const FallbackVersion: Version := VersionFields(1, 0, 0, -1)

  /** The fallbacks applied after the loop. */
  function WithDefaults(o: Options): (r: Options)
    ensures !IsNullOrEmpty(r.packageName) && !IsNullOrEmpty(r.packageDisplayName)
    ensures !IsNullOrEmpty(r.publisherName) && !IsNullOrEmpty(r.publisherDisplayName) && r.version.Some?
    ensures r.entryPoints == o.entryPoints && r.packageDescription == o.packageDescription
    ensures !IsNullOrEmpty(o.packageName) ==> r.packageName == o.packageName
    ensures !IsNullOrEmpty(o.packageDisplayName) ==> r.packageDisplayName == o.packageDisplayName
    ensures !IsNullOrEmpty(o.publisherName) ==> r.publisherName == o.publisherName
    ensures !IsNullOrEmpty(o.publisherDisplayName) ==> r.publisherDisplayName == o.publisherDisplayName
    ensures o.version.Some? ==> r.version == o.version
  {
    o.(packageDisplayName := if IsNullOrEmpty(o.packageDisplayName) then Some(DefaultName) else o.packageDisplayName,
       packageName := if IsNullOrEmpty(o.packageName) then Some(DefaultName) else o.packageName,
       publisherName := if IsNullOrEmpty(o.publisherName) then Some(DefaultPublisher) else o.publisherName,
       publisherDisplayName := if IsNullOrEmpty(o.publisherDisplayName) then Some(DefaultPublisherDisplayName) else o.publisherDisplayName,
       version := if o.version.None? then Some(FallbackVersion) else o.version)
  }

  /** The options `CreateManifestForDirectory` hands to `AdjustManifest`. */
  function SettleOptions(options: Option<Options>, lookup: string -> Option<VersionInfo>): (r: Options)
    ensures Settled(r)
  {
    var o := options.GetOr(DefaultOptions);
    var read := if o.entryPoints.Some? && |o.entryPoints.value| > 0
      then ReadEntryPoints(o, o.entryPoints.value, lookup) else o;
    WithDefaults(read)
  }

  /** Fields given by the caller survive; the rest come from the first
      executable that supplies them, else from the fallbacks. */
  lemma SettleKeepsGivenFields(o: Options, lookup: string -> Option<VersionInfo>)
    ensures var r := SettleOptions(Some(o), lookup);
      (!IsNullOrEmpty(o.packageName) ==> r.packageName == o.packageName)
      && (!IsNullOrEmpty(o.packageDisplayName) ==> r.packageDisplayName == o.packageDisplayName)
      && (!IsNullOrEmpty(o.publisherName) ==> r.publisherName == o.publisherName)
      && (!IsNullOrEmpty(o.publisherDisplayName) ==> r.publisherDisplayName == o.publisherDisplayName)
      && (o.version.Some? ==> r.version == o.version)
  {
    if o.entryPoints.Some? && |o.entryPoints.value| > 0 {
      EarlyExitIsShortcut(o, o.entryPoints.value, lookup);
      ReadKeepsSetFields(o, o.entryPoints.value, lookup);
    }
  }

  /** Without given entry points nothing is read, and empty fields get the
      fallbacks. */
  lemma SettleWithoutEntryPoints(o: Options, lookup: string -> Option<VersionInfo>)
    requires o.entryPoints.None? || |o.entryPoints.value| == 0
    ensures var r := SettleOptions(Some(o), lookup);
      (IsNullOrEmpty(o.packageName) ==> r.packageName == Some("MyPackage"))
      && (IsNullOrEmpty(o.packageDisplayName) ==> r.packageDisplayName == Some("MyPackage"))
      && (IsNullOrEmpty(o.publisherName) ==> r.publisherName == Some("CN=Publisher"))
      && (IsNullOrEmpty(o.publisherDisplayName) ==> r.publisherDisplayName == Some("Publisher"))
      && (o.version.None? ==> r.version == Some(VersionFields(1, 0, 0, -1)))
  {
  }

  // ---------------------------------------------------------------------
  // Identity

  /** The identity version `AdjustManifest` writes: four units, with an
      absent version read as 0.0.0.0 and undefined build and revision as
      0. Negative major and minor units, which it rejects, cannot occur in
      a `System.Version`. */
  function IdentityVersion(v: Option<Version>): (r: Result<string>)
    ensures r.Success?
    ensures v.Some? ==> ParseVersion(r.value) == Some(FourUnits(v.value))
    ensures v.None? ==> ParseVersion(r.value) == Some(VersionFields(0, 0, 0, 0))
  {
    var major := if v.Some? then v.value.major else 0;
    var minor := if v.Some? then v.value.minor else 0;
    var build := if v.Some? then v.value.build else 0;
    var revision := if v.Some? then v.value.revision else 0;
    if major < 0 then Failure(FormatError)
    else if minor < 0 then Failure(FormatError)
    else
      var w: Version := VersionFields(major, minor, if build < 0 then 0 else build, if revision < 0 then 0 else revision);
      VersionRoundTrip(w);
      Success(VersionToString(w))
  }

  /** Without a version anywhere, the package is version 1.0.0.0. */
  lemma DefaultIdentityVersion(o: Options, lookup: string -> Option<VersionInfo>)
    requires o.version.None? && (o.entryPoints.None? || |o.entryPoints.value| == 0)
    ensures IdentityVersion(SettleOptions(Some(o), lookup).version) == Success("1.0.0.0")
  {
    SettleWithoutEntryPoints(o, lookup);
    OneZeroZeroZero();
  }

  lemma OneZeroZeroZero()
    ensures IdentityVersion(Some(FallbackVersion)) == Success(DefaultText)
  {
    assert FourUnits(FallbackVersion) == VersionMask.DefaultVersion;
    DefaultPrints();
  }

  /** The `SetPackageIdentity` command `AdjustManifest` runs; the
      architecture is the lower-cased name of the option's enum value. */
  function IdentityCommand(o: Options, architecture: string): (r: SetPackageIdentity)
    ensures r.name == o.packageName && r.publisher == o.publisherName
    ensures r.architecture == Some(architecture) && r.resourceId.None?
    ensures r.version.Some? && ParseVersion(r.version.value).Some?
    ensures IdentityVersion(o.version).Success? && r.version == Some(IdentityVersion(o.version).value)
  {
    var version := IdentityVersion(o.version).value;
    SetPackageIdentity(o.publisherName, Some(version), o.packageName, Some(architecture), None)
  }

  // ---------------------------------------------------------------------
  // First non-empty value

  /** Whether `GetNotEmptyValueFromList(minimumLength, ...)` accepts `v`. */
  predicate Acceptable(v: Option<string>, minimumLength: int) {
    v.Some? && |v.value| > 0 && |v.value| >= minimumLength
  }

  /** The first acceptable value, or "" when there is none. */
  function FirstAcceptable(values: seq<Option<string>>, minimumLength: int): (r: string)
    ensures r == "" <==> forall i :: 0 <= i < |values| ==> !Acceptable(values[i], minimumLength)
    ensures r != "" ==>
      (exists i :: 0 <= i < |values| && values[i] == Some(r) && Acceptable(values[i], minimumLength) &&
                   (forall j :: 0 <= j < i ==> !Acceptable(values[j], minimumLength)))
  {
    if |values| == 0 then ""
    else if Acceptable(values[0], minimumLength) then values[0].value
    else
      var r := FirstAcceptable(values[1..], minimumLength);
      assert forall i :: 1 <= i < |values| ==> values[i] == values[1..][i - 1];
      if r != "" then
        var k :| 0 <= k < |values[1..]| && values[1..][k] == Some(r) && Acceptable(values[1..][k], minimumLength)
          && forall j :: 0 <= j < k ==> !Acceptable(values[1..][j], minimumLength);
        assert forall j :: 0 <= j < k + 1 ==> !Acceptable(values[j], minimumLength);
        r
      else r
  }

  /** `GetNotEmptyValueFromList(params values)`: the first non-empty value. */
  function NotEmptyValue(values: seq<Option<string>>): (r: string)
    ensures r == "" <==> forall i :: 0 <= i < |values| ==> IsNullOrEmpty(values[i])
  {
    FirstAcceptable(values, 0)
  }

  /** `GetNotEmptyValueFromList(minimumLength, params values)`: the first
      value of at least that length, or just the first non-empty one when
      the length is not positive. */
  function NotEmptyValueOfLength(minimumLength: int, values: seq<Option<string>>): (r: string)
    ensures r != "" ==> |r| >= minimumLength
    ensures r == "" <==> forall i :: 0 <= i < |values| ==> !Acceptable(values[i], minimumLength)
    ensures r != "" ==>
      (exists i :: 0 <= i < |values| && values[i] == Some(r) && Acceptable(values[i], minimumLength) &&
                   (forall j :: 0 <= j < i ==> !Acceptable(values[j], minimumLength)))
  {
    if minimumLength <= 0 then NotEmptyValue(values) else FirstAcceptable(values, minimumLength)
  }

  /** A minimum length of one is the same as none. */
  lemma {:induction false} MinimumOneIsPlain(values: seq<Option<string>>)
    ensures NotEmptyValueOfLength(1, values) == NotEmptyValue(values)
  {
    if |values| > 0 {
      MinimumOneIsPlain(values[1..]);
    }
  }

  /** A value meeting the minimum wins over everything after it. */
  lemma FirstLongEnoughWins(minimumLength: int, values: seq<Option<string>>, i: nat)
    requires i < |values| && Acceptable(values[i], minimumLength)
    requires forall j :: 0 <= j < i ==> !Acceptable(values[j], minimumLength)
    ensures NotEmptyValueOfLength(minimumLength, values) == values[i].value
  {
    var r := FirstAcceptable(values, minimumLength);
    var k :| 0 <= k < |values| && values[k] == Some(r) && Acceptable(values[k], minimumLength)
      && forall j :: 0 <= j < k ==> !Acceptable(values[j], minimumLength);
    assert k == i;
  }

  // ---------------------------------------------------------------------
  // Texts written into the manifest

  datatype PropertyTexts = PropertyTexts(displayName: string, description: string, publisherDisplayName: string, logo: string)

  /** What `AdjustManifest` writes under `Properties`. */
  function Properties(o: Options): PropertyTexts {
    PropertyTexts(
      NotEmptyValue([o.packageDisplayName, o.packageName, Some("DisplayName")]),
      NotEmptyValue([o.packageDescription, o.packageName, Some("Description")]),
      NotEmptyValue([o.publisherDisplayName, o.publisherName, Some("Publisher")]),
      "Assets\\Logo.png")
  }

  /** With settled options, the display names are the options' own, and
      the description falls back to the package name. */
  lemma PropertiesOfSettled(o: Options)
    requires Settled(o)
    ensures Properties(o).displayName == o.packageDisplayName.value
    ensures Properties(o).publisherDisplayName == o.publisherDisplayName.value
    ensures !IsNullOrEmpty(o.packageDescription) ==> Properties(o).description == o.packageDescription.value
    ensures IsNullOrEmpty(o.packageDescription) ==> Properties(o).description == o.packageName.value
  {
    FirstLongEnoughWins(0, [o.packageDisplayName, o.packageName, Some("DisplayName")], 0);
    FirstLongEnoughWins(0, [o.publisherDisplayName, o.publisherName, Some("Publisher")], 0);
    if !IsNullOrEmpty(o.packageDescription) {
      FirstLongEnoughWins(0, [o.packageDescription, o.packageName, Some("Description")], 0);
    } else {
      FirstLongEnoughWins(0, [o.packageDescription, o.packageName, Some("Description")], 1);
    }
  }

  /** The display name and description of one application's visual
      elements: the package's own when at least three characters long,
      else the first long enough of the executable's version texts and
      its stem, else a fixed text. */
  function VisualTexts(displayName: string, description: string, info: VersionInfo, stem: string): (r: (string, string))
    ensures |displayName| >= 3 ==> r.0 == displayName
    ensures |description| >= 3 ==> r.1 == description
    ensures |r.0| >= 3 && |r.1| >= 3
    // display name: the product name, then the internal name, then the stem, then the fixed text
    ensures |displayName| < 3 && Acceptable(info.productName, 3) ==> r.0 == info.productName.value
    ensures |displayName| < 3 && !Acceptable(info.productName, 3) && Acceptable(info.internalName, 3) ==>
      r.0 == info.internalName.value
    ensures |displayName| < 3 && !Acceptable(info.productName, 3) && !Acceptable(info.internalName, 3) ==>
      r.0 == if |stem| >= 3 then stem else "Package display name"
    // description: the file description, then the product name, then the stem, then the fixed text
    ensures |description| < 3 && Acceptable(info.fileDescription, 3) ==> r.1 == info.fileDescription.value
    ensures |description| < 3 && !Acceptable(info.fileDescription, 3) && Acceptable(info.productName, 3) ==>
      r.1 == info.productName.value
    ensures |description| < 3 && !Acceptable(info.fileDescription, 3) && !Acceptable(info.productName, 3) ==>
      r.1 == if |stem| >= 3 then stem else "Package description"
  {
    var d := [Some(displayName), info.productName, info.internalName, Some(stem), Some("Package display name")];
    var e := [Some(description), info.fileDescription, info.productName, Some(stem), Some("Package description")];
    FallbackOrder(3, d);
    FallbackOrder(3, e);
    (NotEmptyValueOfLength(3, d), NotEmptyValueOfLength(3, e))
  }

  /** Among five candidates, the last always acceptable, the first
      acceptable one is taken. */
  lemma FallbackOrder(m: int, v: seq<Option<string>>)
    requires |v| == 5 && Acceptable(v[4], m)
    ensures var r := NotEmptyValueOfLength(m, v);
      (Acceptable(v[0], m) ==> r == v[0].value)
      && (!Acceptable(v[0], m) && Acceptable(v[1], m) ==> r == v[1].value)
      && (!Acceptable(v[0], m) && !Acceptable(v[1], m) && Acceptable(v[2], m) ==> r == v[2].value)
      && (!Acceptable(v[0], m) && !Acceptable(v[1], m) && !Acceptable(v[2], m) && Acceptable(v[3], m) ==> r == v[3].value)
      && (!Acceptable(v[0], m) && !Acceptable(v[1], m) && !Acceptable(v[2], m) && !Acceptable(v[3], m) ==> r == v[4].value)
  {
    if Acceptable(v[0], m) {
      FirstLongEnoughWins(m, v, 0);
    } else if Acceptable(v[1], m) {
      FirstLongEnoughWins(m, v, 1);
    } else if Acceptable(v[2], m) {
      FirstLongEnoughWins(m, v, 2);
    } else if Acceptable(v[3], m) {
      FirstLongEnoughWins(m, v, 3);
    } else {
      FirstLongEnoughWins(m, v, 4);
    }
  }

  // ---------------------------------------------------------------------
  // Legacy namespace declarations

  const UapUri: string := "http://schemas.microsoft.com/appx/manifest/uap/windows10"
  const Uap4Uri: string := "http://schemas.microsoft.com/appx/manifest/uap/windows10/4"
  const Uap6Uri: string := "http://schemas.microsoft.com/appx/manifest/uap/windows10/6"

  /** Adds `xmlns:prefix="value"` unless some prefix is already bound to
      `lookup`; LINQ to XML refuses a second attribute of the same name. */
  function DeclareUnlessBound(root: Element, lookup: string, prefix: string, value: string): (r: Result<Element>)
    ensures PrefixOfNamespace(root, lookup).Some? ==> r == Success(root)
    ensures PrefixOfNamespace(root, lookup).None? ==> r == AddAttribute(root, XmlnsName(prefix), value)
  {
    if PrefixOfNamespace(root, lookup).Some? then Success(root)
    else AddAttribute(root, XmlnsName(prefix), value)
  }

  /** The declarations as the source adds them: `uap4` is checked against
      the UAP 4 namespace but bound to the UAP 6 one. */
  function LegacyPrefixesAsWritten(root: Element): Result<Element> {
    var a :- DeclareUnlessBound(root, UapUri, "uap", UapUri);
    var b :- DeclareUnlessBound(a, Uap4Uri, "uap4", Uap6Uri);
    DeclareUnlessBound(b, Uap6Uri, "uap6", Uap6Uri)
  }

  /** The declarations as intended: each prefix bound to its own namespace. */
  function LegacyPrefixes(root: Element): Result<Element> {
    var a :- DeclareUnlessBound(root, UapUri, "uap", UapUri);
    var b :- DeclareUnlessBound(a, Uap4Uri, "uap4", Uap4Uri);
    DeclareUnlessBound(b, Uap6Uri, "uap6", Uap6Uri)
  }

  /** `r` is `root` with namespace declarations appended: same name,
      children and text, the earlier attributes first, and only `xmlns`
      attributes after them. */
  predicate DeclarationsAdded(root: Element, r: Element) {
    r.name == root.name && r.children == root.children && r.text == root.text && root.attrs <= r.attrs
    && forall i :: |root.attrs| <= i < |r.attrs| ==> r.attrs[i].name.ns == XmlnsUri
  }

  lemma DeclarationsAddedTrans(a: Element, b: Element, c: Element)
    requires DeclarationsAdded(a, b) && DeclarationsAdded(b, c)
    ensures DeclarationsAdded(a, c)
  {
    forall i | |a.attrs| <= i < |c.attrs|
      ensures c.attrs[i].name.ns == XmlnsUri
    {
      if i < |b.attrs| {
        assert c.attrs[i] == b.attrs[i];
      }
    }
  }

  /** A declaration step keeps the element's name, children, earlier
      attributes and every namespace already bound, and binds `uri`. */
  lemma DeclareMeaning(root: Element, uri: string, prefix: string, other: string)
    requires DeclareUnlessBound(root, uri, prefix, uri).Success?
    ensures var r := DeclareUnlessBound(root, uri, prefix, uri).value;
      DeclarationsAdded(root, r) && PrefixOfNamespace(r, uri).Some?
      && (PrefixOfNamespace(root, other).Some? ==> PrefixOfNamespace(r, other) == PrefixOfNamespace(root, other))
  {
    if PrefixOfNamespace(root, uri).None? {
      PrefixInAppendNew(root.attrs, prefix, uri);
      if PrefixOfNamespace(root, other).Some? {
        PrefixInAppend(root.attrs, Attr(XmlnsName(prefix), uri), other);
      }
    }
  }

  /** When the intended declarations succeed, all three namespaces are
      bound on the root and nothing else about it changes. */
  lemma LegacyPrefixesBindAll(root: Element)
    requires LegacyPrefixes(root).Success?
    ensures var r := LegacyPrefixes(root).value;
      DeclarationsAdded(root, r)
      && PrefixOfNamespace(r, UapUri).Some? && PrefixOfNamespace(r, Uap4Uri).Some?
      && PrefixOfNamespace(r, Uap6Uri).Some?
  {
    var a := DeclareUnlessBound(root, UapUri, "uap", UapUri).value;
    DeclareMeaning(root, UapUri, "uap", UapUri);
    var b := DeclareUnlessBound(a, Uap4Uri, "uap4", Uap4Uri).value;
    DeclareMeaning(a, Uap4Uri, "uap4", UapUri);
    DeclareMeaning(b, Uap6Uri, "uap6", UapUri);
    DeclareMeaning(b, Uap6Uri, "uap6", Uap4Uri);
    var r := DeclareUnlessBound(b, Uap6Uri, "uap6", Uap6Uri).value;
    DeclarationsAddedTrans(root, a, b);
    DeclarationsAddedTrans(root, b, r);
  }

  /** A root already binding all three namespaces is left as it is, so
      the intended declarations are idempotent. */
  lemma LegacyPrefixesIdempotent(root: Element)
    requires LegacyPrefixes(root).Success?
    ensures LegacyPrefixes(LegacyPrefixes(root).value) == LegacyPrefixes(root)
  {
    LegacyPrefixesBindAll(root);
  }

  /** On a root with no attributes the source declares `uap` and `uap4`,
      the latter bound to the UAP 6 namespace, and no `uap6`: the UAP 4
      namespace stays undeclared. The intended version binds all three. */
  lemma Uap4LeftUndeclared(root: Element)
    requires root.attrs == []
    ensures LegacyPrefixesAsWritten(root).Success?
    ensures LegacyPrefixesAsWritten(root).value.attrs ==
      [Attr(XmlnsName("uap"), UapUri), Attr(XmlnsName("uap4"), Uap6Uri)]
    ensures PrefixOfNamespace(LegacyPrefixesAsWritten(root).value, Uap4Uri).None?
    ensures LegacyPrefixes(root).Success?
    ensures PrefixOfNamespace(LegacyPrefixes(root).value, Uap4Uri) == Some("uap4")
  {
    var a := UapDeclared(root);
    Uap4AsWritten(a);
    Uap4Intended(a);
  }

  /** The first step on a root without attributes declares `uap`. */
  lemma UapDeclared(root: Element) returns (a: Element)
    requires root.attrs == []
    ensures a == root.(attrs := [Attr(XmlnsName("uap"), UapUri)])
    ensures DeclareUnlessBound(root, UapUri, "uap", UapUri) == Success(a)
  {
    a := root.(attrs := [Attr(XmlnsName("uap"), UapUri)]);
    DeclareFresh(root, UapUri, "uap", UapUri);
    assert [] + [Attr(XmlnsName("uap"), UapUri)] == a.attrs;
  }

  lemma Uap4AsWritten(a: Element)
    requires a.attrs == [Attr(XmlnsName("uap"), UapUri)]
    ensures var b := a.(attrs := a.attrs + [Attr(XmlnsName("uap4"), Uap6Uri)]);
      DeclareUnlessBound(a, Uap4Uri, "uap4", Uap6Uri) == Success(b)
      && DeclareUnlessBound(b, Uap6Uri, "uap6", Uap6Uri) == Success(b)
      && PrefixOfNamespace(b, Uap4Uri).None?
  {
    var uap := a.attrs[0];
    var w := Attr(XmlnsName("uap4"), Uap6Uri);
    OneDeclaration(uap, Uap4Uri, XmlnsName("uap4"));
    DeclareFresh(a, Uap4Uri, "uap4", Uap6Uri);
    OneDeclaration(uap, Uap6Uri, XmlnsName("uap4"));
    PrefixInAppendNew([uap], "uap4", Uap6Uri);
    SecondDeclaration(uap, w, Uap4Uri);
  }

  lemma Uap4Intended(a: Element)
    requires a.attrs == [Attr(XmlnsName("uap"), UapUri)]
    ensures var c := a.(attrs := a.attrs + [Attr(XmlnsName("uap4"), Uap4Uri)]);
      DeclareUnlessBound(a, Uap4Uri, "uap4", Uap4Uri) == Success(c)
      && DeclareUnlessBound(c, Uap6Uri, "uap6", Uap6Uri).Success?
      && PrefixOfNamespace(DeclareUnlessBound(c, Uap6Uri, "uap6", Uap6Uri).value, Uap4Uri) == Some("uap4")
  {
    var uap := a.attrs[0];
    var x := Attr(XmlnsName("uap4"), Uap4Uri);
    OneDeclaration(uap, Uap4Uri, XmlnsName("uap4"));
    DeclareFresh(a, Uap4Uri, "uap4", Uap4Uri);
    var c := a.(attrs := a.attrs + [x]);
    assert c.attrs == [uap, x];
    Uap6AfterUap4(c);
  }

  /** With `uap` and `uap4` declared, `uap6` is declared next to them and
      `uap4` stays bound. */
  lemma Uap6AfterUap4(c: Element)
    requires c.attrs == [Attr(XmlnsName("uap"), UapUri), Attr(XmlnsName("uap4"), Uap4Uri)]
    ensures DeclareUnlessBound(c, Uap6Uri, "uap6", Uap6Uri).Success?
    ensures PrefixOfNamespace(DeclareUnlessBound(c, Uap6Uri, "uap6", Uap6Uri).value, Uap4Uri) == Some("uap4")
  {
    var uap, x := c.attrs[0], c.attrs[1];
    PrefixInAppendNew([uap], "uap4", Uap4Uri);
    assert [uap] + [x] == c.attrs;
    SecondDeclaration(uap, x, Uap6Uri);
    AttrsWithout(c.attrs, XmlnsName("uap6"));
    DeclareFresh(c, Uap6Uri, "uap6", Uap6Uri);
    PrefixInAppend(c.attrs, Attr(XmlnsName("uap6"), Uap6Uri), Uap4Uri);
  }

  lemma DeclareFresh(e: Element, lookup: string, prefix: string, value: string)
    requires PrefixOfNamespace(e, lookup).None? && AttrIndex(e.attrs, XmlnsName(prefix)).None?
    ensures DeclareUnlessBound(e, lookup, prefix, value) == Success(e.(attrs := e.attrs + [Attr(XmlnsName(prefix), value)]))
  {
  }

  /** A lone `xmlns:uap` declaration binds no other namespace and no other
      prefix. */
  lemma OneDeclaration(uap: Attr, uri: string, n: QName)
    requires uap == Attr(XmlnsName("uap"), UapUri) && uri != UapUri && n.local != "uap"
    ensures PrefixIn([uap], uri).None? && AttrIndex([uap], n).None?
  {
    assert [uap][1..] == [];
  }

  lemma SecondDeclaration(uap: Attr, x: Attr, uri: string)
    requires uap == Attr(XmlnsName("uap"), UapUri) && uri != UapUri && x.value != uri
    ensures PrefixIn([uap, x], uri).None?
  {
    assert [uap, x][1..] == [x];
    assert [x][1..] == [];
  }

  lemma AttrsWithout(attrs: seq<Attr>, n: QName)
    requires forall i :: 0 <= i < |attrs| ==> attrs[i].name != n
    ensures AttrIndex(attrs, n).None?
  {
  }

  // ---------------------------------------------------------------------
  // Nodes of the template

  function Named(qn: QName): QName -> bool {
    n => n == qn
  }

  /** `GetOrCreateNode(element, name, ns)`: the first descendant with that
      name in document order, or a new empty one appended as the last
      child. Returns the element and the path to the node. */
  function GetOrCreateNode(e: Element, qn: QName): (r: (Element, Path))
    ensures |r.1| >= 1 && ValidPath(r.0, r.1) && At(r.0, r.1).name == qn
    ensures FindFirstIn(e.children, Named(qn), 0).Some? ==> r == (e, FindFirstIn(e.children, Named(qn), 0).value)
    ensures FindFirstIn(e.children, Named(qn), 0).None? ==>
      r.0 == AppendChild(e, NewElement(qn)) && r.1 == [|e.children|]
  {
    match FindFirstIn(e.children, Named(qn), 0)
    case Some(p) => (e, p)
    case None =>
      var x := NewElement(qn);
      var r := AppendChild(e, x);
      assert r.children[|e.children|] == x;
      (r, [|e.children|])
  }

  /** Asking twice finds the node the first call found or made. */
  lemma GetOrCreateIdempotent(e: Element, qn: QName)
    ensures GetOrCreateNode(GetOrCreateNode(e, qn).0, qn) == GetOrCreateNode(e, qn)
  {
    if FindFirstIn(e.children, Named(qn), 0).None? {
      FindFirstInAppend(e.children, Named(qn), 0, NewElement(qn));
    }
  }

  /** `GetOrCreateNode(document, name, ns)`: the document's descendants
      include the root; a document cannot take a second root element. */
  function DocumentNode(root: Element, qn: QName): (r: Result<Path>)
    ensures r.Success? ==> ValidPath(root, r.value) && At(root, r.value).name == qn
    ensures r.Failure? <==> FindFirst(root, Named(qn)).None?
    ensures root.name == qn ==> r == Success([])
  {
    match FindFirst(root, Named(qn))
    case Some(p) => Success(p)
    case None => Failure(InvalidOperation("This operation would create an incorrectly structured document."))
  }

  /** `GetOrCreateNode(e, name).Value = value`. */
  function SetNodeValue(e: Element, qn: QName, value: string): (r: (Element, Path))
    ensures |r.1| >= 1 && ValidPath(r.0, r.1) && At(r.0, r.1).text == value && At(r.0, r.1).name == qn
  {
    var (e1, p) := GetOrCreateNode(e, qn);
    var x := SetValue(At(e1, p), value);
    (Update(e1, p, x), p)
  }

  /** The value written is the one read back by the next lookup. */
  lemma SetNodeValueReadBack(e: Element, qn: QName, value: string)
    ensures var (r, p) := SetNodeValue(e, qn, value);
      GetOrCreateNode(r, qn) == (r, p) && At(r, p).text == value
  {
    var (e1, p) := GetOrCreateNode(e, qn);
    GetOrCreateIdempotent(e, qn);
    assert FindFirstIn(e1.children, Named(qn), 0) == Some(p);
    var x := SetValue(At(e1, p), value);
    FindFirstInStable(e1.children, Named(qn), 0, p, x);
  }
}

=== FILE: package_type.dfy ===
/** `PackageTypeConverter`: what kind of application an entry point
    describes, and how a set of package-type flags is displayed. */
module PackageType {
  import opened Wrappers
  import opened Text
  import opened Paths

  /** The `MsixPackageType` flags; a value of the enumeration is the set
      of flags it holds. */
  datatype Flag = Uwp | Win32 | Win32Psf | Win32AiStub | Web | ProgressiveWebApp | Framework

  type PackageTypes = set<Flag>

  /** `PackageTypeDisplay`. */
  datatype Display = Long | Normal | Short

  const FullTrustEntryPoint: string := "Windows.FullTrustApplication"
  const PwaHost: string := "PWA"
  const ExeExtension: string := ".exe"
  const PsfLauncher: string := "\\psflauncher"
  const PsfRunDll: string := "\\psfrundll"
  const PsfMonitor: string := "\\psfmonitor"
  const AiStubs: string := "\\ai_stubs"

  predicate IsNullOrEmpty(s: Option<string>) { s.None? || s.value == "" }

  /** An executable launched through the Package Support Framework. */
  predicate IsPsfLauncher(executable: string) {
    var marked := "\\" + executable;
    ContainsIgnoreCase(marked, PsfLauncher) || ContainsIgnoreCase(marked, PsfRunDll)
    || ContainsIgnoreCase(marked, PsfMonitor)
  }

  /** An executable launched through the Advanced Installer stub. */
  predicate IsAiStub(executable: string) {
    ContainsIgnoreCase("\\" + executable, AiStubs)
  }

  /** The decision of `GetPackageTypeFrom`: the one flag an application
      has, if any. */
  function AppFlag(entryPoint: Option<string>, executable: Option<string>, startPage: Option<string>,
                   isFramework: bool, hostId: Option<string>): Option<Flag>
  {
    if hostId == Some(PwaHost) then Some(ProgressiveWebApp)
    else if isFramework then Some(Framework)
    else if !IsNullOrEmpty(entryPoint) then
      if entryPoint.value == FullTrustEntryPoint then
        if !IsNullOrEmpty(executable) && HasExtension(executable.value, ExeExtension) then
          if IsPsfLauncher(executable.value) then Some(Win32Psf)
          else if IsAiStub(executable.value) then Some(Win32AiStub)
          else Some(Win32)
        else None
      else if IsNullOrEmpty(startPage) then Some(Uwp)
      else None
    else if executable.Some? && EndsWithIgnoreCase(executable.value, ExeExtension) then Some(Win32)
    else if IsNullOrEmpty(startPage) then None
    else Some(Web)
  }

  /** `GetPackageTypeFrom`: the package type of one application, a value
      with at most one flag set (no flag is the enumeration's zero). */
  function TypeFrom(entryPoint: Option<string>, executable: Option<string>, startPage: Option<string>,
                    isFramework: bool, hostId: Option<string>): (r: PackageTypes)
    ensures |r| <= 1
    ensures forall f :: f in r <==> AppFlag(entryPoint, executable, startPage, isFramework, hostId) == Some(f)
  {
    match AppFlag(entryPoint, executable, startPage, isFramework, hostId)
    case None => {}
    case Some(f) => {f}
  }

  /** An executable ends in `.exe`, ignoring case. */
  predicate IsExe(executable: Option<string>) {
    executable.Some? && EndsWithIgnoreCase(executable.value, ExeExtension)
  }

  lemma ExeExtensionIsSuffix(s: string)
    ensures HasExtension(s, ExeExtension) <==> EndsWithIgnoreCase(s, ExeExtension)
  {
    HasExtensionIsSuffix(s, ExeExtension);
  }

  /** A progressive web app exactly when the host is `PWA`; a framework
      exactly when it is flagged as one and is not a web app. */
  lemma AppFlagHosted(entryPoint: Option<string>, executable: Option<string>, startPage: Option<string>,
                      isFramework: bool, hostId: Option<string>)
    ensures var r := AppFlag(entryPoint, executable, startPage, isFramework, hostId);
      && (r == Some(ProgressiveWebApp) <==> hostId == Some(PwaHost))
      && (r == Some(Framework) <==> hostId != Some(PwaHost) && isFramework)
  {
    AppFlagPwa(entryPoint, executable, startPage, isFramework, hostId);
    AppFlagFramework(entryPoint, executable, startPage, isFramework, hostId);
  }

  lemma AppFlagPwa(entryPoint: Option<string>, executable: Option<string>, startPage: Option<string>,
                   isFramework: bool, hostId: Option<string>)
    ensures AppFlag(entryPoint, executable, startPage, isFramework, hostId) == Some(ProgressiveWebApp)
      <==> hostId == Some(PwaHost)
  {
  }

  lemma AppFlagFramework(entryPoint: Option<string>, executable: Option<string>, startPage: Option<string>,
                         isFramework: bool, hostId: Option<string>)
    ensures AppFlag(entryPoint, executable, startPage, isFramework, hostId) == Some(Framework)
      <==> hostId != Some(PwaHost) && isFramework
  {
  }

  /** The Win32 kinds, for an application that is neither a web app nor a
      framework: a PSF launcher or an AI stub needs the full-trust entry
      point and an `.exe`, PSF winning over the stub; a plain Win32 app
      has an `.exe` and either no entry point or the full-trust one with
      neither launcher. */
  lemma AppFlagWin32(entryPoint: Option<string>, executable: Option<string>, startPage: Option<string>,
                     isFramework: bool, hostId: Option<string>)
    requires hostId != Some(PwaHost) && !isFramework
    ensures var r := AppFlag(entryPoint, executable, startPage, isFramework, hostId);
      && (r == Some(Win32) <==>
            IsExe(executable)
            && (IsNullOrEmpty(entryPoint)
                || (entryPoint.value == FullTrustEntryPoint && !IsPsfLauncher(executable.value) && !IsAiStub(executable.value))))
      && (r == Some(Win32Psf) <==>
            entryPoint == Some(FullTrustEntryPoint) && IsExe(executable) && IsPsfLauncher(executable.value))
      && (r == Some(Win32AiStub) <==>
            entryPoint == Some(FullTrustEntryPoint) && IsExe(executable)
            && !IsPsfLauncher(executable.value) && IsAiStub(executable.value))
  {
    if executable.Some? {
      ExeExtensionIsSuffix(executable.value);
    }
    AppFlagPlainWin32(entryPoint, executable, startPage, isFramework, hostId);
    AppFlagLaunchers(entryPoint, executable, startPage, isFramework, hostId);
  }

  lemma AppFlagPlainWin32(entryPoint: Option<string>, executable: Option<string>, startPage: Option<string>,
                          isFramework: bool, hostId: Option<string>)
    requires hostId != Some(PwaHost) && !isFramework
    requires executable.Some? ==> (HasExtension(executable.value, ExeExtension) <==> EndsWithIgnoreCase(executable.value, ExeExtension))
    ensures AppFlag(entryPoint, executable, startPage, isFramework, hostId) == Some(Win32) <==>
      IsExe(executable)
      && (IsNullOrEmpty(entryPoint)
          || (entryPoint.value == FullTrustEntryPoint && !IsPsfLauncher(executable.value) && !IsAiStub(executable.value)))
  {
    var r := AppFlag(entryPoint, executable, startPage, isFramework, hostId);
    if IsNullOrEmpty(entryPoint) {
      assert r == Some(Win32) <==> IsExe(executable);
    } else if entryPoint.value == FullTrustEntryPoint {
      ExeNotEmpty(executable);
      assert r == Some(Win32) <==>
        IsExe(executable) && !IsPsfLauncher(executable.value) && !IsAiStub(executable.value);
    } else {
      assert r != Some(Win32);
    }
  }

  lemma AppFlagLaunchers(entryPoint: Option<string>, executable: Option<string>, startPage: Option<string>,
                         isFramework: bool, hostId: Option<string>)
    requires hostId != Some(PwaHost) && !isFramework
    requires executable.Some? ==> (HasExtension(executable.value, ExeExtension) <==> EndsWithIgnoreCase(executable.value, ExeExtension))
    ensures var r := AppFlag(entryPoint, executable, startPage, isFramework, hostId);
      && (r == Some(Win32Psf) <==>
            entryPoint == Some(FullTrustEntryPoint) && IsExe(executable) && IsPsfLauncher(executable.value))
      && (r == Some(Win32AiStub) <==>
            entryPoint == Some(FullTrustEntryPoint) && IsExe(executable)
            && !IsPsfLauncher(executable.value) && IsAiStub(executable.value))
  {
    var r := AppFlag(entryPoint, executable, startPage, isFramework, hostId);
    if entryPoint == Some(FullTrustEntryPoint) {
      assert !IsNullOrEmpty(entryPoint);
      ExeNotEmpty(executable);
    } else {
      assert r != Some(Win32Psf) && r != Some(Win32AiStub);
    }
  }

  /** An `.exe` has a name. */
  lemma ExeNotEmpty(executable: Option<string>)
    ensures IsExe(executable) ==> !IsNullOrEmpty(executable)
  {
  }

  /** For an application that is neither a web app nor a framework: a
      universal app needs an entry point other than the full-trust one and
      no start page; a web app needs no entry point, no `.exe` and a start
      page. */
  lemma AppFlagOther(entryPoint: Option<string>, executable: Option<string>, startPage: Option<string>,
                     isFramework: bool, hostId: Option<string>)
    requires hostId != Some(PwaHost) && !isFramework
    ensures var r := AppFlag(entryPoint, executable, startPage, isFramework, hostId);
      && (r == Some(Uwp) <==>
            !IsNullOrEmpty(entryPoint) && entryPoint.value != FullTrustEntryPoint && IsNullOrEmpty(startPage))
      && (r == Some(Web) <==> IsNullOrEmpty(entryPoint) && !IsExe(executable) && !IsNullOrEmpty(startPage))
  {
  }

  /** The display categories, in order of precedence. */
  datatype Category = UwpApp | Win32App | PsfApp | AiStubApp | WebApp | FrameworkPackage | OtherApp

  /** The category a flag alone is displayed as. */
  function CategoryOfFlag(f: Flag): Category {
    match f
    case Uwp => UwpApp
    case Win32 => Win32App
    case Win32Psf => PsfApp
    case Win32AiStub => AiStubApp
    case Web => WebApp
    case ProgressiveWebApp => WebApp
    case Framework => FrameworkPackage
  }

  /** The precedence of a category: lower wins. */
  function Rank(c: Category): nat {
    match c
    case UwpApp => 0
    case Win32App => 1
    case PsfApp => 2
    case AiStubApp => 3
    case WebApp => 4
    case FrameworkPackage => 5
    case OtherApp => 6
  }

  /** The checks of `GetPackageTypeStringFrom`, in order. */
  function CategoryOf(t: PackageTypes): (c: Category) {
    if Uwp in t then UwpApp
    else if Win32 in t then Win32App
    else if Win32Psf in t then PsfApp
    else if Win32AiStub in t then AiStubApp
    else if Web in t || ProgressiveWebApp in t then WebApp
    else if Framework in t then FrameworkPackage
    else OtherApp
  }

  /** The displayed category is that of the highest-precedence flag held,
      and the fallback exactly when no flag is held. */
  lemma CategoryIsTopFlag(t: PackageTypes)
    ensures CategoryOf(t) == OtherApp <==> t == {}
    ensures t != {} ==>
      (exists f :: f in t && CategoryOfFlag(f) == CategoryOf(t))
      && forall g :: g in t ==> Rank(CategoryOf(t)) <= Rank(CategoryOfFlag(g))
  {
    if t != {} {
      var f :| f in t;
      assert CategoryOf(t) != OtherApp by {
        match f
        case Uwp =>
        case Win32 =>
        case Win32Psf =>
        case Win32AiStub =>
        case Web =>
        case ProgressiveWebApp =>
        case Framework =>
      }
    }
  }

  const UwpLong: string := "Universal Windows Platform (UWP) app"
  const Win32Long: string := "Classic Win32 app"
  const PsfLong: string := "Classic Win32 app enhanced by Package Support Framework (PSF)"
  const AiStubLong: string := "Classic Win32 app enhanced by Advanced Installer launcher"
  const WebLong: string := "Progressive Web Application"

  /** The text of a category in a display mode. */
  function Label(c: Category, d: Display): string {
    match c
    case UwpApp => if d == Long then UwpLong else "UWP"
    case Win32App => if d == Long then Win32Long else "Win32"
    case PsfApp => if d == Long then PsfLong else if d == Short then "PSF" else "Win32 + PSF"
    case AiStubApp => if d == Long then AiStubLong else if d == Short then "AI" else "Win32 + AI"
    case WebApp => if d == Long then WebLong else "PWA"
    case FrameworkPackage => "Framework"
    case OtherApp => if d == Short then "App" else "Unknown"
  }

  /** `GetPackageTypeStringFrom(MsixPackageType, PackageTypeDisplay)`. */
  function TypeString(t: PackageTypes, d: Display): (r: string)
    ensures r == Label(OtherApp, d) <==> t == {}
    ensures t != {} ==>
      exists f :: (f in t && r == Label(CategoryOfFlag(f), d)
                   && forall g :: g in t ==> Rank(CategoryOfFlag(f)) <= Rank(CategoryOfFlag(g)))
  {
    TopFlagLabel(t, d);
    Label(CategoryOf(t), d)
  }

  lemma TopFlagLabel(t: PackageTypes, d: Display)
    ensures Label(CategoryOf(t), d) == Label(OtherApp, d) <==> t == {}
    ensures t != {} ==>
      exists f :: (f in t && Label(CategoryOf(t), d) == Label(CategoryOfFlag(f), d)
                   && forall g :: g in t ==> Rank(CategoryOfFlag(f)) <= Rank(CategoryOfFlag(g)))
  {
    CategoryIsTopFlag(t);
    if t != {} {
      LabelsDiffer(CategoryOf(t), OtherApp, d);
      var f :| f in t && CategoryOfFlag(f) == CategoryOf(t);
      assert forall g :: g in t ==> Rank(CategoryOfFlag(f)) <= Rank(CategoryOfFlag(g));
    }
  }

  /** In every display mode the text tells the categories apart. */
  lemma LabelsDiffer(c1: Category, c2: Category, d: Display)
    requires c1 != c2
    ensures Label(c1, d) != Label(c2, d)
  {
    assert UwpLong[0] == 'U' && Win32Long[8] == 'W' && PsfLong[|PsfLong| - 1] == ')';
    assert AiStubLong[|AiStubLong| - 1] == 'r' && WebLong[0] == 'P';
  }

  /** Flags of lower precedence than the one displayed do not change the
      text. */
  lemma TypeStringIgnoresLower(t: PackageTypes, u: PackageTypes, d: Display)
    requires forall g :: g in u ==> Rank(CategoryOf(t)) < Rank(CategoryOfFlag(g))
    ensures TypeString(t + u, d) == TypeString(t, d)
  {
    assert CategoryOf(t + u) == CategoryOf(t);
  }
}

=== FILE: paths.dfy ===
/** The `System.IO.Path` helpers the manifest engine uses, with Windows
    separators: `\` and `/` separate directories and `:` ends a volume. */
module Paths {
  import opened Wrappers
  import opened Text

  predicate IsSeparator(c: char) { c == '\\' || c == '/' }

  /** Characters that end a file name when scanning backwards. */
  predicate EndsName(c: char) { IsSeparator(c) || c == ':' }

  /** The position of the last character of `s` satisfying `EndsName`. */
  function LastNameEnd(s: string): (r: Option<nat>)
    ensures r.Some? ==> r.value < |s| && EndsName(s[r.value])
    ensures r.Some? ==> forall j :: r.value < j < |s| ==> !EndsName(s[j])
    ensures r.None? ==> forall j :: 0 <= j < |s| ==> !EndsName(s[j])
  {
    if |s| == 0 then None
    else if EndsName(s[|s| - 1]) then Some(|s| - 1)
    else LastNameEnd(s[..|s| - 1])
  }

  /** `Path.GetFileName`: what follows the last separator. */
  function FileName(s: string): (r: string)
    ensures |r| <= |s| && r == s[|s| - |r|..]
    ensures forall j :: 0 <= j < |r| ==> !EndsName(r[j])
    ensures |r| < |s| ==> EndsName(s[|s| - |r| - 1])
  {
    match LastNameEnd(s)
    case None => s
    case Some(k) => s[k + 1..]
  }

  /** A path without separators or volume marks is its own file name. */
  lemma PlainFileName(s: string)
    requires '\\' !in s && '/' !in s && ':' !in s
    ensures FileName(s) == s
  {
  }

  /** `Path.GetExtension`: from the last `.` of the file name, or "" when
      there is none or it is the last character. */
  function Extension(s: string): (r: string)
    ensures r == "" || (2 <= |r| <= |FileName(s)| && r[0] == '.' && r == FileName(s)[|FileName(s)| - |r|..])
  {
    var name := FileName(s);
    match LastIndexOfChar(name, '.')
    case None => ""
    case Some(i) => if i == |name| - 1 then "" else name[i..]
  }

  /** Whether the extension, lower-cased, is `ext` (itself lower-case). */
  predicate HasExtension(s: string, ext: string) {
    Fold(Extension(s)) == ext
  }

  /** A lower-case extension `.x`, with no dot or separator after the
      dot, is what a path has exactly when the path ends with it, ignoring
      case. */
  lemma HasExtensionIsSuffix(s: string, ext: string)
    requires |ext| >= 2 && ext[0] == '.' && Fold(ext) == ext
    requires forall j :: 1 <= j < |ext| ==> ext[j] != '.' && !EndsName(ext[j])
    ensures HasExtension(s, ext) <==> EndsWithIgnoreCase(s, ext)
  {
    if HasExtension(s, ext) {
      ExtensionEndsPath(s, ext);
    }
    if EndsWithIgnoreCase(s, ext) {
      SuffixIsExtension(s, ext);
    }
  }

  lemma ExtensionEndsPath(s: string, ext: string)
    requires HasExtension(s, ext)
    ensures EndsWithIgnoreCase(s, ext)
  {
    var e := Extension(s);
    ExtensionIsSuffix(s);
    assert |e| == |ext| && s[|s| - |ext|..] == e;
    FoldIdempotent(e);
    assert Fold(ext) == Fold(e);
  }

  lemma ExtensionIsSuffix(s: string)
    ensures |Extension(s)| <= |s| && Extension(s) == s[|s| - |Extension(s)|..]
  {
    var name := FileName(s);
    var e := Extension(s);
    if e != "" {
      assert e == name[|name| - |e|..];
    }
  }

  lemma SuffixIsExtension(s: string, ext: string)
    requires |ext| >= 2 && ext[0] == '.' && Fold(ext) == ext
    requires forall j :: 1 <= j < |ext| ==> ext[j] != '.' && !EndsName(ext[j])
    requires EndsWithIgnoreCase(s, ext)
    ensures Extension(s) == s[|s| - |ext|..]
  {
    var n := |ext|;
    var tail := s[|s| - n..];
    assert Fold(tail) == ext;
    assert s[|s| - n] == '.' by { assert FoldChar(tail[0]) == ext[0]; }
    forall j | |s| - n < j < |s| ensures s[j] != '.' && !EndsName(s[j]) {
      assert FoldChar(tail[j - (|s| - n)]) == ext[j - (|s| - n)];
    }
    ExtensionOfSuffix(s, n);
  }

  /** A path ending in `.` and `n - 1` further characters, none of them a
      dot or a separator, has those `n` characters as its extension. */
  lemma ExtensionOfSuffix(s: string, n: nat)
    requires 2 <= n <= |s| && s[|s| - n] == '.'
    requires forall j :: |s| - n < j < |s| ==> s[j] != '.' && !EndsName(s[j])
    ensures Extension(s) == s[|s| - n..]
  {
    SuffixFreeOfNameEnd(s, n);
    LastDotOfName(s, n);
    ExtensionFromDot(s, n);
  }

  /** The dot `n` characters from the end of `s` is the last dot of its
      file name when the file name is at least `n` long. */
  lemma LastDotOfName(s: string, n: nat)
    requires 2 <= n <= |FileName(s)| && s[|s| - n] == '.'
    requires forall j :: |s| - n < j < |s| ==> s[j] != '.' && !EndsName(s[j])
    ensures LastIndexOfChar(FileName(s), '.') == Some(|FileName(s)| - n)
    ensures FileName(s)[|FileName(s)| - n..] == s[|s| - n..]
  {
    SuffixOfName(s, FileName(s), n);
    LastDotInSuffix(FileName(s), n);
  }

  /** A suffix `name` of `s` at least `n` long ends with the last `n`
      characters of `s`, dot and all. */
  lemma SuffixOfName(s: string, name: string, n: nat)
    requires 2 <= n <= |name| <= |s| && name == s[|s| - |name|..]
    requires s[|s| - n] == '.' && forall j :: |s| - n < j < |s| ==> s[j] != '.'
    ensures name[|name| - n..] == s[|s| - n..]
    ensures name[|name| - n] == '.' && forall j :: |name| - n < j < |name| ==> name[j] != '.'
  {
    forall j | |name| - n < j < |name| ensures name[j] != '.' {
      assert name[j] == s[|s| - |name| + j];
    }
  }

  /** The extension starts at the last dot of the file name when that dot
      is not its last character. */
  lemma ExtensionFromDot(s: string, n: nat)
    requires 2 <= n <= |FileName(s)| && LastIndexOfChar(FileName(s), '.') == Some(|FileName(s)| - n)
    ensures Extension(s) == FileName(s)[|FileName(s)| - n..]
  {
  }

  /** When the last `n` characters of `s` contain no name end, they are
      part of the file name. */
  lemma SuffixFreeOfNameEnd(s: string, n: nat)
    requires n <= |s| && forall j :: |s| - n <= j < |s| ==> !EndsName(s[j])
    ensures |FileName(s)| >= n
  {
  }

  /** A name ending in `.` followed by `n - 1` dot-free characters has that
      suffix as its extension. */
  lemma LastDotInSuffix(name: string, n: nat)
    requires 2 <= n <= |name| && name[|name| - n] == '.'
    requires forall j :: |name| - n < j < |name| ==> name[j] != '.'
    ensures LastIndexOfChar(name, '.') == Some(|name| - n)
  {
  }

  /** `s.TrimEnd('\\', '/')`. */
  function TrimSeparators(s: string): (r: string)
    ensures |r| <= |s| && r == s[..|r|]
    ensures |r| == 0 || !IsSeparator(r[|r| - 1])
  {
    if |s| > 0 && IsSeparator(s[|s| - 1]) then TrimSeparators(s[..|s| - 1]) else s
  }

  /** `Path.GetDirectoryName` before separator normalisation: what precedes
      the file name, without the separators that end it. */
  function DirectoryPart(s: string): (r: string)
    ensures |r| + |FileName(s)| <= |s| && r == s[..|r|]
  {
    TrimSeparators(s[..|s| - |FileName(s)|])
  }

  /** Joining a directory and a file name with a separator, and taking the
      path apart again, gives both back. */
  lemma DirectoryJoin(d: string, sep: char, name: string)
    requires IsSeparator(sep)
    requires |d| == 0 || !IsSeparator(d[|d| - 1])
    requires forall j :: 0 <= j < |name| ==> !EndsName(name[j])
    ensures FileName(d + [sep] + name) == name
    ensures DirectoryPart(d + [sep] + name) == d
  {
    var s := d + [sep] + name;
    assert EndsName(s[|d|]);
    forall j | |d| < j < |s| ensures !EndsName(s[j]) {
      assert s[j] == name[j - |d| - 1];
    }
    assert LastNameEnd(s) == Some(|d|);
    assert s[|d| + 1..] == name;
    assert s[..|s| - |name|] == d + [sep];
    assert TrimSeparators(d + [sep]) == TrimSeparators(d) by {
      assert (d + [sep])[..|d|] == d;
    }
  }
}

=== FILE: set_identity.dfy ===
/** `SetPackageIdentityExecutor`: writes the attributes of the manifest's
    `Identity` element one field of the command at a time. */
module PackageIdentity {
  import opened Wrappers
  import opened Text
  import opened Xml
  import opened EditExecutor
  import opened VersionMask

  /** The `SetPackageIdentity` command: an absent field leaves its
      attribute alone. */
  datatype SetPackageIdentity = SetPackageIdentity(
    publisher: Option<string>, version: Option<string>, name: Option<string>,
    architecture: Option<string>, resourceId: Option<string>)

  /** A validator of `AppxValidatorFactory`: the message rejecting a
      value, or `None` when the value is acceptable. */
  type Validator = string -> Option<string>

  /** The validators the executor consults. Their rules live outside the
      executor, so they are parameters of the model. */
  datatype Validators = Validators(subject: Validator, packageName: Validator, version: Validator, resourceId: Validator)

  /** The fields of the command, in the order the executor handles them. */
  datatype Field = PublisherField | NameField | VersionField | ArchitectureField | ResourceIdField

  const FieldOrder: seq<Field> := [PublisherField, NameField, VersionField, ArchitectureField, ResourceIdField]

  const PublisherKey: string := "Publisher"
  const NameKey: string := "Name"
  const VersionKey: string := "Version"
  const ArchitectureKey: string := "ProcessorArchitecture"
  const ResourceIdKey: string := "ResourceId"

  /** The attribute a field is written to. */
  function Key(f: Field): string {
    match f
    case PublisherField => PublisherKey
    case NameField => NameKey
    case VersionField => VersionKey
    case ArchitectureField => ArchitectureKey
    case ResourceIdField => ResourceIdKey
  }

  lemma KeysDistinct(f: Field, g: Field)
    requires f != g
    ensures Key(f) != Key(g)
  {
  }

  function ValueOf(c: SetPackageIdentity, f: Field): Option<string> {
    match f
    case PublisherField => c.publisher
    case NameField => c.name
    case VersionField => c.version
    case ArchitectureField => c.architecture
    case ResourceIdField => c.resourceId
  }

  /** The processor architecture is written without any check. */
  function Unchecked(s: string): Option<string> { None }

  function ValidatorOf(v: Validators, f: Field): Validator {
    match f
    case PublisherField => v.subject
    case NameField => v.packageName
    case VersionField => v.version
    case ArchitectureField => Unchecked
    case ResourceIdField => v.resourceId
  }

  /** The command restricted to the fields in `keep`. */
  function Keep(c: SetPackageIdentity, keep: set<Field>): (r: SetPackageIdentity)
    ensures forall f :: ValueOf(r, f) == if f in keep then ValueOf(c, f) else None
  {
    SetPackageIdentity(
      if PublisherField in keep then c.publisher else None,
      if VersionField in keep then c.version else None,
      if NameField in keep then c.name else None,
      if ArchitectureField in keep then c.architecture else None,
      if ResourceIdField in keep then c.resourceId else None)
  }

  // ---------------------------------------------------------------------
  // One field

  /** The `Identity` element while the fields are applied, the events so
      far, and the exception that stopped the command, if any. */
  datatype Progress = Progress(identity: Element, events: seq<ValueChange>, error: Option<Error>)

  /** The new version for a mask, with the resolver as the program calls
      it: against the current `Version` attribute when there is one, else
      against no version. A mask of more than four units, or a current
      value that is not a version, ends in `FormatException`. */
  function ResolveFor(identity: Element, mask: string): (r: Result<string>)
    ensures r.Success? ==> ParseVersion(r.value).Some?
    ensures r.Failure? ==> r.error.ArgumentError? || r.error == FormatError
    ensures |Split(mask, '.')| > 4 ==> r == Failure(FormatError)
    ensures Attribute(identity, Plain(VersionKey)).Some? ==>
      var current := Attribute(identity, Plain(VersionKey)).value;
      |current| > 0 && ParseVersion(current).None? ==> r == Failure(FormatError)
    ensures Attribute(identity, Plain(VersionKey)).None? ==>
      (r.Success? <==> ResolveMaskedVersion(Some(mask), None).Success?)
      && (r.Success? ==> r == ResolveMaskedVersion(Some(mask), None))
  {
    TooManyUnitsFor(identity, mask);
    match Attribute(identity, Plain(VersionKey))
    case None => ResolveMaskedVersionAsWritten(Some(mask), None)
    case Some(current) => ResolveMaskedTextAsWritten(Some(mask), current)
  }

  lemma TooManyUnitsFor(identity: Element, mask: string)
    ensures |Split(mask, '.')| > 4 ==>
      match Attribute(identity, Plain(VersionKey))
      case None => ResolveMaskedVersionAsWritten(Some(mask), None) == Failure(FormatError)
      case Some(current) => ResolveMaskedTextAsWritten(Some(mask), current) == Failure(FormatError)
  {
    if |Split(mask, '.')| > 4 {
      match Attribute(identity, Plain(VersionKey))
      case None => TooManyUnitsRejected(mask, None);
      case Some(current) =>
        if |current| == 0 {
          TooManyUnitsRejected(mask, None);
        } else if ParseVersion(current).Some? {
          TooManyUnitsRejected(mask, ParseVersion(current));
        }
    }
  }

  /** The event writing `value` to attribute `key` raises: a creation, a
      change from the old value, and none when `Version` is created. */
  function WriteEvents(identity: Element, key: string, value: string): seq<ValueChange> {
    match Attribute(identity, Plain(key))
    case None => if key == VersionKey then [] else [Created(key, value)]
    case Some(current) => [Changed(key, current, value)]
  }

  /** The value a field writes, or the exception it raises: Publisher, Name
      and ResourceId are validated as given, Version is resolved first and
      the result validated. */
  function FieldValue(v: Validators, identity: Element, f: Field, given: string): (r: Result<string>)
    ensures f != VersionField ==>
      (r.Success? <==> ValidatorOf(v, f)(given).None?)
      && (r.Success? ==> r.value == given)
      && (r.Failure? ==> r.error == ArgumentError(ValidatorOf(v, f)(given).value))
    ensures f == VersionField ==>
      (r.Success? <==> ResolveFor(identity, given).Success? && v.version(ResolveFor(identity, given).value).None?)
      && (r.Success? ==> r.value == ResolveFor(identity, given).value && ParseVersion(r.value).Some?)
      && (r.Failure? ==> r.error.ArgumentError? || r.error == FormatError)
  {
    var resolved := if f == VersionField then ResolveFor(identity, given) else Success(given);
    match resolved
    case Failure(e) => Failure(e)
    case Success(value) =>
      match ValidatorOf(v, f)(value)
      case Some(message) => Failure(ArgumentError(message))
      case None => Success(value)
  }

  /** Handling one field: nothing when the command already failed or the
      field is absent; otherwise the attribute is written, or the command
      fails with the element and the events as they were. */
  function Step(v: Validators, p: Progress, c: SetPackageIdentity, f: Field): (r: Progress)
    ensures p.error.Some? || ValueOf(c, f).None? ==> r == p
    ensures p.error.None? && ValueOf(c, f).Some? ==>
      var value := FieldValue(v, p.identity, f, ValueOf(c, f).value);
      (r.error.Some? <==> value.Failure?)
      && (value.Failure? ==> r == p.(error := Some(value.error)))
      && (value.Success? ==>
            Attribute(r.identity, Plain(Key(f))) == Some(value.value)
            && (forall m :: m != Plain(Key(f)) ==> Attribute(r.identity, m) == Attribute(p.identity, m))
            && r.identity.name == p.identity.name && r.identity.children == p.identity.children
            && r.events == p.events + WriteEvents(p.identity, Key(f), value.value))
  {
    if p.error.Some? || ValueOf(c, f).None? then p
    else match FieldValue(v, p.identity, f, ValueOf(c, f).value)
      case Failure(e) => p.(error := Some(e))
      case Success(value) =>
        Progress(SetAttributeValue(p.identity, Plain(Key(f)), value),
                 p.events + WriteEvents(p.identity, Key(f), value), None)
  }

  /** The fields `fs`, in order. */
  function Run(v: Validators, p: Progress, c: SetPackageIdentity, fs: seq<Field>): Progress
    decreases |fs|
  {
    if |fs| == 0 then p else Run(v, Step(v, p, c, fs[0]), c, fs[1..])
  }

  /** No field appears twice. */
  predicate Distinct(fs: seq<Field>) {
    forall i, j :: 0 <= i < j < |fs| ==> fs[i] != fs[j]
  }

  /** The events the fields `fs` raise when each is written on its own to
      `identity`: the reference the sequential run is compared with. */
  function Events(v: Validators, identity: Element, c: SetPackageIdentity, fs: seq<Field>): seq<ValueChange>
    decreases |fs|
  {
    if |fs| == 0 then []
    else
      var here := match ValueOf(c, fs[0])
        case None => []
        case Some(given) =>
          match FieldValue(v, identity, fs[0], given)
          case Failure(_) => []
          case Success(value) => WriteEvents(identity, Key(fs[0]), value);
      here + Events(v, identity, c, fs[1..])
  }

  /** Once the command has failed, the remaining fields do nothing. */
  lemma {:induction false} RunAfterFailure(v: Validators, p: Progress, c: SetPackageIdentity, fs: seq<Field>)
    requires p.error.Some?
    ensures Run(v, p, c, fs) == p
    decreases |fs|
  {
    if |fs| > 0 {
      RunAfterFailure(v, Step(v, p, c, fs[0]), c, fs[1..]);
    }
  }

  /** The run looks only at the fields it is given. */
  lemma {:induction false} RunReadsOnlyItsFields(v: Validators, p: Progress, c1: SetPackageIdentity, c2: SetPackageIdentity, fs: seq<Field>)
    requires forall i :: 0 <= i < |fs| ==> ValueOf(c1, fs[i]) == ValueOf(c2, fs[i])
    ensures Run(v, p, c1, fs) == Run(v, p, c2, fs)
    decreases |fs|
  {
    if |fs| > 0 {
      assert Step(v, p, c1, fs[0]) == Step(v, p, c2, fs[0]);
      RunReadsOnlyItsFields(v, Step(v, p, c1, fs[0]), c1, c2, fs[1..]);
    }
  }

  /** The first `k` fields of `fs`. */
  function FirstFields(fs: seq<Field>, k: nat): set<Field>
    requires k <= |fs|
  {
    set f | f in fs[..k]
  }

  /** Keeping the first `k + 1` fields of `fs` or the first `k` of its
      tail agrees on every field of the tail. */
  lemma KeepShift(c: SetPackageIdentity, fs: seq<Field>, k: nat)
    requires Distinct(fs) && k < |fs|
    ensures forall j :: 0 <= j < |fs| - 1 ==>
      ValueOf(Keep(c, FirstFields(fs, k + 1)), fs[1..][j]) == ValueOf(Keep(c, FirstFields(fs[1..], k)), fs[1..][j])
  {
    forall j | 0 <= j < |fs| - 1
      ensures fs[1..][j] in FirstFields(fs, k + 1) <==> fs[1..][j] in FirstFields(fs[1..], k)
    {
      assert fs[1..][j] == fs[j + 1];
      assert fs[1..][..k] == fs[1..k + 1];
      assert fs[..k + 1] == [fs[0]] + fs[1..k + 1];
      assert fs[0] != fs[j + 1];
    }
  }

  /** A failing command leaves what the fields before the failing one
      did: its element and events are those of the same command cut down
      to those fields, which succeeds. */
  lemma {:induction false} RunFailurePrefix(v: Validators, p: Progress, c: SetPackageIdentity, fs: seq<Field>)
    requires Distinct(fs) && p.error.None? && Run(v, p, c, fs).error.Some?
    ensures exists k :: (0 <= k < |fs| && ValueOf(c, fs[k]).Some?
      && Run(v, p, Keep(c, FirstFields(fs, k)), fs) == Run(v, p, c, fs).(error := None))
    decreases |fs|
  {
    var r := Run(v, p, c, fs);
    var p1 := Step(v, p, c, fs[0]);
    if p1.error.Some? {
      RunAfterFailure(v, p1, c, fs[1..]);
      assert FirstFields(fs, 0) == {};
      RunAbsent(v, p, Keep(c, {}), fs);
      assert Run(v, p, Keep(c, FirstFields(fs, 0)), fs) == r.(error := None);
    } else {
      var rest := fs[1..];
      DistinctTail(fs);
      RunFailurePrefix(v, p1, c, rest);
      var k :| 0 <= k < |rest| && ValueOf(c, rest[k]).Some?
        && Run(v, p1, Keep(c, FirstFields(rest, k)), rest) == r.(error := None);
      KeepShift(c, fs, k);
      RunReadsOnlyItsFields(v, p1, Keep(c, FirstFields(fs, k + 1)), Keep(c, FirstFields(rest, k)), rest);
      assert fs[0] in FirstFields(fs, k + 1) by { assert fs[..k + 1][0] == fs[0]; }
      assert Step(v, p, Keep(c, FirstFields(fs, k + 1)), fs[0]) == p1;
      assert rest[k] == fs[k + 1];
    }
  }

  /** Absent fields change nothing. */
  lemma {:induction false} RunAbsent(v: Validators, p: Progress, c: SetPackageIdentity, fs: seq<Field>)
    requires forall i :: 0 <= i < |fs| ==> ValueOf(c, fs[i]).None?
    ensures Run(v, p, c, fs) == p
    decreases |fs|
  {
    if |fs| > 0 {
      RunAbsent(v, p, c, fs[1..]);
    }
  }

  /** The value a field writes depends on the element only through its
      `Version` attribute. */
  lemma FieldValueReadsVersion(v: Validators, id1: Element, id2: Element, f: Field, given: string)
    requires Attribute(id1, Plain(VersionKey)) == Attribute(id2, Plain(VersionKey))
    ensures FieldValue(v, id1, f, given) == FieldValue(v, id2, f, given)
  {
  }

  /** The reference events depend on the element only through the
      attributes of the fields. */
  lemma {:induction false} EventsReadKeys(v: Validators, id1: Element, id2: Element, c: SetPackageIdentity, fs: seq<Field>)
    requires forall i :: 0 <= i < |fs| ==> Attribute(id1, Plain(Key(fs[i]))) == Attribute(id2, Plain(Key(fs[i])))
    requires Attribute(id1, Plain(VersionKey)) == Attribute(id2, Plain(VersionKey))
    ensures Events(v, id1, c, fs) == Events(v, id2, c, fs)
    decreases |fs|
  {
    if |fs| > 0 {
      if ValueOf(c, fs[0]).Some? {
        FieldValueReadsVersion(v, id1, id2, fs[0], ValueOf(c, fs[0]).value);
      }
      EventsReadKeys(v, id1, id2, c, fs[1..]);
    }
  }

  /** A step that leaves the command running succeeded. */
  lemma {:induction false} StepSucceeded(v: Validators, p: Progress, c: SetPackageIdentity, fs: seq<Field>)
    requires |fs| > 0 && Run(v, p, c, fs).error.None?
    ensures Step(v, p, c, fs[0]).error.None?
  {
    if Step(v, p, c, fs[0]).error.Some? {
      RunAfterFailure(v, Step(v, p, c, fs[0]), c, fs[1..]);
    }
  }

  lemma DistinctTail(fs: seq<Field>)
    requires |fs| > 0 && Distinct(fs)
    ensures Distinct(fs[1..])
    ensures forall i :: 0 <= i < |fs| - 1 ==> fs[1..][i] != fs[0]
  {
    forall i, j | 0 <= i < j < |fs| - 1 ensures fs[1..][i] != fs[1..][j] {
      assert fs[1..][i] == fs[i + 1] && fs[1..][j] == fs[j + 1];
    }
  }

  /** The run changes no attribute that no given field names, nor the
      element's name or children. */
  lemma {:induction false} RunKeepsOthers(v: Validators, p: Progress, c: SetPackageIdentity, fs: seq<Field>)
    ensures var r := Run(v, p, c, fs);
      (forall m :: (forall i :: 0 <= i < |fs| && ValueOf(c, fs[i]).Some? ==> m != Plain(Key(fs[i]))) ==>
         Attribute(r.identity, m) == Attribute(p.identity, m))
      && r.identity.name == p.identity.name && r.identity.children == p.identity.children
    decreases |fs|
  {
    if |fs| > 0 {
      var p1 := Step(v, p, c, fs[0]);
      RunKeepsOthers(v, p1, c, fs[1..]);
      forall m | (forall i :: 0 <= i < |fs| && ValueOf(c, fs[i]).Some? ==> m != Plain(Key(fs[i])))
        ensures Attribute(Run(v, p, c, fs).identity, m) == Attribute(p.identity, m)
      {
        forall i | 0 <= i < |fs| - 1 && ValueOf(c, fs[1..][i]).Some? ensures m != Plain(Key(fs[1..][i])) {
          assert fs[1..][i] == fs[i + 1];
        }
      }
    }
  }

  /** A command that succeeds writes each given field: the value as given,
      or the resolved version for `Version`. */
  lemma {:induction false} RunWritesFields(v: Validators, p: Progress, c: SetPackageIdentity, fs: seq<Field>)
    requires Distinct(fs) && p.error.None? && Run(v, p, c, fs).error.None?
    ensures forall i :: 0 <= i < |fs| && ValueOf(c, fs[i]).Some? ==>
      FieldValue(v, p.identity, fs[i], ValueOf(c, fs[i]).value).Success?
      && Attribute(Run(v, p, c, fs).identity, Plain(Key(fs[i])))
         == Some(FieldValue(v, p.identity, fs[i], ValueOf(c, fs[i]).value).value)
    decreases |fs|
  {
    if |fs| > 0 {
      var p1 := Step(v, p, c, fs[0]);
      var rest := fs[1..];
      var r := Run(v, p, c, fs);
      StepSucceeded(v, p, c, fs);
      DistinctTail(fs);
      RunWritesFields(v, p1, c, rest);
      RunKeepsOthers(v, p1, c, rest);
      forall i | 0 <= i < |fs| && ValueOf(c, fs[i]).Some?
        ensures FieldValue(v, p.identity, fs[i], ValueOf(c, fs[i]).value).Success?
        ensures Attribute(r.identity, Plain(Key(fs[i]))) == Some(FieldValue(v, p.identity, fs[i], ValueOf(c, fs[i]).value).value)
      {
        if i == 0 {
          forall j | 0 <= j < |rest| && ValueOf(c, rest[j]).Some? ensures Plain(Key(fs[0])) != Plain(Key(rest[j])) {
            KeysDistinct(fs[0], rest[j]);
          }
        } else {
          assert fs[i] == rest[i - 1];
          if fs[i] == VersionField {
            KeysDistinct(fs[0], VersionField);
            FieldValueReadsVersion(v, p1.identity, p.identity, fs[i], ValueOf(c, fs[i]).value);
          }
        }
      }
    }
  }

  /** A command that succeeds raises the events each given field raises
      on its own, in order. */
  lemma {:induction false} RunRaisesEvents(v: Validators, p: Progress, c: SetPackageIdentity, fs: seq<Field>)
    requires Distinct(fs) && p.error.None? && Run(v, p, c, fs).error.None?
    ensures Run(v, p, c, fs).events == p.events + Events(v, p.identity, c, fs)
    decreases |fs|
  {
    if |fs| > 0 {
      var p1 := Step(v, p, c, fs[0]);
      var rest := fs[1..];
      StepSucceeded(v, p, c, fs);
      DistinctTail(fs);
      RunRaisesEvents(v, p1, c, rest);
      forall i | 0 <= i < |rest|
        ensures Attribute(p1.identity, Plain(Key(rest[i]))) == Attribute(p.identity, Plain(Key(rest[i])))
      {
        if ValueOf(c, fs[0]).Some? {
          KeysDistinct(fs[0], rest[i]);
        }
      }
      if ValueOf(c, fs[0]).Some? && fs[0] == VersionField {
        EventsWithoutVersion(v, p1.identity, p.identity, c, rest);
      } else {
        if ValueOf(c, fs[0]).Some? {
          KeysDistinct(fs[0], VersionField);
        }
        EventsReadKeys(v, p1.identity, p.identity, c, rest);
      }
      var here := p1.events[|p.events|..];
      assert p1.events == p.events + here;
      var later := Events(v, p.identity, c, rest);
      assert Events(v, p.identity, c, fs) == here + later;
      assert Run(v, p, c, fs) == Run(v, p1, c, rest);
      assert Run(v, p1, c, rest).events == (p.events + here) + later;
      AppendAssociates(p.events, here, later);
    }
  }

  lemma AppendAssociates(a: seq<ValueChange>, b: seq<ValueChange>, c: seq<ValueChange>)
    ensures (a + b) + c == a + (b + c)
  {
  }

  /** Without the `Version` field, the reference events do not depend on
      the `Version` attribute. */
  lemma {:induction false} EventsWithoutVersion(v: Validators, id1: Element, id2: Element, c: SetPackageIdentity, fs: seq<Field>)
    requires forall i :: 0 <= i < |fs| ==> fs[i] != VersionField
    requires forall i :: 0 <= i < |fs| ==> Attribute(id1, Plain(Key(fs[i]))) == Attribute(id2, Plain(Key(fs[i])))
    ensures Events(v, id1, c, fs) == Events(v, id2, c, fs)
    decreases |fs|
  {
    if |fs| > 0 {
      EventsWithoutVersion(v, id1, id2, c, fs[1..]);
    }
  }

  // ---------------------------------------------------------------------
  // The command

  const IdentityLocal: string := "Identity"

  /** `SetPackageIdentityExecutor.Execute`: the first direct child
      `Identity` of the root, in the root's default namespace, gets the
      command's fields in order. */
  function SetIdentity(v: Validators, d: Document, c: SetPackageIdentity): (r: Outcome<ValueChange>)
    ensures d.root.None? ==> r == Outcome(d, [], Some(InvalidOperation(RootMissing)))
    ensures d.root.Some? ==> r.doc.root.Some?
  {
    match EnsureFamily(d, Root, 0)
    case Failure(e) => Outcome(d, [], Some(e))
    case Success(ns) =>
      var located := EnsureChild(d.root.value, QName(ns.uri, IdentityLocal));
      var p := Run(v, Progress(located.0.children[located.1], [], None), c, FieldOrder);
      Outcome(Document(Some(located.0.(children := located.0.children[located.1 := p.identity]))), p.events, p.error)
  }

  /** Where a field stands in the order. */
  function Position(f: Field): (i: nat)
    ensures i < |FieldOrder| && FieldOrder[i] == f
  {
    match f
    case PublisherField => 0
    case NameField => 1
    case VersionField => 2
    case ArchitectureField => 3
    case ResourceIdField => 4
  }

  lemma FieldOrderDistinct()
    ensures Distinct(FieldOrder)
  {
  }

  /** The `Identity` element a command on a document with a root works on:
      the existing one, or a new empty one. */
  function IdentityBefore(root: Element): Element {
    var located := EnsureChild(root, QName(DefaultNamespace(root), IdentityLocal));
    located.0.children[located.1]
  }

  /** A successful command leaves one `Identity` element in the same
      place (appended when there was none) and nothing else in the
      document changed; the element carries every given field (the
      resolved version for `Version`) and its other attributes as before,
      and the events are those each field raises on its own. */
  lemma SetIdentitySuccess(v: Validators, d: Document, c: SetPackageIdentity)
    requires d.root.Some? && SetIdentity(v, d, c).error.None?
    ensures var root := d.root.value;
      var qn := QName(DefaultNamespace(root), IdentityLocal);
      var located := EnsureChild(root, qn);
      var before := IdentityBefore(root);
      var root' := SetIdentity(v, d, c).doc.root.value;
      root'.name == root.name && root'.attrs == root.attrs
      && |root'.children| == |located.0.children|
      && (forall j :: 0 <= j < |root'.children| && j != located.1 ==> root'.children[j] == located.0.children[j])
      && ChildIndex(root'.children, qn) == Some(located.1)
      && (forall f :: ValueOf(c, f).Some? ==>
            FieldValue(v, before, f, ValueOf(c, f).value).Success?
            && Attribute(root'.children[located.1], Plain(Key(f))) == Some(FieldValue(v, before, f, ValueOf(c, f).value).value))
      && (forall m :: (forall f :: ValueOf(c, f).Some? ==> m != Plain(Key(f))) ==>
            Attribute(root'.children[located.1], m) == Attribute(before, m))
      && SetIdentity(v, d, c).events == Events(v, before, c, FieldOrder)
  {
    var root := d.root.value;
    var qn := QName(DefaultNamespace(root), IdentityLocal);
    var located := EnsureChild(root, qn);
    var p := Run(v, Progress(IdentityBefore(root), [], None), c, FieldOrder);
    assert SetIdentity(v, d, c).doc.root.value == located.0.(children := located.0.children[located.1 := p.identity]);
    RunAllFields(v, IdentityBefore(root), c);
    ChildIndexUpdate(located.0.children, located.1, p.identity, qn);
  }

  /** A run over every field that does not fail writes each given field,
      keeps the other attributes and raises the fields' events in order. */
  lemma RunAllFields(v: Validators, before: Element, c: SetPackageIdentity)
    requires Run(v, Progress(before, [], None), c, FieldOrder).error.None?
    ensures var p := Run(v, Progress(before, [], None), c, FieldOrder);
      && p.identity.name == before.name
      && (forall f :: ValueOf(c, f).Some? ==>
            FieldValue(v, before, f, ValueOf(c, f).value).Success?
            && Attribute(p.identity, Plain(Key(f))) == Some(FieldValue(v, before, f, ValueOf(c, f).value).value))
      && (forall m :: (forall f :: ValueOf(c, f).Some? ==> m != Plain(Key(f))) ==>
            Attribute(p.identity, m) == Attribute(before, m))
      && p.events == Events(v, before, c, FieldOrder)
  {
    var p0 := Progress(before, [], None);
    var p := Run(v, p0, c, FieldOrder);
    FieldOrderDistinct();
    RunWritesFields(v, p0, c, FieldOrder);
    RunKeepsOthers(v, p0, c, FieldOrder);
    RunRaisesEvents(v, p0, c, FieldOrder);
    forall f | ValueOf(c, f).Some?
      ensures FieldValue(v, before, f, ValueOf(c, f).value).Success?
      ensures Attribute(p.identity, Plain(Key(f))) == Some(FieldValue(v, before, f, ValueOf(c, f).value).value)
    {
      assert FieldOrder[Position(f)] == f;
    }
    forall m | (forall f :: ValueOf(c, f).Some? ==> m != Plain(Key(f)))
      ensures Attribute(p.identity, m) == Attribute(before, m)
    {
      forall i | 0 <= i < |FieldOrder| && ValueOf(c, FieldOrder[i]).Some? ensures m != Plain(Key(FieldOrder[i])) {
      }
    }
  }

  /** A command that fails part-way leaves the fields before the failing
      one applied: the document and events are those of the same command
      cut down to those fields, which succeeds. */
  lemma SetIdentityFailureKeepsEarlier(v: Validators, d: Document, c: SetPackageIdentity)
    requires d.root.Some? && SetIdentity(v, d, c).error.Some?
    ensures exists k :: (0 <= k < |FieldOrder| && ValueOf(c, FieldOrder[k]).Some?
      && SetIdentity(v, d, Keep(c, FirstFields(FieldOrder, k)))
         == SetIdentity(v, d, c).(error := None))
  {
    var p0 := Progress(IdentityBefore(d.root.value), [], None);
    FieldOrderDistinct();
    RunFailurePrefix(v, p0, c, FieldOrder);
  }

  /** The processor architecture is never validated: setting only it
      always succeeds on a document with a root. */
  lemma ArchitectureNeverRejected(v: Validators, d: Document, architecture: string)
    requires d.root.Some?
    ensures var r := SetIdentity(v, d, SetPackageIdentity(None, None, None, Some(architecture), None));
      r.error.None? && r.events == WriteEvents(IdentityBefore(d.root.value), ArchitectureKey, architecture)
  {
    var root := d.root.value;
    var located := EnsureChild(root, QName(DefaultNamespace(root), IdentityLocal));
    var c := SetPackageIdentity(None, None, None, Some(architecture), None);
    ArchitectureOnlyRun(v, IdentityBefore(root), architecture);
    var p := Run(v, Progress(IdentityBefore(root), [], None), c, FieldOrder);
    assert SetIdentity(v, d, c) ==
      Outcome(Document(Some(located.0.(children := located.0.children[located.1 := p.identity]))), p.events, p.error);
  }

  /** The run of a command that only sets the architecture writes it
      unchecked. */
  lemma ArchitectureOnlyRun(v: Validators, before: Element, architecture: string)
    ensures var p := Run(v, Progress(before, [], None), SetPackageIdentity(None, None, None, Some(architecture), None), FieldOrder);
      p.error.None? && p.events == WriteEvents(before, ArchitectureKey, architecture)
  {
    var c := SetPackageIdentity(None, None, None, Some(architecture), None);
    var p0 := Progress(before, [], None);
    var p3 := Step(v, p0, c, ArchitectureField);
    assert FieldOrder[3..] == [ArchitectureField, ResourceIdField];
    assert Run(v, p0, c, FieldOrder) == Run(v, p0, c, FieldOrder[3..]);
    assert Run(v, p0, c, FieldOrder[3..]) == Run(v, p3, c, [ResourceIdField]);
    assert Run(v, p3, c, [ResourceIdField]) == p3;
    assert FieldValue(v, p0.identity, ArchitectureField, architecture) == Success(architecture);
  }
}

=== FILE: summary_reader.dfy ===
/** `AppxManifestSummaryReader`: the identity, display properties, accent
    colour and package type of a package manifest. */
module SummaryReader {
  import opened Wrappers
  import opened Text
  import opened Xml
  import opened IdentityReader
  import opened PackageType

  const UapNs: string := "http://schemas.microsoft.com/appx/manifest/uap/windows10"
  const Uap3Ns: string := "http://schemas.microsoft.com/appx/manifest/uap/windows10/3"

  /** The `ReadMode` flags. */
  type ReadMode = bv32
  const ApplicationsMode: ReadMode := 2
  const PropertiesMode: ReadMode := 4
  const MinimalMode: ReadMode := 6

  predicate HasMode(mode: ReadMode, flag: ReadMode) { mode & flag == flag }

  const DefaultAccent: string := "Transparent"
  const NoRoot: string := "The manifest file does not contain a valid root element (<Package />)."

  /** `AppxManifestSummary`; unset properties are `None`. */
  datatype Summary<A> = Summary(
    name: Option<string>, version: Option<string>, publisher: Option<string>, architectures: Option<set<A>>,
    displayName: Option<string>, displayPublisher: Option<string>, description: Option<string>,
    logo: Option<string>, isFramework: bool, accentColor: Option<string>, packageType: PackageTypes)

  // ---------------------------------------------------------------------
  // Properties

  /** Characters `bool.TryParse` ignores around the text. */
  predicate IsBoolPadding(c: char) { IsWhiteSpace(c) || c == '\0' }

  function TrimBoolPadding(s: string): (r: string)
    ensures |r| <= |s|
    ensures |r| > 0 ==> !IsBoolPadding(r[0]) && !IsBoolPadding(r[|r| - 1])
    decreases |s|
  {
    if |s| > 0 && IsBoolPadding(s[0]) then TrimBoolPadding(s[1..])
    else if |s| > 0 && IsBoolPadding(s[|s| - 1]) then TrimBoolPadding(s[..|s| - 1])
    else s
  }

  /** `bool.TryParse(v, out parsed) && parsed`. */
  predicate ParsesTrue(v: string) { EqualsIgnoreCase(TrimBoolPadding(v), "true") }

  /** One step of the loop over the `Properties` children: a recognised
      local name, in any namespace, sets its property. */
  function ReadProperty<A>(r: Summary<A>, c: Element): Summary<A> {
    match c.name.local
    case "DisplayName" => r.(displayName := Some(c.text))
    case "PublisherDisplayName" => r.(displayPublisher := Some(c.text))
    case "Description" => r.(description := Some(c.text))
    case "Logo" => r.(logo := Some(c.text))
    case "Framework" => r.(isFramework := ParsesTrue(c.text))
    case _ => r
  }

  /** The loop over the `Properties` children, in document order. */
  function ReadProperties<A>(r: Summary<A>, cs: seq<Element>): Summary<A> {
    if cs == [] then r else ReadProperty(ReadProperties(r, cs[..|cs| - 1]), cs[|cs| - 1])
  }

  /** The text of the last child with the local name, if any. */
  function LastValue(cs: seq<Element>, local: string): (r: Option<string>)
    ensures r.Some? <==> exists i :: 0 <= i < |cs| && cs[i].name.local == local
    ensures r.Some? ==> exists i :: 0 <= i < |cs| && cs[i].name.local == local && r.value == cs[i].text
                          && forall j :: i < j < |cs| ==> cs[j].name.local != local
  {
    if cs == [] then None
    else if cs[|cs| - 1].name.local == local then Some(cs[|cs| - 1].text)
    else
      var r := LastValue(cs[..|cs| - 1], local);
      assert forall i :: 0 <= i < |cs| - 1 ==> cs[..|cs| - 1][i] == cs[i];
      r
  }

  /** One step of the loop sets the property the child names, and only
      that one. */
  lemma ReadPropertyStep<A>(r: Summary<A>, c: Element)
    ensures var p, l := ReadProperty(r, c), c.name.local;
      && p.displayName == (if l == "DisplayName" then Some(c.text) else r.displayName)
      && p.displayPublisher == (if l == "PublisherDisplayName" then Some(c.text) else r.displayPublisher)
      && p.description == (if l == "Description" then Some(c.text) else r.description)
      && p.logo == (if l == "Logo" then Some(c.text) else r.logo)
      && p.isFramework == (if l == "Framework" then ParsesTrue(c.text) else r.isFramework)
      && Unread(p) == Unread(r)
  {
    assert "DisplayName"[1] != "Description"[1];
  }

  /** What the `Properties` loop does not touch. */
  function Unread<A>(r: Summary<A>): Summary<A> {
    r.(displayName := None, displayPublisher := None, description := None, logo := None, isFramework := false)
  }

  /** Every property is the text of the last child carrying its name, and
      keeps its earlier value when there is none; the framework flag is
      whether that last text parses as `true`. Nothing else changes. */
  lemma {:induction false} PropertiesLastWins<A>(r: Summary<A>, cs: seq<Element>)
    ensures var p := ReadProperties(r, cs);
      && p.displayName == OrElse(LastValue(cs, "DisplayName"), r.displayName)
      && p.displayPublisher == OrElse(LastValue(cs, "PublisherDisplayName"), r.displayPublisher)
      && p.description == OrElse(LastValue(cs, "Description"), r.description)
      && p.logo == OrElse(LastValue(cs, "Logo"), r.logo)
      && p.isFramework == (if LastValue(cs, "Framework").Some? then ParsesTrue(LastValue(cs, "Framework").value)
                           else r.isFramework)
      && Unread(p) == Unread(r)
  {
    if cs != [] {
      PropertiesLastWins(r, cs[..|cs| - 1]);
      ReadPropertyStep(ReadProperties(r, cs[..|cs| - 1]), cs[|cs| - 1]);
    }
  }

  // ---------------------------------------------------------------------
  // Applications

  function OrElseOf(e: Element, a: QName, b: QName): Option<Element> {
    OrElse(Child(e, a), Child(e, b))
  }

  function PropertiesNode(pkg: Element): Option<Element> {
    OrElseOf(pkg, QName(Windows10Ns, "Properties"), QName(AppxNs, "Properties"))
  }

  function ApplicationsNode(pkg: Element): Option<Element> {
    OrElseOf(pkg, QName(Windows10Ns, "Applications"), QName(AppxNs, "Applications"))
  }

  /** The `Application` children, the windows10 ones first. */
  function Applications(apps: Element): seq<Element> {
    ChildrenNamed(apps.children, QName(Windows10Ns, "Application"))
      + ChildrenNamed(apps.children, QName(AppxNs, "Application"))
  }

  /** The `VisualElements` of an application, by namespace: windows10,
      2010, uap3, uap. */
  function VisualsOf(app: Element): seq<Element> {
    ChildrenNamed(app.children, QName(Windows10Ns, "VisualElements"))
      + ChildrenNamed(app.children, QName(AppxNs, "VisualElements"))
      + ChildrenNamed(app.children, QName(Uap3Ns, "VisualElements"))
      + ChildrenNamed(app.children, QName(UapNs, "VisualElements"))
  }

  /** The visual elements of the applications, application by
      application. */
  function Visuals(apps: seq<Element>): seq<Element> {
    if apps == [] then [] else VisualsOf(apps[0]) + Visuals(apps[1..])
  }

  /** The `BackgroundColor` attribute of an element. */
  function Background(v: Element): Option<string> {
    Attribute(v, Plain("BackgroundColor"))
  }

  /** `BackgroundColor` of the first element that has one. */
  function FirstBackground(vs: seq<Element>): (r: Option<string>)
    ensures r.None? <==> forall i :: 0 <= i < |vs| ==> Background(vs[i]).None?
    ensures r.Some? ==> exists i :: 0 <= i < |vs| && Background(vs[i]) == r
                          && forall j :: 0 <= j < i ==> Background(vs[j]).None?
  {
    if vs == [] then None
    else if Background(vs[0]).Some? then Background(vs[0])
    else
      assert forall i :: 1 <= i < |vs| ==> vs[1..][i - 1] == vs[i];
      FirstBackground(vs[1..])
  }

  /** The accent colour read in properties mode. */
  function AccentColor(pkg: Element): string {
    match ApplicationsNode(pkg)
    case None => DefaultAccent
    case Some(a) => FirstBackground(Visuals(Applications(a))).GetOr(DefaultAccent)
  }

  /** `v` is a `VisualElements` element, in one of the four namespaces, of
      a windows10 or 2010 `Application` of `apps`. */
  ghost predicate IsVisualElement(apps: Element, v: Element) {
    exists app :: app in apps.children && app.name in {QName(Windows10Ns, "Application"), QName(AppxNs, "Application")}
      && v in app.children
      && v.name in {QName(Windows10Ns, "VisualElements"), QName(AppxNs, "VisualElements"),
                    QName(Uap3Ns, "VisualElements"), QName(UapNs, "VisualElements")}
  }

  lemma {:induction false} VisualsMembers(apps: seq<Element>, v: Element)
    requires v in Visuals(apps)
    ensures exists app :: app in apps && v in VisualsOf(app)
  {
    if v !in VisualsOf(apps[0]) {
      VisualsMembers(apps[1..], v);
      var app :| app in apps[1..] && v in VisualsOf(app);
    }
  }

  lemma VisualOfApplication(a: Element, app: Element, v: Element)
    requires app in Applications(a) && v in VisualsOf(app)
    ensures IsVisualElement(a, v)
  {
    assert app in a.children;
    assert v in app.children;
  }

  /** The accent colour is the default when there is no `Applications`
      element or no visual element with a background; otherwise it is the
      `BackgroundColor` of a visual element of an application, the first
      one met application by application. */
  lemma AccentColorMeaning(pkg: Element)
    ensures ApplicationsNode(pkg).None? ==> AccentColor(pkg) == DefaultAccent
    ensures ApplicationsNode(pkg).Some? ==>
      var a := ApplicationsNode(pkg).value;
      var vs := Visuals(Applications(a));
      && ((forall i :: 0 <= i < |vs| ==> Background(vs[i]).None?) ==> AccentColor(pkg) == DefaultAccent)
      && ((exists i :: 0 <= i < |vs| && Background(vs[i]).Some?) ==>
            exists v :: IsVisualElement(a, v) && Background(v) == Some(AccentColor(pkg)))
  {
    if ApplicationsNode(pkg).Some? {
      var a := ApplicationsNode(pkg).value;
      var vs := Visuals(Applications(a));
      if exists i :: 0 <= i < |vs| && Background(vs[i]).Some? {
        var i :| 0 <= i < |vs| && Background(vs[i]) == Some(AccentColor(pkg));
        VisualsMembers(Applications(a), vs[i]);
        var app :| app in Applications(a) && vs[i] in VisualsOf(app);
        VisualOfApplication(a, app, vs[i]);
      }
    }
  }

  /** The package type of the applications: the union of each one's
      type. */
  function ApplicationTypes(apps: seq<Element>, isFramework: bool): (r: PackageTypes)
    ensures forall f :: f in r <==> exists i :: 0 <= i < |apps| && ApplicationFlag(apps[i], isFramework) == Some(f)
  {
    if apps == [] then {}
    else
      var rest := ApplicationTypes(apps[1..], isFramework);
      assert forall i :: 1 <= i < |apps| ==> apps[1..][i - 1] == apps[i];
      TypeOf(apps[0], isFramework) + rest
  }

  /** `GetPackageTypeFrom` for one `Application` element, no host. */
  function TypeOf(app: Element, isFramework: bool): PackageTypes {
    TypeFrom(Attribute(app, Plain("EntryPoint")), Attribute(app, Plain("Executable")),
             Attribute(app, Plain("StartPage")), isFramework, None)
  }

  function ApplicationFlag(app: Element, isFramework: bool): Option<Flag> {
    AppFlag(Attribute(app, Plain("EntryPoint")), Attribute(app, Plain("Executable")),
            Attribute(app, Plain("StartPage")), isFramework, None)
  }

  /** The package type read in applications mode. */
  function PackageTypeOf(pkg: Element, isFramework: bool): PackageTypes {
    var base := if isFramework then {Framework} else {};
    match ApplicationsNode(pkg)
    case None => base
    case Some(a) => base + ApplicationTypes(Applications(a), isFramework)
  }

  /** A framework package is a framework and nothing else. */
  lemma FrameworkPackageType(pkg: Element)
    ensures PackageTypeOf(pkg, true) == {Framework}
  {
    match ApplicationsNode(pkg)
    case None =>
    case Some(a) =>
      var apps := Applications(a);
      forall f | f in ApplicationTypes(apps, true) ensures f == Framework {
        var i :| 0 <= i < |apps| && ApplicationFlag(apps[i], true) == Some(f);
        AppFlagHosted(Attribute(apps[i], Plain("EntryPoint")), Attribute(apps[i], Plain("Executable")),
                      Attribute(apps[i], Plain("StartPage")), true, None);
      }
  }

  /** Any other package holds the flag of each of its applications, and
      nothing more. */
  lemma ApplicationPackageType(pkg: Element)
    ensures forall f :: f in PackageTypeOf(pkg, false) <==>
      ApplicationsNode(pkg).Some? &&
      exists app :: app in Applications(ApplicationsNode(pkg).value) && ApplicationFlag(app, false) == Some(f)
  {
    if ApplicationsNode(pkg).Some? {
      var apps := Applications(ApplicationsNode(pkg).value);
      forall f ensures f in ApplicationTypes(apps, false) <==> exists app :: app in apps && ApplicationFlag(app, false) == Some(f) {
        if exists app :: app in apps && ApplicationFlag(app, false) == Some(f) {
          var app :| app in apps && ApplicationFlag(app, false) == Some(f);
          var i :| 0 <= i < |apps| && apps[i] == app;
        }
      }
    }
  }

  // ---------------------------------------------------------------------
  // The reader

  function PropertyChildren(pkg: Element): seq<Element> {
    match PropertiesNode(pkg)
    case None => []
    case Some(p) => p.children
  }

  /** The summary before either part is read. */
  function Base<A>(id: Identity<A>): Summary<A> {
    Summary(id.name, id.version, id.publisher, id.architectures, None, None, None, None, false, None, {})
  }

  /** The summary of a package element, the identity already read. */
  function Summarise<A>(id: Identity<A>, pkg: Element, mode: ReadMode): Summary<A> {
    var withProperties :=
      if HasMode(mode, PropertiesMode) then
        ReadProperties(Base(id), PropertyChildren(pkg)).(accentColor := Some(AccentColor(pkg)))
      else Base(id);
    if HasMode(mode, ApplicationsMode) then
      withProperties.(packageType := PackageTypeOf(pkg, withProperties.isFramework))
    else withProperties
  }

  /** `FromManifest(Stream, ReadMode)` on a loaded document. */
  function Read<A(!new)>(d: Document, mode: ReadMode, parse: string -> Option<A>): Result<Summary<A>> {
    match FromPackageManifest(d, parse)
    case Failure(e) => Failure(e)
    case Success(id) =>
      match PackageRoot(d)
      case None => Failure(ArgumentError(NoRoot))
      case Some(pkg) => Success(Summarise(id, pkg, mode))
  }

  /** The summary is read exactly when the identity is, with the same
      failure otherwise (the reader's own missing-root failure is never
      reached); it is the summary of the root. */
  lemma ReadIdentity<A(!new)>(d: Document, mode: ReadMode, parse: string -> Option<A>)
    ensures var r, id := Read(d, mode, parse), FromPackageManifest(d, parse);
      && (r.Success? <==> id.Success?)
      && (r.Failure? ==> r.error == id.error && r.error != ArgumentError(NoRoot))
      && (r.Success? ==> PackageRoot(d).Some? && r.value == Summarise(id.value, PackageRoot(d).value, mode))
  {
    PackageManifestMeaning(d, parse);
  }

  /** The identity fields are copied whatever the mode. */
  lemma SummariseIdentity<A>(id: Identity<A>, pkg: Element, mode: ReadMode)
    ensures var s := Summarise(id, pkg, mode);
      s.name == id.name && s.version == id.version && s.publisher == id.publisher
      && s.architectures == id.architectures
  {
    if HasMode(mode, PropertiesMode) {
      PropertiesLastWins(Base(id), PropertyChildren(pkg));
    }
  }

  /** Without the properties flag no property, framework flag or accent is
      read; without the applications flag no package type. */
  lemma SummariseModes<A>(id: Identity<A>, pkg: Element, mode: ReadMode)
    ensures var s := Summarise(id, pkg, mode);
      && (!HasMode(mode, PropertiesMode) ==>
            s.displayName.None? && s.displayPublisher.None? && s.description.None? && s.logo.None?
            && !s.isFramework && s.accentColor.None?)
      && (HasMode(mode, PropertiesMode) <==> s.accentColor.Some?)
      && (!HasMode(mode, ApplicationsMode) ==> s.packageType == {})
  {
    if HasMode(mode, PropertiesMode) {
      PropertiesLastWins(Base(id), PropertyChildren(pkg));
    }
  }

  /** In properties mode each property is the text of the last child of
      the `Properties` element carrying its local name, the framework flag
      whether the last `Framework` text parses as `true`, and the accent
      the first background colour found. */
  lemma SummariseProperties<A>(id: Identity<A>, pkg: Element, mode: ReadMode)
    requires HasMode(mode, PropertiesMode)
    ensures var s, cs := Summarise(id, pkg, mode), PropertyChildren(pkg);
      && s.displayName == LastValue(cs, "DisplayName")
      && s.displayPublisher == LastValue(cs, "PublisherDisplayName")
      && s.description == LastValue(cs, "Description")
      && s.logo == LastValue(cs, "Logo")
      && s.isFramework == (LastValue(cs, "Framework").Some? && ParsesTrue(LastValue(cs, "Framework").value))
      && s.accentColor == Some(AccentColor(pkg))
  {
    PropertiesLastWins(Base(id), PropertyChildren(pkg));
  }

  /** In applications mode the package type is that of the applications,
      or the framework flag alone for a framework package. */
  lemma SummariseApplications<A>(id: Identity<A>, pkg: Element, mode: ReadMode)
    requires HasMode(mode, ApplicationsMode)
    ensures var s := Summarise(id, pkg, mode);
      && (s.isFramework ==> s.packageType == {Framework})
      && (!s.isFramework ==> forall f :: f in s.packageType <==>
            ApplicationsNode(pkg).Some? &&
            exists app :: app in Applications(ApplicationsNode(pkg).value) && ApplicationFlag(app, false) == Some(f))
  {
    FrameworkPackageType(pkg);
    ApplicationPackageType(pkg);
  }

  /** The default mode reads both parts. */
  lemma MinimalReadsAll()
    ensures HasMode(MinimalMode, PropertiesMode) && HasMode(MinimalMode, ApplicationsMode)
  {
  }
}

=== FILE: text.dfy ===
/** String primitives of the .NET base library that the modelled code relies
    on, written over `seq<char>`.  Ordinal-ignore-case comparison is modelled
    as an ASCII case fold. */
module Text {
  import opened Wrappers

  const Int32Min: int := -0x8000_0000
  const Int32Max: int := 0x7fff_ffff

  predicate IsInt32(x: int) { Int32Min <= x <= Int32Max }

  /** Two's-complement wrap-around of an unchecked 32-bit `int` operation. */
  function Wrap32(x: int): (r: int)
    ensures IsInt32(r)
    ensures (r - x) % 0x1_0000_0000 == 0
    ensures IsInt32(x) ==> r == x
  {
    var m := x % 0x1_0000_0000;
    if m > Int32Max then m - 0x1_0000_0000 else m
  }

  // ---------------------------------------------------------------------
  // Case folding

  function FoldChar(c: char): char {
    if 'A' <= c <= 'Z' then (c as int + 32) as char else c
  }

  /** `ToLowerInvariant`, restricted to ASCII letters. */
  function Fold(s: string): (r: string)
    ensures |r| == |s|
    ensures forall i :: 0 <= i < |s| ==> r[i] == FoldChar(s[i])
  {
    seq(|s|, i requires 0 <= i < |s| => FoldChar(s[i]))
  }

  lemma FoldAppend(a: string, b: string)
    ensures Fold(a + b) == Fold(a) + Fold(b)
  {
  }

  lemma FoldIdempotent(s: string)
    ensures Fold(Fold(s)) == Fold(s)
  {
  }

  /** `string.Equals(a, b, StringComparison.OrdinalIgnoreCase)`. */
  predicate EqualsIgnoreCase(a: string, b: string) {
    Fold(a) == Fold(b)
  }

  // ---------------------------------------------------------------------
  // Prefixes, suffixes, substrings

  predicate StartsWith(s: string, p: string) {
    |p| <= |s| && s[..|p|] == p
  }

  predicate StartsWithIgnoreCase(s: string, p: string) {
    |p| <= |s| && EqualsIgnoreCase(s[..|p|], p)
  }

  predicate EndsWithIgnoreCase(s: string, p: string) {
    |p| <= |s| && EqualsIgnoreCase(s[|s| - |p|..], p)
  }

  /** `s.Contains(sub)` with ordinal comparison. */
  predicate Contains(s: string, sub: string)
    decreases |s|
  {
    StartsWith(s, sub) || (|s| > 0 && Contains(s[1..], sub))
  }

  lemma ContainsAt(s: string, sub: string, i: nat)
    requires i + |sub| <= |s| && s[i..i + |sub|] == sub
    ensures Contains(s, sub)
    decreases i
  {
    if i > 0 {
      assert s[1..][i - 1..i - 1 + |sub|] == sub;
      ContainsAt(s[1..], sub, i - 1);
    }
  }

  lemma ContainsWitness(s: string, sub: string) returns (i: nat)
    requires Contains(s, sub)
    ensures i + |sub| <= |s| && s[i..i + |sub|] == sub
    decreases |s|
  {
    if StartsWith(s, sub) {
      i := 0;
    } else {
      var j := ContainsWitness(s[1..], sub);
      i := j + 1;
      assert s[i..i + |sub|] == s[1..][j..j + |sub|];
    }
  }

  /** `s.IndexOf(sub, StringComparison.OrdinalIgnoreCase) != -1`. */
  predicate ContainsIgnoreCase(s: string, sub: string) {
    Contains(Fold(s), Fold(sub))
  }

  /** First index at or after `from` holding `c` (`string.IndexOf(char, int)`). */
  function IndexOfChar(s: string, c: char, from: nat): (r: Option<nat>)
    ensures r.Some? ==> from <= r.value < |s| && s[r.value] == c
    ensures r.Some? ==> forall j :: from <= j < r.value ==> s[j] != c
    ensures r.None? ==> forall j :: from <= j < |s| ==> s[j] != c
    decreases |s| - from
  {
    if from >= |s| then None
    else if s[from] == c then Some(from)
    else IndexOfChar(s, c, from + 1)
  }

  /** First index at or after `from` holding one of `cs` (`IndexOfAny`). */
  function IndexOfAny(s: string, cs: set<char>, from: nat): (r: Option<nat>)
    ensures r.Some? ==> from <= r.value < |s| && s[r.value] in cs
    ensures r.Some? ==> forall j :: from <= j < r.value ==> s[j] !in cs
    ensures r.None? ==> forall j :: from <= j < |s| ==> s[j] !in cs
    decreases |s| - from
  {
    if from >= |s| then None
    else if s[from] in cs then Some(from)
    else IndexOfAny(s, cs, from + 1)
  }

  /** Last index holding `c` (`string.LastIndexOf(char)`). */
  function LastIndexOfChar(s: string, c: char): (r: Option<nat>)
    ensures r.Some? ==> r.value < |s| && s[r.value] == c
    ensures r.Some? ==> forall j :: r.value < j < |s| ==> s[j] != c
    ensures r.None? ==> forall j :: 0 <= j < |s| ==> s[j] != c
  {
    if |s| == 0 then None
    else if s[|s| - 1] == c then Some(|s| - 1)
    else LastIndexOfChar(s[..|s| - 1], c)
  }

  // ---------------------------------------------------------------------
  // Replacing, trimming, splitting, joining

  /** `s.Replace(a, b)` for single characters. */
  function ReplaceChar(s: string, a: char, b: char): (r: string)
    ensures |r| == |s|
    ensures forall i :: 0 <= i < |s| ==> r[i] == (if s[i] == a then b else s[i])
  {
    seq(|s|, i requires 0 <= i < |s| => if s[i] == a then b else s[i])
  }

  /** `s.Replace(pat, rep)`: every non-overlapping occurrence, left to right. */
  function ReplaceAll(s: string, pat: string, rep: string): string
    requires |pat| > 0
    decreases |s|
  {
    if |s| < |pat| then s
    else if s[..|pat|] == pat then rep + ReplaceAll(s[|pat|..], pat, rep)
    else [s[0]] + ReplaceAll(s[1..], pat, rep)
  }

  /** Replacing a pattern by itself changes nothing. */
  lemma {:induction false} ReplaceAllSelf(s: string, pat: string)
    requires |pat| > 0
    ensures ReplaceAll(s, pat, pat) == s
    decreases |s|
  {
    if |s| < |pat| {
    } else if s[..|pat|] == pat {
      ReplaceAllSelf(s[|pat|..], pat);
      assert pat + s[|pat|..] == s;
    } else {
      ReplaceAllSelf(s[1..], pat);
      assert [s[0]] + s[1..] == s;
    }
  }

  /** Without an occurrence of the pattern, nothing changes. */
  lemma {:induction false} ReplaceAllAbsent(s: string, pat: string, rep: string)
    requires |pat| > 0 && !Contains(s, pat)
    ensures ReplaceAll(s, pat, rep) == s
    decreases |s|
  {
    if |s| < |pat| {
    } else {
      assert !StartsWith(s, pat);
      ReplaceAllAbsent(s[1..], pat, rep);
      assert [s[0]] + s[1..] == s;
    }
  }

  /** With an occurrence and a different replacement, the text changes. */
  lemma {:induction false} ReplaceAllPresent(s: string, pat: string, rep: string)
    requires |pat| > 0 && Contains(s, pat) && rep != pat
    ensures ReplaceAll(s, pat, rep) != s
    decreases |s|
  {
    var r := ReplaceAll(s, pat, rep);
    var w := ContainsWitness(s, pat);
    if s[..|pat|] == pat {
      if |rep| != |pat| {
        ReplaceAllLength(s, pat, rep);
      } else {
        assert r[..|rep|] == rep;
      }
    } else {
      ReplaceAllPresent(s[1..], pat, rep);
      assert r == [s[0]] + ReplaceAll(s[1..], pat, rep);
    }
  }

  /** Replacement never shrinks when the replacement is not shorter, and the
      length is unchanged with no occurrences; a strict change in length
      follows when lengths differ and a match exists. */
  lemma {:induction false} ReplaceAllLength(s: string, pat: string, rep: string)
    requires |pat| > 0
    ensures |rep| >= |pat| ==> |ReplaceAll(s, pat, rep)| >= |s|
    ensures |rep| <= |pat| ==> |ReplaceAll(s, pat, rep)| <= |s|
    ensures |rep| != |pat| && |pat| <= |s| && s[..|pat|] == pat ==> |ReplaceAll(s, pat, rep)| != |s|
    decreases |s|
  {
    if |s| < |pat| {
    } else if s[..|pat|] == pat {
      ReplaceAllLength(s[|pat|..], pat, rep);
    } else {
      ReplaceAllLength(s[1..], pat, rep);
    }
  }

  /** `Regex.Replace(s, "[^...]+", "")` for a character class: the
      characters of `s` that `keep` accepts, in order. */
  function KeepChars(s: string, keep: char -> bool): (r: string)
    ensures |r| <= |s|
    ensures forall i :: 0 <= i < |r| ==> keep(r[i])
  {
    if |s| == 0 then ""
    else (if keep(s[0]) then [s[0]] else []) + KeepChars(s[1..], keep)
  }

  /** A character survives exactly when it occurs and is kept. */
  lemma {:induction false} KeepCharsMembers(s: string, keep: char -> bool)
    ensures forall c :: c in KeepChars(s, keep) <==> c in s && keep(c)
  {
    if |s| > 0 {
      KeepCharsMembers(s[1..], keep);
      assert s == [s[0]] + s[1..];
    }
  }

  lemma {:induction false} KeepCharsAppend(a: string, b: string, keep: char -> bool)
    ensures KeepChars(a + b, keep) == KeepChars(a, keep) + KeepChars(b, keep)
  {
    if |a| > 0 {
      assert (a + b)[1..] == a[1..] + b;
      KeepCharsAppend(a[1..], b, keep);
    } else {
      assert a + b == b;
    }
  }

  /** Removal changes nothing exactly when every character is kept. */
  lemma {:induction false} KeepCharsFixed(s: string, keep: char -> bool)
    ensures KeepChars(s, keep) == s <==> forall i :: 0 <= i < |s| ==> keep(s[i])
  {
    if |s| > 0 {
      KeepCharsFixed(s[1..], keep);
      if !keep(s[0]) {
        assert |KeepChars(s, keep)| < |s|;
      } else if forall i :: 0 <= i < |s| ==> keep(s[i]) {
        assert forall i :: 0 <= i < |s[1..]| ==> keep(s[1..][i]) by {
          forall i | 0 <= i < |s[1..]| ensures keep(s[1..][i]) { assert s[1..][i] == s[i + 1]; }
        }
        assert s == [s[0]] + s[1..];
      } else {
        var j :| 0 <= j < |s| && !keep(s[j]);
        assert j > 0 && s[1..][j - 1] == s[j];
      }
    }
  }

  /** `s.TrimEnd(c)`: removes every trailing `c`. */
  function TrimEndChar(s: string, c: char): (r: string)
    ensures |r| <= |s| && r == s[..|r|]
    ensures |r| == 0 || r[|r| - 1] != c
    ensures forall i :: |r| <= i < |s| ==> s[i] == c
  {
    if |s| > 0 && s[|s| - 1] == c then TrimEndChar(s[..|s| - 1], c) else s
  }

  /** `s.TrimStart(c)`: removes every leading `c`. */
  function TrimStartChar(s: string, c: char): (r: string)
    ensures |r| <= |s| && r == s[|s| - |r|..]
    ensures |r| == 0 || r[0] != c
    ensures forall i :: 0 <= i < |s| - |r| ==> s[i] == c
  {
    if |s| > 0 && s[0] == c then TrimStartChar(s[1..], c) else s
  }

  /** `char.IsWhiteSpace`. */
  predicate IsWhiteSpace(c: char) {
    ('\t' <= c <= '\r') || c == ' ' || c == '\U{0085}' || c == '\U{00A0}' || c == '\U{1680}'
    || ('\U{2000}' <= c <= '\U{200A}') || c == '\U{2028}' || c == '\U{2029}' || c == '\U{202F}'
    || c == '\U{205F}' || c == '\U{3000}'
  }

  /** `string.Trim()`. */
  function Trim(s: string): (r: string)
    ensures |r| <= |s|
    ensures |r| > 0 ==> !IsWhiteSpace(r[0]) && !IsWhiteSpace(r[|r| - 1])
    decreases |s|
  {
    if |s| > 0 && IsWhiteSpace(s[0]) then Trim(s[1..])
    else if |s| > 0 && IsWhiteSpace(s[|s| - 1]) then Trim(s[..|s| - 1])
    else s
  }

  /** `s.Split(c)`: the pieces between occurrences of `c`, empty ones kept. */
  function Split(s: string, c: char): (r: seq<string>)
    ensures |r| >= 1
    ensures forall i :: 0 <= i < |r| ==> c !in r[i]
    ensures Join(r, [c]) == s
    decreases |s|
  {
    match IndexOfChar(s, c, 0)
    case None => [s]
    case Some(k) =>
      var rest := Split(s[k + 1..], c);
      assert s == s[..k] + [c] + s[k + 1..];
      [s[..k]] + rest
  }

  /** `string.Join(sep, parts)`. */
  function Join(parts: seq<string>, sep: string): string
    decreases |parts|
  {
    if |parts| == 0 then ""
    else if |parts| == 1 then parts[0]
    else parts[0] + sep + Join(parts[1..], sep)
  }

  /** Each part preceded by the separator, concatenated. */
  function Spaced(parts: seq<string>, sep: string): string
    decreases |parts|
  {
    if |parts| == 0 then "" else sep + parts[0] + Spaced(parts[1..], sep)
  }

  /** A join is the first part followed by the others, each after a
      separator. */
  lemma {:induction false} JoinSpaced(parts: seq<string>, sep: string)
    requires |parts| >= 1
    ensures Join(parts, sep) == parts[0] + Spaced(parts[1..], sep)
    decreases |parts|
  {
    if |parts| > 1 {
      JoinSpaced(parts[1..], sep);
      assert parts[1..][1..] == parts[2..];
    }
  }

  lemma {:induction false} SpacedAppend(a: seq<string>, b: seq<string>, sep: string)
    ensures Spaced(a + b, sep) == Spaced(a, sep) + Spaced(b, sep)
    decreases |a|
  {
    if |a| == 0 {
      assert a + b == b;
    } else {
      assert (a + b)[1..] == a[1..] + b;
      SpacedAppend(a[1..], b, sep);
    }
  }

  /** Appending one more part adds the separator and the part at the end. */
  lemma {:induction false} JoinSnoc(parts: seq<string>, p: string, sep: string)
    requires |parts| >= 1
    ensures Join(parts + [p], sep) == Join(parts, sep) + sep + p
    decreases |parts|
  {
    if |parts| > 1 {
      assert (parts + [p])[1..] == parts[1..] + [p];
      JoinSnoc(parts[1..], p, sep);
    }
  }

  /** Splitting a joined sequence of separator-free pieces gives them back. */
  lemma {:induction false} SplitJoin(parts: seq<string>, c: char)
    requires |parts| >= 1
    requires forall i :: 0 <= i < |parts| ==> c !in parts[i]
    ensures Split(Join(parts, [c]), c) == parts
    decreases |parts|
  {
    var s := Join(parts, [c]);
    if |parts| == 1 {
      assert IndexOfChar(s, c, 0).None?;
    } else {
      var rest := Join(parts[1..], [c]);
      assert s == parts[0] + [c] + rest;
      SplitAtFirst(parts[0], c, rest);
      SplitJoin(parts[1..], c);
    }
  }

  /** Text whose first separator follows a separator-free piece splits
      there. */
  lemma SplitAtFirst(p: string, c: char, rest: string)
    requires c !in p
    ensures Split(p + [c] + rest, c) == [p] + Split(rest, c)
  {
    var s := p + [c] + rest;
    var k := |p|;
    assert s[k] == c;
    assert forall j :: 0 <= j < k ==> s[j] == p[j];
    assert IndexOfChar(s, c, 0) == Some(k);
    assert s[..k] == p;
    assert s[k + 1..] == rest;
  }

  /** Appending a separator and a separator-free piece adds that piece as
      the last one. */
  lemma {:induction false} SplitAppendPiece(s: string, c: char, t: string)
    requires c !in t
    ensures Split(s + [c] + t, c) == Split(s, c) + [t]
    decreases |s|
  {
    match IndexOfChar(s, c, 0)
    case None =>
      assert c !in s by { assert forall j :: 0 <= j < |s| ==> s[j] != c; }
      SplitAtFirst(s, c, t);
    case Some(k) =>
      var head, tail := s[..k], s[k + 1..];
      assert c !in head by { assert forall j :: 0 <= j < k ==> head[j] == s[j]; }
      assert s == head + [c] + tail;
      assert s + [c] + t == head + [c] + (tail + [c] + t);
      SplitAtFirst(head, c, tail + [c] + t);
      SplitAtFirst(head, c, tail);
      SplitAppendPiece(tail, c, t);
  }

  // ---------------------------------------------------------------------
  // Integers and their decimal text

  predicate IsDigit(c: char) { '0' <= c <= '9' }

  predicate AllDigits(s: string) {
    forall i :: 0 <= i < |s| ==> IsDigit(s[i])
  }

  function DigitsValue(s: string): nat
    requires AllDigits(s)
  {
    if |s| == 0 then 0
    else 10 * DigitsValue(s[..|s| - 1]) + (s[|s| - 1] as int - '0' as int)
  }

  function NatToString(n: nat): (r: string)
    ensures |r| >= 1 && AllDigits(r)
    ensures DigitsValue(r) == n
  {
    var d := [(n % 10 + '0' as int) as char];
    if n < 10 then d
    else
      var p := NatToString(n / 10);
      assert (p + d)[..|p + d| - 1] == p;
      p + d
  }

  /** The decimal text of an `int` (`int.ToString()` in the invariant culture). */
  function IntToString(n: int): (r: string)
    ensures |r| >= 1
    ensures n >= 0 ==> r == NatToString(n)
    ensures n < 0 ==> r == "-" + NatToString(-n)
  {
    if n >= 0 then NatToString(n) else "-" + NatToString(-n)
  }

  /** White space `NumberStyles.Integer` tolerates around a number. */
  predicate IsNumberWhite(c: char) { ('\t' <= c <= '\r') || c == ' ' }

  function TrimNumberWhite(s: string): (r: string)
    ensures |r| <= |s|
    ensures |r| > 0 ==> !IsNumberWhite(r[0]) && !IsNumberWhite(r[|r| - 1])
    ensures (|s| == 0 || (!IsNumberWhite(s[0]) && !IsNumberWhite(s[|s| - 1]))) ==> r == s
    decreases |s|
  {
    if |s| > 0 && IsNumberWhite(s[0]) then TrimNumberWhite(s[1..])
    else if |s| > 0 && IsNumberWhite(s[|s| - 1]) then TrimNumberWhite(s[..|s| - 1])
    else s
  }

  /** `int.TryParse(s, out v)`: surrounding white space and one leading sign
      are allowed, at least one ASCII digit is required, and the value must
      fit in 32 bits. */
  function TryParseInt32(s: string): (r: Option<int>)
    ensures r.Some? ==> IsInt32(r.value)
  {
    var t := TrimNumberWhite(s);
    var negative := |t| > 0 && t[0] == '-';
    var body := if |t| > 0 && (t[0] == '-' || t[0] == '+') then t[1..] else t;
    if |body| == 0 || !AllDigits(body) then None
    else
      var v: int := if negative then -(DigitsValue(body) as int) else DigitsValue(body);
      if IsInt32(v) then Some(v) else None
  }

  /** A non-negative 32-bit value's decimal text parses back to it. */
  lemma NatToStringParses(n: nat)
    requires n <= Int32Max
    ensures TryParseInt32(NatToString(n)) == Some(n)
  {
    var s := NatToString(n);
    assert !IsNumberWhite(s[0]) && !IsNumberWhite(s[|s| - 1]);
    assert TrimNumberWhite(s) == s;
  }

  /** Any 32-bit value's decimal text parses back to it. */
  lemma IntToStringParses(n: int)
    requires IsInt32(n)
    ensures TryParseInt32(IntToString(n)) == Some(n)
  {
    if n >= 0 {
      NatToStringParses(n);
    } else {
      var s := IntToString(n);
      var body := NatToString(-n);
      assert s[1..] == body;
      assert !IsNumberWhite(s[|s| - 1]) by { assert s[|s| - 1] == body[|body| - 1]; }
      assert TrimNumberWhite(s) == s;
    }
  }

  /** Decimal digit text carries neither a sign nor surrounding white space. */
  lemma DigitsHaveNoSign(s: string)
    requires |s| >= 1 && AllDigits(s)
    ensures s[0] != '-' && s[0] != '+' && !IsNumberWhite(s[0]) && !IsNumberWhite(s[|s| - 1])
  {
  }

  // ---------------------------------------------------------------------
  // Hexadecimal text (`Convert.ToInt32(s, 16)`)

  predicate IsHexDigit(c: char) {
    IsDigit(c) || ('a' <= c <= 'f') || ('A' <= c <= 'F')
  }

  function HexDigitValue(c: char): (r: nat)
    requires IsHexDigit(c)
    ensures r < 16
  {
    if IsDigit(c) then c as int - '0' as int
    else if 'a' <= c <= 'f' then c as int - 'a' as int + 10
    else c as int - 'A' as int + 10
  }

  function HexValue(s: string): nat
    requires forall i :: 0 <= i < |s| ==> IsHexDigit(s[i])
  {
    if |s| == 0 then 0 else 16 * HexValue(s[..|s| - 1]) + HexDigitValue(s[|s| - 1])
  }

  /** `Convert.ToInt32(s, 16)`: an optional `0x`/`0X` prefix, then at least one
      hex digit; a value above 32 bits overflows and the 32-bit pattern is
      read as two's complement. */
  function ParseHexInt32(s: string): (r: Result<int>)
    ensures r.Success? ==> IsInt32(r.value)
    ensures r.Failure? ==> r.error == FormatError || r.error == OverflowError
  {
    var body := if |s| >= 2 && s[0] == '0' && (s[1] == 'x' || s[1] == 'X') then s[2..] else s;
    if |body| == 0 || !(forall i :: 0 <= i < |body| ==> IsHexDigit(body[i])) then Failure(FormatError)
    else
      var v := HexValue(body);
      if v >= 0x1_0000_0000 then Failure(OverflowError)
      else Success(if v > Int32Max then v - 0x1_0000_0000 else v)
  }

  // ---------------------------------------------------------------------
  // Composite formatting (`string.Format`)

  /** Length of the run of ASCII digits at the start of `s`. */
  function DigitRun(s: string): (n: nat)
    ensures n <= |s| && AllDigits(s[..n])
    ensures n < |s| ==> !IsDigit(s[n])
  {
    if |s| == 0 || !IsDigit(s[0]) then 0
    else
      var k := DigitRun(s[1..]);
      assert s[..k + 1] == [s[0]] + s[1..][..k];
      k + 1
  }

  function Prepend(p: string, r: Result<string>): (q: Result<string>)
    ensures r.Success? ==> q == Success(p + r.value)
    ensures r.Failure? ==> q == r
  {
    match r
    case Success(x) => Success(p + x)
    case Failure(e) => Failure(e)
  }

  predicate NoBraces(s: string) {
    forall i :: 0 <= i < |s| ==> s[i] != '{' && s[i] != '}'
  }

  /** `string.Format(template, args)` for templates whose items are plain
      `{n}`: `{{` and `}}` stand for single braces, and a malformed item or an
      index past the last argument is a `FormatException`. */
  function Format(t: string, args: seq<string>): (r: Result<string>)
    ensures r.Failure? ==> r.error == FormatError
    decreases |t|
  {
    if |t| == 0 then Success("")
    else if t[0] == '{' && |t| >= 2 && t[1] == '{' then Prepend("{", Format(t[2..], args))
    else if t[0] == '}' && |t| >= 2 && t[1] == '}' then Prepend("}", Format(t[2..], args))
    else if t[0] == '}' then Failure(FormatError)
    else if t[0] == '{' then
      match ItemAt(t, |args|)
      case None => Failure(FormatError)
      case Some((idx, end)) => Prepend(args[idx], Format(t[end..], args))
    else Prepend([t[0]], Format(t[1..], args))
  }

  /** The format item `{n}` at the start of `t`: the argument index and the
      position after the closing brace, when `n` is below `count`. */
  function ItemAt(t: string, count: nat): (r: Option<(nat, nat)>)
    requires |t| >= 1 && t[0] == '{'
    ensures r.Some? ==> r.value.0 < count && 2 <= r.value.1 <= |t|
  {
    var n := DigitRun(t[1..]);
    if n == 0 || 1 + n >= |t| || t[1 + n] != '}' then None
    else
      assert t[1..][..n] == t[1..1 + n];
      var idx := DigitsValue(t[1..1 + n]);
      if idx >= count then None else Some((idx, 2 + n))
  }

  /** Text without braces formats to itself. */
  lemma {:induction false} FormatPlain(t: string, args: seq<string>)
    requires NoBraces(t)
    ensures Format(t, args) == Success(t)
    decreases |t|
  {
    if |t| > 0 {
      FormatPlain(t[1..], args);
      assert [t[0]] + t[1..] == t;
    }
  }

  /** Brace-free text in front of a template is copied through unchanged. */
  lemma {:induction false} FormatPrefix(a: string, rest: string, args: seq<string>)
    requires NoBraces(a)
    ensures Format(a + rest, args) == Prepend(a, Format(rest, args))
    decreases |a|
  {
    if |a| > 0 {
      var t := a + rest;
      assert t[0] == a[0] && t[0] != '{' && t[0] != '}';
      assert t[1..] == a[1..] + rest;
      assert Format(t, args) == Prepend([a[0]], Format(t[1..], args));
      FormatPrefix(a[1..], rest, args);
      match Format(rest, args)
      case Success(x) =>
        assert [a[0]] + (a[1..] + x) == a + x;
      case Failure(_) =>
    } else {
      assert a + rest == rest;
      match Format(rest, args)
      case Success(x) =>
        assert a + x == x;
      case Failure(_) =>
    }
  }

  /** A leading item `{k}` is replaced by the k-th argument, or fails when
      there is no k-th argument. */
  lemma FormatLeadingItem(k: nat, b: string, args: seq<string>)
    ensures var r := Format("{" + NatToString(k) + "}" + b, args);
      if k < |args| then r == Prepend(args[k], Format(b, args))
      else r == Failure(FormatError)
  {
    var d := NatToString(k);
    var t := "{" + d + "}" + b;
    LeadingItemAt(k, b, |args|);
    assert t[0] == '{' && t[1] == d[0] && IsDigit(d[0]);
    if k < |args| {
      assert t[|d| + 2..] == b;
    }
  }

  lemma LeadingItemAt(k: nat, b: string, count: nat)
    ensures var t := "{" + NatToString(k) + "}" + b;
      ItemAt(t, count) == if k < count then Some((k, |NatToString(k)| + 2)) else None
  {
    var d := NatToString(k);
    var t := "{" + d + "}" + b;
    assert t[1..] == d + ("}" + b);
    DigitRunOf(d, "}" + b);
    assert t[1..1 + |d|] == d;
    assert t[1 + |d|] == '}';
  }

  /** An item `{k}` after brace-free text formats to that text, the k-th
      argument and the formatted rest, or fails when there is no k-th
      argument. */
  lemma FormatItem(a: string, k: nat, b: string, args: seq<string>)
    requires NoBraces(a)
    ensures var r := Format(a + ("{" + NatToString(k) + "}" + b), args);
      if k < |args| then r == Prepend(a + args[k], Format(b, args))
      else r == Failure(FormatError)
  {
    FormatPrefix(a, "{" + NatToString(k) + "}" + b, args);
    FormatLeadingItem(k, b, args);
    if k < |args| {
      PrependTwice(a, args[k], Format(b, args));
    }
  }

  lemma PrependTwice(a: string, x: string, r: Result<string>)
    ensures Prepend(a, Prepend(x, r)) == Prepend(a + x, r)
  {
    if r.Success? {
      assert a + (x + r.value) == a + x + r.value;
    }
  }

  lemma {:induction false} DigitRunOf(d: string, rest: string)
    requires AllDigits(d) && (|rest| == 0 || !IsDigit(rest[0]))
    ensures DigitRun(d + rest) == |d|
    decreases |d|
  {
    if |d| > 0 {
      assert (d + rest)[0] == d[0] && IsDigit(d[0]);
      assert (d + rest)[1..] == d[1..] + rest;
      DigitRunOf(d[1..], rest);
    }
  }
}

=== FILE: version_mask.dfy ===
/** `System.Version` text and the version masks of the manifest editor:
    a mask such as `1.2.*.+` is resolved against the current version, unit
    by unit. */
module VersionMask {
  import opened Wrappers
  import opened Text

  /** `System.Version`: build and revision are -1 when the text did not
      define them, and a revision is only defined together with a build. */
  datatype VersionFields = VersionFields(major: int, minor: int, build: int, revision: int)

  predicate ValidVersion(v: VersionFields) {
    0 <= v.major <= Int32Max && 0 <= v.minor <= Int32Max
    && -1 <= v.build <= Int32Max && -1 <= v.revision <= Int32Max
    && (v.build == -1 ==> v.revision == -1)
  }

  type Version = v: VersionFields | ValidVersion(v) witness VersionFields(0, 0, -1, -1)

  /** One dot-separated unit of `Version.TryParse`: an `int.TryParse` value
      that is not negative. */
  function ParseComponent(t: string): (r: Option<int>)
    ensures r.Some? ==> 0 <= r.value <= Int32Max
    ensures r.Some? <==> TryParseInt32(t).Some? && TryParseInt32(t).value >= 0
    ensures r.Some? ==> r == TryParseInt32(t)
  {
    match TryParseInt32(t)
    case Some(v) => if v >= 0 then Some(v) else None
    case None => None
  }

  /** `Version.TryParse(s, out v)`: two to four units. */
  function ParseVersion(s: string): Option<Version> {
    var parts := Split(s, '.');
    if |parts| < 2 || |parts| > 4 then None
    else if !(forall i :: 0 <= i < |parts| ==> ParseComponent(parts[i]).Some?) then None
    else Some(FromUnits(seq(|parts|, i requires 0 <= i < |parts| => ParseComponent(parts[i]).value)))
  }

  /** The version with the given defined units; the missing ones are -1. */
  function FromUnits(units: seq<int>): (v: Version)
    requires 2 <= |units| <= 4 && forall i :: 0 <= i < |units| ==> 0 <= units[i] <= Int32Max
  {
    VersionFields(units[0], units[1],
                  if |units| > 2 then units[2] else -1,
                  if |units| > 3 then units[3] else -1)
  }

  /** The units `Version.ToString()` prints: the defined ones. */
  function UnitTexts(v: Version): (r: seq<string>)
    ensures 2 <= |r| <= 4
    ensures forall i :: 0 <= i < |r| ==> '.' !in r[i]
  {
    [NatToString(v.major), NatToString(v.minor)]
    + (if v.build >= 0 then [NatToString(v.build)] else [])
    + (if v.revision >= 0 then [NatToString(v.revision)] else [])
  }

  /** `Version.ToString()`. */
  function VersionToString(v: Version): string {
    Join(UnitTexts(v), ".")
  }

  /** Decimal text never contains a dot. */
  lemma NatToStringNoDot(n: nat)
    ensures '.' !in NatToString(n)
    ensures forall i :: 0 <= i < |NatToString(n)| ==> NatToString(n)[i] != '.'
  {
    var s := NatToString(n);
    forall i | 0 <= i < |s| ensures s[i] != '.' {
      assert IsDigit(s[i]);
    }
  }

  lemma DigitTextComponent(n: nat)
    requires n <= Int32Max
    ensures ParseComponent(NatToString(n)) == Some(n)
  {
    NatToStringParses(n);
  }

  /** Two to four dot-free units that each parse make a version. */
  lemma ParseUnits(texts: seq<string>)
    requires 2 <= |texts| <= 4
    requires forall i :: 0 <= i < |texts| ==> '.' !in texts[i] && ParseComponent(texts[i]).Some?
    ensures ParseVersion(Join(texts, ".")) == Some(VersionFields(
      ParseComponent(texts[0]).value, ParseComponent(texts[1]).value,
      if |texts| > 2 then ParseComponent(texts[2]).value else -1,
      if |texts| > 3 then ParseComponent(texts[3]).value else -1))
  {
    SplitJoin(texts, '.');
  }

  /** Printing a version and parsing the text gives the version back. */
  lemma VersionRoundTrip(v: Version)
    ensures ParseVersion(VersionToString(v)) == Some(v)
  {
    var parts := UnitTexts(v);
    DigitTextComponent(v.major);
    DigitTextComponent(v.minor);
    if v.build < 0 {
      assert parts == [NatToString(v.major), NatToString(v.minor)];
    } else if v.revision < 0 {
      DigitTextComponent(v.build);
      assert parts == [NatToString(v.major), NatToString(v.minor), NatToString(v.build)];
    } else {
      DigitTextComponent(v.build);
      DigitTextComponent(v.revision);
      assert parts == [NatToString(v.major), NatToString(v.minor), NatToString(v.build), NatToString(v.revision)];
    }
    ParseUnits(parts);
  }

  /** Text made of four dot-free units parses exactly when every unit does,
      to the units' values. */
  lemma ParseFourUnits(texts: seq<string>)
    requires |texts| == 4
    requires forall i :: 0 <= i < 4 ==> '.' !in texts[i]
    ensures ParseVersion(Join(texts, ".")).Some?
      <==> forall i :: 0 <= i < 4 ==> ParseComponent(texts[i]).Some?
    ensures ParseVersion(Join(texts, ".")).Some? ==>
      ParseVersion(Join(texts, ".")).value == VersionFields(
        ParseComponent(texts[0]).value, ParseComponent(texts[1]).value,
        ParseComponent(texts[2]).value, ParseComponent(texts[3]).value)
  {
    SplitJoin(texts, '.');
  }

  // ---------------------------------------------------------------------
  // Masks

  /** `string.Format` template of the "not a valid version string" error. */
  const NotValidTemplate: string := "The value '" + "{0}" + NotValidTail

  const NotValidTail: string := "' is not a valid version string."

  /** Template the source formats, with a single argument, when the current
      version text does not parse or the mask has more than four units. */
  const ResourceIdTemplate: string := ResourceIdHead + "{0}" + ResourceIdTail

  const ResourceIdHead: string := "Changing attribute 'ResourceId' from '"

  const ResourceIdTail: string := "' to '" + "{1}" + "'\U{2026}"

  /** Throwing `new ArgumentException(string.Format(template, args))`: the
      formatting itself throws first when the template is malformed. */
  function FailWith(template: string, args: seq<string>): (r: Result<string>)
    ensures r.Failure?
    ensures Format(template, args).Success? <==> r.error.ArgumentError?
    ensures Format(template, args).Failure? ==> r.error == FormatError
  {
    match Format(template, args)
    case Success(msg) => Failure(ArgumentError(msg))
    case Failure(e) => Failure(e)
  }

  const AutoMask: string := "*.*.*.+"

  const DefaultText: string := "1.0.0.0"

  const DefaultVersion: Version := VersionFields(1, 0, 0, 0)

  predicate IsKeepToken(t: string) { t == "x" || t == "*" || t == "" }

  predicate IsIncrementToken(t: string) { t == "+" || t == "^" }

  /** A mask unit the resolver accepts: keep, increment or a 32-bit integer
      literal (copied verbatim). */
  predicate TokenAccepted(t: string) {
    IsKeepToken(t) || IsIncrementToken(t) || TryParseInt32(t).Some?
  }

  function Max0(x: int): nat { if x < 0 then 0 else x }

  /** Current units as the resolver reads them, undefined ones as 0. */
  function CurrentUnits(v: Version): (r: seq<int>)
    ensures |r| == 4 && forall i :: 0 <= i < 4 ==> 0 <= r[i] <= Int32Max
  {
    [Max0(v.major), Max0(v.minor), Max0(v.build), Max0(v.revision)]
  }

  /** The mask's units, with "0" for every unit past its end. */
  function PaddedTokens(tokens: seq<string>): (r: seq<string>)
    requires |tokens| <= 4
    ensures |r| == 4
    ensures forall i :: 0 <= i < 4 ==> r[i] == if i < |tokens| then tokens[i] else "0"
  {
    tokens + seq(4 - |tokens|, _ => "0")
  }

  /** The number a unit of the resolved version stands for: the current
      unit, its 32-bit successor (which wraps at `int.MaxValue`), or the
      literal's value. */
  function UnitValue(token: string, unit: int): int
    requires TokenAccepted(token)
  {
    if IsIncrementToken(token) then Wrap32(unit + 1)
    else if IsKeepToken(token) then unit
    else TryParseInt32(token).value
  }

  /** The text written for one unit. */
  function UnitText(token: string, unit: int): (r: string)
    requires TokenAccepted(token) && IsInt32(unit) && '.' !in token
    ensures '.' !in r
    ensures TryParseInt32(r) == Some(UnitValue(token, unit))
    ensures IsKeepToken(token) ==> r == IntToString(unit)
    ensures !IsKeepToken(token) && !IsIncrementToken(token) ==> r == token
  {
    if IsIncrementToken(token) then
      var n := Wrap32(unit + 1);
      IntToStringParses(n);
      IntToStringNoDot(n);
      IntToString(n)
    else if IsKeepToken(token) then
      IntToStringParses(unit);
      IntToStringNoDot(unit);
      IntToString(unit)
    else token
  }

  lemma IntToStringNoDot(n: int)
    ensures '.' !in IntToString(n)
  {
    if n >= 0 { NatToStringNoDot(n); } else { NatToStringNoDot(-n); }
  }

  /** The mask accepts the current units: every unit is a keep, increment
      or literal token and none of the resulting numbers is negative. */
  predicate MaskAccepted(tokens: seq<string>, units: seq<int>)
    requires |units| == 4
  {
    |tokens| <= 4
    && (forall i :: 0 <= i < 4 ==> TokenAccepted(PaddedTokens(tokens)[i]))
    && (forall i :: 0 <= i < 4 ==> UnitValue(PaddedTokens(tokens)[i], units[i]) >= 0)
  }

  /** The version a mask stands for, unit by unit. */
  function MaskedVersion(tokens: seq<string>, units: seq<int>): VersionFields
    requires |units| == 4 && |tokens| <= 4
    requires forall i :: 0 <= i < 4 ==> TokenAccepted(PaddedTokens(tokens)[i])
  {
    var padded := PaddedTokens(tokens);
    VersionFields(UnitValue(padded[0], units[0]), UnitValue(padded[1], units[1]),
                  UnitValue(padded[2], units[2]), UnitValue(padded[3], units[3]))
  }

  /** The four unit texts joined with dots. */
  function MaskText(padded: seq<string>, units: seq<int>): (r: string)
    requires |padded| == 4 && |units| == 4
    requires forall i :: 0 <= i < 4 ==> TokenAccepted(padded[i]) && '.' !in padded[i] && IsInt32(units[i])
    ensures ParseVersion(r).Some? <==> forall i :: 0 <= i < 4 ==> UnitValue(padded[i], units[i]) >= 0
    ensures ParseVersion(r).Some? ==> ParseVersion(r).value == VersionFields(
      UnitValue(padded[0], units[0]), UnitValue(padded[1], units[1]),
      UnitValue(padded[2], units[2]), UnitValue(padded[3], units[3]))
  {
    var texts := MaskUnitTexts(padded, units);
    UnitTextsParse(padded, units, texts);
    Join(texts, ".")
  }

  function MaskUnitTexts(padded: seq<string>, units: seq<int>): (r: seq<string>)
    requires |padded| == 4 && |units| == 4
    requires forall i :: 0 <= i < 4 ==> TokenAccepted(padded[i]) && '.' !in padded[i] && IsInt32(units[i])
    ensures |r| == 4 && forall i :: 0 <= i < 4 ==> r[i] == UnitText(padded[i], units[i])
  {
    seq(4, i requires 0 <= i < 4 => UnitText(padded[i], units[i]))
  }

  lemma UnitTextsParse(padded: seq<string>, units: seq<int>, texts: seq<string>)
    requires |padded| == 4 && |units| == 4 && |texts| == 4
    requires forall i :: 0 <= i < 4 ==> TokenAccepted(padded[i]) && '.' !in padded[i] && IsInt32(units[i])
    requires forall i :: 0 <= i < 4 ==> texts[i] == UnitText(padded[i], units[i])
    ensures ParseVersion(Join(texts, ".")).Some? <==> forall i :: 0 <= i < 4 ==> UnitValue(padded[i], units[i]) >= 0
    ensures ParseVersion(Join(texts, ".")).Some? ==> ParseVersion(Join(texts, ".")).value == VersionFields(
      UnitValue(padded[0], units[0]), UnitValue(padded[1], units[1]),
      UnitValue(padded[2], units[2]), UnitValue(padded[3], units[3]))
  {
    forall i | 0 <= i < 4
      ensures '.' !in texts[i]
      ensures ParseComponent(texts[i]).Some? <==> UnitValue(padded[i], units[i]) >= 0
      ensures ParseComponent(texts[i]).Some? ==> ParseComponent(texts[i]).value == UnitValue(padded[i], units[i])
    {
      assert TryParseInt32(texts[i]) == Some(UnitValue(padded[i], units[i]));
    }
    ParseFourUnits(texts);
  }

  /** Applies a mask that is not itself a version to the current units;
      `badInput` is the message template for a mask of more than four units. */
  function ApplyMask(m: string, units: seq<int>, badInput: string): (r: Result<string>)
    requires |units| == 4 && forall i :: 0 <= i < 4 ==> 0 <= units[i] <= Int32Max
    ensures r.Success? <==> MaskAccepted(Split(m, '.'), units)
    ensures r.Success? ==> ParseVersion(r.value) == Some(MaskedVersion(Split(m, '.'), units))
    ensures |Split(m, '.')| > 4 ==> r == FailWith(badInput, [m])
    ensures r.Failure? && |Split(m, '.')| <= 4 ==> r.error.ArgumentError?
  {
    var tokens := Split(m, '.');
    if |tokens| > 4 then FailWith(badInput, [m])
    else
      var padded := PaddedTokens(tokens);
      if !(forall i :: 0 <= i < 4 ==> TokenAccepted(padded[i])) then
        assert !MaskAccepted(tokens, units);
        NotValidFormats(NotValidTemplate, [m]);
        FailWith(NotValidTemplate, [m])
      else
        var text := MaskText(padded, units);
        if ParseVersion(text).None? then
          assert !MaskAccepted(tokens, units);
          NotValidFormats(NotValidTemplate, [text]);
          FailWith(NotValidTemplate, [text])
        else
          assert MaskAccepted(tokens, units);
          assert ParseVersion(text) == Some(MaskedVersion(tokens, units));
          Success(text)
  }

  predicate IsAuto(mask: string) { EqualsIgnoreCase(mask, "auto") }

  /** `Math.Max(unit, 0)` for build and revision of a version given as a mask. */
  function FourUnits(p: Version): Version {
    VersionFields(p.major, p.minor, Max0(p.build), Max0(p.revision))
  }

  /** The shared body of both `ResolveMaskedVersion` overloads; `badInput`
      is the template used when the mask has too many units. */
  function ResolveWith(mask: Option<string>, current: Option<Version>, badInput: string): (r: Result<string>)
    ensures r.Success? ==> ParseVersion(r.value).Some?
    ensures mask.Some? && ParseVersion(mask.value).Some? ==>
      r.Success? && ParseVersion(r.value) == Some(FourUnits(ParseVersion(mask.value).value))
    ensures mask.Some? && ParseVersion(mask.value).None? && !(IsAuto(mask.value) && current.None?) ==>
      r == ApplyMask(if IsAuto(mask.value) then AutoMask else mask.value,
                     CurrentUnits(current.GetOr(DefaultVersion)), badInput)
  {
    if mask.None? then
      if current.Some? then
        VersionRoundTrip(current.value);
        Success(VersionToString(current.value))
      else
        DefaultParses();
        Success(DefaultText)
    else match ParseVersion(mask.value)
      case Some(p) =>
        VersionRoundTrip(FourUnits(p));
        Success(VersionToString(FourUnits(p)))
      case None =>
        if IsAuto(mask.value) && current.None? then
          DefaultParses();
          Success(DefaultText)
        else
          ApplyMask(if IsAuto(mask.value) then AutoMask else mask.value,
                    CurrentUnits(current.GetOr(DefaultVersion)), badInput)
  }

  /** `ResolveMaskedVersion(mask, Version? current)` with the message of the
      too-many-units error corrected, so every rejection is an
      `ArgumentException`. */
  function ResolveMaskedVersion(mask: Option<string>, current: Option<Version>): (r: Result<string>)
    ensures r.Failure? ==> r.error.ArgumentError?
    ensures r.Success? ==> ParseVersion(r.value).Some?
    ensures mask.None? && current.Some? ==> r.Success? && ParseVersion(r.value) == current
    ensures mask.None? && current.None? ==> r == Success(DefaultText)
    ensures mask.Some? && ParseVersion(mask.value).Some? ==>
      r.Success? && ParseVersion(r.value) == Some(FourUnits(ParseVersion(mask.value).value))
    ensures mask.Some? && IsAuto(mask.value) && current.None? ==> r == Success(DefaultText)
    ensures mask.Some? && ParseVersion(mask.value).None? && !(IsAuto(mask.value) && current.None?) ==>
      var tokens := Split(if IsAuto(mask.value) then AutoMask else mask.value, '.');
      var units := CurrentUnits(current.GetOr(DefaultVersion));
      (r.Success? <==> MaskAccepted(tokens, units))
      && (r.Success? ==> ParseVersion(r.value) == Some(MaskedVersion(tokens, units)))
  {
    var r := ResolveWith(mask, current, NotValidTemplate);
    ResolveArgumentErrors(mask, current, NotValidTemplate);
    ResolveSideFacts(mask, current);
    r
  }

  /** `ResolveMaskedVersion(mask, Version? current)` as written: a mask of
      more than four units makes `string.Format` throw `FormatException`. */
  function ResolveMaskedVersionAsWritten(mask: Option<string>, current: Option<Version>): (r: Result<string>)
    ensures r.Success? <==> ResolveMaskedVersion(mask, current).Success?
    ensures r.Success? ==> r == ResolveMaskedVersion(mask, current)
    ensures r.Failure? ==> r.error.ArgumentError? || r.error == FormatError
  {
    TemplateOnlyInRejection(mask, current, ResourceIdTemplate, NotValidTemplate);
    ResolveWith(mask, current, ResourceIdTemplate)
  }

  /** `ResolveMaskedVersion(mask, string current)` with the corrected
      message: an empty current text means no current version, and text that
      is not a version is rejected. */
  function ResolveMaskedText(mask: Option<string>, current: string): (r: Result<string>)
    ensures |current| > 0 && ParseVersion(current).None? ==> r.Failure? && r.error.ArgumentError?
    ensures |current| == 0 ==> r == ResolveMaskedVersion(mask, None)
    ensures ParseVersion(current).Some? ==> r == ResolveMaskedVersion(mask, ParseVersion(current))
  {
    if |current| == 0 then ResolveMaskedVersion(mask, None)
    else match ParseVersion(current)
      case Some(v) => ResolveMaskedVersion(mask, Some(v))
      case None =>
        NotValidFormats(NotValidTemplate, [current]);
        FailWith(NotValidTemplate, [current])
  }

  /** The string overload as written: text that is not a version makes
      `string.Format` throw `FormatException`. */
  function ResolveMaskedTextAsWritten(mask: Option<string>, current: string): (r: Result<string>)
    ensures |current| > 0 && ParseVersion(current).None? ==> r == Failure(FormatError)
    ensures r.Failure? ==> r.error.ArgumentError? || r.error == FormatError
    ensures |current| == 0 ==> r == ResolveMaskedVersionAsWritten(mask, None)
    ensures ParseVersion(current).Some? ==> r == ResolveMaskedVersionAsWritten(mask, ParseVersion(current))
  {
    if |current| == 0 then ResolveMaskedVersionAsWritten(mask, None)
    else match ParseVersion(current)
      case Some(v) => ResolveMaskedVersionAsWritten(mask, Some(v))
      case None =>
        ResourceIdTemplateFails(ResourceIdTemplate, [current]);
        FailWith(ResourceIdTemplate, [current])
  }

  // ---------------------------------------------------------------------
  // Properties

  lemma FormatOneItem(a: string, b: string, args: seq<string>)
    requires |args| >= 1 && NoBraces(a) && NoBraces(b)
    ensures Format(a + ("{" + NatToString(0) + "}" + b), args) == Success(a + args[0] + b)
  {
    FormatItem(a, 0, b, args);
    FormatPlain(b, args);
  }

  lemma ItemText()
    ensures "{" + NatToString(0) + "}" == "{0}"
    ensures "{" + NatToString(1) + "}" == "{1}"
  {
    assert NatToString(0) == "0";
    assert NatToString(1) == "1";
  }

  /** The "not a valid version string" message can always be formatted. */
  lemma NotValidFormats(t: string, args: seq<string>)
    requires t == NotValidTemplate && |args| >= 1
    ensures Format(t, args).Success?
  {
    ItemText();
    assert t == "The value '" + ("{" + NatToString(0) + "}" + NotValidTail);
    FormatOneItem("The value '", NotValidTail, args);
  }

  /** With one argument the two-item template cannot be formatted. */
  lemma ResourceIdTemplateFails(t: string, args: seq<string>)
    requires t == ResourceIdTemplate && |args| == 1
    ensures Format(t, args) == Failure(FormatError)
  {
    ItemText();
    assert t == ResourceIdHead + ("{" + NatToString(0) + "}" + ResourceIdTail);
    ResourceIdTailFails(ResourceIdTail, args);
    FormatItem(ResourceIdHead, 0, ResourceIdTail, args);
  }

  lemma ResourceIdTailFails(t: string, args: seq<string>)
    requires t == ResourceIdTail && |args| == 1
    ensures Format(t, args) == Failure(FormatError)
  {
    assert "{1}" == "{" + NatToString(1) + "}";
    assert t == "' to '" + ("{" + NatToString(1) + "}" + "'\U{2026}");
    FormatItem("' to '", 1, "'\U{2026}", args);
  }

  lemma DefaultParses()
    ensures ParseVersion(DefaultText) == Some(DefaultVersion)
  {
    VersionRoundTrip(DefaultVersion);
    DefaultPrints();
  }

  lemma DefaultPrints()
    ensures VersionToString(DefaultVersion) == DefaultText
  {
    assert NatToString(1) == "1";
    assert NatToString(0) == "0";
    assert UnitTexts(DefaultVersion) == ["1", "0", "0", "0"];
  }

  /** With the corrected template every rejection is an `ArgumentException`. */
  lemma ResolveArgumentErrors(mask: Option<string>, current: Option<Version>, t: string)
    requires t == NotValidTemplate
    ensures var r := ResolveWith(mask, current, t);
      r.Failure? ==> r.error.ArgumentError?
  {
    var r := ResolveWith(mask, current, t);
    if r.Failure? {
      var m := if IsAuto(mask.value) then AutoMask else mask.value;
      NotValidFormats(t, [m]);
    }
  }

  /** The too-many-units template only shapes a rejection. */
  lemma TemplateOnlyInRejection(mask: Option<string>, current: Option<Version>, t1: string, t2: string)
    ensures ResolveWith(mask, current, t1).Success? <==> ResolveWith(mask, current, t2).Success?
    ensures ResolveWith(mask, current, t1).Success? ==> ResolveWith(mask, current, t1) == ResolveWith(mask, current, t2)
  {
    if mask.Some? && ParseVersion(mask.value).None? && !(IsAuto(mask.value) && current.None?) {
      var m := if IsAuto(mask.value) then AutoMask else mask.value;
      var units := CurrentUnits(current.GetOr(DefaultVersion));
      if |Split(m, '.')| <= 4 {
        assert ApplyMask(m, units, t1) == ApplyMask(m, units, t2);
      }
    }
  }

  lemma ResolveSideFacts(mask: Option<string>, current: Option<Version>)
    ensures mask.None? && current.Some? ==> ParseVersion(VersionToString(current.value)) == current
    ensures mask.Some? && IsAuto(mask.value) ==> ParseVersion(mask.value).None?
  {
    if mask.None? && current.Some? { VersionRoundTrip(current.value); }
    if mask.Some? && IsAuto(mask.value) { AutoIsNotVersion(mask.value); }
  }

  /** "auto" contains no dot, so it is never a version. */
  lemma AutoIsNotVersion(mask: string)
    requires IsAuto(mask)
    ensures Split(mask, '.') == [mask]
    ensures ParseVersion(mask).None?
  {
    assert |mask| == 4;
    forall i | 0 <= i < 4 ensures mask[i] != '.' {
      assert FoldChar(mask[i]) == Fold("auto")[i];
    }
  }

  /** A mask without a dot splits into one unit. */
  lemma NoDotOneUnit(s: string)
    requires '.' !in s
    ensures Split(s, '.') == [s]
  {
  }

  /** A mask of more than four units is rejected: as written by
      `string.Format` itself (`FormatException`), once corrected with an
      `ArgumentException`. */
  lemma TooManyUnitsRejected(mask: string, current: Option<Version>)
    requires |Split(mask, '.')| > 4
    ensures ResolveMaskedVersionAsWritten(Some(mask), current) == Failure(FormatError)
    ensures ResolveMaskedVersion(Some(mask), current).Failure?
    ensures ResolveMaskedVersion(Some(mask), current).error.ArgumentError?
  {
    if IsAuto(mask) { AutoIsNotVersion(mask); }
    assert ParseVersion(mask).None?;
    ResourceIdTemplateFails(ResourceIdTemplate, [mask]);
  }

  /** "auto" against a current version increments the revision and keeps
      the other units. */
  lemma AutoIncrementsRevision(mask: string, current: Version)
    requires IsAuto(mask)
    ensures var r := ResolveMaskedVersion(Some(mask), Some(current));
      (r.Success? <==> Max0(current.revision) < Int32Max)
      && (r.Success? ==> ParseVersion(r.value) == Some(VersionFields(
            current.major, current.minor, Max0(current.build), Max0(current.revision) + 1)))
  {
    var tokens := Split(AutoMask, '.');
    var units := CurrentUnits(current);
    AutoPath(mask, current, tokens, units);
    AutoTokens(AutoMask);
    AutoOutcome(ResolveMaskedVersion(Some(mask), Some(current)), tokens, current);
  }

  /** "auto" with a current version resolves like the mask "*.*.*.+". */
  lemma AutoPath(mask: string, current: Version, tokens: seq<string>, units: seq<int>)
    requires IsAuto(mask) && tokens == Split(AutoMask, '.') && units == CurrentUnits(current)
    ensures var r := ResolveMaskedVersion(Some(mask), Some(current));
      (r.Success? <==> MaskAccepted(tokens, units))
      && (r.Success? ==> ParseVersion(r.value) == Some(MaskedVersion(tokens, units)))
  {
    AutoIsNotVersion(mask);
  }

  /** What resolving "*.*.*.+" against a current version yields. */
  lemma AutoOutcome(r: Result<string>, tokens: seq<string>, current: Version)
    requires tokens == ["*", "*", "*", "+"]
    requires r.Success? <==> MaskAccepted(tokens, CurrentUnits(current))
    requires r.Success? ==> ParseVersion(r.value) == Some(MaskedVersion(tokens, CurrentUnits(current)))
    ensures r.Success? <==> Max0(current.revision) < Int32Max
    ensures r.Success? ==> ParseVersion(r.value) == Some(VersionFields(
      current.major, current.minor, Max0(current.build), Max0(current.revision) + 1))
  {
    AutoUnits(tokens, current);
  }

  /** The units of "*.*.*.+": three kept, the last one incremented with
      32-bit wrap-around. */
  lemma AutoUnits(tokens: seq<string>, current: Version)
    requires tokens == ["*", "*", "*", "+"]
    ensures MaskAccepted(tokens, CurrentUnits(current)) <==> Max0(current.revision) < Int32Max
    ensures MaskAccepted(tokens, CurrentUnits(current)) ==>
      (MaskedVersion(tokens, CurrentUnits(current))
        == VersionFields(current.major, current.minor, Max0(current.build), Max0(current.revision) + 1))
  {
    var units := CurrentUnits(current);
    assert PaddedTokens(tokens) == tokens;
    var w := Wrap32(units[3] + 1);
    if units[3] == Int32Max {
      assert w < 0;
      assert UnitValue(tokens[3], units[3]) < 0;
    } else {
      assert w == units[3] + 1;
    }
  }

  lemma AutoTokens(m: string)
    requires m == AutoMask
    ensures Split(m, '.') == ["*", "*", "*", "+"]
  {
    var tokens := ["*", "*", "*", "+"];
    assert Join(tokens, ".") == m;
    SplitJoin(tokens, '.');
  }

  /** A mask that is a short version is completed to four units whatever
      the current version: "1.2" gives "1.2.0.0". */
  lemma ShortVersionCompleted(mask: string, current: Option<Version>)
    requires mask == "1.2"
    ensures ResolveMaskedVersion(Some(mask), current) == Success("1.2.0.0")
  {
    var v: Version := VersionFields(1, 2, -1, -1);
    SmallDigits();
    PrintShort(v);
    VersionRoundTrip(v);
    PrintFull(FourUnits(v));
  }

  lemma SmallDigits()
    ensures NatToString(0) == "0" && NatToString(1) == "1" && NatToString(2) == "2"
    ensures NatToString(3) == "3" && NatToString(4) == "4" && NatToString(5) == "5"
  {
  }

  lemma PrintShort(v: Version)
    requires v == VersionFields(1, 2, -1, -1)
    ensures VersionToString(v) == "1.2"
  {
    SmallDigits();
    assert UnitTexts(v) == ["1", "2"];
  }

  lemma PrintFull(v: Version)
    requires v == VersionFields(1, 2, 0, 0)
    ensures VersionToString(v) == "1.2.0.0"
  {
    SmallDigits();
    assert UnitTexts(v) == ["1", "2", "0", "0"];
  }

  /** An empty trailing unit keeps the current unit like `x` and `*` do:
      mask "5.x.*." fixes the major unit and keeps the other three. */
  lemma TrailingDotKeepsRevision(mask: string, current: Version)
    requires mask == "5.x.*."
    ensures var r := ResolveMaskedVersion(Some(mask), Some(current));
      r.Success? && ParseVersion(r.value)
        == Some(VersionFields(5, current.minor, Max0(current.build), Max0(current.revision)))
  {
    TrailingDotMask(mask);
    TrailingDotOutcome(ResolveMaskedVersion(Some(mask), Some(current)), Split(mask, '.'), current);
  }

  lemma TrailingDotOutcome(r: Result<string>, tokens: seq<string>, current: Version)
    requires tokens == ["5", "x", "*", ""]
    requires r.Success? <==> MaskAccepted(tokens, CurrentUnits(current))
    requires r.Success? ==> ParseVersion(r.value) == Some(MaskedVersion(tokens, CurrentUnits(current)))
    ensures r.Success? && ParseVersion(r.value)
      == Some(VersionFields(5, current.minor, Max0(current.build), Max0(current.revision)))
  {
    var units := CurrentUnits(current);
    TrailingDotUnits(tokens, units);
    assert PaddedTokens(tokens) == tokens;
  }

  lemma TrailingDotMask(mask: string)
    requires mask == "5.x.*."
    ensures Split(mask, '.') == ["5", "x", "*", ""]
    ensures ParseVersion(mask).None? && !IsAuto(mask)
  {
    TrailingDotTokens(mask);
    assert ParseComponent("x").None? by { NotANumber("x"); }
    assert !IsAuto(mask) by { assert |mask| != |"auto"|; }
  }

  lemma TrailingDotUnits(tokens: seq<string>, units: seq<int>)
    requires tokens == ["5", "x", "*", ""]
    requires |units| == 4 && forall i :: 0 <= i < 4 ==> 0 <= units[i] <= Int32Max
    ensures forall i :: 0 <= i < 4 ==> TokenAccepted(tokens[i])
    ensures UnitValue(tokens[0], units[0]) == 5
    ensures forall i :: 1 <= i < 4 ==> UnitValue(tokens[i], units[i]) == units[i]
  {
    FiveParses(tokens[0]);
  }

  lemma TrailingDotTokens(m: string)
    requires m == "5.x.*."
    ensures Split(m, '.') == ["5", "x", "*", ""]
  {
    var tokens := ["5", "x", "*", ""];
    assert Join(tokens, ".") == m;
    SplitJoin(tokens, '.');
  }

  lemma NotANumber(t: string)
    requires t == "x"
    ensures TryParseInt32(t).None?
  {
    assert TrimNumberWhite(t) == t;
    assert !IsDigit(t[0]);
  }

  lemma FiveParses(t: string)
    requires t == "5"
    ensures TryParseInt32(t) == Some(5)
  {
    assert TrimNumberWhite(t) == t;
    assert DigitsValue(t) == 5;
  }

  lemma MinusOneParses(t: string)
    requires t == "-1"
    ensures TryParseInt32(t) == Some(-1)
  {
    assert TrimNumberWhite(t) == t;
    assert t[1..] == "1";
    assert DigitsValue("1") == 1;
  }

  /** A literal unit is copied verbatim, so a negative literal makes the
      final version check fail. */
  lemma NegativeLiteralRejected(mask: string, current: Option<Version>)
    requires mask == "-1"
    ensures ResolveMaskedVersion(Some(mask), current).Failure?
  {
    NoDotOneUnit(mask);
    MinusOneParses(mask);
    assert !IsAuto(mask) by { assert |mask| != |"auto"|; }
    assert ParseVersion(mask).None?;
    var units := CurrentUnits(current.GetOr(DefaultVersion));
    assert PaddedTokens([mask])[0] == mask;
    assert UnitValue(mask, units[0]) == -1;
    assert !MaskAccepted([mask], units);
  }
}

=== FILE: wildcard.dfy ===
/** `RegexBuilder.FromWildcard`: the regular expression a file wildcard
    (`*` any run, `?` any one character) is turned into, and the small
    fragment of .NET regular-expression syntax those patterns use. */
module Wildcard {
  import opened Wrappers
  import opened Text

  /** One unit of a pattern in this fragment: a literal character, `.`
      (any one character) or `.*` (any run). */
  datatype Atom = Lit(c: char) | AnyChar | AnyRun

  /** A pattern: optionally anchored at the start (`^`) and end (`$`). */
  datatype Regex = Regex(startAnchor: bool, atoms: seq<Atom>, endAnchor: bool)

  /** A compiled pattern: its text and whether it ignores case. */
  datatype Pattern = Pattern(text: string, ignoreCase: bool)

  const FormFeed: char := 12 as char

  /** Characters with a meaning of their own in a pattern. */
  const Operators: set<char> := {'\\', '*', '+', '?', '|', '{', '[', '(', ')', '^', '$', '.'}

  /** `Regex.Escape` of one character: operators, `#` and white space get
      a backslash, control white space its letter escape. */
  function EscapeChar(c: char): (r: string)
    ensures 1 <= |r| <= 2 && (|r| == 2 <==> r[0] == '\\')
  {
    if c == '\t' then "\\t"
    else if c == '\n' then "\\n"
    else if c == '\r' then "\\r"
    else if c == FormFeed then "\\f"
    else if c in Operators || c == '#' || c == ' ' then ['\\', c]
    else [c]
  }

  /** `Regex.Escape`. */
  function EscapeText(s: string): string {
    if s == [] then [] else EscapeChar(s[0]) + EscapeText(s[1..])
  }

  lemma {:induction false} EscapeTextAppend(a: string, b: string)
    ensures EscapeText(a + b) == EscapeText(a) + EscapeText(b)
  {
    if a == [] {
      assert a + b == b;
    } else {
      assert (a + b)[0] == a[0] && (a + b)[1..] == a[1..] + b;
      EscapeTextAppend(a[1..], b);
    }
  }

  /** The character a backslash escape stands for. */
  function Unescape(e: char): Option<char> {
    if e == 't' then Some('\t')
    else if e == 'n' then Some('\n')
    else if e == 'r' then Some('\r')
    else if e == 'f' then Some(FormFeed)
    else if e in Operators || e == '#' || e == ' ' then Some(e)
    else None
  }

  function RenderAtom(a: Atom): (r: string)
    ensures |r| >= 1
  {
    match a
    case Lit(c) => EscapeChar(c)
    case AnyChar => "."
    case AnyRun => ".*"
  }

  function RenderAtoms(atoms: seq<Atom>): string {
    if atoms == [] then "" else RenderAtom(atoms[0]) + RenderAtoms(atoms[1..])
  }

  lemma {:induction false} RenderAtomsAppend(a: seq<Atom>, b: seq<Atom>)
    ensures RenderAtoms(a + b) == RenderAtoms(a) + RenderAtoms(b)
  {
    if a == [] {
      assert a + b == b;
    } else {
      assert (a + b)[0] == a[0] && (a + b)[1..] == a[1..] + b;
      RenderAtomsAppend(a[1..], b);
    }
  }

  function EndText(anchored: bool): string { if anchored then "$" else "" }

  /** The text of a pattern. */
  function Render(r: Regex): string {
    (if r.startAnchor then "^" else "") + RenderAtoms(r.atoms) + EndText(r.endAnchor)
  }

  /** The atom at the head of a pattern text and how many characters it
      takes, or `None` for syntax outside the fragment. */
  function ParseStep(s: string): (r: Option<(Atom, nat)>)
    requires |s| > 0
    ensures r.Some? ==> 1 <= r.value.1 <= |s|
  {
    if s[0] == '\\' then
      if |s| < 2 then None
      else match Unescape(s[1])
        case None => None
        case Some(c) => Some((Lit(c), 2))
    else if s[0] == '.' then
      if |s| >= 2 && s[1] == '*' then Some((AnyRun, 2)) else Some((AnyChar, 1))
    else if s[0] in Operators then None
    else Some((Lit(s[0]), 1))
  }

  /** The atoms of a pattern body and whether it ends with `$`. */
  function ParseAtoms(s: string): Option<(seq<Atom>, bool)>
    decreases |s|
  {
    if |s| == 0 then Some(([], false))
    else if s == "$" then Some(([], true))
    else match ParseStep(s)
      case None => None
      case Some((a, n)) =>
        match ParseAtoms(s[n..])
        case None => None
        case Some((rest, anchored)) => Some(([a] + rest, anchored))
  }

  /** How a pattern text reads in the fragment. */
  function Parse(t: string): Option<Regex> {
    var anchored := |t| > 0 && t[0] == '^';
    match ParseAtoms(if anchored then t[1..] else t)
    case None => None
    case Some((atoms, endAnchor)) => Some(Regex(anchored, atoms, endAnchor))
  }

  /** A rendered body never starts with `*` or `^`: both are escaped. */
  lemma LeadingChar(atoms: seq<Atom>, anchored: bool)
    ensures var t := RenderAtoms(atoms) + EndText(anchored); t == [] || (t[0] != '*' && t[0] != '^')
  {
    if atoms != [] {
      assert (RenderAtoms(atoms) + EndText(anchored))[0] == RenderAtom(atoms[0])[0];
    }
  }

  /** One atom's text, followed by text not starting with `*`, reads back
      as that atom. */
  lemma StepRender(a: Atom, tail: string)
    requires tail == [] || tail[0] != '*'
    ensures var s := RenderAtom(a) + tail;
      ParseStep(s) == Some((a, |RenderAtom(a)|)) && s[|RenderAtom(a)|..] == tail && s != "$"
  {
    var s := RenderAtom(a) + tail;
    assert s[..|RenderAtom(a)|] == RenderAtom(a);
    assert s[|RenderAtom(a)|..] == tail;
  }

  lemma {:induction false} ParseAtomsRender(atoms: seq<Atom>, anchored: bool)
    ensures ParseAtoms(RenderAtoms(atoms) + EndText(anchored)) == Some((atoms, anchored))
  {
    if atoms != [] {
      var tail := RenderAtoms(atoms[1..]) + EndText(anchored);
      LeadingChar(atoms[1..], anchored);
      StepRender(atoms[0], tail);
      assert RenderAtoms(atoms) + EndText(anchored) == RenderAtom(atoms[0]) + tail;
      ParseAtomsRender(atoms[1..], anchored);
      assert [atoms[0]] + atoms[1..] == atoms;
    }
  }

  /** Every pattern of the fragment reads back from its text. */
  lemma RenderParses(r: Regex)
    ensures Parse(Render(r)) == Some(r)
  {
    var body := RenderAtoms(r.atoms) + EndText(r.endAnchor);
    ParseAtomsRender(r.atoms, r.endAnchor);
    LeadingChar(r.atoms, r.endAnchor);
    if r.startAnchor {
      assert Render(r) == "^" + body;
      assert Render(r)[1..] == body;
    } else {
      assert Render(r) == body;
    }
  }

  const Specials: set<char> := {'?', '*'}

  /** The pattern text of a wildcard character found by the scan. */
  function Token(c: char): string { if c == '?' then "." else ".*" }

  /** The loop of `FromWildcard` from position `i`: the search for the next
      wildcard character starts one past `i`, the text before it is copied
      as it is, and only the text after the last one found is escaped. */
  function Scan(w: string, i: nat): string
    decreases |w| - i
  {
    if i >= |w| then ""
    else match IndexOfAny(w, Specials, i + 1)
      case None => EscapeText(w[i..])
      case Some(f) => w[i..f] + Token(w[f]) + Scan(w, f + 1)
  }

  /** One step of the scan from a position inside the wildcard. */
  lemma ScanAt(w: string, i: nat)
    requires i < |w|
    ensures IndexOfAny(w, Specials, i + 1).None? ==> Scan(w, i) == EscapeText(w[i..])
    ensures IndexOfAny(w, Specials, i + 1).Some? ==>
      var f := IndexOfAny(w, Specials, i + 1).value;
      Scan(w, i) == w[i..f] + Token(w[f]) + Scan(w, f + 1)
  {
    if IndexOfAny(w, Specials, i + 1).None? {
      ScanRest(w, i);
    } else {
      ScanTo(w, i);
    }
  }

  /** With no wildcard character after `i`, the rest is escaped. */
  lemma ScanRest(w: string, i: nat)
    requires i < |w| && IndexOfAny(w, Specials, i + 1).None?
    ensures Scan(w, i) == EscapeText(w[i..])
  {
  }

  /** Whether the pattern is anchored at the start, and at the end. */
  predicate AnchorsStart(w: string) { |w| == 0 || w[0] != '*' }
  predicate AnchorsEnd(w: string) { |w| == 0 || w[|w| - 1] != '*' }

  /** `FromWildcard`, as written. */
  function FromWildcard(w: string): (p: Pattern)
    ensures w == "" ==> p == Pattern("^$", true)
    ensures w == "*" ==> p == Pattern(".*", false)
    ensures p.ignoreCase <==> w != "*"
  {
    if w == "*" then Pattern(".*", false)
    else Pattern((if AnchorsStart(w) then "^" else "") + Scan(w, 0) + EndText(AnchorsEnd(w)), true)
  }

  predicate EndsWithStar(s: string) { |s| > 0 && s[|s| - 1] == '*' }

  /** An escaped tail ending in `*` ends in `*`. */
  lemma EscapedEndsWithStar(t: string)
    requires EndsWithStar(t)
    ensures EndsWithStar(EscapeText(t))
  {
    var p := t[..|t| - 1];
    assert t == p + ['*'];
    EscapeTextAppend(p, ['*']);
    StarEscaped();
    var e := EscapeText(p) + "\\*";
    assert e[|e| - 1] == '*';
  }

  lemma StarEscaped()
    ensures EscapeText(['*']) == "\\*"
  {
    assert ['*'][1..] == [];
  }

  /** One step of the scan keeps a final `*`. */
  lemma EndsWithStarStep(a: string, t: string, rest: string)
    requires EndsWithStar(rest) || (rest == "" && t == ".*")
    ensures EndsWithStar(a + t + rest)
  {
    var s := a + t + rest;
    if rest == "" {
      assert s[|s| - 1] == t[1];
    } else {
      assert s[|s| - 1] == rest[|rest| - 1];
    }
  }

  lemma {:induction false} ScanEndsWithStar(w: string, i: nat)
    requires i < |w| && w[|w| - 1] == '*'
    ensures EndsWithStar(Scan(w, i))
    decreases |w| - i
  {
    if IndexOfAny(w, Specials, i + 1).Some? && IndexOfAny(w, Specials, i + 1).value + 1 < |w| {
      ScanEndsWithStar(w, IndexOfAny(w, Specials, i + 1).value + 1);
      ScanStepKeeps(w, i);
    } else {
      ScanEndsLast(w, i);
    }
  }

  /** A scan ending in `*` after the next wildcard character keeps it. */
  lemma ScanStepKeeps(w: string, i: nat)
    requires i < |w| && IndexOfAny(w, Specials, i + 1).Some?
    requires EndsWithStar(Scan(w, IndexOfAny(w, Specials, i + 1).value + 1))
    ensures EndsWithStar(Scan(w, i))
  {
    ScanStepEnds(w, i);
  }

  /** The scan from `i` ends in `*` when no wildcard character follows `i`
      except, possibly, the final `*`. */
  lemma ScanEndsLast(w: string, i: nat)
    requires i < |w| && w[|w| - 1] == '*'
    requires IndexOfAny(w, Specials, i + 1).Some? ==> IndexOfAny(w, Specials, i + 1).value + 1 >= |w|
    ensures EndsWithStar(Scan(w, i))
  {
    if IndexOfAny(w, Specials, i + 1).None? {
      ScanLastStar(w, i);
    } else {
      FinalStar(w, i);
      ScanStepEnds(w, i);
    }
  }

  /** With no wildcard character after `i`, the final `*` is `w[i]`, and
      its escape ends the scan. */
  lemma ScanLastStar(w: string, i: nat)
    requires i < |w| && w[|w| - 1] == '*' && IndexOfAny(w, Specials, i + 1).None?
    ensures EndsWithStar(Scan(w, i))
  {
    ScanAt(w, i);
    assert w[i..][|w[i..]| - 1] == '*';
    EscapedEndsWithStar(w[i..]);
  }

  /** When the next wildcard character is the final `*`, it is the last
      token of the scan. */
  lemma FinalStar(w: string, i: nat)
    requires i < |w| && w[|w| - 1] == '*' && IndexOfAny(w, Specials, i + 1).Some?
    requires IndexOfAny(w, Specials, i + 1).value + 1 >= |w|
    ensures var f := IndexOfAny(w, Specials, i + 1).value;
      Scan(w, f + 1) == "" && Token(w[f]) == ".*"
  {
  }

  /** The scan from `i` ends in `*` when the scan after the next wildcard
      character does, or is empty after a `*`. */
  lemma ScanStepEnds(w: string, i: nat)
    requires i < |w| && IndexOfAny(w, Specials, i + 1).Some?
    requires var f := IndexOfAny(w, Specials, i + 1).value;
      EndsWithStar(Scan(w, f + 1)) || (Scan(w, f + 1) == "" && Token(w[f]) == ".*")
    ensures EndsWithStar(Scan(w, i))
  {
    var f := IndexOfAny(w, Specials, i + 1).value;
    EndsWithStarStep(w[i..f], Token(w[f]), Scan(w, f + 1));
    ScanTo(w, i);
  }

  /** The scan to the next wildcard character and on from after it. */
  lemma ScanTo(w: string, i: nat)
    requires i < |w| && IndexOfAny(w, Specials, i + 1).Some?
    ensures var f := IndexOfAny(w, Specials, i + 1).value;
      Scan(w, i) == w[i..f] + Token(w[f]) + Scan(w, f + 1)
  {
  }


  /** A scan from a `*` starts with `*` or with its escape. */
  lemma ScanFromStar(w: string)
    requires |w| > 0 && w[0] == '*'
    ensures |Scan(w, 0)| > 0 && (Scan(w, 0)[0] == '*' || Scan(w, 0)[0] == '\\')
  {
    match IndexOfAny(w, Specials, 1)
    case None =>
      assert w == ['*'] + w[1..];
      EscapeTextAppend(['*'], w[1..]);
      assert EscapeText(['*']) == "\\*";
    case Some(f) =>
      assert (w[0..f] + Token(w[f]) + Scan(w, f + 1))[0] == w[0];
  }

  /** The pattern starts with `^` exactly when the wildcard is empty or
      does not start with `*`, and ends with `$` exactly when it is empty
      or does not end with `*`. */
  lemma Anchors(w: string)
    ensures var t := FromWildcard(w).text;
      && (|t| > 0 && t[0] == '^' <==> AnchorsStart(w))
      && (|t| > 0 && t[|t| - 1] == '$' <==> AnchorsEnd(w))
  {
    if w != "*" {
      var s := Scan(w, 0);
      var t := FromWildcard(w).text;
      if !AnchorsStart(w) {
        ScanFromStar(w);
        assert t[0] == s[0];
      }
      if !AnchorsEnd(w) {
        ScanEndsWithStar(w, 0);
        assert t[|t| - 1] == s[|s| - 1];
      }
    }
  }

  /** A leading `*` followed by plain text is escaped as a literal star:
      the search for wildcard characters starts at the second one. */
  lemma LeadingStarIsLiteral(w: string)
    requires |w| >= 2 && w[0] == '*'
    requires forall j :: 1 <= j < |w| ==> w[j] !in Specials
    ensures FromWildcard(w).text == "\\*" + EscapeText(w[1..]) + "$"
  {
    assert w == ['*'] + w[1..];
    EscapeTextAppend(['*'], w[1..]);
    assert EscapeText(['*']) == "\\*";
  }

  /** The text before the first wildcard character past the start is
      copied without escaping. */
  lemma ChunkCopiedRaw(w: string, f: nat)
    requires AnchorsStart(w) && 1 <= f < |w| && w[f] in Specials
    requires forall j :: 1 <= j < f ==> w[j] !in Specials
    ensures FromWildcard(w).text == "^" + w[..f] + Token(w[f]) + Scan(w, f + 1) + EndText(AnchorsEnd(w))
  {
    assert IndexOfAny(w, Specials, 1) == Some(f);
  }

  /** `*.txt` reads as a literal star. */
  lemma LeadingStarExample()
    ensures FromWildcard("*.txt").text == "\\*\\.txt$"
  {
    LeadingStarIsLiteral("*.txt");
    assert EscapeText(".txt") == "\\.txt";
  }

  /** The dot of `a.b*` is copied as it is, and so reads as any
      character. */
  lemma RawDotExample()
    ensures FromWildcard("a.b*").text == "^a.b.*"
  {
    ChunkCopiedRaw("a.b*", 3);
    assert "a.b*"[..3] == "a.b";
  }

  /** `a*b` gives `^a.*b$`. */
  lemma InnerStarExample()
    ensures FromWildcard("a*b").text == "^a.*b$"
  {
    ChunkCopiedRaw("a*b", 1);
    assert Scan("a*b", 2) == "b";
  }

  /** The reading a wildcard evidently intends for each character. */
  function AtomOf(c: char): Atom {
    if c == '*' then AnyRun else if c == '?' then AnyChar else Lit(c)
  }

  function Atoms(w: string): (r: seq<Atom>)
    ensures |r| == |w| && forall j :: 0 <= j < |w| ==> r[j] == AtomOf(w[j])
  {
    seq(|w|, j requires 0 <= j < |w| => AtomOf(w[j]))
  }

  /** The wildcard's intended pattern: every `*` any run, every `?` any
      character, everything else literal; anchored as `FromWildcard`. */
  function Intended(w: string): Regex {
    Regex(AnchorsStart(w), Atoms(w), AnchorsEnd(w))
  }

  /** `FromWildcard` with every character translated, the first included:
      its text reads back as exactly the intended pattern. */
  function FromWildcardFixed(w: string): (p: Pattern)
    ensures Parse(p.text) == Some(Intended(w))
    ensures p.ignoreCase <==> w != "*"
  {
    RenderParses(Intended(w));
    if w == "*" then
      assert Atoms(w) == [AnyRun];
      assert RenderAtoms([AnyRun]) == ".*" + RenderAtoms([]);
      assert Render(Intended(w)) == ".*";
      Pattern(".*", false)
    else Pattern(Render(Intended(w)), true)
  }

  /** As written, `*.txt` is read as a literal star, not as any run. */
  lemma WrittenMisreadsLeadingStar()
    ensures Parse(FromWildcard("*.txt").text) == Some(Regex(false, [Lit('*'), Lit('.'), Lit('t'), Lit('x'), Lit('t')], true))
    ensures Parse(FromWildcard("*.txt").text) != Some(Intended("*.txt"))
  {
    LeadingStarExample();
    var r := Regex(false, [Lit('*'), Lit('.'), Lit('t'), Lit('x'), Lit('t')], true);
    assert Render(r) == "\\*\\.txt$";
    RenderParses(r);
    assert Intended("*.txt").atoms[0] == AnyRun;
  }

  /** A wildcard whose first character is no wildcard character, with no
      two wildcard characters in a row and no character that escaping
      would change. */
  predicate Plain(w: string) {
    && (|w| == 0 || w[0] !in Specials)
    && (forall j :: 1 <= j < |w| && w[j - 1] in Specials ==> w[j] !in Specials)
    && (forall j :: 0 <= j < |w| && w[j] !in Specials ==> EscapeChar(w[j]) == [w[j]])
  }

  lemma {:induction false} EscapeIsRender(s: string)
    requires forall j :: 0 <= j < |s| ==> s[j] !in Specials
    ensures EscapeText(s) == RenderAtoms(Atoms(s))
  {
    if s != [] {
      assert Atoms(s)[1..] == Atoms(s[1..]);
      EscapeIsRender(s[1..]);
    }
  }

  lemma {:induction false} PlainRender(s: string)
    requires forall j :: 0 <= j < |s| ==> s[j] !in Specials && EscapeChar(s[j]) == [s[j]]
    ensures RenderAtoms(Atoms(s)) == s
  {
    if s != [] {
      assert Atoms(s)[1..] == Atoms(s[1..]);
      PlainRender(s[1..]);
    }
  }

  /** The intended pattern of a plain run, a wildcard character and the
      rest. */
  lemma RenderSplit(w: string, i: nat, f: nat)
    requires i <= f < |w| && w[f] in Specials
    requires forall j :: i <= j < f ==> w[j] !in Specials && EscapeChar(w[j]) == [w[j]]
    ensures RenderAtoms(Atoms(w[i..])) == w[i..f] + Token(w[f]) + RenderAtoms(Atoms(w[f + 1..]))
  {
    var a, b := w[i..f], w[f + 1..];
    assert w[i..] == a + [w[f]] + b;
    assert Atoms(w[i..]) == Atoms(a) + [AtomOf(w[f])] + Atoms(b);
    RenderAtomsAppend(Atoms(a) + [AtomOf(w[f])], Atoms(b));
    RenderAtomsAppend(Atoms(a), [AtomOf(w[f])]);
    PlainRender(a);
    assert RenderAtoms([AtomOf(w[f])]) == Token(w[f]);
  }

  /** One step of the scan over a plain wildcard. */
  lemma ScanRendersStep(w: string, i: nat, f: nat)
    requires Plain(w) && i < |w| && w[i] !in Specials
    requires IndexOfAny(w, Specials, i + 1) == Some(f)
    requires Scan(w, f + 1) == RenderAtoms(Atoms(w[f + 1..]))
    ensures Scan(w, i) == RenderAtoms(Atoms(w[i..]))
  {
    ScanAt(w, i);
    var head, tail := w[i..f] + Token(w[f]), RenderAtoms(Atoms(w[f + 1..]));
    assert Scan(w, i) == head + tail;
    PlainRun(w, i, f);
    RenderSplit(w, i, f);
    assert RenderAtoms(Atoms(w[i..])) == head + tail;
  }

  lemma {:induction false} ScanRenders(w: string, i: nat)
    requires Plain(w) && i <= |w| && (i < |w| ==> w[i] !in Specials)
    ensures Scan(w, i) == RenderAtoms(Atoms(w[i..]))
    decreases |w| - i
  {
    if i < |w| {
      var next := IndexOfAny(w, Specials, i + 1);
      if next.None? {
        ScanRendersLast(w, i);
      } else {
        var f := next.value;
        PlainAfterSpecial(w, f);
        ScanRenders(w, f + 1);
        ScanRendersStep(w, i, f);
      }
    }
  }

  /** The last step of the scan over a plain wildcard, when no wildcard
      character is left. */
  lemma ScanRendersLast(w: string, i: nat)
    requires Plain(w) && i < |w| && w[i] !in Specials
    requires IndexOfAny(w, Specials, i + 1).None?
    ensures Scan(w, i) == RenderAtoms(Atoms(w[i..]))
  {
    ScanAt(w, i);
    PlainRun(w, i, |w|);
    EscapeIsRender(w[i..]);
  }

  /** In a plain wildcard, a run that starts with no wildcard character
      and holds none after its start is escaped as itself. */
  lemma PlainRun(w: string, i: nat, f: nat)
    requires Plain(w) && i < f <= |w| && w[i] !in Specials
    requires forall j :: i + 1 <= j < f ==> w[j] !in Specials
    ensures forall j :: i <= j < f ==> w[j] !in Specials && EscapeChar(w[j]) == [w[j]]
    ensures forall j :: 0 <= j < |w[i..f]| ==> w[i..f][j] !in Specials
    ensures f == |w| ==> forall j :: 0 <= j < |w[i..]| ==> w[i..][j] !in Specials
  {
    assert forall j :: i <= j < f ==> w[j] !in Specials;
  }

  /** In a plain wildcard, a wildcard character is not followed by
      another. */
  lemma PlainAfterSpecial(w: string, f: nat)
    requires Plain(w) && f < |w| && w[f] in Specials
    ensures f + 1 < |w| ==> w[f + 1] !in Specials
  {
    if f + 1 < |w| {
      assert w[f + 1 - 1] in Specials;
    }
  }

  /** As written, the pattern is the intended one for plain wildcards. */
  lemma WrittenAgreesOnPlain(w: string)
    requires Plain(w)
    ensures Parse(FromWildcard(w).text) == Some(Intended(w))
  {
    ScanRenders(w, 0);
    assert w[0..] == w;
    RenderParses(Intended(w));
  }

  // ---------------------------------------------------------------------
  // Matching

  predicate CharMatches(c: char, lit: char, ignoreCase: bool) {
    if ignoreCase then FoldChar(c) == FoldChar(lit) else c == lit
  }

  /** Whether the atoms match all of `t`; `.` matches anything but a
      newline. */
  predicate MatchAtoms(atoms: seq<Atom>, t: string, ignoreCase: bool)
    decreases |atoms|, |t|
  {
    if atoms == [] then t == []
    else match atoms[0]
      case Lit(c) => |t| > 0 && CharMatches(t[0], c, ignoreCase) && MatchAtoms(atoms[1..], t[1..], ignoreCase)
      case AnyChar => |t| > 0 && t[0] != '\n' && MatchAtoms(atoms[1..], t[1..], ignoreCase)
      case AnyRun =>
        MatchAtoms(atoms[1..], t, ignoreCase)
        || (|t| > 0 && t[0] != '\n' && MatchAtoms(atoms, t[1..], ignoreCase))
  }

  /** Where `$` may match: at the end, or before a final newline. */
  predicate EndsAt(s: string, j: nat) {
    j == |s| || (j + 1 == |s| && s[j] == '\n')
  }

  /** `Regex.IsMatch`: some part of `s`, starting at the beginning when
      anchored there and ending where `$` may match when anchored there,
      is matched by the atoms. */
  predicate IsMatch(r: Regex, s: string, ignoreCase: bool) {
    exists i, j :: 0 <= i <= j <= |s| && (r.startAnchor ==> i == 0) && (r.endAnchor ==> EndsAt(s, j))
      && MatchAtoms(r.atoms, s[i..j], ignoreCase)
  }

  /** Whether a name matches the compiled pattern of a wildcard: the
      pattern reads as `Intended(w)`, with the case sensitivity it was
      compiled with. */
  predicate WildcardMatches(w: string, name: string) {
    IsMatch(Intended(w), name, FromWildcardFixed(w).ignoreCase)
  }

  /** Whether a name matches the pattern `FromWildcard` compiles, read as
      it is written; a pattern text outside the modelled fragment is taken
      to match no name. */
  predicate WrittenMatches(w: string, name: string) {
    match Parse(FromWildcard(w).text)
    case Some(r) => IsMatch(r, name, FromWildcard(w).ignoreCase)
    case None => false
  }

  /** A wildcard of plain characters only, none of them wildcard
      characters, reads as written exactly as intended: everything before
      it is escaped. */
  lemma WrittenAgreesOnLiteral(w: string)
    requires w != [] && forall j :: 0 <= j < |w| ==> w[j] !in Specials
    ensures Parse(FromWildcard(w).text) == Some(Intended(w))
  {
    assert w[0] != '*';
    assert IndexOfAny(w, Specials, 1).None?;
    assert w[0..] == w;
    EscapeIsRender(w);
    assert FromWildcard(w).text == Render(Intended(w));
    RenderParses(Intended(w));
  }

  /** As written and as intended, a name matches the same wildcards when
      the wildcard is `*`, plain, or free of wildcard characters. */
  lemma WrittenMatchesAgree(w: string, name: string)
    requires w == "*" || Plain(w) || (w != [] && forall j :: 0 <= j < |w| ==> w[j] !in Specials)
    ensures WrittenMatches(w, name) <==> WildcardMatches(w, name)
  {
    if w == "*" {
      assert Parse(".*") == Some(Intended("*")) by {
        var t := ".*";
        assert |t| == 2 && t[0] == '.' && t[1] == '*';
        assert Atoms("*") == [AnyRun];
        assert ParseStep(t) == Some((AnyRun, 2));
        assert t[2..] == [] && t != "$";
        assert ParseAtoms(t[2..]) == Some(([], false));
        assert [AnyRun] + [] == [AnyRun];
        assert ParseAtoms(t) == Some(([AnyRun], false));
      }
    } else if Plain(w) {
      WrittenAgreesOnPlain(w);
    } else {
      WrittenAgreesOnLiteral(w);
    }
  }

  /** `*` matches every name. */
  lemma StarMatchesAll(name: string)
    ensures WildcardMatches("*", name)
  {
    assert Atoms("*") == [AnyRun];
    assert MatchAtoms([AnyRun], name[0..0], false) by {
      assert MatchAtoms([AnyRun][1..], "", false);
    }
  }

  lemma {:induction false} MatchLiterals(w: string, t: string)
    requires forall j :: 0 <= j < |w| ==> w[j] !in Specials
    ensures MatchAtoms(Atoms(w), t, true) <==> EqualsIgnoreCase(t, w)
  {
    if w == [] {
      if t != [] {
        assert |Fold(t)| != |Fold(w)|;
      }
    } else {
      assert Atoms(w)[0] == Lit(w[0]) && Atoms(w)[1..] == Atoms(w[1..]);
      MatchLiterals(w[1..], if |t| > 0 then t[1..] else t);
      if |t| > 0 {
        assert Fold(t) == [FoldChar(t[0])] + Fold(t[1..]);
        assert Fold(w) == [FoldChar(w[0])] + Fold(w[1..]);
      } else {
        assert |Fold(t)| != |Fold(w)|;
      }
    }
  }

  /** A wildcard with no wildcard character matches exactly the names equal
      to it ignoring case, with or without a final newline. */
  lemma LiteralMatches(w: string, name: string)
    requires w != [] && forall j :: 0 <= j < |w| ==> w[j] !in Specials
    ensures WildcardMatches(w, name) <==>
      EqualsIgnoreCase(name, w) || (|name| > 0 && name[|name| - 1] == '\n' && EqualsIgnoreCase(name[..|name| - 1], w))
  {
    var r := Intended(w);
    assert r.startAnchor && r.endAnchor;
    assert FromWildcardFixed(w).ignoreCase;
    if WildcardMatches(w, name) {
      var i, j :| 0 <= i <= j <= |name| && i == 0 && EndsAt(name, j) && MatchAtoms(r.atoms, name[i..j], true);
      MatchLiterals(w, name[i..j]);
      if j == |name| {
        assert name[i..j] == name;
      }
    } else {
      MatchLiterals(w, name);
      assert name[0..|name|] == name;
      if |name| > 0 && name[|name| - 1] == '\n' {
        MatchLiterals(w, name[..|name| - 1]);
        assert name[0..|name| - 1] == name[..|name| - 1];
      }
    }
  }
}

=== FILE: wrappers.dfy ===
/** Failure-compatible wrappers shared by every module, and the exception
    kinds the modelled code raises. */
module Wrappers {

  datatype Option<+T> = None | Some(value: T) {
    predicate IsFailure() { None? }

    function PropagateFailure<U>(): Option<U>
      requires None?
    {
      None
    }

    function Extract(): T
      requires Some?
    {
      value
    }

    function GetOr(default: T): T {
      match this
      case Some(v) => v
      case None => default
    }
  }

  /** The .NET exception types the modelled code throws or lets through.
      Messages are kept only where a caller can observe them. */
  datatype Error =
    | ArgumentError(message: string)      // ArgumentException / ArgumentNullException
    | InvalidOperation(message: string)   // InvalidOperationException
    | InvalidData(message: string)        // InvalidDataException
    | FileNotFound(message: string)       // FileNotFoundException
    | XmlError                            // XmlException: a malformed document or name
    | CorruptArchive                      // InvalidDataException while opening a ZIP archive
    | FormatError                         // FormatException
    | OverflowError                       // OverflowException
    | IndexOutOfRange                     // IndexOutOfRangeException
    | IOError(message: string)            // IOException

  datatype Result<+R> = Success(value: R) | Failure(error: Error) {
    predicate IsFailure() { Failure? }

    function PropagateFailure<U>(): Result<U>
      requires Failure?
    {
      Failure(error)
    }

    function Extract(): R
      requires Success?
    {
      value
    }
  }
}

=== FILE: xml.dfy ===
/** The slice of LINQ to XML the manifest code uses: a namespaced element
    tree with ordered attributes and ordered children.  An element's `text`
    stands for its character data (its `Value`); mixed content is not
    modelled.  Nested elements are addressed by paths of child indexes. */
module Xml {
  import opened Wrappers
  import opened Text

  /** Namespace of every `xmlns:prefix` declaration attribute. */
  const XmlnsUri: string := "http://www.w3.org/2000/xmlns/"

  datatype QName = QName(ns: string, local: string)

  datatype Attr = Attr(name: QName, value: string)

  datatype Element = Element(name: QName, attrs: seq<Attr>, children: seq<Element>, text: string)

  /** An `XDocument`; its root may be absent. */
  datatype Document = Document(root: Option<Element>)

  /** An attribute name outside any namespace, such as `Name` or `Version`. */
  function Plain(local: string): QName { QName("", local) }

  /** The name of the `xmlns:prefix` declaration attribute. */
  function XmlnsName(prefix: string): QName { QName(XmlnsUri, prefix) }

  /** The name of the default-namespace declaration attribute `xmlns`. */
  const DefaultXmlnsName: QName := Plain("xmlns")

  function NewElement(name: QName): Element { Element(name, [], [], "") }

  // ---------------------------------------------------------------------
  // Attributes

  function AttrIndex(attrs: seq<Attr>, n: QName): (r: Option<nat>)
    ensures r.Some? ==> r.value < |attrs| && attrs[r.value].name == n
    ensures r.Some? ==> forall j :: 0 <= j < r.value ==> attrs[j].name != n
    ensures r.None? ==> forall j :: 0 <= j < |attrs| ==> attrs[j].name != n
  {
    if |attrs| == 0 then None
    else if attrs[0].name == n then Some(0)
    else match AttrIndex(attrs[1..], n)
      case None => None
      case Some(k) => Some(k + 1)
  }

  /** `element.Attribute(name)?.Value`. */
  function Attribute(e: Element, n: QName): Option<string> {
    match AttrIndex(e.attrs, n)
    case None => None
    case Some(k) => Some(e.attrs[k].value)
  }

  predicate HasAttribute(e: Element, n: QName) {
    AttrIndex(e.attrs, n).Some?
  }

  /** No two attributes of the element share a name, as LINQ to XML enforces. */
  predicate UniqueAttrs(e: Element) {
    forall i, j :: 0 <= i < j < |e.attrs| ==> e.attrs[i].name != e.attrs[j].name
  }

  /** `element.SetAttributeValue(name, value)` (and `attr.Value = value`):
      overwrite in place when present, otherwise append. */
  function SetAttributeValue(e: Element, n: QName, v: string): (r: Element)
    ensures Attribute(r, n) == Some(v)
    ensures forall m :: m != n ==> Attribute(r, m) == Attribute(e, m)
    ensures r.name == e.name && r.children == e.children && r.text == e.text
    ensures UniqueAttrs(e) ==> UniqueAttrs(r)
    ensures HasAttribute(e, n) ==> |r.attrs| == |e.attrs|
    ensures !HasAttribute(e, n) ==> r.attrs == e.attrs + [Attr(n, v)]
  {
    match AttrIndex(e.attrs, n)
    case Some(k) =>
      var r := e.(attrs := e.attrs[k := Attr(n, v)]);
      assert AttrIndex(r.attrs, n) == Some(k) by { AttrIndexPrefix(e.attrs, r.attrs, n, k); }
      forall m | m != n ensures Attribute(r, m) == Attribute(e, m) {
        AttrIndexOther(e.attrs, k, Attr(n, v), m);
      }
      r
    case None =>
      var r := e.(attrs := e.attrs + [Attr(n, v)]);
      assert AttrIndex(r.attrs, n) == Some(|e.attrs|) by { AttrIndexPrefix(e.attrs, r.attrs, n, |e.attrs|); }
      forall m | m != n ensures Attribute(r, m) == Attribute(e, m) {
        AttrIndexAppend(e.attrs, Attr(n, v), m);
      }
      r
  }

  lemma {:induction false} AttrIndexPrefix(a: seq<Attr>, b: seq<Attr>, n: QName, k: nat)
    requires k < |b| && b[k].name == n && k <= |a|
    requires forall j :: 0 <= j < k ==> a[j].name != n && b[j] == a[j]
    ensures AttrIndex(b, n) == Some(k)
    decreases k
  {
    if k > 0 {
      AttrIndexPrefix(a[1..], b[1..], n, k - 1);
    }
  }

  lemma {:induction false} AttrIndexOther(a: seq<Attr>, k: nat, x: Attr, m: QName)
    requires k < |a| && a[k].name == x.name && x.name != m
    ensures AttrIndex(a[k := x], m) == AttrIndex(a, m)
    ensures AttrIndex(a, m).Some? ==> a[k := x][AttrIndex(a, m).value] == a[AttrIndex(a, m).value]
    decreases k
  {
    if k > 0 {
      assert a[k := x][1..] == a[1..][k - 1 := x];
      AttrIndexOther(a[1..], k - 1, x, m);
    }
  }

  lemma {:induction false} AttrIndexAppend(a: seq<Attr>, x: Attr, m: QName)
    requires x.name != m
    ensures AttrIndex(a + [x], m) == AttrIndex(a, m)
    decreases |a|
  {
    if |a| > 0 {
      assert (a + [x])[1..] == a[1..] + [x];
      AttrIndexAppend(a[1..], x, m);
    }
  }

  /** `element.Add(new XAttribute(name, value))`: LINQ to XML refuses a
      second attribute with the same name. */
  function AddAttribute(e: Element, n: QName, v: string): (r: Result<Element>)
    ensures HasAttribute(e, n) <==> r.Failure?
    ensures r.Failure? ==> r.error.InvalidOperation?
    ensures r.Success? ==> r.value == SetAttributeValue(e, n, v)
    ensures r.Success? ==> r.value.attrs == e.attrs + [Attr(n, v)]
  {
    if HasAttribute(e, n) then Failure(InvalidOperation("Duplicate attribute."))
    else Success(SetAttributeValue(e, n, v))
  }

  // ---------------------------------------------------------------------
  // Namespace declarations on an element

  /** `element.GetDefaultNamespace().NamespaceName` for a root element. */
  function DefaultNamespace(e: Element): string {
    Attribute(e, DefaultXmlnsName).GetOr("")
  }

  function PrefixIn(attrs: seq<Attr>, uri: string): (r: Option<string>)
    ensures r.Some? ==> exists i :: 0 <= i < |attrs| && attrs[i].name == XmlnsName(r.value) && attrs[i].value == uri
    ensures r.None? ==> forall i :: 0 <= i < |attrs| ==> !(attrs[i].name.ns == XmlnsUri && attrs[i].value == uri)
  {
    if |attrs| == 0 then None
    else if attrs[0].name.ns == XmlnsUri && attrs[0].value == uri then Some(attrs[0].name.local)
    else
      var r := PrefixIn(attrs[1..], uri);
      assert forall i :: 1 <= i < |attrs| ==> attrs[i] == attrs[1..][i - 1];
      r
  }

  /** `element.GetPrefixOfNamespace(uri)` for a root element: the first
      `xmlns:p` declaration whose value is `uri`. The predefined `xml`
      prefix of the XML namespace is not modelled; only the fixed manifest
      namespace URIs are looked up. */
  function PrefixOfNamespace(e: Element, uri: string): Option<string> {
    PrefixIn(e.attrs, uri)
  }

  /** Setting an attribute that is not a prefix declaration keeps every
      namespace lookup. */
  lemma SetAttributeKeepsPrefixes(e: Element, n: QName, v: string, uri: string)
    requires n.ns != XmlnsUri
    ensures PrefixOfNamespace(SetAttributeValue(e, n, v), uri) == PrefixOfNamespace(e, uri)
  {
    match AttrIndex(e.attrs, n)
    case Some(k) => PrefixInSetOther(e.attrs, k, Attr(n, v), uri);
    case None => PrefixInAppendOther(e.attrs, Attr(n, v), uri);
  }

  lemma PrefixInAppend(a: seq<Attr>, x: Attr, uri: string)
    requires PrefixIn(a, uri).Some?
    ensures PrefixIn(a + [x], uri) == PrefixIn(a, uri)
  {
    if |a| > 0 && !(a[0].name.ns == XmlnsUri && a[0].value == uri) {
      assert (a + [x])[1..] == a[1..] + [x];
      PrefixInAppend(a[1..], x, uri);
    }
  }

  lemma PrefixInAppendNew(a: seq<Attr>, prefix: string, uri: string)
    requires PrefixIn(a, uri).None?
    ensures PrefixIn(a + [Attr(XmlnsName(prefix), uri)], uri) == Some(prefix)
  {
    if |a| > 0 {
      assert (a + [Attr(XmlnsName(prefix), uri)])[1..] == a[1..] + [Attr(XmlnsName(prefix), uri)];
      PrefixInAppendNew(a[1..], prefix, uri);
    }
  }

  /** Overwriting a plain (non-declaration) attribute keeps every namespace
      lookup unchanged. */
  lemma PrefixInSetOther(a: seq<Attr>, k: nat, x: Attr, uri: string)
    requires k < |a| && a[k].name.ns != XmlnsUri && x.name.ns != XmlnsUri
    ensures PrefixIn(a[k := x], uri) == PrefixIn(a, uri)
  {
    if |a| > 0 && k > 0 {
      assert a[k := x][1..] == a[1..][k - 1 := x];
      PrefixInSetOther(a[1..], k - 1, x, uri);
    }
  }

  lemma PrefixInAppendOther(a: seq<Attr>, x: Attr, uri: string)
    requires x.name.ns != XmlnsUri
    ensures PrefixIn(a + [x], uri) == PrefixIn(a, uri)
  {
    if |a| > 0 {
      assert (a + [x])[1..] == a[1..] + [x];
      PrefixInAppendOther(a[1..], x, uri);
    }
  }

  // ---------------------------------------------------------------------
  // Children

  /** Index of the first direct child named `n` (`element.Element(n)`). */
  function ChildIndex(cs: seq<Element>, n: QName): (r: Option<nat>)
    ensures r.Some? ==> r.value < |cs| && cs[r.value].name == n
    ensures r.Some? ==> forall j :: 0 <= j < r.value ==> cs[j].name != n
    ensures r.None? ==> forall j :: 0 <= j < |cs| ==> cs[j].name != n
  {
    if |cs| == 0 then None
    else if cs[0].name == n then Some(0)
    else match ChildIndex(cs[1..], n)
      case None => None
      case Some(k) => Some(k + 1)
  }

  lemma ChildIndexAppend(cs: seq<Element>, x: Element, n: QName)
    requires ChildIndex(cs, n).None? && x.name == n
    ensures ChildIndex(cs + [x], n) == Some(|cs|)
  {
    if |cs| > 0 {
      assert (cs + [x])[1..] == cs[1..] + [x];
      ChildIndexAppend(cs[1..], x, n);
    }
  }

  lemma ChildIndexUpdate(cs: seq<Element>, k: nat, x: Element, n: QName)
    requires ChildIndex(cs, n) == Some(k) && x.name == n
    ensures ChildIndex(cs[k := x], n) == Some(k)
  {
    if k > 0 {
      assert cs[k := x][1..] == cs[1..][k - 1 := x];
      ChildIndexUpdate(cs[1..], k - 1, x, n);
    }
  }

  /** `element.Element(n)`: the first direct child named `n`. */
  function Child(e: Element, n: QName): (r: Option<Element>)
    ensures r.Some? ==> r.value in e.children && r.value.name == n
    ensures r.None? <==> forall j :: 0 <= j < |e.children| ==> e.children[j].name != n
  {
    match ChildIndex(e.children, n)
    case None => None
    case Some(k) => Some(e.children[k])
  }

  /** The element with a direct child named `qn` (an empty one appended
      when there was none) and the index of the first such child. */
  function EnsureChild(root: Element, qn: QName): (r: (Element, nat))
    ensures r.1 < |r.0.children| && ChildIndex(r.0.children, qn) == Some(r.1)
    ensures r.0.name == root.name && r.0.attrs == root.attrs && r.0.text == root.text
    ensures ChildIndex(root.children, qn).Some? ==> r == (root, ChildIndex(root.children, qn).value)
    ensures ChildIndex(root.children, qn).None? ==>
      r.0.children == root.children + [NewElement(qn)] && r.1 == |root.children|
  {
    match ChildIndex(root.children, qn)
    case Some(i) => (root, i)
    case None =>
      ChildIndexAppend(root.children, NewElement(qn), qn);
      (AppendChild(root, NewElement(qn)), |root.children|)
  }

  /** The direct children named `n`, in order (`element.Elements(n)`). */
  function ChildrenNamed(cs: seq<Element>, n: QName): (r: seq<Element>)
    ensures forall x :: x in r ==> x in cs && x.name == n
    ensures forall x :: x in cs && x.name == n ==> x in r
  {
    if |cs| == 0 then []
    else if cs[0].name == n then [cs[0]] + ChildrenNamed(cs[1..], n)
    else ChildrenNamed(cs[1..], n)
  }

  function AppendChild(e: Element, c: Element): (r: Element)
    ensures r.children == e.children + [c]
    ensures r.name == e.name && r.attrs == e.attrs && r.text == e.text
  {
    e.(children := e.children + [c])
  }

  function PrependChild(e: Element, c: Element): (r: Element)
    ensures r.children == [c] + e.children
    ensures r.name == e.name && r.attrs == e.attrs && r.text == e.text
  {
    e.(children := [c] + e.children)
  }

  /** `element.Value = v`: all content is replaced by the text `v`. */
  function SetValue(e: Element, v: string): (r: Element)
    ensures r.text == v && r.children == []
    ensures r.name == e.name && r.attrs == e.attrs
  {
    e.(children := [], text := v)
  }

  // ---------------------------------------------------------------------
  // Paths and document-order search

  type Path = seq<nat>

  predicate ValidPath(e: Element, p: Path)
    decreases |p|
  {
    |p| == 0 || (p[0] < |e.children| && ValidPath(e.children[p[0]], p[1..]))
  }

  function At(e: Element, p: Path): Element
    requires ValidPath(e, p)
    decreases |p|
  {
    if |p| == 0 then e else At(e.children[p[0]], p[1..])
  }

  /** The tree with the element at `p` replaced by `x`. */
  function Update(e: Element, p: Path, x: Element): (r: Element)
    requires ValidPath(e, p)
    ensures ValidPath(r, p) && At(r, p) == x
    ensures |p| > 0 ==> r.name == e.name && r.attrs == e.attrs && |r.children| == |e.children|
    ensures |p| > 0 ==> forall j :: 0 <= j < |e.children| && j != p[0] ==> r.children[j] == e.children[j]
    decreases |p|
  {
    if |p| == 0 then x
    else
      var c := Update(e.children[p[0]], p[1..], x);
      e.(children := e.children[p[0] := c])
  }

  /** First element, in document order, whose name satisfies `m`; the
      element itself comes before its children. */
  function FindFirst(e: Element, m: QName -> bool): (r: Option<Path>)
    ensures r.Some? ==> ValidPath(e, r.value) && m(At(e, r.value).name)
    decreases e, 1
  {
    if m(e.name) then Some([]) else FindFirstIn(e.children, m, 0)
  }

  /** First match, in document order, inside `cs[i..]` and their subtrees. */
  function FindFirstIn(cs: seq<Element>, m: QName -> bool, i: nat): (r: Option<Path>)
    ensures r.Some? ==>
      (|r.value| >= 1 && i <= r.value[0] < |cs|
       && ValidPath(cs[r.value[0]], r.value[1..]) && m(At(cs[r.value[0]], r.value[1..]).name))
    decreases cs, 0, |cs| - i
  {
    if i >= |cs| then None
    else match FindFirst(cs[i], m)
      case Some(p) => Some([i] + p)
      case None => FindFirstIn(cs, m, i + 1)
  }

  /** Replacing the element at the first match by one with the same name
      leaves the first match where it was. */
  lemma {:induction false} FindFirstStable(e: Element, m: QName -> bool, p: Path, x: Element)
    requires FindFirst(e, m) == Some(p) && x.name == At(e, p).name
    ensures ValidPath(e, p) && FindFirst(Update(e, p, x), m) == Some(p)
    decreases e, 1
  {
    if |p| > 0 {
      assert !m(e.name);
      FindFirstInStable(e.children, m, 0, p, x);
    }
  }

  lemma {:induction false} FindFirstInStable(cs: seq<Element>, m: QName -> bool, i: nat, p: Path, x: Element)
    requires FindFirstIn(cs, m, i) == Some(p)
    requires x.name == At(cs[p[0]], p[1..]).name
    ensures FindFirstIn(cs[p[0] := Update(cs[p[0]], p[1..], x)], m, i) == Some(p)
    decreases cs, 0, |cs| - i
  {
    var cs' := cs[p[0] := Update(cs[p[0]], p[1..], x)];
    if FindFirst(cs[i], m).Some? {
      assert p == [i] + FindFirst(cs[i], m).value;
      FindFirstStable(cs[i], m, p[1..], x);
      assert cs'[i] == Update(cs[i], p[1..], x);
    } else {
      assert i < p[0];
      assert cs'[i] == cs[i];
      FindFirstInStable(cs, m, i + 1, p, x);
    }
  }

  /** Appending a matching child to children that hold no match makes it
      the first match. */
  lemma {:induction false} FindFirstInAppend(cs: seq<Element>, m: QName -> bool, i: nat, x: Element)
    requires FindFirstIn(cs, m, i).None? && m(x.name) && i <= |cs|
    ensures FindFirstIn(cs + [x], m, i) == Some([|cs|])
    decreases |cs| - i
  {
    var cs' := cs + [x];
    if i < |cs| {
      assert cs'[i] == cs[i];
      FindFirstInAppend(cs, m, i + 1, x);
    } else {
      assert cs'[i] == x;
      assert FindFirst(x, m) == Some([]);
      assert [i] + [] == [|cs|];
    }
  }

  /** An element whose children are unchanged has the same paths, and
      below itself the same elements at them. */
  lemma SameChildrenSamePaths(e: Element, r: Element, p: Path)
    requires r.children == e.children && ValidPath(e, p)
    ensures ValidPath(r, p) && (|p| > 0 ==> At(r, p) == At(e, p))
  {
  }

  /** Changing an element's attributes does not move any match. */
  lemma FindFirstIgnoresAttrs(e: Element, m: QName -> bool, attrs: seq<Attr>)
    ensures FindFirst(e.(attrs := attrs), m) == FindFirst(e, m)
  {
  }
}

=== FILE: zip_reader.dfy ===
/** `ZipArchiveFileReaderAdapter`: file and directory queries over the
    entries of a package archive. An archive is its entries in archive
    order; entry names use `/`, callers may use `\`. */
module ZipReader {
  import opened Wrappers
  import opened Text
  import opened Paths
  import opened Wildcard

  datatype Entry = Entry(fullName: string, length: nat)

  type Archive = seq<Entry>

  /** `AppxFileInfo`: a listed file's path, with `\` separators, and size. */
  datatype FileInfo = FileInfo(fullPath: string, size: nat)

  datatype SearchOption = TopDirectoryOnly | AllDirectories

  function ToArchivePath(p: string): string { ReplaceChar(p, '\\', '/') }

  function ToWindowsPath(p: string): string { ReplaceChar(p, '/', '\\') }

  /** The root prefix of the enumerations: empty for no root, otherwise
      the root with `/` separators and exactly one trailing `/`. */
  function RootPrefix(root: Option<string>): (r: string)
    ensures r == "" || r[|r| - 1] == '/'
  {
    if root.None? || root.value == "" then "" else TrimEndChar(ToArchivePath(root.value), '/') + "/"
  }

  // ---------------------------------------------------------------------
  // Files by name

  /** `ZipArchive.GetEntry`: the first entry with exactly this name. */
  function FirstExact(a: Archive, name: string): (r: Option<nat>)
    ensures r.Some? ==> r.value < |a| && a[r.value].fullName == name
    ensures r.Some? ==> forall j :: 0 <= j < r.value ==> a[j].fullName != name
    ensures r.None? ==> forall j :: 0 <= j < |a| ==> a[j].fullName != name
  {
    if a == [] then None
    else if a[0].fullName == name then Some(0)
    else match FirstExact(a[1..], name)
      case None => None
      case Some(k) => Some(k + 1)
  }

  /** The first entry with this name ignoring case. */
  function FirstIgnoreCase(a: Archive, name: string): (r: Option<nat>)
    ensures r.Some? ==> r.value < |a| && EqualsIgnoreCase(a[r.value].fullName, name)
    ensures r.Some? ==> forall j :: 0 <= j < r.value ==> !EqualsIgnoreCase(a[j].fullName, name)
    ensures r.None? ==> forall j :: 0 <= j < |a| ==> !EqualsIgnoreCase(a[j].fullName, name)
  {
    if a == [] then None
    else if EqualsIgnoreCase(a[0].fullName, name) then Some(0)
    else match FirstIgnoreCase(a[1..], name)
      case None => None
      case Some(k) => Some(k + 1)
  }

  /** The entry `GetFile` opens: the exact match, else the first match
      ignoring case. */
  function FindEntry(a: Archive, path: string): Option<nat> {
    var name := ToArchivePath(path);
    match FirstExact(a, name)
    case Some(i) => Some(i)
    case None => FirstIgnoreCase(a, name)
  }

  /** `FileExists`. */
  predicate FileExists(a: Archive, path: string) {
    var name := ToArchivePath(path);
    path != "" && (FirstExact(a, name).Some? || exists i :: 0 <= i < |a| && EqualsIgnoreCase(name, a[i].fullName))
  }

  /** `GetFile`, up to opening the entry. */
  function GetFile(a: Archive, path: string): (r: Result<Entry>)
    ensures path == "" ==> r == Failure(ArgumentError("filePath"))
  {
    if path == "" then Failure(ArgumentError("filePath"))
    else match FindEntry(a, path)
      case None => Failure(FileNotFound("File " + path + " not found in MSIX package."))
      case Some(i) => Success(a[i])
  }

  /** A file exists exactly when some entry has its name ignoring case; the
      exact lookup only picks which entry is opened. */
  lemma FileExistsMeaning(a: Archive, path: string)
    ensures FileExists(a, path) <==>
      path != "" && exists i :: 0 <= i < |a| && EqualsIgnoreCase(a[i].fullName, ToArchivePath(path))
  {
    var name := ToArchivePath(path);
    match FirstExact(a, name)
    case None =>
    case Some(i) => assert EqualsIgnoreCase(a[i].fullName, name);
  }

  /** `GetFile` opens an entry exactly when `FileExists` holds: the entry
      with the exact name when there is one, otherwise the first with the
      name ignoring case; otherwise it fails with the path in the message. */
  lemma GetFileMeaning(a: Archive, path: string)
    ensures var r := GetFile(a, path);
      && (r.Success? <==> FileExists(a, path))
      && (r.Success? ==> EqualsIgnoreCase(r.value.fullName, ToArchivePath(path)) && r.value in a)
      && (r.Success? && (exists i :: 0 <= i < |a| && a[i].fullName == ToArchivePath(path)) ==>
            r.value.fullName == ToArchivePath(path))
      && (path != "" && !FileExists(a, path) ==>
            r == Failure(FileNotFound("File " + path + " not found in MSIX package.")))
  {
    FileExistsMeaning(a, path);
    var name := ToArchivePath(path);
    if path != "" {
      match FirstExact(a, name)
      case Some(i) => assert EqualsIgnoreCase(a[i].fullName, name);
      case None =>
        if FileExists(a, path) {
          var i :| 0 <= i < |a| && EqualsIgnoreCase(a[i].fullName, name);
        }
    }
  }

  // ---------------------------------------------------------------------
  // Directories

  /** The prefix `DirectoryExists` looks for. */
  function DirPrefix(path: string): string {
    TrimEndChar(ToArchivePath(path), '/') + "/"
  }

  /** `DirectoryExists`. */
  predicate DirectoryExists(a: Archive, path: string) {
    path != "" && exists i :: 0 <= i < |a| && StartsWithIgnoreCase(a[i].fullName, DirPrefix(path))
  }

  /** The directory an entry contributes to `EnumerateDirectories`: its
      name up to the first `/` after the root prefix. */
  function Candidate(e: Entry, prefix: string): (r: Option<string>)
    ensures r.Some? ==> StartsWithIgnoreCase(e.fullName, prefix)
    ensures r.Some? ==> |prefix| <= |r.value| < |e.fullName| && r.value == e.fullName[..|r.value|]
    ensures r.Some? ==> e.fullName[|r.value|] == '/'
    ensures r.Some? ==> forall j :: |prefix| <= j < |r.value| ==> r.value[j] != '/'
  {
    if !StartsWithIgnoreCase(e.fullName, prefix) then None
    else match IndexOfChar(e.fullName, '/', |prefix|)
      case None => None
      case Some(k) => Some(e.fullName[..k])
  }

  /** The loop of `EnumerateDirectories`: `seen` holds the case-folded
      directories already produced. */
  function Directories(entries: seq<Entry>, prefix: string, seen: set<string>): seq<string>
    decreases |entries|
  {
    if entries == [] then []
    else match Candidate(entries[0], prefix)
      case None => Directories(entries[1..], prefix, seen)
      case Some(c) =>
        if Fold(c) in seen then Directories(entries[1..], prefix, seen)
        else [c] + Directories(entries[1..], prefix, seen + {Fold(c)})
  }

  /** `EnumerateDirectories`. */
  function EnumerateDirectories(a: Archive, root: Option<string>): (r: seq<string>)
    ensures |r| == |Directories(a, RootPrefix(root), {})|
    ensures forall k :: 0 <= k < |r| ==> r[k] == ToWindowsPath(Directories(a, RootPrefix(root), {})[k])
  {
    var cs := Directories(a, RootPrefix(root), {});
    seq(|cs|, k requires 0 <= k < |cs| => ToWindowsPath(cs[k]))
  }

  /** Entry `e` gives a directory equal to `f` after case folding. */
  predicate GivesFold(e: Entry, prefix: string, f: string) {
    Candidate(e, prefix).Some? && Fold(Candidate(e, prefix).value) == f
  }

  /** Entry `i` gives directory `c`, and no earlier entry gives one equal to
      it ignoring case. */
  predicate FirstGiving(entries: seq<Entry>, prefix: string, i: int, c: string) {
    && 0 <= i < |entries| && Candidate(entries[i], prefix) == Some(c)
    && forall j :: 0 <= j < i ==> !GivesFold(entries[j], prefix, Fold(c))
  }

  /** Some entry is the first giving directory `c`. */
  predicate FirstGiven(entries: seq<Entry>, prefix: string, c: string) {
    exists i :: 0 <= i < |entries| && FirstGiving(entries, prefix, i, c)
  }

  /** The folded directory `f` was seen before or is among `r`. */
  predicate Covered(r: seq<string>, seen: set<string>, f: string) {
    f in seen || exists k :: 0 <= k < |r| && Fold(r[k]) == f
  }

  lemma DirectoriesStep(entries: seq<Entry>, prefix: string, seen: set<string>)
    requires entries != []
    ensures var head := Candidate(entries[0], prefix);
      var added := head.Some? && Fold(head.value) !in seen;
      Directories(entries, prefix, seen)
        == (if added then [head.value] else [])
           + Directories(entries[1..], prefix, if added then seen + {Fold(head.value)} else seen)
  {
  }

  /** No directory is produced twice, even ignoring case, nor one already
      seen. */
  lemma {:induction false} DirectoriesFresh(entries: seq<Entry>, prefix: string, seen: set<string>)
    ensures var r := Directories(entries, prefix, seen);
      && (forall k :: 0 <= k < |r| ==> Fold(r[k]) !in seen)
      && (forall k, l :: 0 <= k < l < |r| ==> Fold(r[k]) != Fold(r[l]))
    decreases |entries|
  {
    if entries != [] {
      var head := Candidate(entries[0], prefix);
      var added := head.Some? && Fold(head.value) !in seen;
      var seen' := if added then seen + {Fold(head.value)} else seen;
      var rest := Directories(entries[1..], prefix, seen');
      DirectoriesStep(entries, prefix, seen);
      DirectoriesFresh(entries[1..], prefix, seen');
      if added {
        var r := [head.value] + rest;
        forall k | 0 <= k < |r| ensures Fold(r[k]) !in seen {
          if k > 0 {
            assert r[k] == rest[k - 1];
          }
        }
        forall k, l | 0 <= k < l < |r| ensures Fold(r[k]) != Fold(r[l]) {
          assert r[l] == rest[l - 1];
          if k > 0 {
            assert r[k] == rest[k - 1];
          }
        }
      }
    }
  }

  /** The directory produced at `k` is given by some entry, the first
      giving it up to case. */
  lemma {:induction false} DirectoriesSoundAt(entries: seq<Entry>, prefix: string, seen: set<string>, k: nat)
    requires k < |Directories(entries, prefix, seen)|
    ensures exists i :: FirstGiving(entries, prefix, i, Directories(entries, prefix, seen)[k])
    decreases |entries|
  {
    var r := Directories(entries, prefix, seen);
    var head := Candidate(entries[0], prefix);
    var added := head.Some? && Fold(head.value) !in seen;
    var seen' := if added then seen + {Fold(head.value)} else seen;
    var rest := Directories(entries[1..], prefix, seen');
    DirectoriesStep(entries, prefix, seen);
    if added && k == 0 {
      assert FirstGiving(entries, prefix, 0, r[k]);
    } else {
      var k' := if added then k - 1 else k;
      assert r[k] == rest[k'];
      var c := rest[k'];
      DirectoriesSoundAt(entries[1..], prefix, seen', k');
      DirectoriesFresh(entries[1..], prefix, seen');
      var i' :| FirstGiving(entries[1..], prefix, i', c);
      assert Fold(c) !in seen';
      forall j | 0 <= j < i' + 1 ensures !GivesFold(entries[j], prefix, Fold(c)) {
        if j > 0 {
          assert entries[j] == entries[1..][j - 1];
        }
      }
      assert FirstGiving(entries, prefix, i' + 1, c);
    }
  }

  /** Every directory produced is given by some entry, the first giving it
      up to case. */
  lemma DirectoriesSound(entries: seq<Entry>, prefix: string, seen: set<string>)
    ensures var r := Directories(entries, prefix, seen);
      forall k :: 0 <= k < |r| ==> FirstGiven(entries, prefix, r[k])
  {
    forall k | 0 <= k < |Directories(entries, prefix, seen)|
      ensures FirstGiven(entries, prefix, Directories(entries, prefix, seen)[k])
    {
      DirectoriesSoundAt(entries, prefix, seen, k);
    }
  }

  /** Every entry's directory is produced, or was seen before, up to case. */
  lemma {:induction false} DirectoriesComplete(entries: seq<Entry>, prefix: string, seen: set<string>)
    ensures var r := Directories(entries, prefix, seen);
      forall i :: 0 <= i < |entries| && Candidate(entries[i], prefix).Some? ==>
        Covered(r, seen, Fold(Candidate(entries[i], prefix).value))
    decreases |entries|
  {
    if entries != [] {
      var r := Directories(entries, prefix, seen);
      var head := Candidate(entries[0], prefix);
      var added := head.Some? && Fold(head.value) !in seen;
      var seen' := if added then seen + {Fold(head.value)} else seen;
      var rest := Directories(entries[1..], prefix, seen');
      DirectoriesStep(entries, prefix, seen);
      DirectoriesComplete(entries[1..], prefix, seen');
      forall i | 0 <= i < |entries| && Candidate(entries[i], prefix).Some?
        ensures Covered(r, seen, Fold(Candidate(entries[i], prefix).value))
      {
        var f := Fold(Candidate(entries[i], prefix).value);
        if added && f == Fold(head.value) {
          assert Fold(r[0]) == f;
        } else if f !in seen {
          assert entries[i] == entries[1..][i - 1];
          assert Covered(rest, seen', f);
          var k :| 0 <= k < |rest| && Fold(rest[k]) == f;
          var k' := if added then k + 1 else k;
          assert r[k'] == rest[k];
        }
      }
    }
  }

  /** The directories listed: each is, with `\` separators, the name of an
      entry up to the first `/` after the root prefix, taken from the first
      entry giving that directory; every entry's directory is listed up to
      case; no two listed directories are the same ignoring case. */
  lemma EnumerateDirectoriesMeaning(a: Archive, root: Option<string>)
    ensures var p := RootPrefix(root);
      var cs := Directories(a, p, {});
      && (forall k :: 0 <= k < |cs| ==> FirstGiven(a, p, cs[k]))
      && (forall i :: 0 <= i < |a| && Candidate(a[i], p).Some? ==>
            exists k :: 0 <= k < |cs| && EqualsIgnoreCase(cs[k], Candidate(a[i], p).value))
      && (forall k, l :: 0 <= k < l < |cs| ==> !EqualsIgnoreCase(cs[k], cs[l]))
  {
    var p := RootPrefix(root);
    var cs := Directories(a, p, {});
    DirectoriesSound(a, p, {});
    DirectoriesComplete(a, p, {});
    DirectoriesFresh(a, p, {});
    forall i | 0 <= i < |a| && Candidate(a[i], p).Some?
      ensures exists k :: 0 <= k < |cs| && EqualsIgnoreCase(cs[k], Candidate(a[i], p).value)
    {
      assert Covered(cs, {}, Fold(Candidate(a[i], p).value));
    }
  }

  // ---------------------------------------------------------------------
  // Files by wildcard

  /** The name an entry is matched by in `EnumerateFiles`: what follows
      the last `/` after the root prefix. */
  function BaseName(fullName: string, prefix: string): (r: string)
    requires |prefix| <= |fullName|
    ensures |r| <= |fullName| - |prefix| && r == fullName[|fullName| - |r|..]
    ensures '/' !in r
  {
    var rest := fullName[|prefix|..];
    match LastIndexOfChar(rest, '/')
    case None => rest
    case Some(k) => rest[k + 1..]
  }

  /** The name as written: the position of the last `/` is found in the
      name without the root prefix but used in the full name. */
  function BaseNameAsWritten(fullName: string, prefix: string): string
    requires |prefix| <= |fullName|
  {
    var rest := fullName[|prefix|..];
    match LastIndexOfChar(rest, '/')
    case None => rest
    case Some(k) => fullName[k + 1..]
  }

  /** How the listing picks and matches the name of an entry: as the
      program does, or with the name and the pattern corrected. */
  datatype Reading = AsWritten | Corrected

  /** The name an entry is matched by. */
  function MatchName(reading: Reading, fullName: string, prefix: string): string
    requires |prefix| <= |fullName|
  {
    if reading == AsWritten then BaseNameAsWritten(fullName, prefix) else BaseName(fullName, prefix)
  }

  /** Whether the wildcard's compiled pattern matches a name. */
  predicate NameMatches(reading: Reading, wildcard: string, name: string) {
    if reading == AsWritten then WrittenMatches(wildcard, name) else WildcardMatches(wildcard, name)
  }

  /** Whether `EnumerateFiles` yields an entry. */
  predicate Listed(e: Entry, prefix: string, wildcard: string, option: SearchOption, reading: Reading) {
    && StartsWithIgnoreCase(e.fullName, prefix)
    && (option == TopDirectoryOnly ==> IndexOfChar(e.fullName, '/', |prefix|).None?)
    && (wildcard == "" || NameMatches(reading, wildcard, MatchName(reading, e.fullName, prefix)))
  }

  function Info(e: Entry): FileInfo { FileInfo(ToWindowsPath(e.fullName), e.length) }

  /** The loop of `EnumerateFiles`. */
  function Files(entries: seq<Entry>, prefix: string, wildcard: string, option: SearchOption, reading: Reading): (r: seq<FileInfo>)
    ensures |r| <= |entries|
  {
    if entries == [] then []
    else
      var head := if Listed(entries[0], prefix, wildcard, option, reading) then [Info(entries[0])] else [];
      head + Files(entries[1..], prefix, wildcard, option, reading)
  }

  /** `EnumerateFiles(root, wildcard, option)`, as written. */
  function EnumerateFiles(a: Archive, root: Option<string>, wildcard: string, option: SearchOption): seq<FileInfo> {
    Files(a, RootPrefix(root), wildcard, option, AsWritten)
  }

  /** `EnumerateFiles` matching each entry's last segment against the
      wildcard's intended pattern. */
  function EnumerateFilesFixed(a: Archive, root: Option<string>, wildcard: string, option: SearchOption): seq<FileInfo> {
    Files(a, RootPrefix(root), wildcard, option, Corrected)
  }

  /** `EnumerateFiles(root)`: every file, top directory only. */
  function EnumerateTopFiles(a: Archive, root: Option<string>): seq<FileInfo> {
    EnumerateFiles(a, root, "*", TopDirectoryOnly)
  }

  /** A file is listed exactly when some entry is selected and it is that
      entry's path and size. */
  lemma {:induction false} FilesMembers(entries: seq<Entry>, prefix: string, wildcard: string, option: SearchOption,
                                        reading: Reading, x: FileInfo)
    ensures x in Files(entries, prefix, wildcard, option, reading) <==>
      exists i :: 0 <= i < |entries| && Listed(entries[i], prefix, wildcard, option, reading) && x == Info(entries[i])
    decreases |entries|
  {
    if entries != [] {
      FilesMembers(entries[1..], prefix, wildcard, option, reading, x);
      if exists i :: 0 <= i < |entries| && Listed(entries[i], prefix, wildcard, option, reading) && x == Info(entries[i]) {
        var i :| 0 <= i < |entries| && Listed(entries[i], prefix, wildcard, option, reading) && x == Info(entries[i]);
        if i > 0 {
          assert entries[i] == entries[1..][i - 1];
        }
      }
      if x in Files(entries[1..], prefix, wildcard, option, reading) {
        var i :| 0 <= i < |entries[1..]| && Listed(entries[1..][i], prefix, wildcard, option, reading) && x == Info(entries[1..][i]);
        assert entries[i + 1] == entries[1..][i];
      }
    }
  }

  /** Without a wildcard, every file directly under the root is listed. */
  lemma TopFilesMeaning(a: Archive, root: Option<string>, x: FileInfo)
    ensures var p := RootPrefix(root);
      x in EnumerateTopFiles(a, root) <==>
        exists i :: 0 <= i < |a| && StartsWithIgnoreCase(a[i].fullName, p)
          && IndexOfChar(a[i].fullName, '/', |p|).None? && x == Info(a[i])
  {
    var p := RootPrefix(root);
    FilesMembers(a, p, "*", TopDirectoryOnly, AsWritten, x);
    forall i | 0 <= i < |a| && StartsWithIgnoreCase(a[i].fullName, p)
      ensures WrittenMatches("*", BaseNameAsWritten(a[i].fullName, p))
    {
      StarMatchesAll(BaseNameAsWritten(a[i].fullName, p));
      WrittenMatchesAgree("*", BaseNameAsWritten(a[i].fullName, p));
    }
  }

  /** Wildcards that read as written the way they are meant to. */
  predicate ReadsAsMeant(w: string) {
    w == "" || w == "*" || Plain(w) || forall j :: 0 <= j < |w| ==> w[j] !in Specials
  }

  /** For such a wildcard, an entry is listed the same way as written and
      corrected, without a root or directly under it. */
  lemma ListedAgrees(e: Entry, prefix: string, w: string, option: SearchOption)
    requires ReadsAsMeant(w)
    requires prefix == "" || option == TopDirectoryOnly
    ensures Listed(e, prefix, w, option, AsWritten) <==> Listed(e, prefix, w, option, Corrected)
  {
    if StartsWithIgnoreCase(e.fullName, prefix) && (option == TopDirectoryOnly ==> IndexOfChar(e.fullName, '/', |prefix|).None?) {
      BaseNameAsWrittenAgrees(e.fullName, prefix);
      if w != "" {
        WrittenMatchesAgree(w, BaseName(e.fullName, prefix));
      }
    }
  }

  lemma {:induction false} FilesAgree(entries: seq<Entry>, prefix: string, w: string, option: SearchOption)
    requires ReadsAsMeant(w)
    requires prefix == "" || option == TopDirectoryOnly
    ensures Files(entries, prefix, w, option, AsWritten) == Files(entries, prefix, w, option, Corrected)
    decreases |entries|
  {
    if entries != [] {
      ListedAgrees(entries[0], prefix, w, option);
      FilesAgree(entries[1..], prefix, w, option);
    }
  }

  /** The listing as written is the corrected one for wildcards that read
      as meant, when there is no root or only the top directory is
      listed. */
  lemma ListingsAgree(a: Archive, root: Option<string>, w: string, option: SearchOption)
    requires ReadsAsMeant(w)
    requires RootPrefix(root) == "" || option == TopDirectoryOnly
    ensures EnumerateFiles(a, root, w, option) == EnumerateFilesFixed(a, root, w, option)
  {
    FilesAgree(a, RootPrefix(root), w, option);
  }

  /** A `/` matched ignoring case is a `/`. */
  lemma PrefixSlash(n: string, p: string)
    requires StartsWithIgnoreCase(n, p) && |p| > 0 && p[|p| - 1] == '/'
    ensures n[|p| - 1] == '/'
  {
    assert Fold(n[..|p|])[|p| - 1] == Fold(p)[|p| - 1];
  }

  /** What follows the last `/` of a name. */
  function LastSegment(n: string): string {
    match LastIndexOfChar(n, '/')
    case None => n
    case Some(k) => n[k + 1..]
  }

  /** The last `/` of a suffix of `n` is the last of `n`. */
  lemma LastSlashInSuffix(n: string, m: nat, k: nat)
    requires m <= |n| && LastIndexOfChar(n[m..], '/') == Some(k)
    ensures LastIndexOfChar(n, '/') == Some(m + k)
    ensures n[m..][k + 1..] == n[m + k + 1..]
  {
    var rest := n[m..];
    assert n[m + k] == rest[k];
    forall j | m + k < j < |n| ensures n[j] != '/' {
      assert n[j] == rest[j - m];
    }
  }

  /** A `/` just before a suffix without one is the last `/`. */
  lemma LastSlashBeforeSuffix(n: string, m: nat)
    requires 0 < m <= |n| && n[m - 1] == '/' && LastIndexOfChar(n[m..], '/').None?
    ensures LastIndexOfChar(n, '/') == Some(m - 1)
  {
    var rest := n[m..];
    forall j | m - 1 < j < |n| ensures n[j] != '/' {
      assert n[j] == rest[j - m];
    }
  }

  /** Under a root prefix, the name matched is the entry's last segment. */
  lemma BaseNameIsLastSegment(n: string, prefix: string)
    requires StartsWithIgnoreCase(n, prefix) && (prefix == "" || prefix[|prefix| - 1] == '/')
    ensures BaseName(n, prefix) == LastSegment(n)
  {
    var rest := n[|prefix|..];
    match LastIndexOfChar(rest, '/')
    case None =>
      if prefix != "" {
        PrefixSlash(n, prefix);
        NoSlashAfterPrefix(n, |prefix|);
      } else {
        assert rest == n;
      }
    case Some(k) =>
      SlashAfterPrefix(n, |prefix|, k);
  }

  /** Without a `/` after a prefix ending in one, the name's last segment
      is what follows the prefix. */
  lemma NoSlashAfterPrefix(n: string, m: nat)
    requires 0 < m <= |n| && n[m - 1] == '/' && LastIndexOfChar(n[m..], '/').None?
    ensures LastSegment(n) == n[m..]
  {
    LastSlashBeforeSuffix(n, m);
  }

  /** With a `/` after a prefix, the name's last segment follows the last
      `/` after the prefix. */
  lemma SlashAfterPrefix(n: string, m: nat, k: nat)
    requires m <= |n| && LastIndexOfChar(n[m..], '/') == Some(k)
    ensures LastSegment(n) == n[m..][k + 1..]
  {
    LastSlashInSuffix(n, m, k);
  }

  /** The name as written is the right one without a root prefix, and for
      entries directly under the root. */
  lemma BaseNameAsWrittenAgrees(n: string, prefix: string)
    requires |prefix| <= |n|
    requires prefix == "" || IndexOfChar(n, '/', |prefix|).None?
    ensures BaseNameAsWritten(n, prefix) == BaseName(n, prefix)
  {
    var rest := n[|prefix|..];
    if prefix == "" {
      assert rest == n;
    } else {
      assert forall j :: 0 <= j < |rest| ==> rest[j] == n[|prefix| + j];
    }
  }

  lemma LastIndexIs(s: string, c: char, k: nat)
    requires k < |s| && s[k] == c
    requires forall j :: k < j < |s| ==> s[j] != c
    ensures LastIndexOfChar(s, c) == Some(k)
  {
  }

  /** With a root, a nested entry is matched by a misplaced slice of its
      name: under `Assets/`, `Assets/img/logo.png` is matched as
      `ts/img/logo.png` rather than `logo.png`. */
  lemma BaseNameAsWrittenMisplaced()
    ensures BaseNameAsWritten("Assets/img/logo.png", "Assets/") == "ts/img/logo.png"
    ensures BaseName("Assets/img/logo.png", "Assets/") == "logo.png"
  {
    var rest := "Assets/img/logo.png"[7..];
    assert rest == "img/logo.png";
    LastIndexIs(rest, '/', 3);
    assert "Assets/img/logo.png"[4..] == "ts/img/logo.png";
    assert rest[4..] == "logo.png";
  }

  /** Under the root `Assets`, listing `logo.png` in all directories
      misses `Assets/img/logo.png` as written, and finds it corrected. */
  lemma NestedEntryMissed(n: nat)
    ensures var e := Entry("Assets/img/logo.png", n);
      && EnumerateFiles([e], Some("Assets"), "logo.png", AllDirectories) == []
      && EnumerateFilesFixed([e], Some("Assets"), "logo.png", AllDirectories) == [Info(e)]
  {
    AssetsRoot();
    NestedLogoListed(Entry("Assets/img/logo.png", n));
    OneEntryFiles(Entry("Assets/img/logo.png", n), "Assets/", "logo.png", AllDirectories, AsWritten);
    OneEntryFiles(Entry("Assets/img/logo.png", n), "Assets/", "logo.png", AllDirectories, Corrected);
  }

  /** The nested logo is listed under `Assets/` corrected, not as written. */
  lemma NestedLogoListed(e: Entry)
    requires e.fullName == "Assets/img/logo.png"
    ensures !Listed(e, "Assets/", "logo.png", AllDirectories, AsWritten)
    ensures Listed(e, "Assets/", "logo.png", AllDirectories, Corrected)
  {
    var p := "Assets/";
    BaseNameAsWrittenMisplaced();
    LogoNameMatches();
    LogoUnderAssets();
    assert MatchName(AsWritten, e.fullName, p) == "ts/img/logo.png";
    assert MatchName(Corrected, e.fullName, p) == "logo.png";
  }

  lemma LogoUnderAssets()
    ensures StartsWithIgnoreCase("Assets/img/logo.png", "Assets/")
  {
    assert "Assets/img/logo.png"[..7] == "Assets/";
  }

  lemma OneEntryFiles(e: Entry, prefix: string, w: string, option: SearchOption, reading: Reading)
    ensures Files([e], prefix, w, option, reading) == if Listed(e, prefix, w, option, reading) then [Info(e)] else []
  {
    assert [e][1..] == [];
  }

  lemma AssetsRoot()
    ensures RootPrefix(Some("Assets")) == "Assets/"
  {
    assert ToArchivePath("Assets") == "Assets";
    assert TrimEndChar("Assets", '/') == "Assets";
  }

  /** `logo.png` matches itself, and not the misplaced `ts/img/logo.png`. */
  lemma LogoNameMatches()
    ensures !WrittenMatches("logo.png", "ts/img/logo.png")
    ensures WildcardMatches("logo.png", "logo.png")
  {
    var w := "logo.png";
    var written := "ts/img/logo.png";
    assert forall j :: 0 <= j < |w| ==> w[j] !in Specials;
    WrittenMatchesAgree(w, written);
    LiteralMatches(w, written);
    assert |Fold(written)| != |Fold(w)|;
    assert |Fold(written[..|written| - 1])| != |Fold(w)|;
    LiteralMatches(w, w);
  }

  /** Corrected, every entry below the root is listed, at any depth,
      exactly when its last segment matches the wildcard's intended
      pattern. */
  lemma AllFilesMeaning(a: Archive, root: Option<string>, wildcard: string, x: FileInfo)
    requires wildcard != ""
    ensures var p := RootPrefix(root);
      x in EnumerateFilesFixed(a, root, wildcard, AllDirectories) <==>
        exists i :: 0 <= i < |a| && StartsWithIgnoreCase(a[i].fullName, p)
          && WildcardMatches(wildcard, LastSegment(a[i].fullName)) && x == Info(a[i])
  {
    var p := RootPrefix(root);
    FilesMembers(a, p, wildcard, AllDirectories, Corrected, x);
    forall i | 0 <= i < |a| && StartsWithIgnoreCase(a[i].fullName, p)
      ensures BaseName(a[i].fullName, p) == LastSegment(a[i].fullName)
    {
      BaseNameIsLastSegment(a[i].fullName, p);
    }
  }

  /** A directory exists exactly when listing every file below it, with
      no wildcard, finds something. */
  lemma DirectoryExistsMeaning(a: Archive, path: string)
    requires path != ""
    ensures DirectoryExists(a, path) <==> EnumerateFiles(a, Some(path), "", AllDirectories) != []
  {
    var p := RootPrefix(Some(path));
    assert p == DirPrefix(path);
    var r := EnumerateFiles(a, Some(path), "", AllDirectories);
    if DirectoryExists(a, path) {
      var i :| 0 <= i < |a| && StartsWithIgnoreCase(a[i].fullName, DirPrefix(path));
      FilesMembers(a, p, "", AllDirectories, AsWritten, Info(a[i]));
    }
    if r != [] {
      FilesMembers(a, p, "", AllDirectories, AsWritten, r[0]);
    }
  }

  // ---------------------------------------------------------------------
  // Resources


  /** `[^.\-]`: neither a dot nor a dash. */
  predicate InClass(c: char) { c != '.' && c != '-' }

  /** The end of the run of class characters starting at `p`. */
  function RunEnd(t: string, p: nat): (r: nat)
    requires p <= |t|
    ensures p <= r <= |t|
    ensures forall j :: p <= j < r ==> InClass(t[j])
    ensures r < |t| ==> !InClass(t[r])
    decreases |t| - p
  {
    if p == |t| || !InClass(t[p]) then p else RunEnd(t, p + 1)
  }

  /** A run is determined by where it starts. */
  lemma RunEndIs(t: string, p: nat, r: nat)
    requires p <= r <= |t|
    requires forall j :: p <= j < r ==> InClass(t[j])
    requires r == |t| || !InClass(t[r])
    ensures RunEnd(t, p) == r
  {
  }

  /** The last separator in `t[lo..hi]`. */
  function LastSeparatorIn(t: string, lo: nat, hi: nat): (r: Option<nat>)
    requires lo <= hi <= |t|
    ensures r.Some? ==> lo <= r.value < hi && IsSeparator(t[r.value])
    ensures r.Some? ==> forall j :: r.value < j < hi ==> !IsSeparator(t[j])
    ensures r.None? ==> forall j :: lo <= j < hi ==> !IsSeparator(t[j])
    decreases hi - lo
  {
    if hi == lo then None
    else if IsSeparator(t[hi - 1]) then Some(hi - 1)
    else LastSeparatorIn(t, lo, hi - 1)
  }

  /** The two patterns resource lookup removes: a qualified folder
      `[^.\-]+-[^.\-]+[\\/]` and a qualified file-name part
      `\.[^.\-]+-[^.\-]+`. */
  datatype Qualifier = FolderQualifier | FileQualifier

  /** Where a qualified folder starting at `p` ends. The first run can only
      be followed by `-` where it ends, so it is the whole run; the greedy
      second run backs off to its last separator. */
  function FolderMatchAt(t: string, p: nat): (r: Option<nat>)
    requires p < |t|
    ensures r.Some? ==> p < r.value <= |t| && IsSeparator(t[r.value - 1])
  {
    if !InClass(t[p]) then None
    else
      var r1 := RunEnd(t, p);
      if r1 == |t| || t[r1] != '-' then None
      else
        var r2 := RunEnd(t, r1 + 1);
        if r2 < r1 + 2 then None
        else match LastSeparatorIn(t, r1 + 2, r2)
          case None => None
          case Some(k) => Some(k + 1)
  }

  /** Where a qualified file-name part starting at `p` ends: the whole
      second run. */
  function FileMatchAt(t: string, p: nat): (r: Option<nat>)
    requires p < |t|
    ensures r.Some? ==> p < r.value <= |t| && t[p] == '.'
  {
    if t[p] != '.' || p + 1 == |t| then None
    else
      var r1 := RunEnd(t, p + 1);
      if r1 == p + 1 || r1 == |t| || t[r1] != '-' then None
      else
        var r2 := RunEnd(t, r1 + 1);
        if r2 == r1 + 1 then None else Some(r2)
  }

  function MatchAt(q: Qualifier, t: string, p: nat): (r: Option<nat>)
    requires p < |t|
    ensures r.Some? ==> p < r.value <= |t|
  {
    match q
    case FolderQualifier => FolderMatchAt(t, p)
    case FileQualifier => FileMatchAt(t, p)
  }

  /** The leftmost match at or after `from`. */
  function FirstMatch(q: Qualifier, t: string, from: nat): (r: Option<(nat, nat)>)
    ensures r.Some? ==> from <= r.value.0 < r.value.1 <= |t|
    ensures r.Some? ==> MatchAt(q, t, r.value.0) == Some(r.value.1)
    ensures r.Some? ==> forall p :: from <= p < r.value.0 ==> MatchAt(q, t, p).None?
    ensures r.None? ==> forall p :: from <= p < |t| ==> MatchAt(q, t, p).None?
    decreases |t| - from
  {
    if from >= |t| then None
    else match MatchAt(q, t, from)
      case Some(e) => Some((from, e))
      case None => FirstMatch(q, t, from + 1)
  }

  /** `Regex.Replace(t, pattern, "")`: every match, left to right, removed. */
  function Strip(q: Qualifier, t: string): (r: string)
    ensures |r| <= |t|
    decreases |t|
  {
    match FirstMatch(q, t, 0)
    case None => t
    case Some((p, e)) => t[..p] + Strip(q, t[e..])
  }

  /** Both removals, folders first. */
  function StripQualifiers(name: string): string {
    Strip(FileQualifier, Strip(FolderQualifier, name))
  }

  /** Without a dash, neither pattern matches anywhere. */
  lemma NoDashUnchanged(t: string)
    requires '-' !in t
    ensures Strip(FolderQualifier, t) == t && Strip(FileQualifier, t) == t
    ensures StripQualifiers(t) == t
  {
    assert FirstMatch(FolderQualifier, t, 0).None?;
    assert FirstMatch(FileQualifier, t, 0).None?;
  }

  /** Without a separator, no folder qualifier matches. */
  lemma NoSeparatorUnchanged(t: string)
    requires forall j :: 0 <= j < |t| ==> !IsSeparator(t[j])
    ensures Strip(FolderQualifier, t) == t
  {
    assert FirstMatch(FolderQualifier, t, 0).None?;
  }

  /** A stem: no dot, no separator. */
  predicate StemPart(s: string) {
    forall j :: 0 <= j < |s| ==> s[j] != '.' && !EndsName(s[j])
  }

  /** One side of a qualifier such as `scale` or `200`. */
  predicate QualifierPart(s: string) {
    |s| > 0 && forall j :: 0 <= j < |s| ==> InClass(s[j]) && !EndsName(s[j])
  }

  /** An extension: empty, or a dot and then no dot, dash or separator. */
  predicate ExtensionPart(s: string) {
    s == "" || (s[0] == '.' && forall j :: 0 < j < |s| ==> InClass(s[j]) && !EndsName(s[j]))
  }

  /** A file name carrying one qualifier, as `Logo.scale-200.png`. */
  function Qualified(stem: string, q1: string, q2: string, ext: string): string {
    stem + "." + q1 + "-" + q2 + ext
  }

  /** Where the parts of a qualified file name lie. */
  lemma QualifiedLayout(stem: string, q1: string, q2: string, ext: string)
    requires StemPart(stem) && QualifierPart(q1) && QualifierPart(q2) && ExtensionPart(ext)
    ensures var t, s, a := Qualified(stem, q1, q2, ext), |stem|, |stem| + 1 + |q1|;
      var b := a + 1 + |q2|;
      && |t| == b + |ext| && t[..s] == stem && t[b..] == ext
      && t[s] == '.' && t[a] == '-'
      && (forall j :: 0 <= j < s ==> t[j] != '.')
      && (forall j :: s < j < a ==> InClass(t[j]))
      && (forall j :: a < j < b ==> InClass(t[j]))
      && (b == |t| || t[b] == '.')
      && (forall j :: 0 <= j < |t| ==> !IsSeparator(t[j]))
  {
    var t := Qualified(stem, q1, q2, ext);
    var s, a := |stem|, |stem| + 1 + |q1|;
    var b := a + 1 + |q2|;
    forall j | 0 <= j < |t| ensures !IsSeparator(t[j]) && (j < s ==> t[j] != '.')
      && (s < j < a ==> InClass(t[j])) && (a < j < b ==> InClass(t[j]))
    {
      if j < s {
        assert t[j] == stem[j];
      } else if s < j < a {
        assert t[j] == q1[j - s - 1];
      } else if a < j < b {
        assert t[j] == q2[j - a - 1];
      } else if b <= j {
        assert t[j] == ext[j - b];
      }
    }
    assert t[b..] == ext;
  }

  /** Removing the only qualified file-name part of a name, which starts
      at its first dot `s`. */
  lemma StripOneFileQualifier(t: string, s: nat, a: nat, b: nat)
    requires s + 1 < a && a + 1 < b <= |t| && t[s] == '.' && t[a] == '-'
    requires forall j :: 0 <= j < s ==> t[j] != '.'
    requires forall j :: s < j < a ==> InClass(t[j])
    requires forall j :: a < j < b ==> InClass(t[j])
    requires b == |t| || t[b] == '.'
    requires '-' !in t[b..]
    ensures Strip(FileQualifier, t) == t[..s] + t[b..]
  {
    RunEndIs(t, s + 1, a);
    RunEndIs(t, a + 1, b);
    FileMatchAtIs(t, s, a, b);
    forall p | 0 <= p < s ensures MatchAt(FileQualifier, t, p).None? {
    }
    FirstMatchFrom(FileQualifier, t, 0, s);
    NoDashUnchanged(t[b..]);
  }

  /** The qualifier of a qualified file name is removed, and nothing else:
      `Logo.scale-200.png` becomes `Logo.png`. */
  lemma QualifierRemoved(stem: string, q1: string, q2: string, ext: string)
    requires StemPart(stem) && QualifierPart(q1) && QualifierPart(q2) && ExtensionPart(ext)
    ensures StripQualifiers(Qualified(stem, q1, q2, ext)) == stem + ext
  {
    var t := Qualified(stem, q1, q2, ext);
    var s, a := |stem|, |stem| + 1 + |q1|;
    var b := a + 1 + |q2|;
    QualifiedLayout(stem, q1, q2, ext);
    NoSeparatorUnchanged(t);
    assert '-' !in ext by {
      forall j | 0 <= j < |ext| ensures ext[j] != '-' {
      }
    }
    StripOneFileQualifier(t, s, a, b);
  }

  /** A qualified file-name part whose runs end at `a` and `b`. */
  lemma FileMatchAtIs(t: string, p: nat, a: nat, b: nat)
    requires p + 1 < a < b <= |t| && t[p] == '.' && t[a] == '-' && a + 1 < b
    requires RunEnd(t, p + 1) == a && RunEnd(t, a + 1) == b
    ensures MatchAt(FileQualifier, t, p) == Some(b)
  {
  }

  /** The leftmost match, when no match starts before `p` and one starts at
      `p`. */
  lemma FirstMatchFrom(q: Qualifier, t: string, from: nat, p: nat)
    requires from <= p < |t| && MatchAt(q, t, p).Some?
    requires forall j :: from <= j < p ==> MatchAt(q, t, j).None?
    ensures FirstMatch(q, t, from) == Some((p, MatchAt(q, t, p).value))
  {
  }

  /** The directory prefix resource lookup is limited to, as written:
      `Path.GetDirectoryName` returns the directory with `\` separators,
      so the prefix mixes `\` with the final `/`. Repeated separators,
      which `Path.GetDirectoryName` collapses into one, are kept here. */
  function ResourceDirAsWritten(path: string): string {
    ToWindowsPath(DirectoryPart(path)) + "/"
  }

  /** The directory prefix with the separators of entry names. */
  function ResourceDir(path: string): string {
    ToArchivePath(DirectoryPart(path)) + "/"
  }

  /** An entry's name below the resource directory, or the whole name when
      there is no directory. */
  function Relative(n: string, dir: string): string {
    if |dir| > 1 && |dir| <= |n| then n[|dir|..] else n
  }

  /** Whether an entry is a qualified variant of the requested file. */
  predicate Qualifies(e: Entry, dir: string, fileName: string) {
    && (|dir| > 1 ==> StartsWithIgnoreCase(e.fullName, dir))
    && EqualsIgnoreCase(StripQualifiers(Relative(e.fullName, dir)), fileName)
  }

  /** The first entry that qualifies, in archive order. */
  function FirstQualifying(a: Archive, dir: string, fileName: string): (r: Option<nat>)
    ensures r.Some? ==> r.value < |a| && Qualifies(a[r.value], dir, fileName)
    ensures r.Some? ==> forall j :: 0 <= j < r.value ==> !Qualifies(a[j], dir, fileName)
    ensures r.None? ==> forall j :: 0 <= j < |a| ==> !Qualifies(a[j], dir, fileName)
  {
    FirstWhere(a, e => Qualifies(e, dir, fileName), 0)
  }

  /** The first entry at or after `from` that satisfies `q`. */
  function FirstWhere(a: Archive, q: Entry -> bool, from: nat): (r: Option<nat>)
    ensures r.Some? ==> from <= r.value < |a| && q(a[r.value])
    ensures r.Some? ==> forall j :: from <= j < r.value ==> !q(a[j])
    ensures r.None? ==> forall j :: from <= j < |a| ==> !q(a[j])
    decreases |a| - from
  {
    if from >= |a| then None
    else if q(a[from]) then Some(from)
    else FirstWhere(a, q, from + 1)
  }

  /** `GetResource` with a given directory prefix, up to opening the
      entry. */
  function LookupResource(a: Archive, path: string, dir: string): Option<Entry> {
    if path == "" then None
    else if FileExists(a, path) then
      match FindEntry(a, path)
      case Some(i) => Some(a[i])
      case None => None
    else match FirstQualifying(a, dir, FileName(path))
      case None => None
      case Some(i) => Some(a[i])
  }

  /** `GetResource`, as written. */
  function GetResource(a: Archive, path: string): Option<Entry> {
    LookupResource(a, path, ResourceDirAsWritten(path))
  }

  /** `GetResource` with the directory prefix in entry-name separators. */
  function GetResourceFixed(a: Archive, path: string): Option<Entry> {
    LookupResource(a, path, ResourceDir(path))
  }

  /** An empty path finds nothing; an existing file is the one `GetFile`
      opens; otherwise the result is the first entry, in archive order,
      that starts with the directory prefix as written and whose name
      after it, with its qualifiers removed, is the requested file name
      ignoring case. */
  lemma GetResourceMeaning(a: Archive, path: string)
    ensures path == "" ==> GetResource(a, path) == None
    ensures FileExists(a, path) ==> GetFile(a, path).Success? && GetResource(a, path) == Some(GetFile(a, path).value)
    ensures path != "" && !FileExists(a, path) ==>
      var r := GetResource(a, path);
      var dir := ResourceDirAsWritten(path);
      && (r.None? <==> forall j :: 0 <= j < |a| ==> !Qualifies(a[j], dir, FileName(path)))
      && (r.Some? ==>
            exists i :: (0 <= i < |a| && r == Some(a[i]) && Qualifies(a[i], dir, FileName(path))
              && forall j :: 0 <= j < i ==> !Qualifies(a[j], dir, FileName(path))))
  {
    if FileExists(a, path) {
      GetFileMeaning(a, path);
      ExistingResource(a, path, ResourceDirAsWritten(path));
    } else if path != "" {
      QualifyingResource(a, path, ResourceDirAsWritten(path));
    }
  }

  /** An existing file is found by the exact lookup `GetFile` makes. */
  lemma ExistingResource(a: Archive, path: string, dir: string)
    requires FileExists(a, path) && GetFile(a, path).Success?
    ensures LookupResource(a, path, dir) == Some(GetFile(a, path).value)
  {
  }

  /** A missing file is looked for among the qualified variants. */
  lemma QualifyingResource(a: Archive, path: string, dir: string)
    requires path != "" && !FileExists(a, path)
    ensures var q := FirstQualifying(a, dir, FileName(path));
      LookupResource(a, path, dir) == if q.Some? then Some(a[q.value]) else None
  {
  }

  /** Corrected, a variant found by its qualifiers lies in the requested
      directory. */
  lemma GetResourceInDirectory(a: Archive, path: string)
    requires path != "" && !FileExists(a, path) && DirectoryPart(path) != ""
    requires GetResourceFixed(a, path).Some?
    ensures StartsWithIgnoreCase(GetResourceFixed(a, path).value.fullName, ToArchivePath(DirectoryPart(path)) + "/")
  {
  }

  /** For a path whose directory holds no separator, the lookup as written
      is the corrected one. */
  lemma TopLevelResourceAgrees(a: Archive, path: string)
    requires '/' !in DirectoryPart(path) && '\\' !in DirectoryPart(path)
    ensures GetResource(a, path) == GetResourceFixed(a, path)
  {
    var d := DirectoryPart(path);
    assert ToWindowsPath(d) == d;
    assert ToArchivePath(d) == d;
  }

  /** An entry without a dash qualifies only by its plain name. */
  lemma QualifiesPlain(e: Entry, dir: string, fileName: string)
    requires '-' !in Relative(e.fullName, dir)
    ensures Qualifies(e, dir, fileName) <==>
      (|dir| > 1 ==> StartsWithIgnoreCase(e.fullName, dir)) && EqualsIgnoreCase(Relative(e.fullName, dir), fileName)
  {
    NoDashUnchanged(Relative(e.fullName, dir));
  }

  /** An entry whose name is longer than the path is not the file. */
  lemma LongerIsNotTheFile(e: Entry, path: string)
    requires |e.fullName| > |path|
    ensures !FileExists([e], path)
  {
    FileExistsMeaning([e], path);
    assert |Fold(e.fullName)| != |Fold(ToArchivePath(path))|;
  }

  /** The path `d/stem.ext` and the archive holding only the variant
      `d/stem.q1-q2.ext`. */
  predicate VariantSetup(d: string, stem: string, q1: string, q2: string, ext: string) {
    && d != "" && !IsSeparator(d[|d| - 1]) && '\\' !in d
    && StemPart(stem) && QualifierPart(q1) && QualifierPart(q2) && ExtensionPart(ext)
  }

  /** The directory and file name of `d/stem.ext`. */
  lemma VariantPath(d: string, stem: string, q1: string, q2: string, ext: string)
    requires VariantSetup(d, stem, q1, q2, ext)
    ensures DirectoryPart(d + "/" + (stem + ext)) == d
    ensures FileName(d + "/" + (stem + ext)) == stem + ext
  {
    var name := stem + ext;
    forall j | 0 <= j < |name| ensures !EndsName(name[j]) {
      if j < |stem| {
        assert name[j] == stem[j];
      } else {
        assert name[j] == ext[j - |stem|];
      }
    }
    assert d + "/" + name == d + ['/'] + name;
    DirectoryJoin(d, '/', name);
  }

  /** Corrected, the qualified variant of a missing file in a directory
      named with `/` separators is found. */
  lemma VariantFound(d: string, stem: string, q1: string, q2: string, ext: string, n: nat)
    requires VariantSetup(d, stem, q1, q2, ext)
    ensures var e := Entry(d + "/" + Qualified(stem, q1, q2, ext), n);
      GetResourceFixed([e], d + "/" + (stem + ext)) == Some(e)
  {
    var v := Qualified(stem, q1, q2, ext);
    var e := Entry(d + "/" + v, n);
    var path := d + "/" + (stem + ext);
    VariantPath(d, stem, q1, q2, ext);
    LongerIsNotTheFile(e, path);
    assert ToArchivePath(d) == d;
    var dir := d + "/";
    assert ResourceDir(path) == dir;
    assert e.fullName[..|dir|] == dir;
    assert Relative(e.fullName, dir) == v;
    QualifierRemoved(stem, q1, q2, ext);
    assert Qualifies(e, dir, stem + ext);
  }

  /** As written, the qualified variant in a nested directory is never
      found: the prefix is `d` with `\` separators, which no entry name
      starts with. */
  lemma NestedVariantMissed(d: string, stem: string, q1: string, q2: string, ext: string, n: nat, m: nat)
    requires VariantSetup(d, stem, q1, q2, ext)
    requires m < |d| && d[m] == '/'
    ensures var e := Entry(d + "/" + Qualified(stem, q1, q2, ext), n);
      GetResource([e], d + "/" + (stem + ext)) == None
  {
    var v := Qualified(stem, q1, q2, ext);
    var e := Entry(d + "/" + v, n);
    var path := d + "/" + (stem + ext);
    VariantPath(d, stem, q1, q2, ext);
    LongerIsNotTheFile(e, path);
    assert e.fullName[..|d|] == d;
    WrittenNestedMisses(e, path, d, m);
  }

  /** A name in the nested directory `d` does not start with `d` in `\`
      separators. */
  lemma NestedPrefixMisses(name: string, d: string, m: nat)
    requires m < |d| < |name| && d[m] == '/' && name[..|d|] == d
    ensures !StartsWithIgnoreCase(name, ToWindowsPath(d) + "/")
  {
    var dir := ToWindowsPath(d) + "/";
    assert name[m] == '/' && dir[m] == '\\';
    assert Fold(name[..|dir|])[m] != Fold(dir)[m];
  }

  /** Requesting a qualified name compares it, unstripped, with the
      stripped entry names, so only the file itself can be found: another
      variant of the same file is not, as written or corrected. */
  lemma QualifiedRequestMissed(d: string, stem: string, p1: string, p2: string, ext: string,
                               q1: string, q2: string, n: nat)
    requires VariantSetup(d, stem, p1, p2, ext) && QualifierPart(q1) && QualifierPart(q2)
    requires !FileExists([Entry(d + "/" + Qualified(stem, p1, p2, ext), n)], d + "/" + Qualified(stem, q1, q2, ext))
    ensures GetResourceFixed([Entry(d + "/" + Qualified(stem, p1, p2, ext), n)], d + "/" + Qualified(stem, q1, q2, ext)) == None
    ensures GetResource([Entry(d + "/" + Qualified(stem, p1, p2, ext), n)], d + "/" + Qualified(stem, q1, q2, ext)) == None
  {
    var e := Entry(d + "/" + Qualified(stem, p1, p2, ext), n);
    var path := d + "/" + Qualified(stem, q1, q2, ext);
    QualifiedRequestMissedFixed(d, stem, p1, p2, ext, q1, q2, n);
    if m :| 0 <= m < |d| && d[m] == '/' {
      NestedEntryUnder(e, d, Qualified(stem, p1, p2, ext));
      WrittenNestedMisses(e, path, d, m);
    } else {
      assert '/' !in d && '\\' !in d;
      TopLevelResourceAgrees([e], path);
    }
  }

  /** An entry named `d/rest` starts with `d`. */
  lemma NestedEntryUnder(e: Entry, d: string, rest: string)
    requires e.fullName == d + "/" + rest
    ensures |d| < |e.fullName| && e.fullName[..|d|] == d
  {
    assert (d + "/" + rest)[..|d|] == d;
  }

  lemma QualifiedRequestMissedFixed(d: string, stem: string, p1: string, p2: string, ext: string,
                                    q1: string, q2: string, n: nat)
    requires VariantSetup(d, stem, p1, p2, ext) && QualifierPart(q1) && QualifierPart(q2)
    requires !FileExists([Entry(d + "/" + Qualified(stem, p1, p2, ext), n)], d + "/" + Qualified(stem, q1, q2, ext))
    ensures GetResourceFixed([Entry(d + "/" + Qualified(stem, p1, p2, ext), n)], d + "/" + Qualified(stem, q1, q2, ext)) == None
    ensures DirectoryPart(d + "/" + Qualified(stem, q1, q2, ext)) == d
  {
    var e := Entry(d + "/" + Qualified(stem, p1, p2, ext), n);
    var name := Qualified(stem, q1, q2, ext);
    QualifiedIsName(stem, q1, q2, ext);
    JoinedPath(d, name);
    var dir := d + "/";
    assert e.fullName[..|dir|] == dir;
    assert Relative(e.fullName, dir) == Qualified(stem, p1, p2, ext);
    QualifierRemoved(stem, p1, p2, ext);
    assert |Fold(stem + ext)| != |Fold(name)|;
    assert !Qualifies(e, dir, name);
    OneEntryQualifying(e, dir, name);
  }

  /** In a one-entry archive the entry qualifies or nothing does. */
  lemma OneEntryQualifying(e: Entry, dir: string, fileName: string)
    ensures FirstQualifying([e], dir, fileName) == if Qualifies(e, dir, fileName) then Some(0) else None
  {
  }

  /** As written, a missing file in the nested directory `d` finds no
      entry of that directory. */
  lemma WrittenNestedMisses(e: Entry, path: string, d: string, m: nat)
    requires path != "" && !FileExists([e], path) && DirectoryPart(path) == d
    requires m < |d| < |e.fullName| && d[m] == '/' && e.fullName[..|d|] == d
    ensures GetResource([e], path) == None
  {
    NestedPrefixMisses(e.fullName, d, m);
    assert !Qualifies(e, ResourceDirAsWritten(path), FileName(path));
  }

  /** A qualified file name holds no separator. */
  lemma QualifiedIsName(stem: string, q1: string, q2: string, ext: string)
    requires StemPart(stem) && QualifierPart(q1) && QualifierPart(q2) && ExtensionPart(ext)
    ensures forall j :: 0 <= j < |Qualified(stem, q1, q2, ext)| ==> !EndsName(Qualified(stem, q1, q2, ext)[j])
  {
    var t := Qualified(stem, q1, q2, ext);
    var s, a := |stem|, |stem| + 1 + |q1|;
    var b := a + 1 + |q2|;
    forall j | 0 <= j < |t| ensures !EndsName(t[j]) {
      if j < s {
        assert t[j] == stem[j];
      } else if s < j < a {
        assert t[j] == q1[j - s - 1];
      } else if a < j < b {
        assert t[j] == q2[j - a - 1];
      } else if b <= j {
        assert t[j] == ext[j - b];
      }
    }
  }

  /** A file name in a directory named with `/` separators. */
  lemma JoinedPath(d: string, name: string)
    requires d != "" && !IsSeparator(d[|d| - 1]) && '\\' !in d
    requires forall j :: 0 <= j < |name| ==> !EndsName(name[j])
    ensures FileName(d + "/" + name) == name
    ensures DirectoryPart(d + "/" + name) == d
    ensures ResourceDir(d + "/" + name) == d + "/"
  {
    assert d + "/" + name == d + ['/'] + name;
    DirectoryJoin(d, '/', name);
    assert ToArchivePath(d) == d;
  }

  const AssetsDir: string := "Assets"
  const ScaledLogo: string := "Assets/Logo.scale-200.png"
  const OtherScaleLogo: string := "Assets/Logo.scale-100.png"

  lemma ScaledLogoSetup()
    ensures VariantSetup(AssetsDir, "Logo", "scale", "200", ".png")
    ensures QualifierPart("scale") && QualifierPart("100")
  {
    assert AssetsDir[|AssetsDir| - 1] == 's';
  }

  lemma ScaledLogoParts()
    ensures AssetsDir + "/" + Qualified("Logo", "scale", "200", ".png") == ScaledLogo
    ensures AssetsDir + "/" + Qualified("Logo", "scale", "100", ".png") == OtherScaleLogo
    ensures AssetsDir + "/" + ("Logo" + ".png") == "Assets/Logo.png"
  {
  }

  /** `Assets/Logo.png` finds `Assets/Logo.scale-200.png`, while
      `Assets/Logo.scale-100.png` does not. */
  lemma ScaledLogoLookups(n: nat)
    ensures GetResource([Entry(ScaledLogo, n)], "Assets/Logo.png") == Some(Entry(ScaledLogo, n))
    ensures GetResource([Entry(ScaledLogo, n)], OtherScaleLogo) == None
  {
    ScaledLogoSetup();
    ScaledLogoParts();
    VariantFound(AssetsDir, "Logo", "scale", "200", ".png", n);
    AssetsLookupAgrees(n);
    OtherScaleAbsent(n);
    QualifiedRequestMissed(AssetsDir, "Logo", "scale", "200", ".png", "scale", "100", n);
  }

  /** `Assets` holds no separator, so its lookups are the same as written
      and corrected. */
  lemma AssetsLookupAgrees(n: nat)
    ensures GetResource([Entry(ScaledLogo, n)], "Assets/Logo.png") == GetResourceFixed([Entry(ScaledLogo, n)], "Assets/Logo.png")
  {
    ScaledLogoSetup();
    ScaledLogoParts();
    VariantPath(AssetsDir, "Logo", "scale", "200", ".png");
    assert forall j :: 0 <= j < |AssetsDir| ==> AssetsDir[j] != '/' && AssetsDir[j] != '\\';
    TopLevelResourceAgrees([Entry(ScaledLogo, n)], "Assets/Logo.png");
  }

  /** The archive holding only the 200% logo has no 100% logo. */
  lemma OtherScaleAbsent(n: nat)
    ensures !FileExists([Entry(ScaledLogo, n)], OtherScaleLogo)
  {
    FileExistsMeaning([Entry(ScaledLogo, n)], OtherScaleLogo);
    assert ToArchivePath(OtherScaleLogo)[18] == '1';
    assert Fold(ScaledLogo)[18] != Fold(ToArchivePath(OtherScaleLogo))[18];
  }

  const LogoDir: string := "Assets/Icons"
  const LogoStem: string := "Logo"
  const LogoScale: string := "scale"
  const LogoFactor: string := "200"
  const LogoExtension: string := ".png"

  lemma LogoSetup()
    ensures VariantSetup(LogoDir, LogoStem, LogoScale, LogoFactor, LogoExtension)
    ensures LogoDir[6] == '/'
  {
    assert LogoDir[|LogoDir| - 1] == 's';
  }

  lemma LogoNames()
    ensures LogoDir + "/" + Qualified(LogoStem, LogoScale, LogoFactor, LogoExtension) == "Assets/Icons/Logo.scale-200.png"
    ensures LogoDir + "/" + (LogoStem + LogoExtension) == "Assets/Icons/Logo.png"
  {
  }

  /** The variant `Assets/Icons/Logo.scale-200.png` of
      `Assets/Icons/Logo.png`: missed as written, found with the prefix in
      entry-name separators. */
  lemma NestedLogo(n: nat)
    ensures var e := Entry("Assets/Icons/Logo.scale-200.png", n);
      && GetResource([e], "Assets/Icons/Logo.png") == None
      && GetResourceFixed([e], "Assets/Icons/Logo.png") == Some(e)
  {
    LogoSetup();
    LogoNames();
    VariantFound(LogoDir, LogoStem, LogoScale, LogoFactor, LogoExtension, n);
    NestedVariantMissed(LogoDir, LogoStem, LogoScale, LogoFactor, LogoExtension, n, 6);
  }
}
